=== FILE: README.md ===
# source-map core, modelled in Dafny

This project models the core of Mozilla's `source-map` library as bundled in
`error-telemetry.js`. It covers:

- the Base64 VLQ codec and the `mappings` string of a version 3 source map;
- `SourceMapGenerator`: adding mappings, validating them, serialising them,
  applying another map, and building a generator from a consumer;
- `BasicSourceMapConsumer` and `IndexedSourceMapConsumer`: parsing the
  `mappings` string into the two sorted tables, the binary search, and the
  position and source-content queries;
- `ArraySet` and `MappingList`, the two collections the generator mutates;
- `SourceNode`: building a tree of chunks, walking it, and writing it out
  with a source map.

Values the source builds and discards (mappings, consumers, parsed tables)
are datatypes, described by functions. Objects whose fields the source
updates in place are classes. Their methods carry `modifies` clauses and
ensure the new state in terms of the functions:

- `ArraySet`;
- `MappingList`;
- `SourceMapGenerator`;
- `SourceNode`.

Loops that build strings or tables step by step are methods with invariants,
proved equal to a specification function:

- VLQ encode and decode;
- `_serializeMappings`;
- `_parseMappings`;
- `computeColumnSpans`;
- `toStringWithSourceMap`;
- the original-position walks.

Properties proved about those functions:

- the VLQ and `mappings` round trips;
- the two comparators are total preorders on the model's records, where a
  missing number counts as 0 (see `Util.GeneratedZeroIffSame` under
  "Left out" for parsed records);
- the parsed tables come out sorted;
- binary search returns the nearest entry;
- `applySourceMap` rewrites exactly the mappings its map answers for;
- `toStringWithSourceMap` maps every tagged chunk that opens a mapping to
  the position where it lands in the generated text
  (`SourceNodeMaps.ChunkMappedWhereItLands`);
- `walkSourceContents` reports each child node's contents, left to right,
  before the node's own.

The URL and path helpers of `source-map/util` are regular-expression based.
They are passed to the operations that need them as a `Paths.PathOps` value of
given functions.

JavaScript's `null`/`undefined` fields are `Option` values. The comparators
subtract the original line and column of two records; a missing one counts as
0 there (`Util.Num`). That is exact for the generator's records, which store
`false` for a missing original position, and an approximation for parsed
records, whose missing fields are `undefined` (see "Left out"). Where the
source tests a value for truthiness, the model tests for a missing value or an
empty string. Errors the source throws are `Err` values of a `Result`.

Strings are sequences of Unicode scalar values, while JavaScript strings are
sequences of UTF-16 code units. Where the difference shows, the model counts
in code units: `Util.Utf16` gives a string's code units, `strcmp` compares in
code-unit order (`Util.StrLessIsUnitOrder`), and `toStringWithSourceMap`
moves the generated column by a character's number of code units, so a
character outside the Basic Multilingual Plane advances it by 2.

## Model

| member | source | states |
|---|---|---|
| Base64.Alphabet | error-telemetry.js:703-708 | the digit alphabet has 64 characters |
| Base64.Encode | error-telemetry.js:713-718 | succeeds exactly for 0..63 and then yields an alphabet digit |
| Base64.Decode | error-telemetry.js:723-728 | succeeds exactly on alphabet digits and yields a value in 0..63 |
| Base64.DecodeEncode | error-telemetry.js:713-728 | decoding the digit of n gives back n, for every n in 0..63 |
| Base64.EncodeDecode | error-telemetry.js:713-728 | encoding the value of a digit gives back that digit |
| Base64.DigitIsNotSeparator | error-telemetry.js:703-708 | no digit is a `;` or `,`, so segment separators cannot occur inside a field |
| Base64Vlq.ToVLQSigned | error-telemetry.js:622-626 | the sign lands in the lowest bit: odd exactly for negative values |
| Base64Vlq.FromVLQSigned | error-telemetry.js:634-640 | a negative result only ever comes from an odd input |
| Base64Vlq.FromToVLQSigned | error-telemetry.js:622-640 | the sign-bit conversion round-trips every integer |
| Base64Vlq.ToFromVLQSigned | error-telemetry.js:622-640 | the reverse round trip holds for every input but 1, which reads as 0 ("negative zero") |
| Base64Vlq.Digit | error-telemetry.js:653-660 | a 6-bit group is written as an alphabet digit |
| Base64Vlq.EncodeDigits | error-telemetry.js:645-663 | an unsigned value is written as at least one digit |
| Base64Vlq.EncodeSpec | error-telemetry.js:645-663 | every integer encodes to a non-empty digit string |
| Base64Vlq.EncodeDigitsAlphabet | error-telemetry.js:645-663 | every character of the unsigned encoding is a Base64 digit |
| Base64Vlq.EncodeAlphabet | error-telemetry.js:645-663 | every character of a VLQ field is a Base64 digit |
| Base64Vlq.DecodeDigits | error-telemetry.js:669-689 | a successful read consumes at least one and at most all characters |
| Base64Vlq.DecodeSpec | error-telemetry.js:669-689 | a successful decode strictly shortens the remaining input |
| Base64Vlq.Encode | error-telemetry.js:645-663 | the digit loop produces exactly the specified encoding |
| Base64Vlq.ResumeStep | error-telemetry.js:669-689 | folding one digit into the accumulator commutes with reading the rest |
| Base64Vlq.DecodeStep | error-telemetry.js:669-689 | one loop step of the decoder: a continuation digit carries on, any other digit ends the value |
| Base64Vlq.Decode | error-telemetry.js:669-689 | the digit loop returns exactly the specified value and remaining input, or its error |
| Base64Vlq.DecodeEncodeDigits | error-telemetry.js:645-689 | reading back an unsigned encoding gives the value and consumes exactly its digits, whatever follows |
| Base64Vlq.DecodeEncode | error-telemetry.js:645-689 | decode after encode gives back the integer and leaves the following text untouched |
| Base64Vlq.DecodeTruncated | error-telemetry.js:675-683 | input that ends while every digit asks for more is refused as truncated |
| Base64Vlq.DecodeRejectsNonDigit | error-telemetry.js:680 | a non-digit at the front is refused with that character |
| Util.ToSetString | error-telemetry.js:949-951 | the key is the string with one `$` in front |
| Util.SetStringRoundTrip | error-telemetry.js:949-956 | `fromSetString` undoes `toSetString` |
| Util.SetStringInjective | error-telemetry.js:949-951 | two strings share a set key exactly when they are equal |
| Util.StrLessIrreflexive | error-telemetry.js:959-963 | no string sorts below itself |
| Util.StrLessTrichotomy | error-telemetry.js:959-963 | of two different strings exactly one sorts below the other |
| Util.StrLessTransitive | error-telemetry.js:959-963 | string order is transitive |
| Util.StrLessIsUnitOrder | error-telemetry.js:959-963 | string order is the lexicographic order of the strings' UTF-16 code units, which is how JavaScript's `<` compares strings |
| Util.StrCmp | error-telemetry.js:959-963 | `strcmp` is 0 exactly on equal strings and negative exactly when the first sorts below in UTF-16 code-unit order; a missing string compares as "" |
| Util.StrCmpAntisymmetric | error-telemetry.js:959-963 | swapping the arguments negates the result |
| Util.StrCmpTransitive | error-telemetry.js:959-963 | `strcmp` order is transitive, strictly when either step is strict |
| Util.GeneratedZeroIffSame | error-telemetry.js:1014-1043 | the generated comparator returns 0 exactly on records that agree on every compared field |
| Util.GeneratedAntisymmetric | error-telemetry.js:1014-1043 | the generated comparator is antisymmetric, with or without `onlyCompareGenerated` |
| Util.GeneratedTransitive | error-telemetry.js:1014-1043 | the generated comparator is transitive |
| Util.GeneratedOnlyPrimary | error-telemetry.js:1014-1043 | with `onlyCompareGenerated` it ties exactly on the generated position and otherwise agrees with the full comparator |
| Util.OriginalAntisymmetric | error-telemetry.js:973-1002 | the original comparator is antisymmetric, with or without `onlyCompareOriginal` |
| Util.OriginalZeroIffSame | error-telemetry.js:973-1002 | the original comparator returns 0 exactly on records that agree on every compared field |
| Util.OriginalTransitive | error-telemetry.js:973-1002 | the original comparator is transitive |
| Util.OriginalOnlyPrimary | error-telemetry.js:973-1002 | with `onlyCompareOriginal` it ties exactly on source, line and column and otherwise agrees with the full comparator |
| Paths.StripFileSchemeInverse | error-telemetry.js:2161 | stripping undoes putting `file://` in front, and any string it changes is `file://` followed by the result |
| Sorting.CmpTotal | error-telemetry.js:973-1043 | either comparator orders every pair consistently in both directions |
| Sorting.CmpTransitive | error-telemetry.js:973-1043 | either comparator is transitive |
| Sorting.Insert | error-telemetry.js:1215 | the insertion step adds exactly one element and keeps all others (as a multiset) |
| Sorting.Sort | error-telemetry.js:1215 | `Array.prototype.sort` with a comparator keeps exactly the same elements |
| Sorting.SortedCons | error-telemetry.js:1215 | an element at most every element of a sorted sequence may be put in front of it |
| Sorting.InsertBounded | error-telemetry.js:1215 | a lower bound of x and of a sequence stays a lower bound after inserting x |
| Sorting.InsertSorted | error-telemetry.js:1215 | inserting into a sorted sequence keeps it sorted |
| Sorting.SortSorted | error-telemetry.js:1215 | the sort yields a sorted permutation of its input |
| Sorting.InsertLast | error-telemetry.js:1215 | an element at or above everything lands at the end |
| Sorting.SortSortedIsIdentity | error-telemetry.js:1215 | sorting an already sorted sequence changes nothing |
| ArraySets.FirstIndex | error-telemetry.js:1110-1115 | found exactly for members, at the first occurrence; otherwise the "not in the set" error |
| ArraySets.ElementAtFirstIndex | error-telemetry.js:1110-1127 | `at` of the index `indexOf` reports gives back the string; an index holding the string is at or after that index, and is that index when nothing repeats |
| ArraySets.Unique | error-telemetry.js:1084-1093 | keeps every member once, with no duplicates, and orders the members by the index of their first occurrence in the input |
| ArraySets.UniqueStep | error-telemetry.js:1084-1093 | adding one more string, appended unless already present, keeps every member once, no duplicates, and the members ordered by their first occurrence |
| ArraySets.UniqueSnoc | error-telemetry.js:1084-1093 | appending a string adds it exactly when it is not yet present |
| ArraySets.Added | error-telemetry.js:1071-1077 | with `aAllowDuplicates` the array is kept as is; otherwise the members are the same |
| ArraySets.AddedSnoc | error-telemetry.js:1071-1093 | `fromArray` adds the array's strings one by one, each as `add` would |
| ArraySets.FirstIndexAt | error-telemetry.js:1110-1115 | an occurrence with no earlier occurrence is the index `indexOf` reports |
| ArraySets.FirstIndexSnoc | error-telemetry.js:1084-1115 | appending never moves the index of a string already present |
| ArraySets.KeysAt | error-telemetry.js:1084-1115 | the `$`-keyed index holds exactly the members, each at its first position |
| ArraySets.ArraySet.constructor | error-telemetry.js:1063-1066 | a new set is empty |
| ArraySets.ArraySet.Has | error-telemetry.js:1100-1103 | true exactly for members |
| ArraySets.ArraySet.Add | error-telemetry.js:1084-1093 | appends the string unless it is present and duplicates are not allowed; the index stays consistent |
| ArraySets.ArraySet.IndexOf | error-telemetry.js:1110-1115 | the index lookup agrees with the first occurrence in the array, error included |
| ArraySets.ArraySet.At | error-telemetry.js:1122-1127 | the positional lookup agrees with the array, error included |
| ArraySets.ArraySet.ToArray | error-telemetry.js:1134-1136 | returns the members in insertion order, each found again by `indexOf` |
| ArraySets.ArraySet.FromArray | error-telemetry.js:1071-1077 | a fresh set holding the array's strings, deduplicated unless duplicates are allowed |
| BinarySearch.RecursiveSearch | error-telemetry.js:1760-1797 | the answer stays strictly inside the search window, and is -1 only when the window starts there |
| BinarySearch.RecursiveSearchNearest | error-telemetry.js:1760-1797 | on a haystack ordered against the needle, the answer is an exact match or the nearest element below the needle, or -1 |
| BinarySearch.SearchNearest | error-telemetry.js:1812-1817 | the top-level call on the whole array gives that nearest answer |
| BinarySearch.Search | error-telemetry.js:1812-1817 | -1 on an empty array, otherwise an index; on an ordered haystack the nearest answer |
| BinarySearch.NearestBounds | error-telemetry.js:1760-1817 | what a nearest answer tells a caller: nothing after it is above the needle, and nothing at all is when it is -1 |
| MappingLists.GeneratedPositionAfterIsPositionOrder | error-telemetry.js:1155-1163 | `generatedPositionAfter` holds exactly when b's generated position is at or after a's |
| MappingLists.FullOrderRefinesPosition | error-telemetry.js:1014-1043 | the full generated comparator orders generated positions first |
| MappingLists.AfterIgnoresTieBreaks | error-telemetry.js:1155-1163 | the fast path accepts a mapping at the same position even when the full comparator puts it first |
| MappingLists.SortedIsPositionSorted | error-telemetry.js:1213-1219 | a list sorted by the full comparator is in generated-position order |
| MappingLists.MappingList.constructor | error-telemetry.js:1170-1175 | a new list is empty and sorted, with the infimum as last mapping |
| MappingLists.MappingList.Add | error-telemetry.js:1193-1202 | appends the mapping; it becomes the last one when it comes after it, otherwise the list is marked unsorted |
| MappingLists.MappingList.Rewrite | error-telemetry.js:345-378 | replacing one mapping by one at the same generated position keeps the list's invariant and flags |
| MappingLists.MappingList.ToArray | error-telemetry.js:1213-1219 | returns the mappings in generated-position order: unchanged if sorted, else the sorted permutation, and marks the list sorted |
| MappingLists.ToArrayTwice | error-telemetry.js:1213-1219 | a second `toArray` returns the same array as the first |
| MappingsCodec.Semicolons | error-telemetry.js:458-461 | k line breaks are exactly k `;` characters |
| MappingsCodec.SegmentFields | error-telemetry.js:472-495 | a segment has 1, 4 or 5 fields as the mapping has no source, a source, or a source and a name; the cursor moves to the mapping's column on the same line |
| MappingsCodec.EncodeFields | error-telemetry.js:472-495 | a non-empty field list is written as a string that starts with a digit |
| MappingsCodec.EncodeSegment | error-telemetry.js:472-495 | an encoded segment is non-empty, starts with a digit and leaves the cursor on the mapping's generated column |
| MappingsCodec.ReadFields | error-telemetry.js:1978-2017 | reading fields never lengthens the input, and the generated column always consumes something |
| MappingsCodec.DecodeSegment | error-telemetry.js:1975-2017 | a decoded segment always consumes at least one character |
| MappingsCodec.ReadFieldsShape | error-telemetry.js:1984-2017 | a segment read without error yields a record on the current line whose source, original line and original column are all present or all absent, with a name only alongside a source |
| MappingsCodec.SegmentErrorRaises | error-telemetry.js:1974-1984 | an error reading the segment at the front of the text is the error of the whole parse from there |
| MappingsCodec.ReadSourceWithoutLine | error-telemetry.js:1978-1991 | reading a generated column and a valid source index with nothing after them gives "Found a source, but no line and column" |
| MappingsCodec.ReadLineWithoutColumn | error-telemetry.js:1994-2002 | reading an original line with nothing after it gives "Found a source and line, but no column" |
| MappingsCodec.ReadSourceAndLineWithoutColumn | error-telemetry.js:1978-2002 | reading a generated column, a valid source index and an original line with nothing after them gives "Found a source and line, but no column" |
| MappingsCodec.SourceWithoutLineRaises | error-telemetry.js:1978-1991 | a segment that ends after the generated column and a valid source index raises "Found a source, but no line and column", both when the segment is read and for the parse of the whole string from there |
| MappingsCodec.SourceAndLineWithoutColumnRaises | error-telemetry.js:1978-2002 | a segment that ends after the generated column, a valid source index and the original line raises "Found a source and line, but no column", both when the segment is read and for the parse from there |
| MappingsCodec.ParseFromSegment | error-telemetry.js:1974-2024 | the mappings of a string that starts with a segment are that segment's record followed by the mappings of the rest |
| MappingsCodec.ParsedLines | error-telemetry.js:1965-2025 | parsed mappings come out on non-decreasing generated lines, none before the starting line |
| MappingsCodec.ParsedComplete | error-telemetry.js:1965-2025 | every parsed record is complete in the above sense |
| MappingsCodec.DedupFrom | error-telemetry.js:464-467 | skipping duplicates keeps a subsequence of the records, never more |
| MappingsCodec.ParseSemicolon | error-telemetry.js:1966-1970 | a `;` moves the reader to the next generated line at column 0 |
| MappingsCodec.SemicolonsFront | error-telemetry.js:458-461 | a run of `;` starts with one `;` followed by the shorter run |
| MappingsCodec.ParseLineBreaks | error-telemetry.js:1966-1970 | k `;` characters move the reader k lines down at column 0 |
| MappingsCodec.SerializeContinues | error-telemetry.js:456-470 | after the first mapping the serialised text is empty or starts with `;` or `,`, so a segment is always ended by a separator or the end of the string |
| MappingsCodec.FieldStep | error-telemetry.js:1979-2016 | reading one encoded field applies exactly that field's delta |
| MappingsCodec.ReadFirstField | error-telemetry.js:1979-2016 | reading a list of encoded fields starts by applying the first |
| MappingsCodec.ReadEncodedFields | error-telemetry.js:1979-2016 | reading back written fields applies each delta in order and leaves the following text for the next segment |
| MappingsCodec.ApplyOriginalFields | error-telemetry.js:476-495 | the source, line, column and name fields the writer produces rebuild the mapping's original position exactly |
| MappingsCodec.ApplySegmentFields | error-telemetry.js:472-495 | the fields the writer produces for a mapping rebuild that mapping and the writer's cursor |
| MappingsCodec.SegmentRoundTrip | error-telemetry.js:472-495 | a written segment reads back as the same mapping and cursor when followed by a separator or the end (read together with lines 1975-2017) |
| MappingsCodec.ParseSegment | error-telemetry.js:1974-2024 | a segment followed by the rest parses as its record followed by the rest's records |
| MappingsCodec.SerializeNewLine | error-telemetry.js:456-462 | a mapping on a later line is written after one `;` per line skipped |
| MappingsCodec.SerializeSameLine | error-telemetry.js:463-470 | a mapping on the same line is written after a `,`, except the very first |
| MappingsCodec.ParseNewLine | error-telemetry.js:1966-1970 | the `;` run and the segment after it read back as that segment on the later line |
| MappingsCodec.DedupNewLine | error-telemetry.js:456-462 | a mapping on a new line is never dropped as a duplicate |
| MappingsCodec.RoundTripNewLine | error-telemetry.js:456-462 | the round trip extends over a mapping on a new line (read together with lines 1966-1970) |
| MappingsCodec.RoundTripSameLine | error-telemetry.js:463-470 | the round trip extends over a mapping on the same line (read together with lines 1971-1973) |
| MappingsCodec.RoundTripFrom | error-telemetry.js:441-499 | from any cursor, parsing what was serialised gives back the mappings without their adjacent duplicates (read together with lines 1954-2025) |
| MappingsCodec.RoundTrip | error-telemetry.js:441-499 | parsing the serialised `mappings` of line-ordered, registered mappings gives back those mappings, adjacent duplicates dropped (read together with lines 1954-2025) |
| MappingsWriter.EncodeFieldsCons | error-telemetry.js:472-495 | the fields are written one after another |
| MappingsWriter.SourcedCursor | error-telemetry.js:474-488 | after a sourced segment the cursor holds the mapping's column and source index and keeps the name index |
| MappingsWriter.SegmentWithSource | error-telemetry.js:476-495 | a sourced mapping has the source, line, column and optionally name deltas, and fails when its name is not registered |
| MappingsWriter.SegmentWithoutSource | error-telemetry.js:472-476 | a mapping without a source is written as its generated column delta alone |
| MappingsWriter.SegmentSourceMissing | error-telemetry.js:477 | a mapping whose source is not registered fails with the `indexOf` error |
| MappingsWriter.SegmentNameMissing | error-telemetry.js:491 | a mapping whose name is not registered fails with the `indexOf` error |
| MappingsWriter.SegmentOfFour | error-telemetry.js:472-488 | a sourced mapping without a name is written as exactly four VLQ fields |
| MappingsWriter.SegmentOfFive | error-telemetry.js:472-494 | a named mapping is written as exactly five VLQ fields |
| MappingsWriter.NamedFields | error-telemetry.js:472-494 | the five fields of a named mapping are its deltas against the cursor, with 0-based original line |
| MappingsWriter.WriteSegment | error-telemetry.js:472-495 | the statement sequence writes exactly the specified segment or fails with its error |
| MappingsWriter.WriteSourced | error-telemetry.js:476-495 | the sourced part of the statement sequence writes exactly the specified segment or fails with its error |
| MappingsWriter.EncodeFour | error-telemetry.js:477-488 | four fields are the four encodings concatenated |
| MappingsWriter.EncodeFive | error-telemetry.js:477-494 | five fields are the five encodings concatenated |
| MappingsWriter.SemicolonsSnoc | error-telemetry.js:458-461 | appending one `;` lengthens the run by one |
| MappingsWriter.WrittenStart | error-telemetry.js:442-448 | the loop's invariant holds with the initial cursor and the empty result |
| MappingsWriter.WrittenEnd | error-telemetry.js:496-498 | at the end of the loop the result is the serialised string |
| MappingsWriter.WrittenRepeated | error-telemetry.js:464-467 | skipping a duplicate keeps the invariant without writing anything |
| MappingsWriter.WrittenNewLine | error-telemetry.js:456-462 | a mapping on a later line extends the result by the line breaks and its segment, or the whole serialisation fails with its error |
| MappingsWriter.WrittenSameLine | error-telemetry.js:463-495 | a mapping on the same line extends the result by a comma (after the first) and its segment, or the whole serialisation fails |
| Wrappers.PrefixedTwice | error-telemetry.js:448-498 | text written in two steps is text written in one; records pushed one at a time are records pushed together |
| MappingsWriter.LineBreaks | error-telemetry.js:458-461 | the `while` loop writes one `;` per line advanced |
| MappingsWriter.WriteNext | error-telemetry.js:454-495 | one loop iteration keeps the invariant, or stops with the error the whole serialisation has |
| MappingsWriter.WriteMappings | error-telemetry.js:441-499 | `_serializeMappings` returns exactly the specified serialisation, so the round trip of `MappingsCodec.RoundTrip` applies to its output |
| Consumers.NewSectionsOrdered | error-telemetry.js:1514-1543 | the sections an accepted index map yields are one per entry, start after the previous offset and are in order |
| Consumers.NewConsumer | error-telemetry.js:1234-1248 | a map without `version` is refused for that; an accepted map has version 3 and becomes an indexed consumer exactly when it has sections |
| Consumers.NewBasic | error-telemetry.js:1864-1902 | accepted exactly when `version` is 3 and `sources` and `mappings` are present; a missing argument is reported in the order version, sources, mappings, then an unsupported version; an accepted map keeps its `mappings`, file and root, one normalised source per entry, and its names or none |
| Consumers.NewIndexed | error-telemetry.js:1501-1512 | a missing or unsupported version is refused with that error; an accepted index map has version 3 and gives an indexed consumer |
| Consumers.NewSections | error-telemetry.js:1514-1543 | the sections read from an accepted index map are one per remaining entry, and no entry has a `url` |
| Consumers.NewConsumerShape | error-telemetry.js:1234-1248 | an accepted map has version 3; it becomes an indexed consumer exactly when it has sections, with ordered sections, and otherwise a basic one holding its `mappings` and one source per entry (read together with lines 1501-1543 and lines 1864-1902) |
| Consumers.SectionsRefusedFrom | error-telemetry.js:1518-1531 | reading on from any section with any previous offset: when the sections up to j are accepted and in order and section j + 1 comes before section j, the read gives the unordered-sections error |
| Consumers.UnorderedSectionsRefused | error-telemetry.js:1528-1531 | a map whose section j + 1 has an offset before section j's, every earlier section being accepted and in order, is refused with the unordered-sections error |
| Consumers.WithOriginal | error-telemetry.js:2021-2023 | exactly the records that have an original line go to the original table |
| Consumers.SortedTables | error-telemetry.js:2020-2028 | the generated table holds every record read and the original table every record with an original line, nothing else |
| Consumers.SortedTablesSorted | error-telemetry.js:2027-2028 | the generated table is sorted by the generated comparator and the original table by the original comparator |
| Consumers.TablesSorted | error-telemetry.js:2020-2028 | the tables of any consumer (`BasicTables`, `ConsumerTables`, and for an index map `SectionMappings`) come out sorted, each by its own comparator, and a basic consumer's fail exactly when its `mappings` string does not parse (read together with lines 1736-1737) |
| Consumers.JoinRoot | error-telemetry.js:1706-1711 | a source stays absent when absent, and is unchanged without a source root |
| Consumers.SectionShiftRoundTrip | error-telemetry.js:1597-1613 | a position of a section's own map, moved into the whole file, lies at or after the section's start exactly when it is on the map's line 1 or later at a non-negative column (read together with lines 1717-1724) |
| Consumers.AdjustReadBack | error-telemetry.js:1706-1728 | a record of a section's map moved into the whole file lies at or after the section's start, and the indexed `originalPositionFor` shift takes it back to its own position (read together with lines 1597-1613) |
| Consumers.SectionMappingsStep | error-telemetry.js:1700-1735 | the indexed table is section i's adjusted table followed by the later sections' |
| Consumers.SectionMappingsFrom | error-telemetry.js:1700-1735 | every record of the indexed table comes from some section's table, moved by that section's offset |
| Consumers.AdjustAsWritten | error-telemetry.js:1704-1728 | the loop as written reads the record at the outer index, fails past the end of the child's table, and puts every record at column 0 |
| Consumers.SectionAsWritten | error-telemetry.js:1703-1734 | the loop as written pushes one record per entry of the child's table, all equal |
| Consumers.IndexedTableAsWrittenLoses | error-telemetry.js:1704-1724 | concrete maps on which the loop as written duplicates a record and fails, while the intended shift keeps both records |
| Consumers.SourcesOfBasic | error-telemetry.js:1941-1945 | a basic consumer lists one source per entry, joined to the source root when there is one and unchanged otherwise |
| Consumers.SectionSourcesMembers | error-telemetry.js:1557-1567 | an indexed consumer lists exactly the sources of its sections |
| ConsumerContents.BasicLookup | error-telemetry.js:2141-2171 | without `sourcesContent` there is nothing; without a source root a registered source finds its own entry and any other is missing; whatever is found is the entry of some registered source |
| ConsumerContents.SourceContentFor | error-telemetry.js:2141-2183 | with `nullOnMissing` it never fails, and the only failure is "not in the SourceMap" (read together with lines 1630-1645) |
| ConsumerContents.SectionContent | error-telemetry.js:1631-1638 | what the section loop returns is always a truthy content |
| ConsumerContents.SectionContentFirst | error-telemetry.js:1631-1638 | the section loop returns the content of the first section whose content is truthy, and nothing when no section has one |
| ConsumerContents.BasicContent | error-telemetry.js:2141-2183 | without a source root: null without `sourcesContent`, the source's own entry when registered, otherwise null or the error as `nullOnMissing` says |
| ConsumerContents.IndexedContent | error-telemetry.js:1630-1645 | an index map fails exactly when no section has a truthy content and `nullOnMissing` is false; otherwise it returns the first truthy content, or null |
| ConsumerTraversal.EachMapping | error-telemetry.js:1354-1385 | an unknown order fails; otherwise every record of the chosen table is visited once, in table order, exactly when the tables can be built |
| ConsumerTraversal.EachMappingVisitsAll | error-telemetry.js:1354-1385 | in generated order the callback sees every parsed mapping sorted by generated position; in original order exactly those with an original line, sorted by original position (read together with lines 1954-2029) |
| ConsumerTraversal.ComputeColumnSpans | error-telemetry.js:2060-2080 | the loop gives every mapping its last column: one before the next mapping's column on the same line, or Infinity |
| ConsumerTraversal.GeneratedOrderBetween | error-telemetry.js:1014-1043 | in a sorted generated table lines never decrease and columns never decrease within a line |
| ConsumerTraversal.SpansEndBeforeNext | error-telemetry.js:2060-2080 | a span is Infinity exactly for the last mapping of its line, and otherwise ends before every later mapping on that line |
| ConsumerParsing.ParseStep | error-telemetry.js:1965-2024 | one iteration of the scanning loop: `;` moves to the next line, `,` is skipped, anything else is one segment or its error |
| ConsumerParsing.WithOriginalSnoc | error-telemetry.js:2021-2023 | a record goes to the original table exactly when it has an original line |
| ConsumerParsing.ParseMappings | error-telemetry.js:1954-2029 | the scanning loop yields both tables, sorted, holding exactly the mappings of the string, or the error the string has |
| OriginalWalks.Run | error-telemetry.js:1423-1435 | the backwards walk collects at most the records up to its start |
| OriginalWalks.Filter | error-telemetry.js:1423-1435 | exactly the records that match what is kept |
| OriginalWalks.FilterAppendNone | error-telemetry.js:1423-1435 | records that do not match add nothing |
| OriginalWalks.RunIsFilter | error-telemetry.js:1423-1435 | when matching records come last, the backwards walk collects exactly the matching ones up to its start |
| OriginalWalks.ReverseInvolution | error-telemetry.js:1437 | `reverse` applied twice gives back the array, and reverses a concatenation part by part in swapped order |
| OriginalWalks.ReversedPositions | error-telemetry.js:1426-1437 | positions pushed walking backwards, then reversed, are in table order |
| OriginalWalks.CollectPositions | error-telemetry.js:1423-1437 | the `while` loop and the `reverse` give the positions of the walked run in table order |
| OriginalWalks.WalkIsFilter | error-telemetry.js:1418-1437 | when the walk starts at the last matching record of a table where matches are contiguous at its end, it collects every matching record |
| OriginalWalks.PositionsOfFilter | error-telemetry.js:1427-1431 | the positions reported are exactly those of matching records |
| ConsumerQueries.NeedleError | error-telemetry.js:2043-2050 | a needle is refused exactly when its line is below 1 (checked first) or its column is negative |
| ConsumerQueries.GeneratedTableMonotone | error-telemetry.js:2104-2108 | a sorted generated table is ordered against every needle, so the search's promise applies |
| ConsumerQueries.FindOnLine | error-telemetry.js:2104-2113 | a reported index holds a mapping on the needle's line |
| ConsumerQueries.FindOnLineNearest | error-telemetry.js:2104-2125 | an index is reported exactly when some mapping on the line starts at or before the column, and then it is the right-most such mapping |
| ConsumerQueries.FindSectionAsWritten | error-telemetry.js:1593-1602 | the section search answers -1 or a section index |
| ConsumerQueries.FindSection | error-telemetry.js:1593-1602 | the corrected section search answers -1 or a section index |
| ConsumerQueries.SectionFirstColumnMissed | error-telemetry.js:1593-1612 | a position at the very first column of a section is not found by the comparator as written, though the section starts there; the corrected comparator finds it |
| ConsumerQueries.FindSectionNearest | error-telemetry.js:1593-1621 | the corrected search finds the last section starting at or before the position, or -1 when none does, and the shifted position is inside that section's map |
| ConsumerQueries.OriginalPositionFor | error-telemetry.js:2098-2102 | `line` and then `column` are required arguments; with both the answer is the position lookup (read together with lines 1585-1589) |
| ConsumerQueries.BasicOriginalPosition | error-telemetry.js:2098-2133 | `OriginalPositionAt` on a basic consumer: a bad needle is refused; otherwise the answer describes the right-most mapping on the line at or before the column, or is all null when there is none |
| ConsumerQueries.IndexedOriginalPosition | error-telemetry.js:1585-1622 | `OriginalPositionAt` on an index map: no section starting at or before the position gives all null; otherwise the last such section's consumer answers for the position shifted into it |
| ConsumerQueries.CompareOriginalStep | error-telemetry.js:973-1002 | the needle comparison respects the original order of records |
| ConsumerQueries.OriginalTableMonotone | error-telemetry.js:2211-2215 | a sorted original table is ordered against every needle |
| ConsumerQueries.OriginalSearch | error-telemetry.js:2200-2215 | the search runs exactly when the tables build and the needle is valid, over the original table with the needle's source, line and column |
| ConsumerQueries.OriginalTableShape | error-telemetry.js:2021-2028 | the original table is sorted and every record in it has a source and an original line |
| ConsumerQueries.FindOriginalAsWritten | error-telemetry.js:2211-2218 | the lookup as written returns an index of the table or nothing |
| ConsumerQueries.FindOriginal | error-telemetry.js:2211-2218 | the corrected lookup only returns a mapping of the needle's source |
| ConsumerQueries.FindOriginalAsWrittenCrossesSources | error-telemetry.js:2211-2225 | a needle for source "b" is answered with a mapping of source "a" |
| ConsumerQueries.FindOriginalNearest | error-telemetry.js:2211-2225 | the corrected lookup finds something exactly when a mapping of the source is at or before the needle, and then the last such one |
| ConsumerQueries.GeneratedPositionAnswer | error-telemetry.js:2200-2231 | `GeneratedPositionFor` on a valid query to a parsed map without a root answers the generated position of the corrected search's hit in the original table, or all null |
| ConsumerQueries.GeneratedPositionCorrection | error-telemetry.js:2200-2231 | `GeneratedPositionForAsWritten` and the corrected `GeneratedPositionFor` fail alike, with the same error, and agree on every answer that has a position: the correction only turns answers into all null |
| ConsumerQueries.BasicGeneratedPosition | error-telemetry.js:2200-2232 | `GeneratedPositionFor`: a bad needle is refused; otherwise the answer is the generated position of the last mapping of that source at or before the original position, or all null |
| ConsumerQueries.KeptAtOrBeforeSearch | error-telemetry.js:1406-1423 | with column Infinity the search lands at or after every record of the source and line |
| ConsumerQueries.KeptUpToSearch | error-telemetry.js:1406-1426 | between a record of the source and line and the search's index, every record is of that source and line |
| ConsumerQueries.AllPositionsRunIsFilter | error-telemetry.js:1406-1437 | the backwards walk from the search's index collects exactly the records of the source and line |
| ConsumerQueries.AllPositionsAsWrittenCrossesSources | error-telemetry.js:1418-1434 | the walk of `AllGeneratedPositionsAsWritten`, which tests the line only, returns a mapping of source "a" for a needle of source "b" |
| ConsumerQueries.AllPositionsCorrection | error-telemetry.js:1401-1438 | `AllGeneratedPositionsAsWritten` and the corrected `AllGeneratedPositions` refuse the same queries with the same error |
| ConsumerQueries.AllGeneratedPositionsFor | error-telemetry.js:1401-1438 | the method's loop returns exactly the specified positions |
| ConsumerQueries.AllPositionsMembers | error-telemetry.js:1401-1438 | `AllGeneratedPositions`: a line below 1 is refused; otherwise the positions returned are exactly those of the mappings of that source and line |
| Generators.Record | error-telemetry.js:268-275 | the pushed record keeps the source and name, and has no original line or column when there is no original position |
| Generators.ValidateMappingAsWritten | error-telemetry.js:410-434 | the only error is "Invalid mapping", and an accepted mapping has a generated line above 0 and a column of at least 0 |
| Generators.ValidateMapping | error-telemetry.js:410-434 | the corrected validation refuses with "Invalid mapping" or accepts exactly a mapping whose record is of one of the three documented shapes |
| Generators.ValidateMappingComplete | error-telemetry.js:250-276 | every record of the three shapes, handed back to `addMapping`, is accepted and recorded unchanged (read together with lines 410-434) |
| Generators.ValidationsDiffer | error-telemetry.js:412-425 | the two validations differ only on a mapping with no original whose source or name is the empty string, which only the as-written one accepts |
| Generators.EmptySourceAcceptedAsWritten | error-telemetry.js:412-417 | a mapping with source "" and no original passes the as-written validation, but its serialisation does not parse back to it (read together with lines 476-488) |
| Generators.SourceWithoutOriginalNotReadBack | error-telemetry.js:476-488 | any recorded mapping with a source but no original line is serialised, yet never parses back to itself (read together with lines 1984-2017) |
| Generators.SingleSerialized | error-telemetry.js:441-499 | a single mapping on line 1 with a registered source and no name serialises without error |
| Generators.NotReadBack | error-telemetry.js:1984-2017 | a list holding an incomplete record is never the result of parsing |
| Generators.Registering | error-telemetry.js:260-266 | registering keeps every member, adds the new value and nothing else |
| Generators.WritableGrows | error-telemetry.js:260-276 | a mapping stays serialisable when the sets of sources and names grow |
| Generators.WritableAppend | error-telemetry.js:260-276 | after `addMapping` every recorded mapping is serialisable with the new sets |
| Generators.AllEncodable | error-telemetry.js:472-495 | every recorded mapping can be written as a segment |
| Generators.PositionSortedLines | error-telemetry.js:451-462 | the sorted mapping list has lines from 1 on in order, so the `;` loop terminates |
| Generators.SortedLinesFrom | error-telemetry.js:451-462 | the same, from any starting line |
| Generators.ContentFor | error-telemetry.js:510-514 | a content is found exactly when its `$` key is in the map |
| Generators.WithContent | error-telemetry.js:288-302 | after storing (or, for null, deleting) the content of a source, that source reads back exactly that content and every other source is unchanged |
| Generators.GenerateSourcesContent | error-telemetry.js:502-516 | one entry per source, in order, each that source's stored content (relative to the root) or null, and all null when nothing is stored |
| Generators.JsonOf | error-telemetry.js:521-540 | the map has version 3, the generator's sources, names, file and root, `sourcesContent` exactly when some content is stored, and a `mappings` string that parses back to the mappings without adjacent duplicates |
| Generators.JsonRoundTrip | error-telemetry.js:521-540 | a consumer built from the generator's map is a basic consumer with the same file, root, sources and names, whose tables are those of the recorded mappings (read together with lines 1864-1902) |
| Generators.Register | error-telemetry.js:260-266 | `has` then `add` registers a present value as a set |
| Generators.SourceMapGenerator.constructor | error-telemetry.js:177-188 | a new generator has the given file and root, empty fresh sets and mapping list, and no contents |
| Generators.SourceMapGenerator.AddMapping | error-telemetry.js:250-276 | a missing `generated` fails; otherwise a mapping that fails validation changes nothing, and an accepted one appends its record and registers its source and name |
| Generators.SourceMapGenerator.SetSourceContent | error-telemetry.js:282-303 | only the contents change: the source's entry (relative to the root) is set, or removed for null |
| Generators.SourceMapGenerator.ToJSON | error-telemetry.js:521-540 | the mapping list is kept as is when already sorted and otherwise becomes its sort by the full generated comparator; either way it is a permutation in generated-position order, and the map returned is the generator's map |
| GeneratorApply.AnswerComplete | error-telemetry.js:2113-2123 | whatever `originalPositionFor` answers with a source also has a line and a column (read together with lines 1614-1621) |
| GeneratorApply.ApplyOne | error-telemetry.js:345-367 | a mapping of another source is untouched; one of the applied file keeps its generated position and takes the answered source (joined to the map path when given, then made relative to the root), line, column and (when given) name, stays as it is when the answer has no source, and fails with the query's error |
| GeneratorApply.ApplyOneShaped | error-telemetry.js:345-367 | a serialisable mapping stays in a shape the serialiser can write once it is redirected |
| GeneratorApply.Rewritten | error-telemetry.js:345-379 | the walk rewrites every mapping when no query fails, and stops before the failing one otherwise |
| GeneratorApply.RewrittenStops | error-telemetry.js:345-379 | once a query has failed, later mappings do not matter |
| GeneratorApply.CollectMembers | error-telemetry.js:369-377 | the new set holds exactly the values present in the walk |
| GeneratorApply.CollectedWritable | error-telemetry.js:369-381 | with the rebuilt sets every rewritten mapping is serialisable again |
| GeneratorApply.OfSnoc | error-telemetry.js:369-377 | each mapping walked registers its source and name as `addMapping` would |
| GeneratorApply.Copied | error-telemetry.js:384-395 | copying contents fails only with "not in the SourceMap" |
| GeneratorApply.CopiedFails | error-telemetry.js:384-395 | copying fails exactly when some source of the applied map makes `sourceContentFor` throw |
| GeneratorApply.TargetFile | error-telemetry.js:323-338 | the file to rewrite is missing exactly when neither the argument nor the map's `file` gives one |
| GeneratorApply.WalkedStart | error-telemetry.js:341-345 | the walk's invariant holds before the first mapping |
| GeneratorApply.WalkedStep | error-telemetry.js:345-379 | a successful step rewrites mapping i in place and registers its source and name |
| GeneratorApply.WalkedStepRewritten | error-telemetry.js:345-367 | the in-place list after step i is the specified rewrite of the first i+1 mappings followed by the untouched rest |
| GeneratorApply.WalkedStop | error-telemetry.js:348-351 | a failing query leaves the earlier mappings rewritten and the rest untouched |
| GeneratorApply.RewrittenFailsAt | error-telemetry.js:348-351 | a query failing at mapping i stops the walk there, the earlier mappings rewritten |
| GeneratorApply.WalkedEnd | error-telemetry.js:379-381 | after the walk the list is the rewrite, and the new sets are exactly its sources and names |
| GeneratorApply.StoreRewritten | error-telemetry.js:345-377 | storing the rewritten mapping i in place and registering its source and name keeps the walk's invariant one mapping further |
| GeneratorApply.RewriteMappings | error-telemetry.js:341-379 | the loop rewrites the mapping list in place as specified and builds fresh sets of exactly its sources and names |
| GeneratorApply.CopyContents | error-telemetry.js:384-395 | only the contents change, exactly as specified, with the error that stops it |
| GeneratorApply.ApplySourceMap | error-telemetry.js:322-396 | no file fails and changes nothing; otherwise the mappings of the file are redirected through the applied map, sources and names are replaced by those in use, and the applied map's contents are copied |
| GeneratorRuns.RecordedStops | error-telemetry.js:250-258 | once a call has failed, later calls do not matter to the run |
| GeneratorRuns.Emit | error-telemetry.js:250-276 | one more `addMapping` call extends the run as specified |
| GeneratorRuns.RecordedFails | error-telemetry.js:250-258 | a run fails exactly when one of its calls is invalid |
| GeneratorRuns.RecordedAccepted | error-telemetry.js:250-276 | `Recorded`: a run of valid calls records each call's record, in order |
| GeneratorFrom.RecordReadBack | error-telemetry.js:204-228 | a mapping of the three shapes, turned into arguments, is accepted and recorded unchanged |
| GeneratorFrom.WellFormedCopied | error-telemetry.js:204-229 | copying well-formed mappings records exactly them, without error |
| GeneratorFrom.SourcesCopied | error-telemetry.js:230-235 | copying contents fails only with "not in the SourceMap" |
| GeneratorFrom.CopiedIsStored | error-telemetry.js:2141-2152 | from a basic consumer without a root but with contents, the copy never stops on a missing source and stores each source's entry in turn |
| GeneratorFrom.StoredContents | error-telemetry.js:230-235 | storing the entries in turn gives each listed source with an entry that entry and leaves every other name as it was (read together with lines 2141-2152) |
| GeneratorFrom.BasicSourcesCopied | error-telemetry.js:230-235 | from a basic consumer without a root but with contents, copying never fails, stores each source's entry and leaves other sources alone (read together with lines 2141-2152) |
| GeneratorFrom.CopySources | error-telemetry.js:230-235 | only the contents change, exactly as specified |
| GeneratorFrom.AddAll | error-telemetry.js:204-229 | the loop of `addMapping` calls leaves the generator in the state of the specified run |
| GeneratorFrom.RunPrefix | error-telemetry.js:204-229 | one more call extends the run by that call, and a run that has failed is the whole run |
| GeneratorFrom.RecordedStopsAt | error-telemetry.js:204-229 | a run that has failed after n calls is the run of all the calls |
| GeneratorFrom.FromSourceMap | error-telemetry.js:198-237 | a fresh generator with the consumer's file and root, holding the records of every visited mapping and its contents, or the first error met |
| SourceNodes.Added | error-telemetry.js:2404-2421 | the only error `add` raises is the "Expected a SourceNode, string, or an array" type error |
| SourceNodes.AddedFrom | error-telemetry.js:2405-2409 | the same for the elements of an array from index i on |
| SourceNodes.Prepended | error-telemetry.js:2429-2444 | the only error `prepend` raises is the same type error |
| SourceNodes.PrependedFrom | error-telemetry.js:2430-2434 | the same for the elements of an array from index i on |
| SourceNodes.PrependedStops | error-telemetry.js:2430-2434 | `prepend` walks an array from its end, so once a later element fails, earlier elements do not matter |
| SourceNodes.NonEmpty | error-telemetry.js:2411-2413 | dropping empty strings keeps a subsequence and no empty string |
| SourceNodes.NonEmptyAppend | error-telemetry.js:2411-2413 | dropping empty strings distributes over concatenation |
| SourceNodes.AddPrependAgree | error-telemetry.js:2404-2444 | for input made only of strings, nodes and arrays of them, `add` appends the flattened chunks without empty strings and `prepend` puts all of them in front, in order; any other input makes both fail |
| SourceNodes.AddPrependAgreeFrom | error-telemetry.js:2404-2444 | the same for the elements of an array from index i on |
| SourceNodes.Interleave | error-telemetry.js:2477-2491 | the joined children alternate child and separator, the children in order at the even places, one separator fewer than children |
| SourceNodes.KeyIndex | error-telemetry.js:2523 | the position of a file's entry is its first occurrence, or -1 when there is none |
| SourceNodes.Lookup | error-telemetry.js:2523 | a file has an entry exactly when some entry has its name |
| SourceNodes.SetEntryLookup | error-telemetry.js:2521-2524 | `SetEntry`: setting a file's content makes it read back that content and leaves other files alone; an existing entry keeps its place, a new one comes last, and names stay unique |
| SourceNodes.Walk | error-telemetry.js:2453-2469 | the walk never reports an empty string |
| SourceNodes.WalkFrom | error-telemetry.js:2455-2468 | the same for the children from index i on |
| SourceNodes.CodeAppend | error-telemetry.js:2550-2556 | the text of two runs of pieces is their concatenation |
| SourceNodes.ToStringOfChildren | error-telemetry.js:2550-2556 | `ToString` of a node is its children's texts, one after the other |
| SourceNodes.ToStringFrom | error-telemetry.js:2550-2556 | the same for the children from index i on |
| SourceNodes.InterleaveText | error-telemetry.js:2477-2491 | the text of joined children is the text of all but the last, the separator, then the last |
| SourceNodes.ChunksTextAppend | error-telemetry.js:2550-2556 | the text of two runs of children is their concatenation |
| SourceNodes.WalkSourceContents | error-telemetry.js:2532-2544 | the calls come child by child, each child node's own walk in the order of the children, and the node's own contents last (with `WalkSourceContentsBlocks`) |
| SourceNodes.WalkContentsSuffix | error-telemetry.js:2534-2538 | the calls made for the children from i on are the tail of the calls made for all children |
| SourceNodes.WalkSourceContentsBlocks | error-telemetry.js:2532-2544 | the calls come in blocks, child by child from the left: a child node's own walk, nothing for a string, and after the last child the node's own entries in insertion order |
| SourceNodes.SourceNode.constructor | error-telemetry.js:2272-2281 | a new node has the given original position, no children and no contents |
| SourceNodes.SourceNode.Add | error-telemetry.js:2404-2421 | appends what `add` specifies, with its error, and leaves the contents alone |
| SourceNodes.SourceNode.Prepend | error-telemetry.js:2429-2444 | puts in front what `prepend` specifies, with its error, and leaves the contents alone |
| SourceNodes.SourceNode.Join | error-telemetry.js:2477-2491 | the children become the old children with the separator between each two |
| SourceNodes.SourceNode.SetSourceContent | error-telemetry.js:2521-2524 | only the contents change, the file's entry being set |
| SourceNodeMaps.Enter | error-telemetry.js:2576-2610 | a tagged piece opens a mapping at the cursor unless the same tag is open; an untagged piece closes an open mapping with a generated-only one; the position does not move |
| SourceNodeMaps.CharsPrefix | error-telemetry.js:2611-2636 | reading more characters only appends mappings |
| SourceNodeMaps.RunPrefix | error-telemetry.js:2574-2637 | walking more pieces only appends mappings |
| SourceNodeMaps.StopsWithin | error-telemetry.js:2583-2631 | once an `addMapping` call fails, later calls do not matter |
| SourceNodeMaps.CharsDoneStep | error-telemetry.js:2611-2636 | the character loop's invariant survives one more character |
| SourceNodeMaps.CharsStop | error-telemetry.js:2620-2631 | a failing call inside the character loop is the failure of the whole piece |
| SourceNodeMaps.WriteChar | error-telemetry.js:2612-2635 | one character moves the cursor as specified (a newline to the next line, any other character on by its UTF-16 code units) and makes the specified `addMapping` call on the generator |
| SourceNodeMaps.WriteChars | error-telemetry.js:2611-2636 | the character loop over the chunk's code units leaves the cursor and the generator as specified, or stops with the first failing call |
| SourceNodeMaps.EnterPiece | error-telemetry.js:2576-2610 | the piece's opening or closing call is made on the generator as specified |
| SourceNodeMaps.WritePiece | error-telemetry.js:2575-2636 | one walked piece updates the generator and cursor as specified |
| SourceNodeMaps.PiecesDoneStep | error-telemetry.js:2574-2637 | the walk's invariant survives one more piece, whose chunk is appended to the code |
| SourceNodeMaps.PiecesStop | error-telemetry.js:2574-2637 | a failing call inside one piece is the failure of the whole walk |
| SourceNodeMaps.WritePieces | error-telemetry.js:2574-2637 | the walk yields the concatenated code and a generator holding exactly the specified mappings, or the first failing call's error |
| SourceNodeMaps.CopySourceContents | error-telemetry.js:2638-2640 | only the generator's contents change, to those of the walked entries |
| SourceNodeMaps.ToStringWithSourceMap | error-telemetry.js:2562-2643 | the code is the node's `toString` and the map's generator has the given file and root, the specified mappings (columns in UTF-16 code units) and the node's contents, or the error of the first refused mapping |
| SourceNodeMaps.PositionFrom | error-telemetry.js:2611-2636 | reading text never moves the cursor up, nor to a negative column; columns count UTF-16 code units |
| SourceNodeMaps.PositionWithinLine | error-telemetry.js:2611-2636 | text without a newline leaves the line alone and moves the column by its `length`, counted in UTF-16 code units |
| SourceNodeMaps.PositionAfter | error-telemetry.js:2563-2567 | a position reached from the start is at line 1 or below, column 0 or right of it |
| SourceNodeMaps.PositionFromAppend | error-telemetry.js:2611-2636 | the position after two texts is the position after the second read from where the first ends |
| SourceNodeMaps.AtLineStartExtend | error-telemetry.js:2611-2636 | a position reached inside a text is still reached inside any longer text |
| SourceNodeMaps.InCodeExtend | error-telemetry.js:2575 | a position reached by the code is still reached when more code follows |
| SourceNodeMaps.InCodeShift | error-telemetry.js:2575 | a position reached inside a chunk is a position of the code once the chunk is appended |
| SourceNodeMaps.CharsPosition | error-telemetry.js:2611-2636 | the character loop moves the cursor to the position after the characters read |
| SourceNodeMaps.CharsAtLineStarts | error-telemetry.js:2619-2631 | every mapping the character loop emits is at a position inside the chunk |
| SourceNodeMaps.RunPosition | error-telemetry.js:2574-2637 | after each piece the cursor is at the position where the code so far ends |
| SourceNodeMaps.RunInCode | error-telemetry.js:2574-2637 | every mapping emitted is at a position the code so far reaches |
| SourceNodeMaps.PieceInCode | error-telemetry.js:2574-2637 | the mappings of one piece, walked from where the code so far ends, are at positions of the code with the piece's chunk appended |
| SourceNodeMaps.ChunkMappedWhereItLands | error-telemetry.js:2574-2595 | in the walk of the pieces (for a tree, its `Walk`), a tagged piece whose tag is not already open adds a mapping at the end of the code generated before it, pointing at the tag's original line, column, source and name |
| SourceNodeMaps.MappingsAtCodePositions | error-telemetry.js:2562-2643 | every mapping `Emitted` for the source map points at a position of the generated code |
| SourceNodeMaps.CheckOf | error-telemetry.js:2583-2607 | a closing mapping is always accepted, and a tag's mapping is refused exactly when the tag has a line below 1, a negative column or an empty source (read together with lines 410-434) |
| SourceNodeMaps.CharsShape | error-telemetry.js:2611-2636 | the character loop only closes the open tag, and every mapping it emits maps to the piece's tag while one is open |
| SourceNodeMaps.RunLast | error-telemetry.js:2596-2609 | an open tag is always the tag of the last piece walked |
| SourceNodeMaps.RunShape | error-telemetry.js:2574-2637 | every emitted mapping closes or maps to the tag of a walked piece |
| SourceNodeMaps.RefusedIsCalled | error-telemetry.js:2576-2600 | a walked piece with a refused tag always leads to a refused `addMapping` call |
| SourceNodeMaps.RefusedFirst | error-telemetry.js:2576-2600 | the same for the last piece walked |
| SourceNodeMaps.RaisesExactlyOnRefusedTags | error-telemetry.js:2562-2643 | `toStringWithSourceMap` raises exactly when some piece of the walk carries a tag the generator refuses: the calls of `Emitted` fail exactly then |
| SourceNodeMaps.NotRefusedAccepted | error-telemetry.js:2583-2631 | when no tag is refused, every mapping emitted passes validation |

## Left out

- JSON text: parsing a map given as a string (with the `)]}'` prefix strip), `SourceMapGenerator.toString` and the `JSON.stringify` text of error messages. A map is the parsed record `Consumers.RawMap`, and errors are values of `Wrappers.Error`.
- URL and path helpers (`urlParse`, `urlGenerate`, `normalize`, `join`, `relative`) are regular-expression based. They are given functions in `Paths.PathOps`, so no property of their results is proved.
- `SourceNode.fromStringWithSourceMap` and `SourceNode.replaceRight` depend on JavaScript regular expressions and are not modelled.
- `BasicSourceMapConsumer.fromSourceMap` (a consumer built directly from a generator's tables) is not modelled. The model's basic consumer holds its `mappings` string and derives its tables from it; `Generators.JsonRoundTrip` covers the same route through the map text.
- The module loader, `printStackTrace` and the telemetry code around the library are not part of this model.
- The lazy, memoised `_generatedMappings` and `_originalMappings` getters are not modelled. The tables are functions of the consumer, computed on demand, and errors surface where a query needs them, as in the source.
- `lastGeneratedColumn`: the source writes it onto the table records shared by both tables. The model returns the spans as a separate sequence, so the aliasing between the two tables is not captured, and `generatedPositionFor` answers carry no `lastColumn`.
- Callbacks (`eachMapping`, `walk`, `walkSourceContents`) and their `this` context are modelled as the sequence of values the callback would receive, in order.
- SourceNode children that are nodes are value snapshots: a node added to two parents, or changed after being added, is not shared between them.
- `new SourceNode(line, column, source, chunks, name)` with chunks is the constructor followed by `Add`; a join separator is a chunk, so a separator that is neither a string nor a node is not modelled.
- In `toStringWithSourceMap`, `sourceMappingActive` and the four `lastOriginal*` variables are folded into one optional last tag. This is equivalent because each place that clears the flag also clears `lastOriginalSource`.
- Indexed `generatedPositionFor` (its `if (generatedPosition)` is always true and the reverse offset compares against the section's own line) and indexed `allGeneratedPositionsFor` are not modelled. The position queries cover basic consumers.
- Consumers.NewBasic: `version` is a number in `Consumers.RawMap`. The source compares it with the loose `!=`, which also accepts the string "3"; the model cannot hold that string, so it does not capture that acceptance.
- Consumers.NewIndexed: the same for the version check of an index map.
- A generated position with a null line or column is folded into a missing one: `getArg` with a null default and a missing field are the same `None`.
- Generators.SourceMapGenerator.AddMapping: does not model `skipValidation`; validation always runs, because a record built from unvalidated arguments can hold values other than numbers and strings.
- Base64Vlq.Encode: values are unbounded integers, while the source's `&`, `>>>` and `<<` work on 32 bits; the two agree for -2^30 < v < 2^30 only, and the round trip is proved for all integers.
- Base64Vlq.Decode: same 32-bit caveat; a long run of continuation digits overflows in the source but not in the model.
- Sorting.Sort: `Array.prototype.sort` is modelled as a stable insertion sort. A sorted permutation is all the source promises, and under either full comparator two records that compare equal differ at most in missing-versus-empty fields.
- MappingsWriter.WriteMappings: requires the mappings on non-decreasing lines from line 1. The source's `;` loop would not terminate otherwise, and `toArray` guarantees it.
- ConsumerContents.BasicLookup: with a source root the answer is only known to be some registered source's entry or missing, because the `file://` and `/` fallbacks go through the given path helpers.
- ConsumerContents.BasicContent: stated for a consumer without a source root, for the same reason.
- ConsumerQueries.BasicGeneratedPosition: stated for a consumer without a source root, for the same reason.
- ConsumerQueries.AllPositionsMembers: stated for a consumer without a source root, for the same reason.
- ConsumerTraversal.EachMappingVisitsAll: stated for a basic consumer without a source root, where the visited records are the parsed ones unchanged.
- GeneratorFrom.BasicSourcesCopied: stated for a basic consumer without a source root that has `sourcesContent`.
- Generators.JsonRoundTrip: requires `normalize` to leave the generator's sources unchanged, since the consumer normalises them.
- Util.GeneratedZeroIffSame: parsed records compare a missing original line or column as 0. In the source those fields are `undefined`, the subtraction gives `NaN`, which is falsy, so the comparator ties on that field and moves to the next one. The model's order on such records can therefore differ from the source's.
- Sorting.Sort: with `NaN` ties on parsed records the source's comparator is not transitive, and `Array.prototype.sort` then promises no particular order; the model sorts by the total preorder where a missing number is 0.
- Util.StrLess: a string holding a lone surrogate code unit cannot be written as a Dafny string, so such strings are not modelled.
- Generators.SourceMapGenerator.AddMapping: validates with the corrected `Generators.ValidateMapping`, which refuses a source or name of `""` without an original position (Findings row for lines 412-417); the as-written validation is `Generators.ValidateMappingAsWritten`.
- GeneratorApply.ApplySourceMap: inherits the corrected validation and the corrected indexed lookup of `ConsumerQueries.IndexedOriginalPosition` (Findings rows for lines 412-417 and 1593-1602).
- GeneratorFrom.FromSourceMap: inherits the corrected validation and the corrected indexed tables of `ConsumerTraversal.EachMapping` (Findings rows for lines 412-417 and 1703-1724).
- SourceNodeMaps.ToStringWithSourceMap: its generator uses the corrected validation (Findings row for lines 412-417).
- ConsumerQueries.IndexedOriginalPosition: uses the corrected section search `ConsumerQueries.FindSection` (Findings row for lines 1593-1602); the as-written search is `ConsumerQueries.FindSectionAsWritten`.
- ConsumerQueries.AllGeneratedPositionsFor: walks back while the source and the line match, the corrected walk (Findings row for lines 1423-1434); the as-written walk is `ConsumerQueries.AllGeneratedPositionsAsWritten`.
- ConsumerQueries.GeneratedPositionFor: keeps only a hit of the needle's source (Findings row for lines 2211-2225); the as-written answer is `ConsumerQueries.GeneratedPositionForAsWritten`.
- ConsumerTraversal.EachMapping: on an index map it visits the corrected tables, each record moved by its section's offset (Findings row for lines 1703-1724); the as-written loop is `Consumers.SectionAsWritten`.
- Consumers.ConsumerTables: the indexed tables are built with the corrected shift (Findings row for lines 1703-1724), and so are the answers of every query on an index map that reads them.

## Findings

| source | as written | input that shows it | evidently intended | confidence | as-written member | corrected member |
|---|---|---|---|---|---|---|
| error-telemetry.js:1593-1602 | the indexed `originalPositionFor` compares the needle's column with `generatedOffset.generatedColumn`, which is the offset column plus one | a section at offset line 0, column 0, and the position line 1, column 0 | the section starting at that very position is found, as the shift at lines 1615-1620 expects | not executed | ConsumerQueries.SectionFirstColumnMissed | ConsumerQueries.FindSectionNearest |
| error-telemetry.js:2211-2225 | `generatedPositionFor` returns the nearest mapping at or before the needle whatever its source | a table with one mapping of source "a" at line 1, column 0 and a needle for source "b", line 1, column 0 | the answer is all null when the source has no mapping at or before the position | not executed | ConsumerQueries.FindOriginalAsWrittenCrossesSources | ConsumerQueries.BasicGeneratedPosition |
| error-telemetry.js:1423-1434 | `allGeneratedPositionsFor` walks back while the original line matches, without testing the source | the same table, a needle for source "b", line 1 | only mappings of the requested source are returned | not executed | ConsumerQueries.AllPositionsAsWrittenCrossesSources | ConsumerQueries.AllPositionsMembers |
| error-telemetry.js:1703-1724 | the indexed `_parseMappings` reads `sectionMappings[i]` instead of `[j]`, and its column parses as `(mapping.column + test) ? offset : 0` | a first section whose map has mappings at line 1, columns 0 and 4; a second section whose map has one mapping | each child mapping moved by its section's offset, its column shifted only on the map's first line | not executed | Consumers.IndexedTableAsWrittenLoses | Consumers.SectionShiftRoundTrip |
| error-telemetry.js:412-417 | the first case of `_validateMapping` tests the source and name for truthiness, so an empty source or an empty name passes as "none" (`Generators.ValidationsDiffer`) | `addMapping({generated: {line: 1, column: 0}, source: ""})`, or the same with `name: ""` | the first case accepts only a mapping with no source and no name, so every recorded mapping serialises and parses back | not executed | Generators.EmptySourceAcceptedAsWritten | Generators.ValidateMappingComplete |

=== FILE: array_set.dfy ===
/**
 * Module `source-map/array-set`: an array of strings together with an object
 * that maps the `$`-prefixed key of each string to the index of its first
 * occurrence. Strings are never removed.
 */
module ArraySets {
  import opened Wrappers
  import opened Util

  /** Index of the first occurrence of s, the answer `indexOf` gives. */
  function FirstIndex(items: seq<string>, s: string): (r: Result<nat>)
    ensures r.Ok? <==> s in items
    ensures r.Ok? ==> r.value < |items| && items[r.value] == s && s !in items[..r.value]
    ensures r.Err? ==> r.error == NotInSet(s)
  {
    if |items| == 0 then Err(NotInSet(s))
    else if items[0] == s then Ok(0)
    else
      match FirstIndex(items[1..], s)
      case Err(e) => Err(e)
      case Ok(i) =>
        assert items[..i + 1] == [items[0]] + items[1..][..i];
        Ok(i + 1)
  }

  /** The answer `at` gives: the element at i, or an error outside the array. */
  function ElementAt(items: seq<string>, i: int): (r: Result<string>)
    ensures r.Ok? <==> 0 <= i < |items|
    ensures r.Ok? ==> r.value == items[i]
    ensures r.Err? ==> r.error == NoElementAt(i)
  {
    if 0 <= i < |items| then Ok(items[i]) else Err(NoElementAt(i))
  }

  /**
   * `at` undoes `indexOf`, and `indexOf` finds an element at or before the
   * index `at` read it from, at that very index when nothing repeats.
   */
  lemma ElementAtFirstIndex(items: seq<string>, s: string, i: int)
    ensures FirstIndex(items, s).Ok? ==> ElementAt(items, FirstIndex(items, s).value) == Ok(s)
    ensures ElementAt(items, i) == Ok(s) ==> FirstIndex(items, s).Ok? && FirstIndex(items, s).value <= i
    ensures ElementAt(items, i) == Ok(s) && (forall j, k :: 0 <= j < k < |items| ==> items[j] != items[k]) ==>
              FirstIndex(items, s).Ok? && FirstIndex(items, s).value == i
  {
  }

  /** The strings of s without repetitions, in the order of their first occurrences. */
  function Unique(s: seq<string>): (r: seq<string>)
    ensures forall x :: x in r <==> x in s
    ensures forall i, j :: 0 <= i < j < |r| ==> r[i] != r[j]
    ensures |r| <= |s|
    ensures forall i, j :: 0 <= i < j < |r| ==> FirstIndex(s, r[i]).value < FirstIndex(s, r[j]).value
  {
    if s == [] then []
    else
      var p, x := s[..|s| - 1], s[|s| - 1];
      assert s == p + [x];
      UniqueStep(p, x, Unique(p));
      if x in Unique(p) then Unique(p) else Unique(p) + [x]
  }

  /**
   * One more string: a sequence holding p's strings once each, in the order of
   * their first occurrences, keeps these properties for p + [x] when x is
   * appended unless already there.
   */
  lemma UniqueStep(p: seq<string>, x: string, u: seq<string>)
    requires forall y :: y in u <==> y in p
    requires forall i, j :: 0 <= i < j < |u| ==> u[i] != u[j]
    requires |u| <= |p|
    requires forall i, j :: 0 <= i < j < |u| ==> FirstIndex(p, u[i]).value < FirstIndex(p, u[j]).value
    ensures var r := if x in u then u else u + [x];
            && (forall y :: y in r <==> y in p + [x])
            && (forall i, j :: 0 <= i < j < |r| ==> r[i] != r[j])
            && |r| <= |p + [x]|
            && (forall i, j :: 0 <= i < j < |r| ==> FirstIndex(p + [x], r[i]).value < FirstIndex(p + [x], r[j]).value)
  {
    var r := if x in u then u else u + [x];
    assert forall y :: y in p + [x] <==> y in p || y == x;
    forall i, j | 0 <= i < j < |r|
      ensures FirstIndex(p + [x], r[i]).value < FirstIndex(p + [x], r[j]).value
    {
      FirstIndexSnoc(p, x, r[i]);
      FirstIndexSnoc(p, x, r[j]);
      if j == |u| {
        assert r[i] == u[i] && r[i] in p && r[j] == x && x !in p;
      } else {
        assert r[i] == u[i] && r[j] == u[j];
      }
    }
  }

  /** Unique seen one string at a time, the order in which `fromArray` adds them. */
  lemma UniqueSnoc(s: seq<string>, x: string)
    ensures Unique(s + [x]) == if x in Unique(s) then Unique(s) else Unique(s) + [x]
  {
    assert (s + [x])[..|s|] == s;
  }

  /** The array of a set built by adding the strings of arr in order. */
  function Added(arr: seq<string>, allowDuplicates: bool): (r: seq<string>)
    ensures allowDuplicates ==> r == arr
    ensures forall x :: x in r <==> x in arr
  {
    if allowDuplicates then arr else Unique(arr)
  }

  lemma AddedSnoc(arr: seq<string>, x: string, allowDuplicates: bool)
    ensures Added(arr + [x], allowDuplicates)
         == if x !in Added(arr, allowDuplicates) || allowDuplicates
            then Added(arr, allowDuplicates) + [x] else Added(arr, allowDuplicates)
  {
    if !allowDuplicates {
      UniqueSnoc(arr, x);
    }
  }

  /** The key object after adding the strings of items in order: each key maps to the index of its first occurrence. */
  function Keys(items: seq<string>): map<string, nat> {
    if items == [] then map[]
    else
      var p := items[..|items| - 1];
      var m := Keys(p);
      var k := ToSetString(items[|items| - 1]);
      if k in m then m else m[k := |p|]
  }

  /** An occurrence with no earlier one is the first index. */
  lemma FirstIndexAt(items: seq<string>, s: string, i: nat)
    requires i < |items| && items[i] == s && s !in items[..i]
    ensures FirstIndex(items, s) == Ok(i)
  {
  }

  lemma FirstIndexSnoc(p: seq<string>, x: string, s: string)
    ensures FirstIndex(p + [x], s)
         == if s in p then FirstIndex(p, s) else if s == x then Ok(|p|) else Err(NotInSet(s))
  {
    var items := p + [x];
    if s in p {
      var i := FirstIndex(p, s).value;
      assert items[..i] == p[..i];
      FirstIndexAt(items, s, i);
    } else if s == x {
      assert items[..|p|] == p;
      FirstIndexAt(items, s, |p|);
    }
  }

  /** The key of s is present exactly when s was added, and leads to its first occurrence. */
  lemma {:induction false} KeysAt(items: seq<string>, s: string)
    ensures ToSetString(s) in Keys(items) <==> s in items
    ensures s in items ==> Keys(items)[ToSetString(s)] == FirstIndex(items, s).value
    decreases |items|
  {
    if items != [] {
      var p := items[..|items| - 1];
      var x := items[|items| - 1];
      assert items == p + [x];
      KeysAt(p, s);
      KeysAt(p, x);
      FirstIndexSnoc(p, x, s);
      SetStringInjective(s, x);
    }
  }

  class ArraySet {
    var items: seq<string>
    var index: map<string, nat>

    /** The key object is the one that adding the array's strings in order builds. */
    ghost predicate Valid()
      reads this
    {
      index == Keys(items)
    }

    /** `new ArraySet()`. */
    constructor ()
      ensures Valid() && items == [] && index == map[]
    {
      items := [];
      index := map[];
    }

    /** `has`: whether the key of s is in the key object, which is whether s is in the array. */
    method Has(s: string) returns (r: bool)
      requires Valid()
      ensures r <==> s in items
    {
      KeysAt(items, s);
      r := ToSetString(s) in index;
    }

    /**
     * `add`: appends s unless it is already present and duplicates are not
     * allowed; records the index only on the first occurrence.
     */
    method Add(s: string, allowDuplicates: bool)
      requires Valid()
      modifies this
      ensures Valid()
      ensures items == if s !in old(items) || allowDuplicates then old(items) + [s] else old(items)
    {
      var isDuplicate := Has(s);
      var idx := |items|;
      ghost var before := items;
      if !isDuplicate || allowDuplicates {
        items := items + [s];
        assert items[..|items| - 1] == before;
      }
      if !isDuplicate {
        KeysAt(before, s);
        index := index[ToSetString(s) := idx];
      } else {
        KeysAt(before, s);
      }
    }

    /** `indexOf`: the index of the first occurrence of s, or an error when s is absent. */
    method IndexOf(s: string) returns (r: Result<nat>)
      requires Valid()
      ensures r == FirstIndex(items, s)
    {
      var present := Has(s);
      if present {
        KeysAt(items, s);
        r := Ok(index[ToSetString(s)]);
      } else {
        r := Err(NotInSet(s));
      }
    }

    /** `at`: the element at i, or an error outside the array. */
    method At(i: int) returns (r: Result<string>)
      requires Valid()
      ensures r == ElementAt(items, i)
    {
      if i >= 0 && i < |items| {
        r := Ok(items[i]);
      } else {
        r := Err(NoElementAt(i));
      }
    }

    /** `toArray`: a copy of the array, whose indices agree with `indexOf`. */
    method ToArray() returns (r: seq<string>)
      requires Valid()
      ensures r == items
      ensures forall s :: s in r ==> FirstIndex(r, s).Ok? && r[FirstIndex(r, s).value] == s
    {
      r := items;
    }

    /**
     * `ArraySet.fromArray`: a new set holding the strings of arr in order, with
     * every repetition when duplicates are allowed and only first occurrences
     * otherwise.
     */
    static method FromArray(arr: seq<string>, allowDuplicates: bool) returns (r: ArraySet)
      ensures fresh(r) && r.Valid()
      ensures r.items == Added(arr, allowDuplicates)
    {
      r := new ArraySet();
      var i := 0;
      while i < |arr|
        invariant 0 <= i <= |arr|
        invariant fresh(r) && r.Valid()
        invariant r.items == Added(arr[..i], allowDuplicates)
        modifies r
      {
        var next := Added(arr[..i + 1], allowDuplicates);
        assert next == if arr[i] !in r.items || allowDuplicates then r.items + [arr[i]] else r.items by {
          assert arr[..i + 1] == arr[..i] + [arr[i]];
          AddedSnoc(arr[..i], arr[i], allowDuplicates);
        }
        r.Add(arr[i], allowDuplicates);
        i := i + 1;
      }
      assert arr[..|arr|] == arr;
    }
  }
}

=== FILE: base64.dfy ===
/**
 * The single-digit base 64 codec of the source-map library (module
 * `source-map/base64`): the 64 characters of Table 1 in section 4 of RFC 4648,
 * "ABCDEFGHIJKLMNOPQRSTUVWXYZabcdefghijklmnopqrstuvwxyz0123456789+/",
 * standing for 0..63 in that order.
 */
module Base64 {
  import opened Wrappers

  /** The character standing for n: the runs A-Z, a-z, 0-9, then '+' and '/'. */
  function DigitChar(n: int): char
    requires 0 <= n < 64
  {
    if n < 26 then ('A' as int + n) as char
    else if n < 52 then ('a' as int + (n - 26)) as char
    else if n < 62 then ('0' as int + (n - 52)) as char
    else if n == 62 then '+'
    else '/'
  }

  /** The alphabet as the table `intToCharMap` is built from. */
  function Alphabet(): (s: string)
    ensures |s| == 64
  {
    seq(64, n requires 0 <= n < 64 => DigitChar(n))
  }

  predicate IsDigit(c: char) {
    ('A' <= c <= 'Z') || ('a' <= c <= 'z') || ('0' <= c <= '9') || c == '+' || c == '/'
  }

  /** `base64.encode`: the alphabet's character at index n, or an error outside 0..63. */
  function Encode(n: int): (r: Result<char>)
    ensures r.Ok? <==> 0 <= n < 64
    ensures r.Ok? ==> IsDigit(r.value)
  {
    if 0 <= n < |Alphabet()| then Ok(Alphabet()[n]) else Err(NotABase64Number(n))
  }

  /** `base64.decode`: the index of c in the alphabet, or an error for any other character. */
  function Decode(c: char): (r: Result<int>)
    ensures r.Ok? <==> IsDigit(c)
    ensures r.Ok? ==> 0 <= r.value < 64
  {
    if 'A' <= c <= 'Z' then Ok(c as int - 'A' as int)
    else if 'a' <= c <= 'z' then Ok(c as int - 'a' as int + 26)
    else if '0' <= c <= '9' then Ok(c as int - '0' as int + 52)
    else if c == '+' then Ok(62)
    else if c == '/' then Ok(63)
    else Err(NotABase64Digit(c))
  }

  /** Decoding the digit of n gives back n, for every n in 0..63. */
  lemma DecodeEncode(n: int)
    requires 0 <= n < 64
    ensures Encode(n).Ok? && Decode(Encode(n).value) == Ok(n)
  {
    assert Alphabet()[n] == DigitChar(n);
  }

  /** Encoding the value of a digit gives back the digit: the alphabet has no repeated character. */
  lemma EncodeDecode(c: char)
    requires IsDigit(c)
    ensures Decode(c).Ok? && Encode(Decode(c).value) == Ok(c)
  {
    var n := Decode(c).value;
    assert Alphabet()[n] == DigitChar(n);
  }

  /** No digit is one of the characters the mappings string uses as separators. */
  lemma DigitIsNotSeparator(c: char)
    requires IsDigit(c)
    ensures c != ';' && c != ','
  {
  }
}

=== FILE: binary_search.dfy ===
/**
 * Module `source-map/binary-search`: a recursive search that returns an index
 * whose element compares equal to the needle or, failing that, the nearest
 * element below it.
 */
module BinarySearch {

  /**
   * What "the haystack is sorted" gives the search: walking the table from left
   * to right, the three-way comparison of the needle with each element goes
   * from positive (element below the needle) through zero to negative.
   */
  ghost predicate Monotone<N, T>(needle: N, haystack: seq<T>, compare: (N, T) -> int) {
    forall i, j :: 0 <= i < j < |haystack| ==>
      (compare(needle, haystack[j]) >= 0 ==> compare(needle, haystack[i]) >= 0) &&
      (compare(needle, haystack[j]) > 0 ==> compare(needle, haystack[i]) > 0)
  }

  /**
   * The answer the search promises: an exact match, or the greatest index
   * whose element is below the needle when there is no match, or -1 when every
   * element is above the needle.
   */
  ghost predicate NearestAtOrBefore<N, T>(needle: N, haystack: seq<T>, compare: (N, T) -> int, r: int) {
    || (r == -1 && forall i :: 0 <= i < |haystack| ==> compare(needle, haystack[i]) < 0)
    || (0 <= r < |haystack| && compare(needle, haystack[r]) == 0)
    || (0 <= r < |haystack| && compare(needle, haystack[r]) > 0 &&
        (r + 1 == |haystack| || compare(needle, haystack[r + 1]) < 0))
  }

  /**
   * `recursiveSearch`: always an index in [low, high), where only `low` may be
   * -1, and -1 only when the search ran off the low end.
   */
  function RecursiveSearch<N, T>(low: int, high: int, needle: N, haystack: seq<T>, compare: (N, T) -> int): (r: int)
    requires -1 <= low && low + 2 <= high <= |haystack|
    ensures low <= r < high && (r == -1 ==> low == -1)
    decreases high - low
  {
    var mid := (high - low) / 2 + low;
    var cmp := compare(needle, haystack[mid]);
    if cmp == 0 then
      mid
    else if cmp > 0 then
      if high - mid > 1 then RecursiveSearch(mid, high, needle, haystack, compare)
      else mid
    else
      if mid - low > 1 then RecursiveSearch(low, mid, needle, haystack, compare)
      else if low < 0 then -1
      else low
  }

  /**
   * What `recursiveSearch` promises when the haystack is ordered for the needle
   * and the indices at or below `low` hold elements below the needle, those at
   * or above `high` elements above it: the nearest element at or before the
   * needle.
   */
  lemma {:induction false} RecursiveSearchNearest<N, T>(low: int, high: int, needle: N, haystack: seq<T>, compare: (N, T) -> int)
    requires -1 <= low && low + 2 <= high <= |haystack|
    requires Monotone(needle, haystack, compare)
    requires forall i :: 0 <= i <= low ==> compare(needle, haystack[i]) > 0
    requires forall i :: high <= i < |haystack| ==> compare(needle, haystack[i]) < 0
    ensures NearestAtOrBefore(needle, haystack, compare, RecursiveSearch(low, high, needle, haystack, compare))
    decreases high - low
  {
    var mid := (high - low) / 2 + low;
    var cmp := compare(needle, haystack[mid]);
    if cmp > 0 && high - mid > 1 {
      RecursiveSearchNearest(mid, high, needle, haystack, compare);
    } else if cmp < 0 && mid - low > 1 {
      RecursiveSearchNearest(low, mid, needle, haystack, compare);
    }
  }

  lemma SearchNearest<N, T>(needle: N, haystack: seq<T>, compare: (N, T) -> int)
    requires |haystack| > 0
    ensures Monotone(needle, haystack, compare)
            ==> NearestAtOrBefore(needle, haystack, compare, RecursiveSearch(-1, |haystack|, needle, haystack, compare))
  {
    if Monotone(needle, haystack, compare) {
      RecursiveSearchNearest(-1, |haystack|, needle, haystack, compare);
    }
  }

  /**
   * `search`: -1 on an empty haystack, otherwise the recursive search over the
   * whole of it. On a haystack ordered for the needle the answer is the nearest
   * element at or before the needle.
   */
  function Search<N, T>(needle: N, haystack: seq<T>, compare: (N, T) -> int): (r: int)
    ensures -1 <= r < |haystack|
    ensures haystack == [] ==> r == -1
    ensures Monotone(needle, haystack, compare) ==> NearestAtOrBefore(needle, haystack, compare, r)
  {
    if |haystack| == 0 then -1
    else
      SearchNearest(needle, haystack, compare);
      RecursiveSearch(-1, |haystack|, needle, haystack, compare)
  }

  /**
   * What a nearest-at-or-before answer gives on an ordered haystack: -1 means
   * every element is above the needle; otherwise the element found is at or
   * below the needle and none after it is below the needle; when it is
   * strictly below, every element after it is above the needle.
   */
  lemma NearestBounds<N, T>(needle: N, haystack: seq<T>, compare: (N, T) -> int, r: int)
    requires Monotone(needle, haystack, compare) && NearestAtOrBefore(needle, haystack, compare, r)
    ensures r == -1 ==> forall i :: 0 <= i < |haystack| ==> compare(needle, haystack[i]) < 0
    ensures r >= 0 ==> compare(needle, haystack[r]) >= 0
    ensures r >= 0 ==> forall j :: r < j < |haystack| ==> compare(needle, haystack[j]) <= 0
    ensures r >= 0 && compare(needle, haystack[r]) > 0 ==>
              forall j :: r < j < |haystack| ==> compare(needle, haystack[j]) < 0
  {
    if r >= 0 && compare(needle, haystack[r]) > 0 {
      forall j | r + 1 < j < |haystack|
        ensures compare(needle, haystack[j]) < 0
      {
        assert compare(needle, haystack[r + 1]) < 0;
      }
    }
  }
}

=== FILE: consumer.dfy ===
/**
 * The source map consumers: `SourceMapConsumer`, which picks the kind of
 * consumer from the raw map, `BasicSourceMapConsumer` over one "mappings"
 * string, and `IndexedSourceMapConsumer` over a list of sections, each holding
 * a consumer of its own.
 *
 * A consumer is a value here. The source parses its "mappings" string the first
 * time a query needs the tables and keeps them; the model computes the tables
 * from the string on each query, so a parse error surfaces at query time as it
 * does in the source.
 */
module Consumers {
  import opened Wrappers
  import opened Util
  import opened Sorting
  import opened Paths
  import BinarySearch
  import ArraySets
  import MappingsCodec
  import MappingLists

  /** `_version`: the only version either consumer accepts. */
  const VERSION: int := 3

  // ---------------------------------------------------------------------------
  // The raw map, as `JSON.parse` leaves it
  // ---------------------------------------------------------------------------

  datatype RawOffset = RawOffset(line: Option<int>, column: Option<int>)

  datatype RawSection = RawSection(url: Option<string>, offset: Option<RawOffset>, sourceMap: Option<RawMap>)

  /** The `sections` field: absent, or an array of sections. */
  datatype RawSections = NoSections | Sections(list: seq<RawSection>)

  /** A field that is absent is None; `version` is taken to be a number. */
  datatype RawMap = RawMap(
    version: Option<int>,
    file: Option<string>,
    sourceRoot: Option<string>,
    sources: Option<seq<string>>,
    names: Option<seq<string>>,
    sourcesContent: Option<seq<Option<string>>>,
    mappings: Option<string>,
    sections: RawSections)

  // ---------------------------------------------------------------------------
  // Consumers
  // ---------------------------------------------------------------------------

  datatype Consumer =
    | Basic(
        file: Option<string>,
        sourceRoot: Option<string>,
        sourcesContent: Option<seq<Option<string>>>,
        sources: seq<string>,     // the array of the `_sources` set
        names: seq<string>,       // the array of the `_names` set
        mappings: string)
    | Indexed(sections: seq<Section>)

  /** A section: its `generatedOffset` (the offset plus one, line and column alike) and its consumer. */
  datatype Section = Section(generatedLine: int, generatedColumn: int, consumer: Consumer)

  /** `util.getArg` without a default: the value, or an error naming the missing field. */
  function GetArg<T>(o: Option<T>, name: string): Result<T> {
    if o.Some? then Ok(o.value) else Err(MissingArgument(name))
  }

  /** JavaScript truthiness of an optional string: present and not empty. */
  predicate Truthy(s: Option<string>) {
    s.Some? && s.value != ""
  }

  function MapSeq(f: string -> string, s: seq<string>): (r: seq<string>)
    ensures |r| == |s| && forall i :: 0 <= i < |s| ==> r[i] == f(s[i])
  {
    seq(|s|, i requires 0 <= i < |s| => f(s[i]))
  }

  /** `new SourceMapConsumer(map)`: an indexed consumer when the map has sections, a basic one otherwise. */
  function NewConsumer(raw: RawMap, paths: PathOps): (r: Result<Consumer>)
    ensures r.Ok? ==> raw.version == Some(VERSION) && (r.value.Indexed? <==> raw.sections.Sections?)
    ensures raw.version.None? ==> r == Err(MissingArgument("version"))
    decreases raw, 2
  {
    if raw.sections.Sections? then NewIndexed(raw, paths) else NewBasic(raw, paths)
  }

  /**
   * `new BasicSourceMapConsumer(map)`: `version`, `sources` and `mappings` are
   * required, `names` defaults to the empty array; the version must be 3. The
   * sources are normalised, and both arrays become sets that keep duplicates.
   */
  function NewBasic(raw: RawMap, paths: PathOps): (r: Result<Consumer>)
    ensures r.Ok? <==> raw.version == Some(VERSION) && raw.sources.Some? && raw.mappings.Some?
    ensures raw.version.None? ==> r == Err(MissingArgument("version"))
    ensures raw.version.Some? && raw.sources.None? ==> r == Err(MissingArgument("sources"))
    ensures raw.version.Some? && raw.sources.Some? && raw.mappings.None? ==> r == Err(MissingArgument("mappings"))
    ensures raw.version.Some? && raw.sources.Some? && raw.mappings.Some? && raw.version.value != VERSION ==>
              r == Err(UnsupportedVersion(raw.version.value))
    ensures r.Ok? ==>
              && r.value.Basic? && r.value.mappings == raw.mappings.value
              && r.value.file == raw.file && r.value.sourceRoot == raw.sourceRoot
              && |r.value.sources| == |raw.sources.value|
              && (forall k :: 0 <= k < |raw.sources.value| ==> r.value.sources[k] == paths.normalize(raw.sources.value[k]))
              && r.value.names == (if raw.names.Some? then raw.names.value else [])
  {
    var version :- GetArg(raw.version, "version");
    var sources :- GetArg(raw.sources, "sources");
    var mappings :- GetArg(raw.mappings, "mappings");
    if version != VERSION then Err(UnsupportedVersion(version))
    else
      var names := if raw.names.Some? then raw.names.value else [];
      Ok(Basic(raw.file, raw.sourceRoot, raw.sourcesContent,
               ArraySets.Added(MapSeq(paths.normalize, sources), true),
               ArraySets.Added(names, true), mappings))
  }

  /** `new IndexedSourceMapConsumer(map)`: the version must be 3, then the sections are read in order. */
  function NewIndexed(raw: RawMap, paths: PathOps): (r: Result<Consumer>)
    requires raw.sections.Sections?
    ensures raw.version.None? ==> r == Err(MissingArgument("version"))
    ensures raw.version.Some? && raw.version.value != VERSION ==> r == Err(UnsupportedVersion(raw.version.value))
    ensures r.Ok? ==> raw.version == Some(VERSION) && r.value.Indexed?
    decreases raw, 1
  {
    var version :- GetArg(raw.version, "version");
    if version != VERSION then Err(UnsupportedVersion(version))
    else
      var sections :- NewSections(raw, 0, -1, 0, paths);
      Ok(Indexed(sections))
  }

  /**
   * The sections from index i on, the previous offset being (lastLine,
   * lastColumn): a section with a url is refused, an offset before the previous
   * one is refused, and each section's map becomes a consumer of its own.
   */
  function NewSections(raw: RawMap, i: nat, lastLine: int, lastColumn: int, paths: PathOps): (r: Result<seq<Section>>)
    requires raw.sections.Sections? && i <= |raw.sections.list|
    ensures r.Ok? ==> |r.value| == |raw.sections.list| - i
    ensures r.Ok? ==> forall k :: i <= k < |raw.sections.list| ==> !Truthy(raw.sections.list[k].url)
    decreases raw, 0, |raw.sections.list| - i
  {
    var ss := raw.sections.list;
    if i == |ss| then Ok([])
    else
      var s := ss[i];
      if Truthy(s.url) then Err(SectionUrlUnsupported)
      else
        var offset :- GetArg(s.offset, "offset");
        var line :- GetArg(offset.line, "line");
        var column :- GetArg(offset.column, "column");
        if line < lastLine || (line == lastLine && column < lastColumn) then Err(UnorderedSections)
        else
          var sectionMap :- GetArg(s.sourceMap, "map");
          assert ss[i] == s && s.sourceMap == Some(sectionMap);
          var consumer :- NewConsumer(sectionMap, paths);
          var rest :- NewSections(raw, i + 1, line, column, paths);
          Ok([Section(line + 1, column + 1, consumer)] + rest)
  }

  /** Section a starts at or before section b. */
  predicate SectionAtMost(a: Section, b: Section) {
    a.generatedLine < b.generatedLine || (a.generatedLine == b.generatedLine && a.generatedColumn <= b.generatedColumn)
  }

  ghost predicate SectionsOrdered(ss: seq<Section>) {
    forall i, j :: 0 <= i < j < |ss| ==> SectionAtMost(ss[i], ss[j])
  }

  /** The sections a successful read produces start after the previous offset and are in order. */
  lemma {:induction false} NewSectionsOrdered(raw: RawMap, i: nat, lastLine: int, lastColumn: int, paths: PathOps)
    requires raw.sections.Sections? && i <= |raw.sections.list|
    requires NewSections(raw, i, lastLine, lastColumn, paths).Ok?
    ensures var ss := NewSections(raw, i, lastLine, lastColumn, paths).value;
            && |ss| == |raw.sections.list| - i
            && SectionsOrdered(ss)
            && forall k :: 0 <= k < |ss| ==> SectionAtMost(Section(lastLine + 1, lastColumn + 1, Indexed([])), ss[k])
    decreases |raw.sections.list| - i
  {
    var ss := raw.sections.list;
    if i < |ss| {
      var offset := ss[i].offset.value;
      var line, column := offset.line.value, offset.column.value;
      NewSectionsOrdered(raw, i + 1, line, column, paths);
    }
  }

  /**
   * The constructor's checks: a map with sections yields an indexed consumer
   * whose sections have one entry per raw section, in offset order; a map
   * without yields a basic consumer; a version other than 3 is refused.
   */
  lemma NewConsumerShape(raw: RawMap, paths: PathOps)
    requires NewConsumer(raw, paths).Ok?
    ensures raw.version == Some(VERSION)
    ensures var c := NewConsumer(raw, paths).value;
            && (raw.sections.Sections? <==> c.Indexed?)
            && (c.Indexed? ==> |c.sections| == |raw.sections.list| && SectionsOrdered(c.sections))
            && (c.Basic? ==> c.mappings == raw.mappings.value && |c.sources| == |raw.sources.value|)
  {
    if raw.sections.Sections? {
      NewSectionsOrdered(raw, 0, -1, 0, paths);
    }
  }

  /** A raw section the reader gets past the url and offset checks of: no url, and an offset with a line and a column. */
  predicate Placed(s: RawSection) {
    !Truthy(s.url) && s.offset.Some? && s.offset.value.line.Some? && s.offset.value.column.Some?
  }

  function OffsetOf(s: RawSection): (int, int)
    requires Placed(s)
  {
    (s.offset.value.line.value, s.offset.value.column.value)
  }

  /** Offset a comes before offset b: an earlier line, or the same line and an earlier column. */
  predicate OffsetBefore(a: (int, int), b: (int, int)) {
    a.0 < b.0 || (a.0 == b.0 && a.1 < b.1)
  }

  /**
   * Reading from section i on, with (lastLine, lastColumn) the previous
   * offset: when sections i..j are accepted and in order and section j + 1
   * comes before its predecessor, the read is refused as unordered.
   */
  lemma {:induction false} SectionsRefusedFrom(raw: RawMap, i: nat, j: nat, lastLine: int, lastColumn: int, paths: PathOps)
    requires raw.sections.Sections? && i <= j + 1 < |raw.sections.list|
    requires forall k :: i <= k <= j + 1 ==> Placed(raw.sections.list[k])
    requires forall k :: i <= k <= j ==>
               raw.sections.list[k].sourceMap.Some? && NewConsumer(raw.sections.list[k].sourceMap.value, paths).Ok?
    requires i <= j ==> !OffsetBefore(OffsetOf(raw.sections.list[i]), (lastLine, lastColumn))
    requires forall k :: i < k <= j ==> !OffsetBefore(OffsetOf(raw.sections.list[k]), OffsetOf(raw.sections.list[k - 1]))
    requires i <= j ==> OffsetBefore(OffsetOf(raw.sections.list[j + 1]), OffsetOf(raw.sections.list[j]))
    requires i == j + 1 ==> OffsetBefore(OffsetOf(raw.sections.list[i]), (lastLine, lastColumn))
    ensures NewSections(raw, i, lastLine, lastColumn, paths) == Err(UnorderedSections)
    decreases j + 1 - i
  {
    var ss := raw.sections.list;
    if i <= j {
      var o := OffsetOf(ss[i]);
      SectionsRefusedFrom(raw, i + 1, j, o.0, o.1, paths);
    }
  }

  /**
   * A section whose offset comes before the previous section's is refused with
   * the unordered-sections error, when every section before it is accepted:
   * its offset is present and in order and its map is accepted.
   */
  lemma UnorderedSectionsRefused(raw: RawMap, j: nat, paths: PathOps)
    requires raw.version == Some(VERSION) && raw.sections.Sections? && j + 1 < |raw.sections.list|
    requires forall k :: 0 <= k <= j + 1 ==> Placed(raw.sections.list[k])
    requires forall k :: 0 <= k <= j ==>
               raw.sections.list[k].sourceMap.Some? && NewConsumer(raw.sections.list[k].sourceMap.value, paths).Ok?
    requires !OffsetBefore(OffsetOf(raw.sections.list[0]), (-1, 0))
    requires forall k :: 0 < k <= j ==> !OffsetBefore(OffsetOf(raw.sections.list[k]), OffsetOf(raw.sections.list[k - 1]))
    requires OffsetBefore(OffsetOf(raw.sections.list[j + 1]), OffsetOf(raw.sections.list[j]))
    ensures NewConsumer(raw, paths) == Err(UnorderedSections)
  {
    SectionsRefusedFrom(raw, 0, j, -1, 0, paths);
    assert NewIndexed(raw, paths) == Err(UnorderedSections);
  }

  // ---------------------------------------------------------------------------
  // The tables
  // ---------------------------------------------------------------------------

  /** The mappings that carry an original line: the ones `_parseMappings` also pushes to the original table. */
  function WithOriginal(ms: seq<Mapping>): (r: seq<Mapping>)
    ensures forall x :: x in r <==> x in ms && x.originalLine.Some?
    ensures |r| <= |ms|
  {
    if ms == [] then []
    else (if ms[0].originalLine.Some? then [ms[0]] else []) + WithOriginal(ms[1..])
  }

  /** `__generatedMappings` and `__originalMappings`. */
  datatype Tables = Tables(generated: seq<Mapping>, original: seq<Mapping>)

  /** The two tables built from a list of mappings in the order read: each sorted by its own comparator. */
  function SortedTables(ms: seq<Mapping>): (r: Tables)
    ensures multiset(r.generated) == multiset(ms)
    ensures multiset(r.original) == multiset(WithOriginal(ms))
  {
    Tables(Sort(ByGenerated, ms), Sort(ByOriginal, WithOriginal(ms)))
  }

  lemma SortedTablesSorted(ms: seq<Mapping>)
    ensures Sorted(ByGenerated, SortedTables(ms).generated)
    ensures Sorted(ByOriginal, SortedTables(ms).original)
    ensures forall x :: x in SortedTables(ms).original <==> x in ms && x.originalLine.Some?
  {
    SortSorted(ByGenerated, ms);
    SortSorted(ByOriginal, WithOriginal(ms));
    forall x
      ensures x in SortedTables(ms).original <==> x in WithOriginal(ms)
    {
      assert x in SortedTables(ms).original <==> x in multiset(SortedTables(ms).original);
    }
  }

  /** The tables of a basic consumer: its "mappings" string parsed with its sources and names, then sorted. */
  function BasicTables(c: Consumer): Result<Tables>
    requires c.Basic?
  {
    var ms :- MappingsCodec.Parse(c.mappings, c.sources, c.names);
    Ok(SortedTables(ms))
  }

  // ---------------------------------------------------------------------------
  // Positions relative to a section
  // ---------------------------------------------------------------------------

  /** A column as the library sees it: a number, or `Infinity`. */
  datatype Column = At(n: int) | Infinity

  /** A mapping's source joined to the source root, when both are there (`util.join`). */
  function JoinRoot(sourceRoot: Option<string>, source: Option<string>, paths: PathOps): (r: Option<string>)
    ensures r.Some? <==> source.Some?
    ensures sourceRoot.None? ==> r == source
  {
    if source.Some? && sourceRoot.Some? then Some(paths.join(sourceRoot.value, source.value)) else source
  }

  /**
   * The section starts at or before the generated position. Columns count from
   * 0 while a section's `generatedColumn` is its offset column plus one, so the
   * section's first column is `generatedColumn - 1`.
   */
  predicate StartsAtOrBefore(s: Section, line: int, column: int) {
    s.generatedLine < line || (s.generatedLine == line && s.generatedColumn - 1 <= column)
  }

  /**
   * The indexed `originalPositionFor`'s shift: a generated position of the
   * whole file as a position of the section's own map. Lines count from the
   * section's first line; the column moves only on that first line.
   */
  function ToSection(s: Section, line: int, column: int): (int, int) {
    (line - (s.generatedLine - 1), column - (if s.generatedLine == line then s.generatedColumn - 1 else 0))
  }

  /**
   * The shift the other way, which the indexed table needs: a position of the
   * section's own map as a position of the whole file. Its column moves when
   * the position is on the map's first line.
   */
  function FromSection(s: Section, line: int, column: int): (int, int) {
    (line + (s.generatedLine - 1), column + (if line == 1 then s.generatedColumn - 1 else 0))
  }

  /**
   * The two shifts undo each other: on positions of the section's own map from
   * line 1 on, and on positions of the whole file at or after the section's
   * start, which land on line 1 or later of the section's map.
   */
  lemma SectionShiftRoundTrip(s: Section, line: int, column: int)
    ensures line >= 1 ==> var p := FromSection(s, line, column);
                         StartsAtOrBefore(s, p.0, p.1) <==> (line > 1 || column >= 0)
    ensures line >= 1 ==> var p := FromSection(s, line, column); ToSection(s, p.0, p.1) == (line, column)
    ensures StartsAtOrBefore(s, line, column) ==> var q := ToSection(s, line, column);
            q.0 >= 1 && FromSection(s, q.0, q.1) == (line, column)
  {
  }

  // ---------------------------------------------------------------------------
  // The tables of any consumer
  // ---------------------------------------------------------------------------

  /**
   * A record of a section's map moved into the whole file: generated position
   * shifted by the section's offset, source joined to the section map's root.
   */
  function Adjust(m: Mapping, s: Section, sourceRoot: Option<string>, paths: PathOps): (r: Mapping)
    ensures (r.generatedLine, r.generatedColumn) == FromSection(s, m.generatedLine, m.generatedColumn)
    ensures r.originalLine == m.originalLine && r.originalColumn == m.originalColumn && r.name == m.name
    ensures r.source == JoinRoot(sourceRoot, m.source, paths)
  {
    var p := FromSection(s, m.generatedLine, m.generatedColumn);
    Mapping(p.0, p.1, JoinRoot(sourceRoot, m.source, paths), m.originalLine, m.originalColumn, m.name)
  }

  /**
   * A section's record moved into the whole file lies at or after the
   * section's start, and the shift of the indexed `originalPositionFor` takes
   * it back to the record's own position.
   */
  lemma AdjustReadBack(m: Mapping, s: Section, sourceRoot: Option<string>, paths: PathOps)
    requires m.generatedLine >= 1 && m.generatedColumn >= 0
    ensures var r := Adjust(m, s, sourceRoot, paths);
            && StartsAtOrBefore(s, r.generatedLine, r.generatedColumn)
            && ToSection(s, r.generatedLine, r.generatedColumn) == (m.generatedLine, m.generatedColumn)
  {
    SectionShiftRoundTrip(s, m.generatedLine, m.generatedColumn);
  }

  /** The source root a section's consumer has: an indexed consumer has none. */
  function RootOf(c: Consumer): Option<string> {
    if c.Basic? then c.sourceRoot else None
  }

  function AdjustAll(ms: seq<Mapping>, s: Section, sourceRoot: Option<string>, paths: PathOps): (r: seq<Mapping>)
    ensures |r| == |ms| && forall k :: 0 <= k < |ms| ==> r[k] == Adjust(ms[k], s, sourceRoot, paths)
  {
    seq(|ms|, k requires 0 <= k < |ms| => Adjust(ms[k], s, sourceRoot, paths))
  }

  /**
   * `_generatedMappings` and `_originalMappings` of any consumer. A basic one
   * parses its string; an indexed one gathers the generated table of every
   * section, each record moved into the whole file, then sorts both tables.
   */
  function ConsumerTables(c: Consumer, paths: PathOps): Result<Tables>
    decreases c, 1
  {
    match c
    case Basic(_, _, _, _, _, _) => BasicTables(c)
    case Indexed(_) =>
      var ms :- SectionMappings(c, 0, paths);
      Ok(SortedTables(ms))
  }

  /** The records of sections i and later, in section order, each moved into the whole file. */
  function SectionMappings(c: Consumer, i: nat, paths: PathOps): (r: Result<seq<Mapping>>)
    requires c.Indexed? && i <= |c.sections|
    decreases c, 0, |c.sections| - i
  {
    if i == |c.sections| then Ok([])
    else
      var s := c.sections[i];
      assert s in c.sections;
      var child :- ConsumerTables(s.consumer, paths);
      var rest :- SectionMappings(c, i + 1, paths);
      Ok(AdjustAll(child.generated, s, RootOf(s.consumer), paths) + rest)
  }

  /**
   * The tables of any consumer come out sorted, each by its own comparator;
   * a basic consumer's fail exactly when its "mappings" string does not parse.
   */
  lemma TablesSorted(c: Consumer, paths: PathOps)
    ensures c.Basic? ==> (BasicTables(c).Ok? <==> MappingsCodec.Parse(c.mappings, c.sources, c.names).Ok?)
    ensures ConsumerTables(c, paths).Ok? ==>
              var t := ConsumerTables(c, paths).value;
              Sorted(ByGenerated, t.generated) && Sorted(ByOriginal, t.original)
  {
    if c.Basic? {
      var p := MappingsCodec.Parse(c.mappings, c.sources, c.names);
      if p.Ok? {
        SortedTablesSorted(p.value);
      }
    } else if SectionMappings(c, 0, paths).Ok? {
      SortedTablesSorted(SectionMappings(c, 0, paths).value);
    }
  }

  /** Record x is a record of section k's table moved into the whole file. */
  ghost predicate FromSectionTable(c: Consumer, k: nat, x: Mapping, paths: PathOps)
    requires c.Indexed? && k < |c.sections|
  {
    var s := c.sections[k];
    && ConsumerTables(s.consumer, paths).Ok?
    && x in AdjustAll(ConsumerTables(s.consumer, paths).value.generated, s, RootOf(s.consumer), paths)
  }

  /** One step of the gathering: section i's records, then those of the later sections. */
  lemma SectionMappingsStep(c: Consumer, i: nat, paths: PathOps)
    requires c.Indexed? && i < |c.sections|
    requires SectionMappings(c, i, paths).Ok?
    ensures ConsumerTables(c.sections[i].consumer, paths).Ok? && SectionMappings(c, i + 1, paths).Ok?
    ensures SectionMappings(c, i, paths).value
         == AdjustAll(ConsumerTables(c.sections[i].consumer, paths).value.generated, c.sections[i],
                      RootOf(c.sections[i].consumer), paths)
            + SectionMappings(c, i + 1, paths).value
  {
  }

  /** Every record gathered from sections i and later comes from the table of one of them. */
  lemma {:induction false} SectionMappingsFrom(c: Consumer, i: nat, paths: PathOps)
    requires c.Indexed? && i <= |c.sections|
    requires SectionMappings(c, i, paths).Ok?
    ensures forall x :: x in SectionMappings(c, i, paths).value ==>
              exists k :: i <= k < |c.sections| && FromSectionTable(c, k, x, paths)
    decreases |c.sections| - i
  {
    if i < |c.sections| {
      SectionMappingsStep(c, i, paths);
      SectionMappingsFrom(c, i + 1, paths);
      var s := c.sections[i];
      var adjusted := AdjustAll(ConsumerTables(s.consumer, paths).value.generated, s, RootOf(s.consumer), paths);
      forall x | x in SectionMappings(c, i, paths).value
        ensures exists k :: i <= k < |c.sections| && FromSectionTable(c, k, x, paths)
      {
        if x in adjusted {
          assert FromSectionTable(c, i, x, paths);
        } else {
          assert x in SectionMappings(c, i + 1, paths).value;
        }
      }
    }
  }

  /**
   * `IndexedSourceMapConsumer._parseMappings` as written, for the j-th pass
   * over section i: it reads `sectionMappings[i]` whatever j is, which is
   * undefined once i reaches the length of the child's table, and its column
   * parses as `(mapping.column + test) ? offset : 0`; records have no `column`
   * field, the sum is NaN, which is falsy, so every column becomes 0.
   */
  function AdjustAsWritten(child: seq<Mapping>, i: nat, s: Section, sourceRoot: Option<string>, paths: PathOps): (r: Result<Mapping>)
    ensures r.Ok? <==> i < |child|
    ensures r.Ok? ==> r.value.generatedColumn == 0 && r.value.generatedLine == child[i].generatedLine + (s.generatedLine - 1)
  {
    if i >= |child| then Err(UndefinedMapping)
    else
      var m := child[i];
      Ok(Mapping(m.generatedLine + (s.generatedLine - 1), 0, JoinRoot(sourceRoot, m.source, paths),
                 m.originalLine, m.originalColumn, m.name))
  }

  /** The records the as-written loop pushes for section i: as many copies of one record as the child's table has. */
  function SectionAsWritten(child: seq<Mapping>, i: nat, s: Section, sourceRoot: Option<string>, paths: PathOps): (r: Result<seq<Mapping>>)
    ensures r.Ok? ==> |r.value| == |child|
    ensures child == [] ==> r == Ok([])
  {
    if child == [] then Ok([])
    else
      var m :- AdjustAsWritten(child, i, s, sourceRoot, paths);
      Ok(seq(|child|, _ => m))
  }

  /**
   * What the as-written loop loses: a first section whose map has two records
   * on its first line yields the first record twice, at column 0, instead of
   * both records at their columns; a second section whose map has one record
   * makes the loop fail.
   */
  lemma IndexedTableAsWrittenLoses(paths: PathOps)
    ensures var s0 := Section(1, 1, Indexed([]));
            var a := Mapping(1, 0, None, None, None, None);
            var b := Mapping(1, 4, None, None, None, None);
            && SectionAsWritten([a, b], 0, s0, None, paths) == Ok([a, a])
            && AdjustAll([a, b], s0, None, paths) == [a, b]
    ensures var s1 := Section(3, 11, Indexed([]));
            var a := Mapping(1, 0, None, None, None, None);
            && SectionAsWritten([a], 1, s1, None, paths) == Err(UndefinedMapping)
            && AdjustAll([a], s1, None, paths) == [Mapping(3, 10, None, None, None, None)]
  {
    var s0 := Section(1, 1, Indexed([]));
    var a := Mapping(1, 0, None, None, None, None);
    var b := Mapping(1, 4, None, None, None, None);
    assert SectionAsWritten([a, b], 0, s0, None, paths).value == [a, a];
    assert AdjustAll([a, b], s0, None, paths) == [Adjust(a, s0, None, paths), Adjust(b, s0, None, paths)];
  }

  // ---------------------------------------------------------------------------
  // The `sources` getter
  // ---------------------------------------------------------------------------

  /**
   * `sources`: a basic consumer's sources, each joined to the source root when
   * there is one; an indexed consumer's, those of its sections in order.
   */
  function Sources(c: Consumer, paths: PathOps): (r: seq<string>)
    decreases c, 1
  {
    match c
    case Basic(_, sourceRoot, _, sources, _, _) =>
      if sourceRoot.Some? then MapSeq(s => paths.join(sourceRoot.value, s), sources) else sources
    case Indexed(_) => SectionSources(c, 0, paths)
  }

  function SectionSources(c: Consumer, i: nat, paths: PathOps): (r: seq<string>)
    requires c.Indexed? && i <= |c.sections|
    decreases c, 0, |c.sections| - i
  {
    if i == |c.sections| then []
    else
      assert c.sections[i] in c.sections;
      Sources(c.sections[i].consumer, paths) + SectionSources(c, i + 1, paths)
  }

  /**
   * A basic consumer lists one source per entry of its map, unchanged without a
   * source root; an indexed consumer lists exactly the sources of its sections.
   */
  lemma SourcesOfBasic(c: Consumer, paths: PathOps)
    requires c.Basic?
    ensures |Sources(c, paths)| == |c.sources|
    ensures c.sourceRoot.None? ==> Sources(c, paths) == c.sources
    ensures c.sourceRoot.Some? ==> forall k :: 0 <= k < |c.sources| ==> Sources(c, paths)[k] == paths.join(c.sourceRoot.value, c.sources[k])
  {
  }

  lemma {:induction false} SectionSourcesMembers(c: Consumer, i: nat, paths: PathOps)
    requires c.Indexed? && i <= |c.sections|
    ensures forall x :: x in SectionSources(c, i, paths) <==> exists k :: i <= k < |c.sections| && x in Sources(c.sections[k].consumer, paths)
    decreases |c.sections| - i
  {
    if i < |c.sections| {
      SectionSourcesMembers(c, i + 1, paths);
    }
  }
}

=== FILE: consumer_contents.dfy ===
/**
 * `sourceContentFor` of both consumers: the content a map embeds for one of
 * its sources, looked up by name with the source-root fallbacks of the basic
 * consumer, and section by section in the indexed one.
 */
module ConsumerContents {
  import opened Wrappers
  import opened Paths
  import opened Consumers
  import ArraySets

  /** What a basic consumer's lookup comes to before `nullOnMissing` is consulted. */
  datatype Lookup =
    | NoContents                       // the map has no `sourcesContent`
    | Found(content: Option<string>)   // the entry of the source, null or undefined as None
    | Missing(source: string)          // no source of that name, after the fallbacks

  /** `sourcesContent[i]`: an index past the end reads `undefined`. */
  function ContentAt(contents: seq<Option<string>>, i: nat): (r: Option<string>)
    ensures i < |contents| ==> r == contents[i]
    ensures i >= |contents| ==> r == None
  {
    if i < |contents| then contents[i] else None
  }

  /** The entry of a source known to be in the set: the content at its first index. */
  function EntryOf(c: Consumer, s: string): (r: Option<string>)
    requires c.Basic? && c.sourcesContent.Some? && s in c.sources
  {
    ContentAt(c.sourcesContent.value, ArraySets.FirstIndex(c.sources, s).value)
  }

  /**
   * The lookup of a basic consumer: nothing without `sourcesContent`; the
   * source is made relative to the source root; it is looked up as is, then,
   * when the root parses as a URL, without a leading "file://" for a "file"
   * root and with a leading "/" for a root without a path or with path "/".
   */
  function BasicLookup(c: Consumer, source: string, paths: PathOps): (r: Lookup)
    requires c.Basic?
    ensures c.sourcesContent.None? <==> r == NoContents
    ensures c.sourcesContent.Some? && c.sourceRoot.None? ==>
              if source in c.sources then r == Found(EntryOf(c, source)) else r == Missing(source)
    ensures r.Found? ==> exists s :: s in c.sources && r.content == EntryOf(c, s)
  {
    if c.sourcesContent.None? then NoContents
    else
      var s := if c.sourceRoot.Some? then paths.relative(c.sourceRoot.value, source) else source;
      if s in c.sources then Found(EntryOf(c, s))
      else
        var url := if c.sourceRoot.Some? then paths.urlParse(c.sourceRoot.value) else None;
        var fileUriAbsPath := StripFileScheme(s);
        if url.Some? && url.value.scheme == "file" && fileUriAbsPath in c.sources then
          Found(EntryOf(c, fileUriAbsPath))
        else if url.Some? && (url.value.path == "" || url.value.path == "/") && "/" + s in c.sources then
          Found(EntryOf(c, "/" + s))
        else Missing(s)
  }

  /**
   * `sourceContentFor(source, nullOnMissing)`. A basic consumer answers its
   * lookup, a missing source being null with `nullOnMissing` and an error
   * otherwise. An indexed consumer answers the first truthy content its
   * sections give, asked with `nullOnMissing` set, then null or the error.
   */
  function SourceContentFor(c: Consumer, source: string, nullOnMissing: bool, paths: PathOps): (r: Result<Option<string>>)
    ensures nullOnMissing ==> r.Ok?
    ensures r.Err? ==> r.error.SourceNotInMap?
    decreases c, 1
  {
    match c
    case Basic(_, _, _, _, _, _) =>
      (match BasicLookup(c, source, paths)
       case NoContents => Ok(None)
       case Found(content) => Ok(content)
       case Missing(s) => if nullOnMissing then Ok(None) else Err(SourceNotInMap(s)))
    case Indexed(_) =>
      var content := SectionContent(c, 0, source, paths);
      if content.Some? then Ok(content)
      else if nullOnMissing then Ok(None)
      else Err(SourceNotInMap(source))
  }

  /** The first truthy content among the sections from index i on, each asked with `nullOnMissing`. */
  function SectionContent(c: Consumer, i: nat, source: string, paths: PathOps): (r: Option<string>)
    requires c.Indexed? && i <= |c.sections|
    ensures r.Some? ==> Truthy(r)
    decreases c, 0, |c.sections| - i
  {
    if i == |c.sections| then None
    else
      assert c.sections[i] in c.sections;
      var content := SourceContentFor(c.sections[i].consumer, source, true, paths).value;
      if Truthy(content) then content else SectionContent(c, i + 1, source, paths)
  }

  /** The content a section gives, asked with `nullOnMissing`. */
  function ContentOfSection(c: Consumer, k: nat, source: string, paths: PathOps): (r: Option<string>)
    requires c.Indexed? && k < |c.sections|
  {
    SourceContentFor(c.sections[k].consumer, source, true, paths).value
  }

  /**
   * The sections' answer is the content of the first section from i on whose
   * content is truthy, and nothing when no such section exists.
   */
  lemma {:induction false} SectionContentFirst(c: Consumer, i: nat, source: string, paths: PathOps)
    requires c.Indexed? && i <= |c.sections|
    ensures SectionContent(c, i, source, paths).None? <==>
              forall k :: i <= k < |c.sections| ==> !Truthy(ContentOfSection(c, k, source, paths))
    ensures SectionContent(c, i, source, paths).Some? ==>
              exists k :: i <= k < |c.sections|
                && SectionContent(c, i, source, paths) == ContentOfSection(c, k, source, paths)
                && forall j :: i <= j < k ==> !Truthy(ContentOfSection(c, j, source, paths))
    decreases |c.sections| - i
  {
    if i < |c.sections| {
      SectionContentFirst(c, i + 1, source, paths);
      if !Truthy(ContentOfSection(c, i, source, paths)) && SectionContent(c, i + 1, source, paths).Some? {
        var k :| i + 1 <= k < |c.sections|
                 && SectionContent(c, i + 1, source, paths) == ContentOfSection(c, k, source, paths)
                 && forall j :: i + 1 <= j < k ==> !Truthy(ContentOfSection(c, j, source, paths));
        assert forall j :: i <= j < k ==> !Truthy(ContentOfSection(c, j, source, paths));
      }
    }
  }

  /**
   * A basic consumer without a source root answers the entry of a source it
   * lists; for one it does not list, null with `nullOnMissing` and the error
   * naming it otherwise; and null whenever the map embeds no content.
   */
  lemma BasicContent(c: Consumer, source: string, nullOnMissing: bool, paths: PathOps)
    requires c.Basic? && c.sourceRoot.None?
    ensures c.sourcesContent.None? ==> SourceContentFor(c, source, nullOnMissing, paths) == Ok(None)
    ensures c.sourcesContent.Some? && source in c.sources ==>
              SourceContentFor(c, source, nullOnMissing, paths) == Ok(EntryOf(c, source))
    ensures c.sourcesContent.Some? && source !in c.sources ==>
              SourceContentFor(c, source, nullOnMissing, paths) ==
                (if nullOnMissing then Ok(None) else Err(SourceNotInMap(source)))
  {
  }

  /**
   * An indexed consumer errs exactly when no section has truthy content and
   * `nullOnMissing` is unset; otherwise it answers the first section's truthy
   * content, or null.
   */
  lemma IndexedContent(c: Consumer, source: string, nullOnMissing: bool, paths: PathOps)
    requires c.Indexed?
    ensures SourceContentFor(c, source, nullOnMissing, paths).Err? <==>
              !nullOnMissing && forall k :: 0 <= k < |c.sections| ==> !Truthy(ContentOfSection(c, k, source, paths))
    ensures SourceContentFor(c, source, nullOnMissing, paths).Ok? ==>
              var r := SourceContentFor(c, source, nullOnMissing, paths).value;
              || (r.None? && forall k :: 0 <= k < |c.sections| ==> !Truthy(ContentOfSection(c, k, source, paths)))
              || (exists k :: 0 <= k < |c.sections| && r == ContentOfSection(c, k, source, paths) && Truthy(r)
                    && forall j :: 0 <= j < k ==> !Truthy(ContentOfSection(c, j, source, paths)))
  {
    SectionContentFirst(c, 0, source, paths);
  }
}

=== FILE: consumer_parse.dfy ===
/**
 * `BasicSourceMapConsumer.prototype._parseMappings`: the scanning loop that
 * reads a "mappings" string segment by segment into the generated table and,
 * for records with an original position, the original table, then sorts both.
 */
module ConsumerParsing {
  import opened Wrappers
  import opened Util
  import opened Consumers
  import opened MappingsCodec

  /** One step of the reader at the front of a non-empty string. */
  lemma ParseStep(s: string, c: Cursor, sources: seq<string>, names: seq<string>)
    requires |s| > 0
    ensures s[0] == ';' ==>
              ParseFrom(s, c, sources, names) == ParseFrom(s[1..], c.(generatedLine := c.generatedLine + 1, generatedColumn := 0), sources, names)
    ensures s[0] == ',' ==> ParseFrom(s, c, sources, names) == ParseFrom(s[1..], c, sources, names)
    ensures s[0] != ';' && s[0] != ',' ==>
              var segment := DecodeSegment(s, c, sources, names);
              && (segment.Err? ==> ParseFrom(s, c, sources, names) == Err(segment.error))
              && (segment.Ok? ==>
                    ParseFrom(s, c, sources, names) == Prefixed([segment.value.0], ParseFrom(segment.value.2, segment.value.1, sources, names)))
  {
  }

  /** Pushing a record keeps the original table the records with an original line, in order. */
  lemma {:induction false} WithOriginalSnoc(ms: seq<Mapping>, m: Mapping)
    ensures WithOriginal(ms + [m]) == WithOriginal(ms) + (if m.originalLine.Some? then [m] else [])
  {
    if ms != [] {
      assert (ms + [m])[1..] == ms[1..] + [m];
      WithOriginalSnoc(ms[1..], m);
    } else {
      assert WithOriginal([]) == [];
      assert [m][1..] == [];
    }
  }

  /**
   * `_parseMappings(mappings)`: walks the string with the running cursor,
   * moving to a new line on ';', skipping ',' and reading a segment anywhere
   * else; each record goes to the generated table and, when it has an original
   * line, to the original table. The tables, once sorted, are those of the
   * string as a whole, and a malformed segment fails with the error the reader
   * gives.
   */
  method ParseMappings(mappings: string, sources: seq<string>, names: seq<string>) returns (r: Result<Tables>)
    ensures Parse(mappings, sources, names).Ok? ==> r == Ok(SortedTables(Parse(mappings, sources, names).value))
    ensures Parse(mappings, sources, names).Err? ==> r == Err(Parse(mappings, sources, names).error)
  {
    var generated: seq<Mapping> := [];
    var original: seq<Mapping> := [];
    var str := mappings;
    var cursor := Start;
    assert Parse(mappings, sources, names).Ok? ==> [] + Parse(mappings, sources, names).value == Parse(mappings, sources, names).value;
    while |str| > 0
      invariant Parse(mappings, sources, names) == Prefixed(generated, ParseFrom(str, cursor, sources, names))
      invariant original == WithOriginal(generated)
      decreases |str|
    {
      ParseStep(str, cursor, sources, names);
      if str[0] == ';' {
        cursor := cursor.(generatedLine := cursor.generatedLine + 1, generatedColumn := 0);
        str := str[1..];
      } else if str[0] == ',' {
        str := str[1..];
      } else {
        var segment := DecodeSegment(str, cursor, sources, names);
        if segment.Err? {
          return Err(segment.error);
        }
        var mapping := segment.value.0;
        PrefixedTwice(generated, [mapping], ParseFrom(segment.value.2, segment.value.1, sources, names));
        WithOriginalSnoc(generated, mapping);
        generated := generated + [mapping];
        if mapping.originalLine.Some? {
          original := original + [mapping];
        }
        cursor := segment.value.1;
        str := segment.value.2;
      }
    }
    assert generated + [] == generated;
    r := Ok(Tables(Sorting.Sort(Sorting.ByGenerated, generated), Sorting.Sort(Sorting.ByOriginal, original)));
  }
}

=== FILE: consumer_queries.dfy ===
/**
 * The position queries of the consumers: `_findMapping`, `originalPositionFor`
 * (basic and indexed) and `generatedPositionFor` (basic), each over the tables
 * of module Consumers and the search of module BinarySearch.
 */
module ConsumerQueries {
  import opened Wrappers
  import opened Util
  import opened Sorting
  import opened Paths
  import opened Consumers
  import BinarySearch
  import MappingLists
  import opened OriginalWalks

  /** What `originalPositionFor` answers; the all-null answer is `NoOriginal`. */
  datatype OriginalPosition = OriginalPosition(source: Option<string>, line: Option<int>, column: Option<int>, name: Option<string>)

  const NoOriginal: OriginalPosition := OriginalPosition(None, None, None, None)

  /**
   * `_findMapping`'s checks of the needle: the line must be at least 1, then a
   * numeric column at least 0 (`Infinity` passes).
   */
  function NeedleError(line: int, column: Column): (r: Option<Error>)
    ensures r.None? <==> line >= 1 && (column.At? ==> column.n >= 0)
    ensures line <= 0 ==> r == Some(BadLine(line))
    ensures line >= 1 && column.At? && column.n < 0 ==> r == Some(BadColumn(column.n))
  {
    if line <= 0 then Some(BadLine(line))
    else if column.At? && column.n < 0 then Some(BadColumn(column.n))
    else None
  }

  // ---------------------------------------------------------------------------
  // Searching the generated table
  // ---------------------------------------------------------------------------

  /** The needle `originalPositionFor` searches the generated table for. */
  function GeneratedNeedle(line: int, column: int): Mapping {
    Mapping(line, column, None, None, None, None)
  }

  /** `compareByGeneratedPositions(needle, mapping, true)`, the comparison the search makes. */
  function CompareGenerated(needle: Mapping, m: Mapping): int {
    CompareByGeneratedPositions(needle, m, true)
  }

  /** A table sorted by the generated comparator is ordered for every generated needle. */
  lemma GeneratedTableMonotone(needle: Mapping, t: seq<Mapping>)
    requires Sorted(ByGenerated, t)
    ensures BinarySearch.Monotone(needle, t, CompareGenerated)
  {
    MappingLists.SortedIsPositionSorted(t);
  }

  /** A mapping on the given generated line at or before the given column. */
  predicate CoversOnLine(m: Mapping, line: int, column: int) {
    m.generatedLine == line && m.generatedColumn <= column
  }

  /** Index i holds a mapping on the line at or before the column, and no such mapping lies further right. */
  ghost predicate NearestOnLine(t: seq<Mapping>, i: int, line: int, column: int) {
    && 0 <= i < |t| && CoversOnLine(t[i], line, column)
    && forall j :: 0 <= j < |t| && CoversOnLine(t[j], line, column) ==> t[j].generatedColumn <= t[i].generatedColumn
  }

  /**
   * The index `originalPositionFor` reports for a position: the search's answer,
   * kept only when it lies on the needle's line.
   */
  function FindOnLine(t: seq<Mapping>, line: int, column: int): (r: Option<nat>)
    ensures r.Some? ==> r.value < |t| && t[r.value].generatedLine == line
  {
    var index := BinarySearch.Search(GeneratedNeedle(line, column), t, CompareGenerated);
    if index >= 0 && t[index].generatedLine == line then Some(index) else None
  }

  /**
   * On a sorted table a position finds a mapping exactly when some mapping
   * lies on its line at or before its column, and then the one found is the
   * rightmost such mapping.
   */
  lemma FindOnLineNearest(t: seq<Mapping>, line: int, column: int)
    requires Sorted(ByGenerated, t)
    ensures FindOnLine(t, line, column).Some? <==> exists i :: 0 <= i < |t| && CoversOnLine(t[i], line, column)
    ensures FindOnLine(t, line, column).Some? ==> NearestOnLine(t, FindOnLine(t, line, column).value, line, column)
  {
    var needle := GeneratedNeedle(line, column);
    var index := BinarySearch.Search(needle, t, CompareGenerated);
    GeneratedTableMonotone(needle, t);
    BinarySearch.NearestBounds(needle, t, CompareGenerated, index);
    MappingLists.SortedIsPositionSorted(t);
    if index >= 0 {
      forall j | 0 <= j < |t| && CoversOnLine(t[j], line, column)
        ensures t[index].generatedLine == line && t[j].generatedColumn <= t[index].generatedColumn
      {
        if j > index {
          assert CompareGenerated(needle, t[j]) == 0;
        } else if j < index {
          assert MappingLists.PositionAtMost(t[j], t[index]);
        }
      }
    }
  }

  // ---------------------------------------------------------------------------
  // originalPositionFor
  // ---------------------------------------------------------------------------

  /** The answer for a mapping found: its source joined to the source root, its original position and name. */
  function Describe(m: Mapping, sourceRoot: Option<string>, paths: PathOps): (r: OriginalPosition)
    ensures r.source == JoinRoot(sourceRoot, m.source, paths)
    ensures r.line == m.originalLine && r.column == m.originalColumn && r.name == m.name
  {
    OriginalPosition(JoinRoot(sourceRoot, m.source, paths), m.originalLine, m.originalColumn, m.name)
  }

  /**
   * `compare` of the indexed `originalPositionFor`: line, then column, of the
   * needle against the section's `generatedOffset`. The column is compared
   * against the offset column plus one.
   */
  function CompareToSectionAsWritten(needle: (int, int), s: Section): int {
    var cmp := needle.0 - s.generatedLine;
    if cmp != 0 then cmp else needle.1 - s.generatedColumn
  }

  /** The same comparison against the section's first column, the offset column. */
  function CompareToSection(needle: (int, int), s: Section): int {
    var cmp := needle.0 - s.generatedLine;
    if cmp != 0 then cmp else needle.1 - (s.generatedColumn - 1)
  }

  /** The section the indexed `originalPositionFor` picks as written. */
  function FindSectionAsWritten(ss: seq<Section>, line: int, column: int): (r: int)
    ensures -1 <= r < |ss|
  {
    BinarySearch.Search((line, column), ss, CompareToSectionAsWritten)
  }

  /** The section the indexed `originalPositionFor` picks, comparing against the section's first column. */
  function FindSection(ss: seq<Section>, line: int, column: int): (r: int)
    ensures -1 <= r < |ss|
  {
    BinarySearch.Search((line, column), ss, CompareToSection)
  }

  /**
   * As written, a position at the very first column of a section is given to
   * the section before it: with one section at offset (0, 0), the position
   * line 1 column 0 finds no section at all.
   */
  lemma SectionFirstColumnMissed(c: Consumer)
    ensures var ss := [Section(1, 1, c)];
            FindSectionAsWritten(ss, 1, 0) == -1 && FindSection(ss, 1, 0) == 0 && StartsAtOrBefore(ss[0], 1, 0)
  {
    var ss := [Section(1, 1, c)];
    assert BinarySearch.RecursiveSearch(-1, 1, (1, 0), ss, CompareToSectionAsWritten) == -1;
    assert BinarySearch.RecursiveSearch(-1, 1, (1, 0), ss, CompareToSection) == 0;
  }

  /**
   * On ordered sections the section found is the last one starting at or
   * before the position, or -1 when every section starts after it; the
   * position, moved into that section, is at or after the section's start.
   */
  lemma FindSectionNearest(ss: seq<Section>, line: int, column: int)
    requires SectionsOrdered(ss)
    ensures var r := FindSection(ss, line, column);
            && (r == -1 <==> forall i :: 0 <= i < |ss| ==> !StartsAtOrBefore(ss[i], line, column))
            && (r >= 0 ==> StartsAtOrBefore(ss[r], line, column))
            && (r >= 0 ==> forall j :: 0 <= j < |ss| && StartsAtOrBefore(ss[j], line, column) ==> SectionAtMost(ss[j], ss[r]))
            && (r >= 0 ==> var p := ToSection(ss[r], line, column); p.0 >= 1 && (p.0 == 1 ==> p.1 >= 0))
  {
    var needle := (line, column);
    var r := FindSection(ss, line, column);
    assert BinarySearch.Monotone(needle, ss, CompareToSection);
    BinarySearch.NearestBounds(needle, ss, CompareToSection, r);
    if r >= 0 {
      forall j | 0 <= j < |ss| && StartsAtOrBefore(ss[j], line, column)
        ensures SectionAtMost(ss[j], ss[r])
      {
        if j > r {
          assert CompareToSection(needle, ss[j]) == 0;
        }
      }
    }
  }

  /**
   * `originalPositionFor` with the line and column given. A basic consumer
   * parses its tables, checks the needle, searches the generated table and
   * answers only for a mapping on the needle's line. An indexed consumer finds
   * the section the position falls in and asks that section's consumer, with
   * the position moved into the section.
   */
  function OriginalPositionAt(c: Consumer, line: int, column: int, paths: PathOps): (r: Result<OriginalPosition>)
    decreases c
  {
    match c
    case Basic(_, sourceRoot, _, _, _, _) =>
      var t :- BasicTables(c);
      var e := NeedleError(line, At(column));
      if e.Some? then Err(e.value)
      else
        var found := FindOnLine(t.generated, line, column);
        if found.Some? then Ok(Describe(t.generated[found.value], sourceRoot, paths)) else Ok(NoOriginal)
    case Indexed(ss) =>
      var index := FindSection(ss, line, column);
      if index < 0 then Ok(NoOriginal)
      else
        var s := ss[index];
        assert s in ss;
        var p := ToSection(s, line, column);
        OriginalPositionAt(s.consumer, p.0, p.1, paths)
  }

  /** `originalPositionFor`: `line` and `column` are required arguments. */
  function OriginalPositionFor(c: Consumer, line: Option<int>, column: Option<int>, paths: PathOps): (r: Result<OriginalPosition>)
    ensures line.None? ==> r == Err(MissingArgument("line"))
    ensures line.Some? && column.None? ==> r == Err(MissingArgument("column"))
    ensures line.Some? && column.Some? ==> r == OriginalPositionAt(c, line.value, column.value, paths)
  {
    var l :- GetArg(line, "line");
    var col :- GetArg(column, "column");
    OriginalPositionAt(c, l, col, paths)
  }

  /**
   * The basic `originalPositionFor` on a map that parses: a line below 1 or a
   * column below 0 is refused; otherwise the answer describes the rightmost
   * mapping on the needle's line at or before its column, and is all-null when
   * there is none.
   */
  lemma BasicOriginalPosition(c: Consumer, line: int, column: int, paths: PathOps)
    requires c.Basic? && BasicTables(c).Ok?
    ensures line <= 0 ==> OriginalPositionAt(c, line, column, paths) == Err(BadLine(line))
    ensures line >= 1 && column < 0 ==> OriginalPositionAt(c, line, column, paths) == Err(BadColumn(column))
    ensures line >= 1 && column >= 0 ==>
              var t := BasicTables(c).value.generated;
              && ((forall i :: 0 <= i < |t| ==> !CoversOnLine(t[i], line, column)) ==>
                    OriginalPositionAt(c, line, column, paths) == Ok(NoOriginal))
              && ((exists i :: 0 <= i < |t| && CoversOnLine(t[i], line, column)) ==>
                    exists i :: NearestOnLine(t, i, line, column)
                              && OriginalPositionAt(c, line, column, paths) == Ok(Describe(t[i], c.sourceRoot, paths)))
  {
    var t := BasicTables(c).value;
    SortedTablesSorted(MappingsCodec.Parse(c.mappings, c.sources, c.names).value);
    FindOnLineNearest(t.generated, line, column);
  }

  /**
   * The indexed `originalPositionFor` on ordered sections: all-null when every
   * section starts after the position; otherwise the answer of the last section
   * starting at or before it, for the position moved into that section.
   */
  lemma IndexedOriginalPosition(ss: seq<Section>, line: int, column: int, paths: PathOps)
    requires SectionsOrdered(ss)
    ensures (forall i :: 0 <= i < |ss| ==> !StartsAtOrBefore(ss[i], line, column)) ==>
              OriginalPositionAt(Indexed(ss), line, column, paths) == Ok(NoOriginal)
    ensures (exists i :: 0 <= i < |ss| && StartsAtOrBefore(ss[i], line, column)) ==>
              exists i :: 0 <= i < |ss| && StartsAtOrBefore(ss[i], line, column)
                && (forall j :: 0 <= j < |ss| && StartsAtOrBefore(ss[j], line, column) ==> SectionAtMost(ss[j], ss[i]))
                && OriginalPositionAt(Indexed(ss), line, column, paths)
                   == OriginalPositionAt(ss[i].consumer, ToSection(ss[i], line, column).0, ToSection(ss[i], line, column).1, paths)
  {
    FindSectionNearest(ss, line, column);
  }

  // ---------------------------------------------------------------------------
  // Searching the original table
  // ---------------------------------------------------------------------------

  /** The needle `generatedPositionFor` and `allGeneratedPositionsFor` search the original table for. */
  datatype OriginalNeedle = OriginalNeedle(source: string, line: int, column: Column)

  /**
   * `compareByOriginalPositions(needle, mapping, true)`: source, original line,
   * then original column; an `Infinity` column is above every column.
   */
  function CompareOriginal(n: OriginalNeedle, m: Mapping): int {
    var cmp := StrCmp(Some(n.source), m.source);
    if cmp != 0 then cmp
    else
      var cmp := n.line - Num(m.originalLine);
      if cmp != 0 then cmp
      else
        match n.column
        case At(column) => column - Num(m.originalColumn)
        case Infinity => 1
  }

  /** A record at or before another in the original order is at or before every needle the other is. */
  lemma CompareOriginalStep(n: OriginalNeedle, a: Mapping, b: Mapping)
    requires CompareByOriginalPositions(a, b, true) <= 0
    ensures CompareOriginal(n, b) >= 0 ==> CompareOriginal(n, a) >= 0
    ensures CompareOriginal(n, b) > 0 ==> CompareOriginal(n, a) > 0
  {
    var x := Some(n.source);
    StrCmpAntisymmetric(x, a.source);
    StrCmpAntisymmetric(x, b.source);
    if StrCmp(x, b.source) >= 0 {
      StrCmpTransitive(a.source, b.source, x);
    }
  }

  /** A table sorted by the original comparator is ordered for every original needle. */
  lemma OriginalTableMonotone(n: OriginalNeedle, t: seq<Mapping>)
    requires Sorted(ByOriginal, t)
    ensures BinarySearch.Monotone(n, t, CompareOriginal)
  {
    forall i, j | 0 <= i < j < |t|
      ensures (CompareOriginal(n, t[j]) >= 0 ==> CompareOriginal(n, t[i]) >= 0)
           && (CompareOriginal(n, t[j]) > 0 ==> CompareOriginal(n, t[i]) > 0)
    {
      OriginalOnlyPrimary(t[i], t[j]);
      CompareOriginalStep(n, t[i], t[j]);
    }
  }

  /**
   * The checks and the table both original-position queries share: the needle's
   * source is made relative to the source root, the tables are parsed, then
   * `_findMapping` checks the needle.
   */
  function OriginalSearch(c: Consumer, source: string, line: int, column: Column, paths: PathOps): (r: Result<(seq<Mapping>, OriginalNeedle)>)
    requires c.Basic?
    ensures r.Ok? <==> BasicTables(c).Ok? && NeedleError(line, column).None?
    ensures r.Ok? ==> r.value.0 == BasicTables(c).value.original
    ensures r.Ok? ==> r.value.1.line == line && r.value.1.column == column
    ensures r.Ok? && c.sourceRoot.None? ==> r.value.1.source == source
  {
    var needleSource := if c.sourceRoot.Some? then paths.relative(c.sourceRoot.value, source) else source;
    var t :- BasicTables(c);
    var e := NeedleError(line, column);
    if e.Some? then Err(e.value) else Ok((t.original, OriginalNeedle(needleSource, line, column)))
  }

  /** The original table of a map that parses is sorted, and every record in it has a source and an original line. */
  lemma OriginalTableShape(c: Consumer)
    requires c.Basic? && BasicTables(c).Ok?
    ensures Sorted(ByOriginal, BasicTables(c).value.original)
    ensures forall i :: 0 <= i < |BasicTables(c).value.original| ==>
              BasicTables(c).value.original[i].source.Some? && BasicTables(c).value.original[i].originalLine.Some?
  {
    var ms := MappingsCodec.Parse(c.mappings, c.sources, c.names).value;
    SortedTablesSorted(ms);
    MappingsCodec.ParsedComplete(c.mappings, MappingsCodec.Start, c.sources, c.names);
    var t := BasicTables(c).value.original;
    forall i | 0 <= i < |t|
      ensures t[i].source.Some? && t[i].originalLine.Some?
    {
      assert t[i] in t;
      var k :| 0 <= k < |ms| && ms[k] == t[i];
      assert MappingsCodec.Complete(ms[k]);
    }
  }

  // ---------------------------------------------------------------------------
  // generatedPositionFor
  // ---------------------------------------------------------------------------

  /** The index `generatedPositionFor` reports as written: the search's answer, whatever record it holds. */
  function FindOriginalAsWritten(t: seq<Mapping>, n: OriginalNeedle): (r: Option<nat>)
    ensures r.Some? ==> r.value < |t|
  {
    var index := BinarySearch.Search(n, t, CompareOriginal);
    if index >= 0 then Some(index) else None
  }

  /** The same, kept only when the record found has the needle's source. */
  function FindOriginal(t: seq<Mapping>, n: OriginalNeedle): (r: Option<nat>)
    ensures r.Some? ==> r.value < |t| && t[r.value].source == Some(n.source)
  {
    var index := BinarySearch.Search(n, t, CompareOriginal);
    if index >= 0 && t[index].source == Some(n.source) then Some(index) else None
  }

  /**
   * As written, a source with no mappings at all is answered with a mapping of
   * another source: with one mapping, of source "a", the needle for source "b"
   * line 1 column 0 finds it.
   */
  lemma FindOriginalAsWrittenCrossesSources()
    ensures var t := [Mapping(1, 0, Some("a"), Some(1), Some(0), None)];
            var n := OriginalNeedle("b", 1, At(0));
            FindOriginalAsWritten(t, n) == Some(0) && t[0].source != Some(n.source) && FindOriginal(t, n) == None
  {
    var t := [Mapping(1, 0, Some("a"), Some(1), Some(0), None)];
    var n := OriginalNeedle("b", 1, At(0));
    assert StrLess("a", "b");
    assert CompareOriginal(n, t[0]) == 1;
    assert BinarySearch.RecursiveSearch(-1, 1, n, t, CompareOriginal) == 0;
  }

  /**
   * On a sorted table whose records all have a source, a needle finds a record
   * exactly when some record of its source is at or before it, and the one
   * found is then at or after every such record in the original order.
   */
  lemma FindOriginalNearest(t: seq<Mapping>, n: OriginalNeedle)
    requires Sorted(ByOriginal, t)
    requires forall i :: 0 <= i < |t| ==> t[i].source.Some?
    ensures FindOriginal(t, n).Some? <==>
              exists i :: 0 <= i < |t| && t[i].source == Some(n.source) && CompareOriginal(n, t[i]) >= 0
    ensures FindOriginal(t, n).Some? ==>
              var k := FindOriginal(t, n).value;
              && CompareOriginal(n, t[k]) >= 0
              && forall j :: 0 <= j < |t| && t[j].source == Some(n.source) && CompareOriginal(n, t[j]) >= 0 ==>
                   CompareByOriginalPositions(t[j], t[k], true) <= 0
  {
    var k := BinarySearch.Search(n, t, CompareOriginal);
    OriginalTableMonotone(n, t);
    BinarySearch.NearestBounds(n, t, CompareOriginal, k);
    var x := Some(n.source);
    forall j | 0 <= j < |t| && t[j].source == x && CompareOriginal(n, t[j]) >= 0
      ensures k >= 0 && t[k].source == x && CompareByOriginalPositions(t[j], t[k], true) <= 0
    {
      assert k >= 0;
      if j < k {
        assert Cmp(ByOriginal, t[j], t[k]) <= 0;
        OriginalOnlyPrimary(t[j], t[k]);
        if CompareOriginal(n, t[k]) > 0 {
          assert StrCmp(t[j].source, t[k].source) <= 0;
          assert StrCmp(x, t[k].source) >= 0;
        }
      } else if j > k {
        assert CompareOriginal(n, t[j]) == 0 && CompareOriginal(n, t[k]) == 0;
        OriginalOnlyPrimary(t[j], t[k]);
      }
    }
  }

  /** The answer for the index found, all-null when there is none. */
  function Answer(t: seq<Mapping>, found: Option<nat>): (r: GeneratedPosition)
    requires found.Some? ==> found.value < |t|
    ensures found.None? ==> r == NoGenerated
    ensures found.Some? ==> r == PositionOf(t[found.value])
  {
    if found.Some? then PositionOf(t[found.value]) else NoGenerated
  }

  /** `generatedPositionFor` on a basic consumer, as written. */
  function GeneratedPositionForAsWritten(c: Consumer, source: Option<string>, line: Option<int>, column: Option<int>, paths: PathOps): (r: Result<GeneratedPosition>)
    requires c.Basic?
  {
    var src :- GetArg(source, "source");
    var l :- GetArg(line, "line");
    var col :- GetArg(column, "column");
    var search :- OriginalSearch(c, src, l, At(col), paths);
    Ok(Answer(search.0, FindOriginalAsWritten(search.0, search.1)))
  }

  /**
   * `generatedPositionFor` on a basic consumer: `source`, `line` and `column`
   * are required; the answer is the generated position of the record found,
   * provided it has the needle's source.
   */
  function GeneratedPositionFor(c: Consumer, source: Option<string>, line: Option<int>, column: Option<int>, paths: PathOps): (r: Result<GeneratedPosition>)
    requires c.Basic?
  {
    var src :- GetArg(source, "source");
    var l :- GetArg(line, "line");
    var col :- GetArg(column, "column");
    var search :- OriginalSearch(c, src, l, At(col), paths);
    Ok(Answer(search.0, FindOriginal(search.0, search.1)))
  }

  /** On a map that parses, without a source root, a valid query answers from the search of the original table. */
  lemma GeneratedPositionAnswer(c: Consumer, source: string, line: int, column: int, paths: PathOps)
    requires c.Basic? && BasicTables(c).Ok? && c.sourceRoot.None? && line >= 1 && column >= 0
    ensures var t := BasicTables(c).value.original;
            GeneratedPositionFor(c, Some(source), Some(line), Some(column), paths)
              == Ok(Answer(t, FindOriginal(t, OriginalNeedle(source, line, At(column)))))
  {
    assert OriginalSearch(c, source, line, At(column), paths)
        == Ok((BasicTables(c).value.original, OriginalNeedle(source, line, At(column))));
  }

  /**
   * The correction only ever turns an answer into all-null: both versions fail
   * alike, and an answer with a position is the same in both.
   */
  lemma GeneratedPositionCorrection(c: Consumer, source: Option<string>, line: Option<int>, column: Option<int>, paths: PathOps)
    requires c.Basic?
    ensures var w := GeneratedPositionForAsWritten(c, source, line, column, paths);
            var f := GeneratedPositionFor(c, source, line, column, paths);
            && (w.Err? <==> f.Err?)
            && (f.Err? ==> w == f)
            && (f.Ok? && f.value != NoGenerated ==> w == f)
  {
    if source.Some? && line.Some? && column.Some? {
      var search := OriginalSearch(c, source.value, line.value, At(column.value), paths);
      if search.Ok? {
        var found := FindOriginal(search.value.0, search.value.1);
        if found.Some? {
          assert FindOriginalAsWritten(search.value.0, search.value.1) == found;
        }
      }
    }
  }

  /**
   * `generatedPositionFor` on a map that parses, without a source root: a line
   * below 1 or a column below 0 is refused; otherwise the answer is the
   * generated position of a record of the queried source at or before the
   * queried original position, the last such record in the original order, and
   * all-null when that source has none.
   */
  lemma BasicGeneratedPosition(c: Consumer, source: string, line: int, column: int, paths: PathOps)
    requires c.Basic? && BasicTables(c).Ok? && c.sourceRoot.None?
    ensures line <= 0 ==> GeneratedPositionFor(c, Some(source), Some(line), Some(column), paths) == Err(BadLine(line))
    ensures line >= 1 && column < 0 ==> GeneratedPositionFor(c, Some(source), Some(line), Some(column), paths) == Err(BadColumn(column))
    ensures line >= 1 && column >= 0 ==>
              var t := BasicTables(c).value.original;
              var n := OriginalNeedle(source, line, At(column));
              && ((forall i :: 0 <= i < |t| && t[i].source == Some(source) ==> CompareOriginal(n, t[i]) < 0) ==>
                    GeneratedPositionFor(c, Some(source), Some(line), Some(column), paths) == Ok(NoGenerated))
              && ((exists i :: 0 <= i < |t| && t[i].source == Some(source) && CompareOriginal(n, t[i]) >= 0) ==>
                    exists k :: 0 <= k < |t| && t[k].source == Some(source) && CompareOriginal(n, t[k]) >= 0
                      && (forall j :: 0 <= j < |t| && t[j].source == Some(source) && CompareOriginal(n, t[j]) >= 0 ==>
                            CompareByOriginalPositions(t[j], t[k], true) <= 0)
                      && GeneratedPositionFor(c, Some(source), Some(line), Some(column), paths) == Ok(PositionOf(t[k])))
  {
    if line >= 1 && column >= 0 {
      var t := BasicTables(c).value.original;
      var n := OriginalNeedle(source, line, At(column));
      GeneratedPositionAnswer(c, source, line, column, paths);
      OriginalTableShape(c);
      FindOriginalNearest(t, n);
      if FindOriginal(t, n).Some? {
        var k := FindOriginal(t, n).value;
        assert t[k].source == Some(source);
      }
    }
  }

  // ---------------------------------------------------------------------------
  // allGeneratedPositionsFor
  // ---------------------------------------------------------------------------

  /**
   * Both facts below hold on a sorted original table whose records all have a
   * source and an original line, for the search of (source, line, Infinity).
   */
  ghost predicate WalkTable(t: seq<Mapping>) {
    && Sorted(ByOriginal, t)
    && forall i :: 0 <= i < |t| ==> t[i].source.Some? && t[i].originalLine.Some?
  }

  /** No record of the source and line lies after the index the search finds. */
  lemma KeptAtOrBeforeSearch(t: seq<Mapping>, source: string, line: int, index: int)
    requires WalkTable(t)
    requires index == BinarySearch.Search(OriginalNeedle(source, line, Infinity), t, CompareOriginal)
    ensures forall j :: 0 <= j < |t| && Keeps(OnSourceLine(source, line), t[j]) ==> j <= index
  {
    var n := OriginalNeedle(source, line, Infinity);
    OriginalTableMonotone(n, t);
    BinarySearch.NearestBounds(n, t, CompareOriginal, index);
    forall j | 0 <= j < |t| && Keeps(OnSourceLine(source, line), t[j])
      ensures j <= index
    {
      assert CompareOriginal(n, t[j]) > 0;
    }
  }

  /** Up to that index, a record of the source and line is followed only by records of the same. */
  lemma KeptUpToSearch(t: seq<Mapping>, source: string, line: int, index: int, a: int, b: int)
    requires WalkTable(t)
    requires index == BinarySearch.Search(OriginalNeedle(source, line, Infinity), t, CompareOriginal)
    requires 0 <= a < b <= index && Keeps(OnSourceLine(source, line), t[a])
    ensures Keeps(OnSourceLine(source, line), t[b])
  {
    var n := OriginalNeedle(source, line, Infinity);
    OriginalTableMonotone(n, t);
    BinarySearch.NearestBounds(n, t, CompareOriginal, index);
    assert CompareOriginal(n, t[b]) >= 0 by {
      if b < index {
        assert Cmp(ByOriginal, t[b], t[index]) <= 0;
      }
    }
    assert Cmp(ByOriginal, t[a], t[b]) <= 0;
    assert StrCmp(t[a].source, t[b].source) <= 0;
    StrCmpAntisymmetric(t[a].source, t[b].source);
  }

  /**
   * On a sorted original table whose records all have a source and an original
   * line, the walk down from the answer of the search for (source, line,
   * Infinity), keeping records of that source and line, collects every record
   * of that source and line.
   */
  lemma AllPositionsRunIsFilter(t: seq<Mapping>, source: string, line: int)
    requires WalkTable(t)
    ensures var index := BinarySearch.Search(OriginalNeedle(source, line, Infinity), t, CompareOriginal);
            Run(t, index, OnSourceLine(source, line)) == Filter(t, OnSourceLine(source, line))
  {
    var k := OnSourceLine(source, line);
    var index := BinarySearch.Search(OriginalNeedle(source, line, Infinity), t, CompareOriginal);
    forall a, b | 0 <= a < b <= index && Keeps(k, t[a])
      ensures Keeps(k, t[b])
    {
      KeptUpToSearch(t, source, line, index, a, b);
    }
    KeptAtOrBeforeSearch(t, source, line, index);
    WalkIsFilter(t, index, k);
  }

  /** `allGeneratedPositionsFor` on a basic consumer, as written: the walk keeps records of the queried line, whatever their source. */
  function AllGeneratedPositionsAsWritten(c: Consumer, source: Option<string>, line: Option<int>, paths: PathOps): (r: Result<seq<GeneratedPosition>>)
    requires c.Basic?
  {
    var src :- GetArg(source, "source");
    var l :- GetArg(line, "line");
    var search :- OriginalSearch(c, src, l, Infinity, paths);
    var index := BinarySearch.Search(search.1, search.0, CompareOriginal);
    Ok(Positions(Run(search.0, index, OnLine(l))))
  }

  /**
   * As written, the walk crosses into another source: with one mapping, of
   * source "a" line 1, the query for source "b" line 1 answers that mapping,
   * where "b" has no mapping at all.
   */
  lemma AllPositionsAsWrittenCrossesSources()
    ensures var t := [Mapping(1, 0, Some("a"), Some(1), Some(0), None)];
            var index := BinarySearch.Search(OriginalNeedle("b", 1, Infinity), t, CompareOriginal);
            Run(t, index, OnLine(1)) == t && Filter(t, OnSourceLine("b", 1)) == []
  {
    var t := [Mapping(1, 0, Some("a"), Some(1), Some(0), None)];
    var n := OriginalNeedle("b", 1, Infinity);
    assert StrLess("a", "b");
    assert CompareOriginal(n, t[0]) == 1;
    assert BinarySearch.Search(n, t, CompareOriginal) == 0 by {
      assert BinarySearch.RecursiveSearch(-1, 1, n, t, CompareOriginal) == 0;
    }
    assert t[..0] == [];
  }

  /**
   * What `allGeneratedPositionsFor` answers on a basic consumer: `source` and
   * `line` are required and the line is checked as by `_findMapping`; the
   * answer is the generated position of every record of the source and line,
   * in the original order.
   */
  function AllGeneratedPositions(c: Consumer, source: Option<string>, line: Option<int>, paths: PathOps): (r: Result<seq<GeneratedPosition>>)
    requires c.Basic?
  {
    var src :- GetArg(source, "source");
    var l :- GetArg(line, "line");
    var search :- OriginalSearch(c, src, l, Infinity, paths);
    Ok(Positions(Filter(search.0, OnSourceLine(search.1.source, l))))
  }

  /** The walk as written and the corrected one refuse the same queries, with the same error. */
  lemma AllPositionsCorrection(c: Consumer, source: Option<string>, line: Option<int>, paths: PathOps)
    requires c.Basic?
    ensures var w := AllGeneratedPositionsAsWritten(c, source, line, paths);
            var f := AllGeneratedPositions(c, source, line, paths);
            && (w.Err? <==> f.Err?)
            && (f.Err? ==> w.error == f.error)
  {
  }

  /**
   * `allGeneratedPositionsFor`: searches the original table for (source, line,
   * Infinity), then walks back from the record found while the records are of
   * the queried source and line.
   */
  method AllGeneratedPositionsFor(c: Consumer, source: Option<string>, line: Option<int>, paths: PathOps) returns (r: Result<seq<GeneratedPosition>>)
    requires c.Basic?
    ensures r == AllGeneratedPositions(c, source, line, paths)
  {
    var src :- GetArg(source, "source");
    var l :- GetArg(line, "line");
    var search :- OriginalSearch(c, src, l, Infinity, paths);
    var t := search.0;
    var needle := search.1;
    assert needle == OriginalNeedle(needle.source, l, Infinity);
    var index := BinarySearch.Search(needle, t, CompareOriginal);
    var positions := CollectPositions(t, index, OnSourceLine(needle.source, l));
    OriginalTableShape(c);
    AllPositionsRunIsFilter(t, needle.source, l);
    return Ok(positions);
  }

  /**
   * On a map that parses, without a source root: a line below 1 is refused;
   * otherwise a position is in the answer exactly when some record of the
   * queried source and line has it.
   */
  lemma AllPositionsMembers(c: Consumer, source: string, line: int, paths: PathOps)
    requires c.Basic? && BasicTables(c).Ok? && c.sourceRoot.None?
    ensures line <= 0 ==> AllGeneratedPositions(c, Some(source), Some(line), paths) == Err(BadLine(line))
    ensures line >= 1 ==>
              var t := BasicTables(c).value.original;
              && AllGeneratedPositions(c, Some(source), Some(line), paths).Ok?
              && forall p :: p in AllGeneratedPositions(c, Some(source), Some(line), paths).value <==>
                   exists m :: m in t && m.source == Some(source) && m.originalLine == Some(line) && PositionOf(m) == p
  {
    if line >= 1 {
      var t := BasicTables(c).value.original;
      var kept := Filter(t, OnSourceLine(source, line));
      assert AllGeneratedPositions(c, Some(source), Some(line), paths) == Ok(Positions(kept));
      PositionsOfFilter(t, OnSourceLine(source, line));
    }
  }
}

=== FILE: consumer_traversal.dfy ===
/**
 * The consumer operations that go over a whole table: `eachMapping`, which
 * hands every record to a callback in the order asked for, and
 * `computeColumnSpans`, which gives each record of the generated table the
 * last column it covers.
 */
module ConsumerTraversal {
  import opened Wrappers
  import opened Util
  import opened Sorting
  import opened Paths
  import opened Consumers
  import MappingsCodec

  /** `SourceMapConsumer.GENERATED_ORDER` and `SourceMapConsumer.ORIGINAL_ORDER`. */
  const GENERATED_ORDER: int := 1
  const ORIGINAL_ORDER: int := 2

  /** A record as the callback sees it: the source joined to the source root. */
  function Visible(m: Mapping, sourceRoot: Option<string>, paths: PathOps): (r: Mapping)
    ensures r.source == JoinRoot(sourceRoot, m.source, paths)
    ensures r.generatedLine == m.generatedLine && r.generatedColumn == m.generatedColumn
    ensures r.originalLine == m.originalLine && r.originalColumn == m.originalColumn && r.name == m.name
  {
    m.(source := JoinRoot(sourceRoot, m.source, paths))
  }

  /**
   * `eachMapping(callback, context, order)`: the records handed to the callback,
   * in the order of the callback's calls. An absent order (0 here, any falsy
   * value in the source) means the generated order; an order other than the
   * two is refused before the tables are built.
   */
  function EachMapping(c: Consumer, order: int, paths: PathOps): (r: Result<seq<Mapping>>)
    ensures order !in {0, GENERATED_ORDER, ORIGINAL_ORDER} ==> r == Err(UnknownOrder(order))
    ensures order in {0, GENERATED_ORDER, ORIGINAL_ORDER} ==> (r.Ok? <==> ConsumerTables(c, paths).Ok?)
    ensures r.Ok? ==>
              var t := ConsumerTables(c, paths).value;
              var table := if order == ORIGINAL_ORDER then t.original else t.generated;
              |r.value| == |table|
              && forall k :: 0 <= k < |table| ==> r.value[k] == Visible(table[k], RootOf(c), paths)
  {
    var effective := if order == 0 then GENERATED_ORDER else order;
    if effective != GENERATED_ORDER && effective != ORIGINAL_ORDER then Err(UnknownOrder(order))
    else
      var t :- ConsumerTables(c, paths);
      var table := if effective == GENERATED_ORDER then t.generated else t.original;
      Ok(seq(|table|, k requires 0 <= k < |table| => Visible(table[k], RootOf(c), paths)))
  }

  /**
   * On a basic consumer without a source root whose string parses, the
   * generated order visits every parsed record exactly as often as it was
   * read, sorted by generated position; the original order visits those with
   * an original position, sorted by original position.
   */
  lemma EachMappingVisitsAll(c: Consumer, paths: PathOps)
    requires c.Basic? && c.sourceRoot.None?
    requires MappingsCodec.Parse(c.mappings, c.sources, c.names).Ok?
    ensures var ms := MappingsCodec.Parse(c.mappings, c.sources, c.names).value;
            && EachMapping(c, GENERATED_ORDER, paths).Ok?
            && multiset(EachMapping(c, GENERATED_ORDER, paths).value) == multiset(ms)
            && Sorted(ByGenerated, EachMapping(c, GENERATED_ORDER, paths).value)
    ensures var ms := MappingsCodec.Parse(c.mappings, c.sources, c.names).value;
            && EachMapping(c, ORIGINAL_ORDER, paths).Ok?
            && (forall x :: x in EachMapping(c, ORIGINAL_ORDER, paths).value <==> x in ms && x.originalLine.Some?)
            && Sorted(ByOriginal, EachMapping(c, ORIGINAL_ORDER, paths).value)
  {
    var ms := MappingsCodec.Parse(c.mappings, c.sources, c.names).value;
    SortedTablesSorted(ms);
    var t := SortedTables(ms);
    assert EachMapping(c, GENERATED_ORDER, paths).value == t.generated;
    assert EachMapping(c, ORIGINAL_ORDER, paths).value == t.original;
  }

  // ---------------------------------------------------------------------------
  // computeColumnSpans
  // ---------------------------------------------------------------------------

  /**
   * The last column the record at index i covers: one before the next
   * record's column when the next record is on the same line, the whole rest
   * of the line otherwise.
   */
  function ColumnSpan(t: seq<Mapping>, i: nat): Column
    requires i < |t|
  {
    if i + 1 < |t| && t[i].generatedLine == t[i + 1].generatedLine then At(t[i + 1].generatedColumn - 1)
    else Infinity
  }

  /**
   * `computeColumnSpans`: one pass over the generated table, setting each
   * record's last column from its successor. The spans come back in a sequence
   * parallel to the table.
   */
  method ComputeColumnSpans(t: seq<Mapping>) returns (spans: seq<Column>)
    ensures |spans| == |t|
    ensures forall i :: 0 <= i < |t| ==> spans[i] == ColumnSpan(t, i)
  {
    spans := [];
    var index := 0;
    while index < |t|
      invariant 0 <= index <= |t|
      invariant |spans| == index
      invariant forall i :: 0 <= i < index ==> spans[i] == ColumnSpan(t, i)
    {
      var last := Infinity;
      if index + 1 < |t| {
        if t[index].generatedLine == t[index + 1].generatedLine {
          last := At(t[index + 1].generatedColumn - 1);
        }
      }
      spans := spans + [last];
      index := index + 1;
    }
  }

  /** In a table sorted by generated position, a later record is on the same line or a later one, at or after on the same line. */
  lemma GeneratedOrderBetween(t: seq<Mapping>, i: nat, j: nat)
    requires Sorted(ByGenerated, t) && i < j < |t|
    ensures t[i].generatedLine <= t[j].generatedLine
    ensures t[i].generatedLine == t[j].generatedLine ==> t[i].generatedColumn <= t[j].generatedColumn
  {
    assert Cmp(ByGenerated, t[i], t[j]) <= 0;
  }

  /**
   * On a table sorted by generated position, a record's span ends before the
   * column of every later record on its line, and it is unbounded exactly when
   * no later record is on its line.
   */
  lemma SpansEndBeforeNext(t: seq<Mapping>, i: nat)
    requires Sorted(ByGenerated, t) && i < |t|
    ensures ColumnSpan(t, i).Infinity? <==> forall j :: i < j < |t| ==> t[j].generatedLine != t[i].generatedLine
    ensures ColumnSpan(t, i).At? ==>
              forall j :: i < j < |t| && t[j].generatedLine == t[i].generatedLine ==>
                ColumnSpan(t, i).n < t[j].generatedColumn
  {
    if i + 1 < |t| {
      forall j | i + 1 < j < |t|
        ensures t[i + 1].generatedLine <= t[j].generatedLine
        ensures t[i + 1].generatedLine == t[j].generatedLine ==> t[i + 1].generatedColumn <= t[j].generatedColumn
      {
        GeneratedOrderBetween(t, i + 1, j);
      }
      GeneratedOrderBetween(t, i, i + 1);
    }
  }
}

=== FILE: generator.dfy ===
/**
 * Module `source-map/source-map-generator`: the builder of a source map. It
 * holds the file name, the source root, the set of sources, the set of names,
 * the list of mappings and the embedded source contents; `addMapping` checks a
 * mapping and records it, `setSourceContent` embeds or removes a content, and
 * `toJSON` writes the map out.
 */
module Generators {
  import opened Wrappers
  import opened Util
  import opened Paths
  import opened ArraySets
  import opened MappingLists
  import Sorting
  import MappingsCodec
  import MappingsWriter
  import Consumers

  /** `SourceMapGenerator.prototype._version`. */
  const VERSION: int := 3

  /** A `{line, column}` object handed to `addMapping`; a missing property is None. */
  datatype Position = Position(line: Option<int>, column: Option<int>)

  /**
   * The argument of `addMapping`. A missing `generated` property is None; the
   * other properties default to null, which is None as well.
   */
  datatype MappingArgs = MappingArgs(
    generated: Option<Position>,
    original: Option<Position>,
    source: Option<string>,
    name: Option<string>)

  // ---------------------------------------------------------------------------
  // The three levels of a mapping
  // ---------------------------------------------------------------------------

  /** A position with both properties, the line at least 1 and the column at least 0. */
  predicate PositionOk(p: Position) {
    p.line.Some? && p.column.Some? && p.line.value > 0 && p.column.value >= 0
  }

  /**
   * A recorded mapping of one of the three levels: only a generated position;
   * a generated and an original position with a non-empty source; the same
   * with a name as well.
   */
  predicate WellFormed(m: Mapping) {
    && m.generatedLine > 0 && m.generatedColumn >= 0
    && if m.source.None? then m.originalLine.None? && m.originalColumn.None? && m.name.None?
       else && m.source.value != ""
            && m.originalLine.Some? && m.originalLine.value > 0
            && m.originalColumn.Some? && m.originalColumn.value >= 0
  }

  /** The record `addMapping` pushes: an absent original leaves both original fields unset. */
  function Record(generated: Position, original: Option<Position>, source: Option<string>, name: Option<string>): (m: Mapping)
    requires generated.line.Some? && generated.column.Some?
    ensures m.source == source && m.name == name
    ensures original.None? ==> m.originalLine.None? && m.originalColumn.None?
  {
    Mapping(generated.line.value, generated.column.value, source,
            if original.Some? then original.value.line else None,
            if original.Some? then original.value.column else None,
            name)
  }

  /**
   * `_validateMapping` as written. The first level is accepted when the
   * original position is absent and source and name are falsy, so an empty
   * source or name passes as "no source" or "no name".
   */
  function ValidateMappingAsWritten(generated: Position, original: Option<Position>, source: Option<string>, name: Option<string>): (r: Option<Error>)
    ensures r.Some? ==> r == Some(InvalidMapping)
    ensures r.None? ==> PositionOk(generated)
  {
    if PositionOk(generated) && original.None? && !Consumers.Truthy(source) && !Consumers.Truthy(name) then None
    else if PositionOk(generated) && original.Some? && PositionOk(original.value) && Consumers.Truthy(source) then None
    else Some(InvalidMapping)
  }

  /**
   * `_validateMapping` with the first level requiring source and name to be
   * absent: every mapping it accepts is recorded as a mapping of one of the
   * three levels.
   */
  function ValidateMapping(generated: Position, original: Option<Position>, source: Option<string>, name: Option<string>): (r: Option<Error>)
    ensures r.Some? ==> r == Some(InvalidMapping)
    ensures r.None? ==> PositionOk(generated) && WellFormed(Record(generated, original, source, name))
  {
    if PositionOk(generated) && original.None? && source.None? && name.None? then None
    else if PositionOk(generated) && original.Some? && PositionOk(original.value) && Consumers.Truthy(source) then None
    else Some(InvalidMapping)
  }

  /** The arguments that describe a recorded mapping. */
  function ArgsOf(m: Mapping): MappingArgs {
    MappingArgs(Some(Position(Some(m.generatedLine), Some(m.generatedColumn))),
                if m.source.Some? then Some(Position(m.originalLine, m.originalColumn)) else None,
                m.source, m.name)
  }

  /**
   * Every mapping of the three levels is accepted when handed back to
   * `addMapping`, and recorded unchanged.
   */
  lemma ValidateMappingComplete(m: Mapping)
    requires WellFormed(m)
    ensures var a := ArgsOf(m);
            && ValidateMapping(a.generated.value, a.original, a.source, a.name).None?
            && Record(a.generated.value, a.original, a.source, a.name) == m
  {
  }

  /**
   * The two validations disagree exactly on a mapping without an original
   * position whose source or name is the empty string: the source accepts it,
   * the corrected one refuses it.
   */
  lemma ValidationsDiffer(generated: Position, original: Option<Position>, source: Option<string>, name: Option<string>)
    ensures ValidateMapping(generated, original, source, name).None? ==>
              ValidateMappingAsWritten(generated, original, source, name).None?
    ensures (ValidateMappingAsWritten(generated, original, source, name).None? &&
             ValidateMapping(generated, original, source, name).Some?)
            <==> (&& PositionOk(generated) && original.None?
                  && !Consumers.Truthy(source) && !Consumers.Truthy(name)
                  && (source == Some("") || name == Some("")))
  {
  }

  /**
   * The first level as written lets a mapping with the source "" through; it
   * is recorded with a source and no original position, which the "mappings"
   * string cannot carry: the string written for it is read back as a
   * different list.
   */
  lemma EmptySourceAcceptedAsWritten()
    ensures var g := Position(Some(1), Some(0));
            var m := Record(g, None, Some(""), None);
            && ValidateMappingAsWritten(g, None, Some(""), None).None?
            && ValidateMapping(g, None, Some(""), None).Some?
            && MappingsCodec.LinesFrom([m], 1)
            && MappingsCodec.Serialize([m], [""], []).Ok?
            && MappingsCodec.Parse(MappingsCodec.Serialize([m], [""], []).value, [""], []) != Ok(MappingsCodec.Dedup([m]))
  {
    var g := Position(Some(1), Some(0));
    var m := Mapping(1, 0, Some(""), None, None, None);
    assert Record(g, None, Some(""), None) == m;
    assert ValidateMappingAsWritten(g, None, Some(""), None).None?;
    assert ValidateMapping(g, None, Some(""), None).Some?;
    SourceWithoutOriginalNotReadBack(m, [""], []);
  }

  /** A record on line 1 with a registered source and no original position does not survive the round trip. */
  lemma SourceWithoutOriginalNotReadBack(m: Mapping, sources: seq<string>, names: seq<string>)
    requires m.generatedLine == 1 && m.source.Some? && m.source.value in sources && m.name.None? && m.originalLine.None?
    ensures MappingsCodec.LinesFrom([m], 1)
    ensures MappingsCodec.Serialize([m], sources, names).Ok?
    ensures MappingsCodec.Parse(MappingsCodec.Serialize([m], sources, names).value, sources, names) != Ok(MappingsCodec.Dedup([m]))
  {
    SingleSerialized(m, sources, names);
    assert MappingsCodec.Dedup([m]) == [m] by {
      assert [m][1..] == [];
    }
    assert !MappingsCodec.Complete([m][0]);
    NotReadBack(MappingsCodec.Serialize([m], sources, names).value, sources, names, [m], 0);
  }

  /** A single record on line 1 whose source is in the set is written without error. */
  lemma SingleSerialized(m: Mapping, sources: seq<string>, names: seq<string>)
    requires m.generatedLine == 1 && m.source.Some? && m.source.value in sources && m.name.None?
    ensures MappingsCodec.LinesFrom([m], 1)
    ensures MappingsCodec.Serialize([m], sources, names).Ok?
  {
    assert MappingsCodec.SegmentFields(m, MappingsCodec.Start, sources, names).Ok?;
    var seg := MappingsCodec.EncodeSegment(m, MappingsCodec.Start, sources, names);
    assert [m][1..] == [];
    assert MappingsCodec.SerializeFrom([], Some(m), seg.value.1, sources, names) == Ok("");
  }

  /** A list holding a record with a source and no original line is never what reading gives. */
  lemma NotReadBack(s: string, sources: seq<string>, names: seq<string>, ms: seq<Mapping>, i: nat)
    requires i < |ms| && !MappingsCodec.Complete(ms[i])
    ensures MappingsCodec.Parse(s, sources, names) != Ok(ms)
  {
    if MappingsCodec.Parse(s, sources, names) == Ok(ms) {
      MappingsCodec.ParsedComplete(s, MappingsCodec.Start, sources, names);
      assert false;
    }
  }

  // ---------------------------------------------------------------------------
  // Registration
  // ---------------------------------------------------------------------------

  /** The items of a set after `if (x != null && !set.has(x)) set.add(x)`. */
  function Registering(items: seq<string>, x: Option<string>): (r: seq<string>)
    ensures x.Some? ==> x.value in r
    ensures forall s :: s in items ==> s in r
    ensures forall s :: s in r ==> s in items || x == Some(s)
  {
    if x.Some? && x.value !in items then items + [x.value] else items
  }

  /**
   * A recorded mapping `_serializeMappings` can write and the reader gives
   * back: on line 1 or later, its source and name in the sets, with an
   * original position when it has a source.
   */
  predicate Writable(m: Mapping, sources: seq<string>, names: seq<string>) {
    m.generatedLine >= 1 && MappingsCodec.Encodable(m, sources, names)
  }

  /** A writable mapping stays writable when the sets grow. */
  lemma WritableGrows(m: Mapping, sources: seq<string>, names: seq<string>, sources': seq<string>, names': seq<string>)
    requires Writable(m, sources, names)
    requires forall s :: s in sources ==> s in sources'
    requires forall s :: s in names ==> s in names'
    ensures Writable(m, sources', names')
  {
  }

  /** A writable record appended to writable records, the sets having grown. */
  lemma WritableAppend(ms: seq<Mapping>, m: Mapping, sources: seq<string>, names: seq<string>,
                         sources': seq<string>, names': seq<string>)
    requires forall x :: x in ms ==> Writable(x, sources, names)
    requires forall s :: s in sources ==> s in sources'
    requires forall s :: s in names ==> s in names'
    requires Writable(m, sources', names')
    ensures forall x :: x in ms + [m] ==> Writable(x, sources', names')
  {
    forall x | x in ms + [m]
      ensures Writable(x, sources', names')
    {
      if x != m {
        WritableGrows(x, sources, names, sources', names');
      }
    }
  }

  /** Writable mappings in the form the codec's round trip asks for. */
  lemma AllEncodable(ms: seq<Mapping>, sources: seq<string>, names: seq<string>)
    requires forall m :: m in ms ==> Writable(m, sources, names)
    ensures forall i :: 0 <= i < |ms| ==> MappingsCodec.Encodable(ms[i], sources, names)
  {
    forall i | 0 <= i < |ms|
      ensures MappingsCodec.Encodable(ms[i], sources, names)
    {
      assert ms[i] in ms;
      assert Writable(ms[i], sources, names);
    }
  }

  /** Mappings in generated-position order, each on line 1 or later, are in the order the writer needs. */
  lemma PositionSortedLines(ms: seq<Mapping>)
    requires PositionSorted(ms)
    requires forall m :: m in ms ==> m.generatedLine >= 1
    ensures MappingsCodec.LinesFrom(ms, 1)
  {
    SortedLinesFrom(ms, 1);
  }

  /** The generated lines of a list in generated-position order never go down. */
  lemma {:induction false} SortedLinesFrom(ms: seq<Mapping>, line: int)
    requires PositionSorted(ms)
    requires forall m :: m in ms ==> m.generatedLine >= line
    ensures MappingsCodec.LinesFrom(ms, line)
    decreases |ms|
  {
    if ms != [] {
      assert ms[0] in ms;
      forall m | m in ms[1..]
        ensures m.generatedLine >= ms[0].generatedLine
      {
        var k :| 0 <= k < |ms[1..]| && ms[1..][k] == m;
        assert PositionAtMost(ms[0], ms[k + 1]);
      }
      assert PositionSorted(ms[1..]) by {
        forall i, j | 0 <= i < j < |ms[1..]|
          ensures PositionAtMost(ms[1..][i], ms[1..][j])
        {
          assert ms[1..][i] == ms[i + 1] && ms[1..][j] == ms[j + 1];
        }
      }
      SortedLinesFrom(ms[1..], ms[0].generatedLine);
    }
  }

  // ---------------------------------------------------------------------------
  // Source contents
  // ---------------------------------------------------------------------------

  /** A source name relative to the source root, when there is one. */
  function Relative(sourceRoot: Option<string>, source: string, paths: PathOps): string {
    if sourceRoot.Some? then paths.relative(sourceRoot.value, source) else source
  }

  /** The content stored under a source name, null when there is none. */
  function ContentFor(contents: map<string, string>, source: string): (r: Option<string>)
    ensures r.Some? <==> ToSetString(source) in contents
  {
    if ToSetString(source) in contents then Some(contents[ToSetString(source)]) else None
  }

  /**
   * The map after `setSourceContent` with the key already made relative: a
   * content is stored under the key, a null content removes the key. The
   * emptied map is the null of the source.
   */
  function WithContent(contents: map<string, string>, source: string, content: Option<string>): (r: map<string, string>)
    ensures ContentFor(r, source) == content
    ensures forall t :: t != source ==> ContentFor(r, t) == ContentFor(contents, t)
  {
    assert forall t :: t != source ==> ToSetString(t) != ToSetString(source) by {
      forall t | t != source
        ensures ToSetString(t) != ToSetString(source)
      {
        SetStringInjective(t, source);
      }
    }
    if content.Some? then contents[ToSetString(source) := content.value]
    else if contents != map[] then contents - {ToSetString(source)}
    else contents
  }

  /**
   * `_generateSourcesContent(sources, sourceRoot)`: for each source, the
   * content stored under its name relative to the root, null when none is;
   * all nulls when nothing is stored.
   */
  function GenerateSourcesContent(contents: map<string, string>, sources: seq<string>, sourceRoot: Option<string>, paths: PathOps): (r: seq<Option<string>>)
    ensures |r| == |sources|
    ensures forall i :: 0 <= i < |sources| ==> r[i] == ContentFor(contents, Relative(sourceRoot, sources[i], paths))
    ensures contents == map[] ==> forall i :: 0 <= i < |sources| ==> r[i].None?
  {
    seq(|sources|, i requires 0 <= i < |sources| =>
      if contents == map[] then None else ContentFor(contents, Relative(sourceRoot, sources[i], paths)))
  }

  // ---------------------------------------------------------------------------
  // The written map
  // ---------------------------------------------------------------------------

  /**
   * The object `toJSON` returns for the given state, `ms` being the mappings
   * in the order `toArray` leaves them: the version, the sources, the names and
   * the "mappings" string, the file and the root when set, and the contents
   * when any is stored. The string never fails to be written, because every
   * mapping is writable.
   */
  function JsonOf(file: Option<string>, sourceRoot: Option<string>, sources: seq<string>, names: seq<string>,
                  contents: map<string, string>, ms: seq<Mapping>, paths: PathOps): (r: Consumers.RawMap)
    requires MappingsCodec.LinesFrom(ms, 1)
    requires forall m :: m in ms ==> Writable(m, sources, names)
    ensures r.version == Some(VERSION) && r.sources == Some(sources) && r.names == Some(names)
    ensures r.file == file && r.sourceRoot == sourceRoot && r.sections.NoSections?
    ensures r.sourcesContent.Some? <==> contents != map[]
    ensures r.mappings.Some? && MappingsCodec.Parse(r.mappings.value, sources, names) == Ok(MappingsCodec.Dedup(ms))
  {
    AllEncodable(ms, sources, names);
    MappingsCodec.RoundTrip(ms, sources, names);
    Consumers.RawMap(
      Some(VERSION), file, sourceRoot, Some(sources), Some(names),
      if contents != map[] then Some(GenerateSourcesContent(contents, sources, sourceRoot, paths)) else None,
      Some(MappingsCodec.Serialize(ms, sources, names).value),
      Consumers.NoSections)
  }

  /**
   * A written map read back by `new SourceMapConsumer`: a basic consumer with
   * the same file, root, sources and names, whose tables hold the mappings
   * written, without the repeated ones, each table in its own order. This
   * needs `normalize` to leave every source as it is.
   */
  lemma JsonRoundTrip(file: Option<string>, sourceRoot: Option<string>, sources: seq<string>, names: seq<string>,
                      contents: map<string, string>, ms: seq<Mapping>, paths: PathOps)
    requires MappingsCodec.LinesFrom(ms, 1)
    requires forall m :: m in ms ==> Writable(m, sources, names)
    requires forall s :: s in sources ==> paths.normalize(s) == s
    ensures var c := Consumers.NewConsumer(JsonOf(file, sourceRoot, sources, names, contents, ms, paths), paths);
            && c.Ok? && c.value.Basic?
            && c.value.file == file && c.value.sourceRoot == sourceRoot
            && c.value.sources == sources && c.value.names == names
            && Consumers.BasicTables(c.value) == Ok(Consumers.SortedTables(MappingsCodec.Dedup(ms)))
  {
    var raw := JsonOf(file, sourceRoot, sources, names, contents, ms, paths);
    var normalized := Consumers.MapSeq(paths.normalize, sources);
    assert normalized == sources by {
      forall i | 0 <= i < |sources|
        ensures normalized[i] == sources[i]
      {
        assert sources[i] in sources;
      }
    }
  }

  // ---------------------------------------------------------------------------
  // The generator
  // ---------------------------------------------------------------------------

  /** `if (x != null && !set.has(x)) set.add(x)`. */
  method Register(s: ArraySet, x: Option<string>)
    requires s.Valid()
    modifies s
    ensures s.Valid() && s.items == Registering(old(s.items), x)
  {
    if x.Some? {
      var present := s.Has(x.value);
      if !present {
        s.Add(x.value, false);
      }
    }
  }

  class SourceMapGenerator {
    var file: Option<string>
    var sourceRoot: Option<string>
    var sources: ArraySet
    var names: ArraySet
    var mappings: MappingList
    /** `_sourcesContents`, keyed by `toSetString` of the relative source name; empty when null. */
    var sourcesContents: map<string, string>

    /** The two sets are distinct objects, all three parts are valid, and every mapping is writable. */
    ghost predicate Valid()
      reads this, sources, names, mappings
    {
      && sources != names
      && sources.Valid() && names.Valid() && mappings.Valid()
      && forall m :: m in mappings.items ==> Writable(m, sources.items, names.items)
    }

    /** `new SourceMapGenerator({file, sourceRoot})`: empty sets, an empty list and no contents. */
    constructor (file: Option<string>, sourceRoot: Option<string>)
      ensures Valid() && fresh(sources) && fresh(names) && fresh(mappings)
      ensures this.file == file && this.sourceRoot == sourceRoot
      ensures sources.items == [] && names.items == [] && mappings.items == [] && sourcesContents == map[]
    {
      this.file := file;
      this.sourceRoot := sourceRoot;
      sources := new ArraySet();
      names := new ArraySet();
      mappings := new MappingList();
      sourcesContents := map[];
    }

    /**
     * `addMapping(args)`: a missing `generated` and a mapping the validation
     * refuses fail and change nothing; otherwise the source and the name are
     * registered when new and the record is appended.
     */
    method AddMapping(args: MappingArgs) returns (err: Option<Error>)
      requires Valid()
      modifies sources, names, mappings
      ensures Valid()
      ensures args.generated.None? ==> err == Some(MissingArgument("generated"))
      ensures args.generated.Some? ==> err == ValidateMapping(args.generated.value, args.original, args.source, args.name)
      ensures err.Some? ==>
                sources.items == old(sources.items) && names.items == old(names.items) && mappings.items == old(mappings.items)
      ensures err.None? ==>
                && mappings.items == old(mappings.items) + [Record(args.generated.value, args.original, args.source, args.name)]
                && sources.items == Registering(old(sources.items), args.source)
                && names.items == Registering(old(names.items), args.name)
    {
      if args.generated.None? {
        return Some(MissingArgument("generated"));
      }
      var generated := args.generated.value;
      err := ValidateMapping(generated, args.original, args.source, args.name);
      if err.Some? {
        return;
      }
      Register(sources, args.source);
      Register(names, args.name);
      var m := Record(generated, args.original, args.source, args.name);
      WritableAppend(mappings.items, m, old(sources.items), old(names.items), sources.items, names.items);
      mappings.Add(m);
    }

    /**
     * `setSourceContent(sourceFile, content)`: the file name is made relative
     * to the root; a content is stored under it, a null content removes it.
     */
    method SetSourceContent(sourceFile: string, content: Option<string>, paths: PathOps)
      requires Valid()
      modifies this
      ensures Valid()
      ensures file == old(file) && sourceRoot == old(sourceRoot)
      ensures sources == old(sources) && names == old(names) && mappings == old(mappings)
      ensures sourcesContents == WithContent(old(sourcesContents), Relative(sourceRoot, sourceFile, paths), content)
    {
      var source := sourceFile;
      if sourceRoot.Some? {
        source := paths.relative(sourceRoot.value, source);
      }
      if content.Some? {
        sourcesContents := sourcesContents[ToSetString(source) := content.value];
      } else if sourcesContents != map[] {
        sourcesContents := sourcesContents - {ToSetString(source)};
      }
    }

    /**
     * `toJSON()`: `toArray` puts the mappings in generated-position order, and
     * the map is the one written for that order. It never fails.
     */
    method ToJSON(paths: PathOps) returns (r: Consumers.RawMap)
      requires Valid()
      modifies mappings
      ensures Valid()
      ensures multiset(mappings.items) == multiset(old(mappings.items)) && PositionSorted(mappings.items)
      ensures old(mappings.sorted) ==> mappings.items == old(mappings.items)
      ensures !old(mappings.sorted) ==> mappings.items == Sorting.Sort(Sorting.ByGenerated, old(mappings.items))
      ensures MappingsCodec.LinesFrom(mappings.items, 1)
      ensures r == JsonOf(file, sourceRoot, sources.items, names.items, sourcesContents, mappings.items, paths)
    {
      var sourceArray := sources.ToArray();
      var nameArray := names.ToArray();
      var ms := mappings.ToArray();
      forall m | m in ms
        ensures Writable(m, sources.items, names.items)
      {
        assert m in multiset(old(mappings.items));
      }
      PositionSortedLines(ms);
      var written := MappingsWriter.WriteMappings(ms, sources, names);
      AllEncodable(ms, sourceArray, nameArray);
      MappingsCodec.RoundTrip(ms, sourceArray, nameArray);
      var contents := None;
      if sourcesContents != map[] {
        contents := Some(GenerateSourcesContent(sourcesContents, sourceArray, sourceRoot, paths));
      }
      r := Consumers.RawMap(Some(VERSION), file, sourceRoot, Some(sourceArray), Some(nameArray), contents,
                            Some(written.value), Consumers.NoSections);
    }
  }
}

=== FILE: generator_apply.dfy ===
/**
 * `SourceMapGenerator.prototype.applySourceMap`: every mapping into a given
 * source file is redirected through a consumer of that file's own map, the
 * sets of sources and names are rebuilt from the mappings, and the contents
 * the consumer embeds are copied over.
 */
module GeneratorApply {
  import opened Wrappers
  import opened Util
  import opened Paths
  import opened ArraySets
  import MappingLists
  import MappingsCodec
  import Consumers
  import ConsumerQueries
  import ConsumerContents
  import opened Generators

  // ---------------------------------------------------------------------------
  // The consumer's answers
  // ---------------------------------------------------------------------------

  /** The `file` property of a consumer; an indexed consumer has none. */
  function FileOf(c: Consumers.Consumer): Option<string> {
    if c.Basic? then c.file else None
  }

  /**
   * Whatever `originalPositionFor` answers with a source also has a line and a
   * column: the records read from a "mappings" string are complete.
   */
  lemma {:induction false} AnswerComplete(c: Consumers.Consumer, line: int, column: int, paths: PathOps)
    ensures var r := ConsumerQueries.OriginalPositionAt(c, line, column, paths);
            r.Ok? && r.value.source.Some? ==> r.value.line.Some? && r.value.column.Some?
    decreases c
  {
    var r := ConsumerQueries.OriginalPositionAt(c, line, column, paths);
    match c
    case Basic(_, _, _, _, _, _) =>
      if r.Ok? && r.value.source.Some? {
        var ms := MappingsCodec.Parse(c.mappings, c.sources, c.names).value;
        var t := Consumers.SortedTables(ms).generated;
        var found := ConsumerQueries.FindOnLine(t, line, column).value;
        MappingsCodec.ParsedComplete(c.mappings, MappingsCodec.Start, c.sources, c.names);
        assert t[found] in multiset(ms);
        var k :| 0 <= k < |ms| && ms[k] == t[found];
        assert MappingsCodec.Complete(ms[k]);
      }
    case Indexed(ss) =>
      var index := ConsumerQueries.FindSection(ss, line, column);
      if index >= 0 {
        var s := ss[index];
        var p := Consumers.ToSection(s, line, column);
        AnswerComplete(s.consumer, p.0, p.1, paths);
      }
  }

  // ---------------------------------------------------------------------------
  // One mapping
  // ---------------------------------------------------------------------------

  /**
   * What happens to one mapping. A mapping into `sourceFile` is looked up in
   * the consumer at its original position (an absent original line or column
   * being the `false` the generator stores, which counts as 0); when the
   * consumer knows a source there, the mapping takes that source (joined to
   * the map path, then made relative to the root), the consumer's original
   * position and, when the consumer gives one, its name. Any other mapping is
   * left as it is. The generator's original line is never null, so the
   * source's null test on it always passes.
   */
  function ApplyOne(m: Mapping, c: Consumers.Consumer, sourceFile: string, mapPath: Option<string>,
                    sourceRoot: Option<string>, paths: PathOps): (r: Result<Mapping>)
    ensures r.Ok? ==> r.value.generatedLine == m.generatedLine && r.value.generatedColumn == m.generatedColumn
    ensures m.source != Some(sourceFile) ==> r == Ok(m)
    ensures m.source == Some(sourceFile) ==>
              var answer := ConsumerQueries.OriginalPositionFor(c, Some(Num(m.originalLine)), Some(Num(m.originalColumn)), paths);
              && (answer.Err? ==> r == Err(answer.error))
              && (answer.Ok? && answer.value.source.None? ==> r == Ok(m))
              && (answer.Ok? && answer.value.source.Some? ==>
                    && r.Ok?
                    && r.value.source == Some(Relative(sourceRoot, if mapPath.Some? then paths.join(mapPath.value, answer.value.source.value)
                                                                   else answer.value.source.value, paths))
                    && r.value.originalLine == answer.value.line && r.value.originalColumn == answer.value.column
                    && r.value.name == (if answer.value.name.Some? then answer.value.name else m.name))
  {
    if m.source != Some(sourceFile) then Ok(m)
    else
      var original :- ConsumerQueries.OriginalPositionFor(c, Some(Num(m.originalLine)), Some(Num(m.originalColumn)), paths);
      if original.source.None? then Ok(m)
      else
        var joined := if mapPath.Some? then paths.join(mapPath.value, original.source.value) else original.source.value;
        Ok(m.(source := Some(Relative(sourceRoot, joined, paths)),
              originalLine := original.line, originalColumn := original.column,
              name := if original.name.Some? then original.name else m.name))
  }

  /** A mapping the serializer can write whatever its source and name: the fields present agree with the source. */
  predicate Shaped(m: Mapping) {
    && m.generatedLine >= 1
    && if m.source.None? then m.originalLine.None? && m.originalColumn.None? && m.name.None?
       else m.originalLine.Some? && m.originalColumn.Some?
  }

  /** A writable mapping stays in a shape the serializer can write once it is redirected. */
  lemma ApplyOneShaped(m: Mapping, c: Consumers.Consumer, sourceFile: string, mapPath: Option<string>,
                       sourceRoot: Option<string>, paths: PathOps, sources: seq<string>, names: seq<string>)
    requires Writable(m, sources, names)
    ensures ApplyOne(m, c, sourceFile, mapPath, sourceRoot, paths).Ok? ==>
              Shaped(ApplyOne(m, c, sourceFile, mapPath, sourceRoot, paths).value)
  {
    if m.source == Some(sourceFile) {
      AnswerComplete(c, Num(m.originalLine), Num(m.originalColumn), paths);
    }
  }

  // ---------------------------------------------------------------------------
  // The walk over the list
  // ---------------------------------------------------------------------------

  /**
   * The walk over the mappings in insertion order: the mappings rewritten so
   * far and the error that stopped the walk, if one did. After an error the
   * rest of the list is not visited.
   */
  function Rewritten(ms: seq<Mapping>, c: Consumers.Consumer, sourceFile: string, mapPath: Option<string>,
                     sourceRoot: Option<string>, paths: PathOps): (r: (seq<Mapping>, Option<Error>))
    ensures |r.0| <= |ms|
    ensures r.1.None? ==> |r.0| == |ms|
    ensures r.1.Some? ==> |r.0| < |ms|
    decreases |ms|
  {
    if ms == [] then ([], None)
    else
      var before := Rewritten(ms[..|ms| - 1], c, sourceFile, mapPath, sourceRoot, paths);
      if before.1.Some? then before
      else
        match ApplyOne(ms[|ms| - 1], c, sourceFile, mapPath, sourceRoot, paths)
        case Err(e) => (before.0, Some(e))
        case Ok(m) => (before.0 + [m], None)
  }

  /** Once the walk has stopped, a longer list stops it at the same place. */
  lemma {:induction false} RewrittenStops(ms: seq<Mapping>, n: nat, c: Consumers.Consumer, sourceFile: string,
                                          mapPath: Option<string>, sourceRoot: Option<string>, paths: PathOps)
    requires n <= |ms| && Rewritten(ms[..n], c, sourceFile, mapPath, sourceRoot, paths).1.Some?
    ensures Rewritten(ms, c, sourceFile, mapPath, sourceRoot, paths) == Rewritten(ms[..n], c, sourceFile, mapPath, sourceRoot, paths)
    decreases |ms| - n
  {
    if n < |ms| {
      assert ms[..n + 1][..n] == ms[..n];
      RewrittenStops(ms, n + 1, c, sourceFile, mapPath, sourceRoot, paths);
    } else {
      assert ms[..n] == ms;
    }
  }

  /** The strings present in a list of optional strings, each once, in order of first appearance. */
  function Collect(xs: seq<Option<string>>): (r: seq<string>)
    decreases |xs|
  {
    if xs == [] then [] else Registering(Collect(xs[..|xs| - 1]), xs[|xs| - 1])
  }

  /** A string is collected exactly when it is present somewhere in the list. */
  lemma {:induction false} CollectMembers(xs: seq<Option<string>>, s: string)
    ensures s in Collect(xs) <==> Some(s) in xs
    decreases |xs|
  {
    if xs != [] {
      var init := xs[..|xs| - 1];
      CollectMembers(init, s);
      assert xs == init + [xs[|xs| - 1]];
    }
  }

  /** The sources of the mappings, in order. */
  function SourcesOf(ms: seq<Mapping>): (r: seq<Option<string>>)
    ensures |r| == |ms| && forall k :: 0 <= k < |ms| ==> r[k] == ms[k].source
  {
    seq(|ms|, k requires 0 <= k < |ms| => ms[k].source)
  }

  /** The names of the mappings, in order. */
  function NamesOf(ms: seq<Mapping>): (r: seq<Option<string>>)
    ensures |r| == |ms| && forall k :: 0 <= k < |ms| ==> r[k] == ms[k].name
  {
    seq(|ms|, k requires 0 <= k < |ms| => ms[k].name)
  }

  /** Rewritten mappings in shape are writable against the sets collected from them. */
  lemma CollectedWritable(ms: seq<Mapping>)
    requires forall k :: 0 <= k < |ms| ==> Shaped(ms[k])
    ensures forall m :: m in ms ==> Writable(m, Collect(SourcesOf(ms)), Collect(NamesOf(ms)))
  {
    forall m | m in ms
      ensures Writable(m, Collect(SourcesOf(ms)), Collect(NamesOf(ms)))
    {
      var k :| 0 <= k < |ms| && ms[k] == m;
      assert Shaped(ms[k]);
      if m.source.Some? {
        CollectMembers(SourcesOf(ms), m.source.value);
        assert SourcesOf(ms)[k] == m.source;
      }
      if m.name.Some? {
        CollectMembers(NamesOf(ms), m.name.value);
        assert NamesOf(ms)[k] == m.name;
      }
    }
  }

  /** One more mapping walked: the lists of sources and names grow by its own. */
  lemma OfSnoc(ms: seq<Mapping>, m: Mapping)
    ensures SourcesOf(ms + [m]) == SourcesOf(ms) + [m.source]
    ensures NamesOf(ms + [m]) == NamesOf(ms) + [m.name]
    ensures Collect(SourcesOf(ms + [m])) == Registering(Collect(SourcesOf(ms)), m.source)
    ensures Collect(NamesOf(ms + [m])) == Registering(Collect(NamesOf(ms)), m.name)
  {
    assert SourcesOf(ms + [m]) == SourcesOf(ms) + [m.source];
    assert NamesOf(ms + [m]) == NamesOf(ms) + [m.name];
    assert (SourcesOf(ms) + [m.source])[..|ms|] == SourcesOf(ms);
    assert (NamesOf(ms) + [m.name])[..|ms|] == NamesOf(ms);
  }

  // ---------------------------------------------------------------------------
  // The contents
  // ---------------------------------------------------------------------------

  /**
   * The copy of the consumer's contents, source by source from index i: the
   * content is asked for without `nullOnMissing`; a content that is there is
   * stored under the source name joined to the map path and made relative to
   * the root, and `setSourceContent` makes that relative to the root once
   * more. The contents copied so far and the error that stopped the copy, if
   * one did.
   */
  function Copied(contents: map<string, string>, c: Consumers.Consumer, list: seq<string>, i: nat,
                  mapPath: Option<string>, sourceRoot: Option<string>, paths: PathOps): (r: (map<string, string>, Option<Error>))
    requires i <= |list|
    ensures r.1.Some? ==> r.1.value.SourceNotInMap?
    decreases |list| - i
  {
    if i == |list| then (contents, None)
    else
      match ConsumerContents.SourceContentFor(c, list[i], false, paths)
      case Err(e) => (contents, Some(e))
      case Ok(content) =>
        if content.Some? then
          var joined := if mapPath.Some? then paths.join(mapPath.value, list[i]) else list[i];
          var target := Relative(sourceRoot, joined, paths);
          Copied(WithContent(contents, Relative(sourceRoot, target, paths), content), c, list, i + 1, mapPath, sourceRoot, paths)
        else Copied(contents, c, list, i + 1, mapPath, sourceRoot, paths)
  }

  /** The copy fails exactly when some source listed is missing from the consumer. */
  lemma {:induction false} CopiedFails(contents: map<string, string>, c: Consumers.Consumer, list: seq<string>, i: nat,
                                       mapPath: Option<string>, sourceRoot: Option<string>, paths: PathOps)
    requires i <= |list|
    ensures Copied(contents, c, list, i, mapPath, sourceRoot, paths).1.Some? <==>
              exists k :: i <= k < |list| && ConsumerContents.SourceContentFor(c, list[k], false, paths).Err?
    decreases |list| - i
  {
    if i < |list| {
      var content := ConsumerContents.SourceContentFor(c, list[i], false, paths);
      if content.Ok? {
        var next := if content.value.Some? then
                      WithContent(contents, Relative(sourceRoot, Relative(sourceRoot, if mapPath.Some? then paths.join(mapPath.value, list[i]) else list[i], paths), paths), content.value)
                    else contents;
        CopiedFails(next, c, list, i + 1, mapPath, sourceRoot, paths);
        if exists k :: i <= k < |list| && ConsumerContents.SourceContentFor(c, list[k], false, paths).Err? {
          var k :| i <= k < |list| && ConsumerContents.SourceContentFor(c, list[k], false, paths).Err?;
          assert i + 1 <= k;
        }
      } else {
        assert ConsumerContents.SourceContentFor(c, list[i], false, paths).Err?;
      }
    }
  }

  // ---------------------------------------------------------------------------
  // applySourceMap
  // ---------------------------------------------------------------------------

  /**
   * The file the mappings to redirect point into: the one given, else the
   * consumer's `file`, made relative to the generator's root.
   */
  function TargetFile(c: Consumers.Consumer, sourceFile: Option<string>, sourceRoot: Option<string>, paths: PathOps): (r: Result<string>)
    ensures r.Err? <==> sourceFile.None? && FileOf(c).None?
    ensures r.Err? ==> r.error == MissingSourceFile
  {
    if sourceFile.Some? then Ok(Relative(sourceRoot, sourceFile.value, paths))
    else if FileOf(c).None? then Err(MissingSourceFile)
    else Ok(Relative(sourceRoot, FileOf(c).value, paths))
  }

  /**
   * The state of the walk after i mappings: those before i rewritten, those
   * from i on as they were, and the new sets collected from the rewritten ones.
   */
  ghost predicate Walked(ms: seq<Mapping>, items: seq<Mapping>, i: nat, c: Consumers.Consumer, file: string,
                         mapPath: Option<string>, sourceRoot: Option<string>, paths: PathOps,
                         sources: seq<string>, names: seq<string>)
  {
    && |items| == |ms| && i <= |ms|
    && Rewritten(ms[..i], c, file, mapPath, sourceRoot, paths) == (items[..i], None)
    && items[i..] == ms[i..]
    && sources == Collect(SourcesOf(items[..i]))
    && names == Collect(NamesOf(items[..i]))
    && forall k :: 0 <= k < i ==> Shaped(items[k])
  }

  lemma WalkedStart(ms: seq<Mapping>, c: Consumers.Consumer, file: string, mapPath: Option<string>,
                    sourceRoot: Option<string>, paths: PathOps)
    ensures Walked(ms, ms, 0, c, file, mapPath, sourceRoot, paths, [], [])
  {
    assert ms[..0] == [];
  }

  /** One mapping rewritten: the walk moves on and the sets register its source and name. */
  lemma WalkedStep(ms: seq<Mapping>, items: seq<Mapping>, i: nat, c: Consumers.Consumer, file: string,
                   mapPath: Option<string>, sourceRoot: Option<string>, paths: PathOps,
                   sources: seq<string>, names: seq<string>, m: Mapping, oldSources: seq<string>, oldNames: seq<string>)
    requires Walked(ms, items, i, c, file, mapPath, sourceRoot, paths, sources, names)
    requires i < |ms| && Writable(ms[i], oldSources, oldNames)
    requires ApplyOne(items[i], c, file, mapPath, sourceRoot, paths) == Ok(m)
    ensures Walked(ms, items[i := m], i + 1, c, file, mapPath, sourceRoot, paths,
                   Registering(sources, m.source), Registering(names, m.name))
  {
    var after := items[i := m];
    assert items[i] == ms[i] by {
      assert items[i..][0] == ms[i..][0];
    }
    assert Shaped(m) by {
      ApplyOneShaped(ms[i], c, file, mapPath, sourceRoot, paths, oldSources, oldNames);
    }
    WalkedStepRewritten(ms, items, i, c, file, mapPath, sourceRoot, paths, m);
    assert after[..i + 1] == items[..i] + [m];
    OfSnoc(items[..i], m);
    forall k | 0 <= k < i + 1
      ensures Shaped(after[k])
    {
      if k < i {
        assert after[k] == items[k];
      }
    }
  }

  /** The rewritten prefix grows by the one mapping, and the rest is left as it was. */
  lemma WalkedStepRewritten(ms: seq<Mapping>, items: seq<Mapping>, i: nat, c: Consumers.Consumer, file: string,
                            mapPath: Option<string>, sourceRoot: Option<string>, paths: PathOps, m: Mapping)
    requires |items| == |ms| && i < |ms| && items[i..] == ms[i..]
    requires Rewritten(ms[..i], c, file, mapPath, sourceRoot, paths) == (items[..i], None)
    requires ApplyOne(ms[i], c, file, mapPath, sourceRoot, paths) == Ok(m)
    ensures Rewritten(ms[..i + 1], c, file, mapPath, sourceRoot, paths) == (items[i := m][..i + 1], None)
    ensures items[i := m][i + 1..] == ms[i + 1..]
  {
    var after := items[i := m];
    var upTo := ms[..i + 1];
    assert upTo[..|upTo| - 1] == ms[..i];
    assert upTo[|upTo| - 1] == ms[i];
    assert after[..i + 1] == items[..i] + [m];
    assert after[i + 1..] == items[i..][1..];
    assert ms[i + 1..] == ms[i..][1..];
  }

  /** A mapping that fails: the walk over the whole list stops there. */
  lemma WalkedStop(ms: seq<Mapping>, items: seq<Mapping>, i: nat, c: Consumers.Consumer, file: string,
                   mapPath: Option<string>, sourceRoot: Option<string>, paths: PathOps,
                   sources: seq<string>, names: seq<string>)
    requires Walked(ms, items, i, c, file, mapPath, sourceRoot, paths, sources, names)
    requires i < |ms| && ApplyOne(items[i], c, file, mapPath, sourceRoot, paths).Err?
    ensures var w := Rewritten(ms, c, file, mapPath, sourceRoot, paths);
            && w.1 == Some(ApplyOne(items[i], c, file, mapPath, sourceRoot, paths).error)
            && items == w.0 + ms[|w.0|..]
  {
    var e := ApplyOne(items[i], c, file, mapPath, sourceRoot, paths).error;
    assert items[i] == ms[i] by {
      assert items[i..][0] == ms[i..][0];
    }
    RewrittenFailsAt(ms, i, c, file, mapPath, sourceRoot, paths, items[..i], e);
    RewrittenStops(ms, i + 1, c, file, mapPath, sourceRoot, paths);
    var w := Rewritten(ms, c, file, mapPath, sourceRoot, paths);
    assert w == (items[..i], Some(e));
    assert items == w.0 + ms[|w.0|..] by {
      assert items[i..] == ms[i..] && |w.0| == i;
      assert items == items[..i] + items[i..];
    }
  }

  /** The walk over the first i + 1 mappings stops at mapping i when it fails. */
  lemma RewrittenFailsAt(ms: seq<Mapping>, i: nat, c: Consumers.Consumer, file: string,
                         mapPath: Option<string>, sourceRoot: Option<string>, paths: PathOps,
                         done: seq<Mapping>, e: Error)
    requires i < |ms| && Rewritten(ms[..i], c, file, mapPath, sourceRoot, paths) == (done, None)
    requires ApplyOne(ms[i], c, file, mapPath, sourceRoot, paths) == Err(e)
    ensures Rewritten(ms[..i + 1], c, file, mapPath, sourceRoot, paths) == (done, Some(e))
  {
    var upTo := ms[..i + 1];
    assert upTo[..|upTo| - 1] == ms[..i];
    assert upTo[|upTo| - 1] == ms[i];
  }

  /** The walk at the end of the list: the whole list rewritten. */
  lemma WalkedEnd(ms: seq<Mapping>, items: seq<Mapping>, c: Consumers.Consumer, file: string,
                  mapPath: Option<string>, sourceRoot: Option<string>, paths: PathOps,
                  sources: seq<string>, names: seq<string>)
    requires Walked(ms, items, |ms|, c, file, mapPath, sourceRoot, paths, sources, names)
    ensures Rewritten(ms, c, file, mapPath, sourceRoot, paths) == (items, None)
    ensures items == items + ms[|items|..]
    ensures sources == Collect(SourcesOf(items)) && names == Collect(NamesOf(items))
    ensures forall k :: 0 <= k < |items| ==> Shaped(items[k])
  {
    assert items[..|ms|] == items;
    assert ms[..|ms|] == ms;
  }

  /** A rewritten mapping stored in place at i, its source and name registered in the new sets. */
  method StoreRewritten(list: MappingLists.MappingList, newSources: ArraySet, newNames: ArraySet, i: nat, m: Mapping,
                        ghost ms: seq<Mapping>, c: Consumers.Consumer, file: string, mapPath: Option<string>,
                        root: Option<string>, paths: PathOps, ghost oldSources: seq<string>, ghost oldNames: seq<string>)
    requires list.Valid() && newSources.Valid() && newNames.Valid() && newSources != newNames
    requires Walked(ms, list.items, i, c, file, mapPath, root, paths, newSources.items, newNames.items)
    requires i < |ms| && Writable(ms[i], oldSources, oldNames)
    requires ApplyOne(list.items[i], c, file, mapPath, root, paths) == Ok(m)
    modifies list, newSources, newNames
    ensures list.Valid() && newSources.Valid() && newNames.Valid()
    ensures Walked(ms, list.items, i + 1, c, file, mapPath, root, paths, newSources.items, newNames.items)
  {
    WalkedStep(ms, list.items, i, c, file, mapPath, root, paths, newSources.items, newNames.items,
               m, oldSources, oldNames);
    list.Rewrite(i, m);
    Register(newSources, m.source);
    Register(newNames, m.name);
  }

  /**
   * The walk over the mappings: each is rewritten in place by `ApplyOne`
   * and its source and name go to the new sets. An error leaves the mappings
   * before it rewritten and the rest as they were.
   */
  method RewriteMappings(g: SourceMapGenerator, c: Consumers.Consumer, file: string, mapPath: Option<string>, paths: PathOps)
    returns (err: Option<Error>, newSources: ArraySet, newNames: ArraySet)
    requires g.Valid()
    modifies g.mappings
    ensures fresh(newSources) && fresh(newNames) && newSources != newNames
    ensures g.mappings.Valid() && newSources.Valid() && newNames.Valid()
    ensures var w := Rewritten(old(g.mappings.items), c, file, mapPath, g.sourceRoot, paths);
            && err == w.1
            && g.mappings.items == w.0 + old(g.mappings.items)[|w.0|..]
    ensures err.None? ==>
              && newSources.items == Collect(SourcesOf(g.mappings.items))
              && newNames.items == Collect(NamesOf(g.mappings.items))
              && forall k :: 0 <= k < |g.mappings.items| ==> Shaped(g.mappings.items[k])
  {
    ghost var ms := g.mappings.items;
    var list := g.mappings;
    var root := g.sourceRoot;
    newSources := new ArraySet();
    newNames := new ArraySet();
    WalkedStart(ms, c, file, mapPath, root, paths);
    var i := 0;
    while i < |list.items|
      invariant list.Valid() && newSources.Valid() && newNames.Valid()
      invariant fresh(newSources) && fresh(newNames) && newSources != newNames
      invariant Walked(ms, list.items, i, c, file, mapPath, root, paths, newSources.items, newNames.items)
      modifies list, newSources, newNames
    {
      assert ms[i] in ms;
      var rewritten := ApplyOne(list.items[i], c, file, mapPath, root, paths);
      if rewritten.Err? {
        WalkedStop(ms, list.items, i, c, file, mapPath, root, paths, newSources.items, newNames.items);
        return Some(rewritten.error), newSources, newNames;
      }
      StoreRewritten(list, newSources, newNames, i, rewritten.value, ms, c, file, mapPath, root, paths,
                     g.sources.items, g.names.items);
      i := i + 1;
    }
    WalkedEnd(ms, list.items, c, file, mapPath, root, paths, newSources.items, newNames.items);
    err := None;
  }

  /**
   * The copy of the consumer's contents into the generator, one
   * `setSourceContent` per content found.
   */
  method CopyContents(g: SourceMapGenerator, c: Consumers.Consumer, mapPath: Option<string>, paths: PathOps)
    returns (err: Option<Error>)
    requires g.Valid()
    modifies g
    ensures g.Valid()
    ensures g.file == old(g.file) && g.sourceRoot == old(g.sourceRoot)
    ensures g.sources == old(g.sources) && g.names == old(g.names) && g.mappings == old(g.mappings)
    ensures (g.sourcesContents, err) ==
              Copied(old(g.sourcesContents), c, Consumers.Sources(c, paths), 0, mapPath, g.sourceRoot, paths)
  {
    var list := Consumers.Sources(c, paths);
    var i := 0;
    while i < |list|
      invariant i <= |list| && g.Valid()
      invariant g.file == old(g.file) && g.sourceRoot == old(g.sourceRoot)
      invariant g.sources == old(g.sources) && g.names == old(g.names) && g.mappings == old(g.mappings)
      invariant Copied(old(g.sourcesContents), c, list, 0, mapPath, g.sourceRoot, paths)
                == Copied(g.sourcesContents, c, list, i, mapPath, g.sourceRoot, paths)
    {
      var content := ConsumerContents.SourceContentFor(c, list[i], false, paths);
      if content.Err? {
        return Some(content.error);
      }
      if content.value.Some? {
        var sourceFile := list[i];
        if mapPath.Some? {
          sourceFile := paths.join(mapPath.value, sourceFile);
        }
        if g.sourceRoot.Some? {
          sourceFile := paths.relative(g.sourceRoot.value, sourceFile);
        }
        g.SetSourceContent(sourceFile, content.value, paths);
      }
      i := i + 1;
    }
    err := None;
  }

  /**
   * `applySourceMap(consumer, sourceFile, sourceMapPath)`. Without a file name
   * and without a `file` in the consumer it fails before changing anything.
   * Otherwise the mappings are walked; when that succeeds, the new sets replace
   * the old ones and the contents are copied, and the generator is valid again.
   * An error during the walk leaves the sets as they were.
   */
  method ApplySourceMap(g: SourceMapGenerator, c: Consumers.Consumer, sourceFile: Option<string>,
                        mapPath: Option<string>, paths: PathOps) returns (err: Option<Error>)
    requires g.Valid()
    modifies g, g.mappings
    ensures g.file == old(g.file) && g.sourceRoot == old(g.sourceRoot) && g.mappings == old(g.mappings)
    ensures TargetFile(c, sourceFile, g.sourceRoot, paths).Err? ==>
              err == Some(MissingSourceFile) && g.mappings.items == old(g.mappings.items)
              && g.sources == old(g.sources) && g.names == old(g.names) && g.sourcesContents == old(g.sourcesContents)
    ensures TargetFile(c, sourceFile, g.sourceRoot, paths).Ok? ==>
              var w := Rewritten(old(g.mappings.items), c, TargetFile(c, sourceFile, g.sourceRoot, paths).value,
                                 mapPath, g.sourceRoot, paths);
              && g.mappings.items == w.0 + old(g.mappings.items)[|w.0|..]
              && (w.1.Some? ==> err == w.1 && g.sources == old(g.sources) && g.names == old(g.names)
                                && g.sourcesContents == old(g.sourcesContents))
              && (w.1.None? ==>
                    && g.sources.items == Collect(SourcesOf(w.0))
                    && g.names.items == Collect(NamesOf(w.0))
                    && (g.sourcesContents, err) ==
                         Copied(old(g.sourcesContents), c, Consumers.Sources(c, paths), 0, mapPath, g.sourceRoot, paths)
                    && g.Valid())
  {
    var target := TargetFile(c, sourceFile, g.sourceRoot, paths);
    if target.Err? {
      return Some(target.error);
    }
    ghost var w := Rewritten(g.mappings.items, c, target.value, mapPath, g.sourceRoot, paths);
    var newSources, newNames;
    err, newSources, newNames := RewriteMappings(g, c, target.value, mapPath, paths);
    if err.Some? {
      return;
    }
    assert old(g.mappings.items)[|w.0|..] == [];
    assert g.mappings.items == w.0;
    g.sources := newSources;
    g.names := newNames;
    CollectedWritable(g.mappings.items);
    err := CopyContents(g, c, mapPath, paths);
  }
}

=== FILE: generator_from.dfy ===
/**
 * `SourceMapGenerator.fromSourceMap(consumer)`: a new generator with the
 * consumer's file and root, one `addMapping` call per record `eachMapping`
 * yields in generated order, then the content of every source the consumer
 * lists and embeds.
 */
module GeneratorFrom {
  import opened Wrappers
  import opened Util
  import opened Paths
  import Consumers
  import ConsumerContents
  import ConsumerTraversal
  import opened Generators
  import GeneratorApply
  import opened GeneratorRuns

  /**
   * The argument handed to `addMapping` for a record: its generated position;
   * for a record with a source, that source made relative to the root, its
   * original position and its name.
   */
  function ArgsFrom(m: Mapping, sourceRoot: Option<string>, paths: PathOps): MappingArgs {
    var generated := Some(Position(Some(m.generatedLine), Some(m.generatedColumn)));
    if m.source.None? then MappingArgs(generated, None, None, None)
    else MappingArgs(generated, Some(Position(m.originalLine, m.originalColumn)),
                     Some(Relative(sourceRoot, m.source.value, paths)), m.name)
  }

  /** The calls for a run of records, one each, in order. */
  function AllArgs(ms: seq<Mapping>, sourceRoot: Option<string>, paths: PathOps): (r: seq<MappingArgs>)
    ensures |r| == |ms| && forall k :: 0 <= k < |ms| ==> r[k] == ArgsFrom(ms[k], sourceRoot, paths)
  {
    seq(|ms|, k requires 0 <= k < |ms| => ArgsFrom(ms[k], sourceRoot, paths))
  }

  /**
   * A well-formed record, as a generator writes them, is accepted and pushed
   * back unchanged when there is no root to make its source relative to.
   */
  lemma RecordReadBack(m: Mapping, paths: PathOps)
    requires WellFormed(m)
    ensures var a := ArgsFrom(m, None, paths);
            Check(a).None? && Record(a.generated.value, a.original, a.source, a.name) == m
  {
    var a := ArgsFrom(m, None, paths);
    assert PositionOk(a.generated.value);
    if m.source.Some? {
      assert a.source == m.source;
      assert Consumers.Truthy(a.source);
      assert PositionOk(a.original.value);
      assert ValidateMapping(a.generated.value, a.original, a.source, a.name).None?;
    } else {
      assert a == MappingArgs(a.generated, None, None, None);
      assert ValidateMapping(a.generated.value, a.original, a.source, a.name).None?;
    }
    assert Check(a).None?;
  }

  /**
   * Records that are all well-formed are copied one for one: the run of calls
   * raises nothing and pushes the records themselves, in the same order.
   */
  lemma {:induction false} WellFormedCopied(ms: seq<Mapping>, paths: PathOps)
    requires forall k :: 0 <= k < |ms| ==> WellFormed(ms[k])
    ensures Recorded(AllArgs(ms, None, paths)) == (ms, None)
  {
    var args := AllArgs(ms, None, paths);
    forall k | 0 <= k < |ms|
      ensures Check(args[k]).None?
      ensures Record(args[k].generated.value, args[k].original, args[k].source, args[k].name) == ms[k]
    {
      RecordReadBack(ms[k], paths);
    }
    RecordedAccepted(args);
    assert Recorded(args).0 == ms;
  }

  /**
   * The copy of the contents, source by source from index i: each listed
   * source is asked for its content without `nullOnMissing`, and a content
   * that is there is set under the source's name, which `setSourceContent`
   * makes relative to the root. The contents so far and the error that
   * stopped the copy, if one did.
   */
  function SourcesCopied(contents: map<string, string>, c: Consumers.Consumer, list: seq<string>, i: nat,
                         sourceRoot: Option<string>, paths: PathOps): (r: (map<string, string>, Option<Error>))
    requires i <= |list|
    ensures r.1.Some? ==> r.1.value.SourceNotInMap?
    decreases |list| - i
  {
    if i == |list| then (contents, None)
    else
      match ConsumerContents.SourceContentFor(c, list[i], false, paths)
      case Err(e) => (contents, Some(e))
      case Ok(content) =>
        var next := if content.Some? then WithContent(contents, Relative(sourceRoot, list[i], paths), content) else contents;
        SourcesCopied(next, c, list, i + 1, sourceRoot, paths)
  }

  /** On a basic map without a root, one source's step sets its embedded content, if any, under its own name. */
  lemma SourcesCopiedStep(contents: map<string, string>, c: Consumers.Consumer, i: nat, paths: PathOps)
    requires c.Basic? && c.sourceRoot.None? && c.sourcesContent.Some? && i < |c.sources|
    ensures var entry := ConsumerContents.EntryOf(c, c.sources[i]);
            var next := if entry.Some? then WithContent(contents, c.sources[i], entry) else contents;
            SourcesCopied(contents, c, c.sources, i, None, paths) == SourcesCopied(next, c, c.sources, i + 1, None, paths)
  {
    assert c.sources[i] in c.sources;
    ConsumerContents.BasicContent(c, c.sources[i], false, paths);
  }

  /** The contents after copying one more source in front of the rest, given those after the rest. */
  lemma CopiedOneMore(contents: map<string, string>, next: map<string, string>, s: string, rest: seq<string>,
                      after: map<string, string>, c: Consumers.Consumer)
    requires c.Basic? && c.sourcesContent.Some? && forall t :: t in [s] + rest ==> t in c.sources
    requires var entry := ConsumerContents.EntryOf(c, s);
             next == if entry.Some? then WithContent(contents, s, entry) else contents
    requires forall t :: t in rest && ConsumerContents.EntryOf(c, t).Some? ==> ContentFor(after, t) == ConsumerContents.EntryOf(c, t)
    requires forall t :: t !in rest ==> ContentFor(after, t) == ContentFor(next, t)
    ensures forall t :: t in [s] + rest && ConsumerContents.EntryOf(c, t).Some? ==>
              ContentFor(after, t) == ConsumerContents.EntryOf(c, t)
    ensures forall t :: t !in [s] + rest ==> ContentFor(after, t) == ContentFor(contents, t)
  {
    forall t | t in [s] + rest && ConsumerContents.EntryOf(c, t).Some?
      ensures ContentFor(after, t) == ConsumerContents.EntryOf(c, t)
    {
      if t !in rest {
        assert t == s;
      }
    }
  }

  /**
   * The contents a basic map with `sourcesContent` leads to from index i on:
   * each source's entry, when there is one, set under the source's own name.
   */
  function Stored(contents: map<string, string>, c: Consumers.Consumer, i: nat): map<string, string>
    requires c.Basic? && c.sourcesContent.Some? && i <= |c.sources|
    decreases |c.sources| - i
  {
    if i == |c.sources| then contents
    else
      var entry := ConsumerContents.EntryOf(c, c.sources[i]);
      Stored(if entry.Some? then WithContent(contents, c.sources[i], entry) else contents, c, i + 1)
  }

  /** Without a root, the copy is the fold `Stored` and never fails. */
  lemma {:induction false} CopiedIsStored(contents: map<string, string>, c: Consumers.Consumer, i: nat, paths: PathOps)
    requires c.Basic? && c.sourceRoot.None? && c.sourcesContent.Some? && i <= |c.sources|
    ensures SourcesCopied(contents, c, c.sources, i, None, paths) == (Stored(contents, c, i), None)
    decreases |c.sources| - i
  {
    if i < |c.sources| {
      var entry := ConsumerContents.EntryOf(c, c.sources[i]);
      SourcesCopiedStep(contents, c, i, paths);
      CopiedIsStored(if entry.Some? then WithContent(contents, c.sources[i], entry) else contents, c, i + 1, paths);
    }
  }

  /** The fold gives every source from index i on with an entry that entry, and leaves every other name alone. */
  lemma {:induction false} StoredContents(contents: map<string, string>, c: Consumers.Consumer, i: nat)
    requires c.Basic? && c.sourcesContent.Some? && i <= |c.sources|
    ensures forall s :: s in c.sources[i..] && ConsumerContents.EntryOf(c, s).Some? ==>
              ContentFor(Stored(contents, c, i), s) == ConsumerContents.EntryOf(c, s)
    ensures forall t :: t !in c.sources[i..] ==> ContentFor(Stored(contents, c, i), t) == ContentFor(contents, t)
    decreases |c.sources| - i
  {
    if i < |c.sources| {
      var s := c.sources[i];
      var entry := ConsumerContents.EntryOf(c, s);
      var next := if entry.Some? then WithContent(contents, s, entry) else contents;
      StoredContents(next, c, i + 1);
      assert c.sources[i..] == [s] + c.sources[i + 1..];
      assert forall t :: t in c.sources[i..] ==> t in c.sources;
      CopiedOneMore(contents, next, s, c.sources[i + 1..], Stored(next, c, i + 1), c);
    }
  }

  /**
   * On a basic map without a root the copy never fails, every listed source
   * with an embedded content gets that content, and no other name changes.
   */
  lemma BasicSourcesCopied(contents: map<string, string>, c: Consumers.Consumer, i: nat, paths: PathOps)
    requires c.Basic? && c.sourceRoot.None? && c.sourcesContent.Some? && i <= |c.sources|
    ensures SourcesCopied(contents, c, c.sources, i, None, paths).1.None?
    ensures forall s :: s in c.sources[i..] && ConsumerContents.EntryOf(c, s).Some? ==>
              ContentFor(SourcesCopied(contents, c, c.sources, i, None, paths).0, s) == ConsumerContents.EntryOf(c, s)
    ensures forall t :: t !in c.sources[i..] ==>
              ContentFor(SourcesCopied(contents, c, c.sources, i, None, paths).0, t) == ContentFor(contents, t)
  {
    CopiedIsStored(contents, c, i, paths);
    StoredContents(contents, c, i);
  }

  /**
   * The copy of the contents: `setSourceContent` for every source whose
   * content the consumer gives, stopping at the first source it does not have.
   */
  method CopySources(gen: SourceMapGenerator, c: Consumers.Consumer, paths: PathOps) returns (err: Option<Error>)
    requires gen.Valid()
    modifies gen
    ensures gen.Valid()
    ensures gen.file == old(gen.file) && gen.sourceRoot == old(gen.sourceRoot)
    ensures gen.sources == old(gen.sources) && gen.names == old(gen.names) && gen.mappings == old(gen.mappings)
    ensures (gen.sourcesContents, err) == SourcesCopied(old(gen.sourcesContents), c, Consumers.Sources(c, paths), 0, gen.sourceRoot, paths)
  {
    var list := Consumers.Sources(c, paths);
    var i := 0;
    while i < |list|
      invariant i <= |list| && gen.Valid()
      invariant gen.file == old(gen.file) && gen.sourceRoot == old(gen.sourceRoot)
      invariant gen.sources == old(gen.sources) && gen.names == old(gen.names) && gen.mappings == old(gen.mappings)
      invariant SourcesCopied(old(gen.sourcesContents), c, list, 0, gen.sourceRoot, paths)
                == SourcesCopied(gen.sourcesContents, c, list, i, gen.sourceRoot, paths)
    {
      var content := ConsumerContents.SourceContentFor(c, list[i], false, paths);
      if content.Err? {
        return Some(content.error);
      }
      if content.value.Some? {
        gen.SetSourceContent(list[i], content.value, paths);
      }
      i := i + 1;
    }
    err := None;
  }

  /** A run one call longer is the prefix up to that call, and a run that has failed there is the whole run. */
  lemma RunPrefix(args: seq<MappingArgs>, i: nat)
    requires i < |args|
    ensures args[..i + 1] == args[..i] + [args[i]]
    ensures Recorded(args[..i + 1]).1.Some? ==> Recorded(args) == Recorded(args[..i + 1])
  {
    assert args[..i + 1] == args[..i] + [args[i]];
    RecordedStopsAt(args, i + 1);
  }

  lemma RecordedStopsAt(args: seq<MappingArgs>, n: nat)
    requires n <= |args|
    ensures Recorded(args[..n]).1.Some? ==> Recorded(args) == Recorded(args[..n])
  {
    if Recorded(args[..n]).1.Some? {
      RecordedStops(args[..n], args[n..]);
      assert args[..n] + args[n..] == args;
    }
  }

  /** The `addMapping` calls for the records, on a generator that has none yet. */
  method AddAll(gen: SourceMapGenerator, ms: seq<Mapping>, sourceRoot: Option<string>, paths: PathOps) returns (err: Option<Error>)
    requires gen.Valid() && gen.mappings.items == [] && gen.sources.items == [] && gen.names.items == []
    modifies gen.sources, gen.names, gen.mappings
    ensures gen.Valid()
    ensures err == Recorded(AllArgs(ms, sourceRoot, paths)).1
    ensures err.None? ==> gen.mappings.items == Recorded(AllArgs(ms, sourceRoot, paths)).0 && Collected(gen)
  {
    var args := AllArgs(ms, sourceRoot, paths);
    assert args[..0] == [];
    var i := 0;
    while i < |args|
      invariant i <= |args| && gen.Valid()
      invariant Recorded(args[..i]) == (gen.mappings.items, None) && Collected(gen)
    {
      ghost var done := args[..i];
      err := Emit(gen, args[i], done);
      RunPrefix(args, i);
      if err.Some? {
        return;
      }
      i := i + 1;
    }
    assert args[..i] == args;
    err := None;
  }

  /**
   * `fromSourceMap(consumer)`. A consumer whose tables fail raises that
   * error; otherwise the run of `addMapping` calls raises the first refusal,
   * and a run that raises nothing is followed by the copy of the contents.
   */
  method FromSourceMap(c: Consumers.Consumer, paths: PathOps) returns (gen: SourceMapGenerator, err: Option<Error>)
    ensures fresh(gen) && gen.Valid()
    ensures gen.file == GeneratorApply.FileOf(c) && gen.sourceRoot == Consumers.RootOf(c)
    ensures var visited := ConsumerTraversal.EachMapping(c, 0, paths);
            && (visited.Err? ==> err == Some(visited.error))
            && (visited.Ok? ==>
                  var run := Recorded(AllArgs(visited.value, Consumers.RootOf(c), paths));
                  && (run.1.Some? ==> err == run.1)
                  && (run.1.None? ==>
                        && gen.mappings.items == run.0 && Collected(gen)
                        && (gen.sourcesContents, err) == SourcesCopied(map[], c, Consumers.Sources(c, paths), 0, gen.sourceRoot, paths)))
  {
    gen := new SourceMapGenerator(GeneratorApply.FileOf(c), Consumers.RootOf(c));
    var visited := ConsumerTraversal.EachMapping(c, 0, paths);
    if visited.Err? {
      return gen, Some(visited.error);
    }
    err := AddAll(gen, visited.value, gen.sourceRoot, paths);
    if err.None? {
      err := CopySources(gen, c, paths);
    }
  }
}

=== FILE: generator_runs.dfy ===
/**
 * A run of `SourceMapGenerator.prototype.addMapping` calls on a new
 * generator, as `fromSourceMap` and `toStringWithSourceMap` make them: the
 * records pushed, the error that stops the run, and the sets the calls fill.
 */
module GeneratorRuns {
  import opened Wrappers
  import opened Util
  import Generators
  import GeneratorApply

  /** What `addMapping` raises for an argument, if anything. */
  function Check(a: Generators.MappingArgs): (r: Option<Error>) {
    if a.generated.None? then Some(MissingArgument("generated"))
    else Generators.ValidateMapping(a.generated.value, a.original, a.source, a.name)
  }

  /**
   * A run of `addMapping` calls on an empty generator: the records pushed and
   * the error that stopped the run, if one did.
   */
  function Recorded(args: seq<Generators.MappingArgs>): (r: (seq<Mapping>, Option<Error>))
    decreases |args|
  {
    if args == [] then ([], None)
    else
      var before := Recorded(args[..|args| - 1]);
      var a := args[|args| - 1];
      if before.1.Some? then before
      else if Check(a).Some? then (before.0, Check(a))
      else (before.0 + [Generators.Record(a.generated.value, a.original, a.source, a.name)], None)
  }

  /** Once a run of calls has raised, later calls do not happen. */
  lemma {:induction false} RecordedStops(xs: seq<Generators.MappingArgs>, ys: seq<Generators.MappingArgs>)
    requires Recorded(xs).1.Some?
    ensures Recorded(xs + ys) == Recorded(xs)
    decreases |ys|
  {
    if ys == [] {
      assert xs + ys == xs;
    } else {
      assert (xs + ys)[..|xs + ys| - 1] == xs + ys[..|ys| - 1];
      RecordedStops(xs, ys[..|ys| - 1]);
    }
  }

  /** The generator's sets hold the sources and names of its mappings, in order of first appearance. */
  ghost predicate Collected(gen: Generators.SourceMapGenerator)
    reads gen, gen.sources, gen.names, gen.mappings
  {
    && gen.sources.items == GeneratorApply.Collect(GeneratorApply.SourcesOf(gen.mappings.items))
    && gen.names.items == GeneratorApply.Collect(GeneratorApply.NamesOf(gen.mappings.items))
  }

  /** One `addMapping` call, following the run of calls before it. */
  method Emit(gen: Generators.SourceMapGenerator, a: Generators.MappingArgs, ghost emitted: seq<Generators.MappingArgs>)
    returns (err: Option<Error>)
    requires gen.Valid() && Recorded(emitted) == (gen.mappings.items, None) && Collected(gen)
    modifies gen.sources, gen.names, gen.mappings
    ensures gen.Valid()
    ensures err == Recorded(emitted + [a]).1
    ensures err.None? ==> Recorded(emitted + [a]) == (gen.mappings.items, None) && Collected(gen)
  {
    assert (emitted + [a])[..|emitted|] == emitted;
    ghost var before := gen.mappings.items;
    err := gen.AddMapping(a);
    if err.None? {
      GeneratorApply.OfSnoc(before, Generators.Record(a.generated.value, a.original, a.source, a.name));
    }
  }

  /** A run of calls raises exactly when one of its calls is refused. */
  lemma {:induction false} RecordedFails(args: seq<Generators.MappingArgs>)
    ensures Recorded(args).1.Some? <==> exists i :: 0 <= i < |args| && Check(args[i]).Some?
    decreases |args|
  {
    if args != [] {
      var init := args[..|args| - 1];
      RecordedFails(init);
      assert forall i :: 0 <= i < |init| ==> init[i] == args[i];
    }
  }


  /** A run whose every call is accepted pushes one record per call, in order. */
  lemma {:induction false} RecordedAccepted(args: seq<Generators.MappingArgs>)
    requires forall k :: 0 <= k < |args| ==> Check(args[k]).None?
    ensures Recorded(args).1.None? && |Recorded(args).0| == |args|
    ensures forall k :: 0 <= k < |args| ==>
              Check(args[k]).None? && Recorded(args).0[k] == Generators.Record(args[k].generated.value, args[k].original, args[k].source, args[k].name)
    decreases |args|
  {
    if args != [] {
      var init := args[..|args| - 1];
      assert forall k :: 0 <= k < |init| ==> init[k] == args[k];
      RecordedAccepted(init);
    }
  }
}

=== FILE: mapping_list.dfy ===
/**
 * Module `source-map/mapping-list`: the generator's list of mappings, which
 * remembers whether the mappings were added in generated order so that
 * `toArray` sorts only when they were not.
 *
 * The order test `generatedPositionAfter` accepts an equal generated position
 * whatever the remaining keys (source, original position, name), so the flag
 * promises order by generated position only; a sort, when it happens, orders
 * by every key.
 */
module MappingLists {
  import opened Wrappers
  import opened Util
  import opened Sorting

  /** `{generatedLine: -1, generatedColumn: 0}`, the starting value of `_last`. */
  const Infimum: Mapping := Mapping(-1, 0, None, None, None, None)

  /** The order on generated positions alone: `compareByGeneratedPositions` with only the first two keys. */
  predicate PositionAtMost(a: Mapping, b: Mapping) {
    CompareByGeneratedPositions(a, b, true) <= 0
  }

  /** `generatedPositionAfter`: the line and column fast path, then the full comparator. */
  predicate GeneratedPositionAfter(a: Mapping, b: Mapping) {
    var lineA := a.generatedLine;
    var lineB := b.generatedLine;
    var columnA := a.generatedColumn;
    var columnB := b.generatedColumn;
    lineB > lineA || (lineB == lineA && columnB >= columnA) ||
      CompareByGeneratedPositions(a, b, false) <= 0
  }

  /** The fast path decides every case: b is "after" a exactly when its generated position is not below a's. */
  lemma GeneratedPositionAfterIsPositionOrder(a: Mapping, b: Mapping)
    ensures GeneratedPositionAfter(a, b) <==> PositionAtMost(a, b)
  {
    GeneratedOnlyPrimary(a, b);
  }

  /** The full comparator refines the position order: what it puts first has a position at most the other's. */
  lemma FullOrderRefinesPosition(a: Mapping, b: Mapping)
    requires Cmp(ByGenerated, a, b) <= 0
    ensures PositionAtMost(a, b)
  {
    GeneratedOnlyPrimary(a, b);
  }

  /**
   * Two mappings at one generated position in the wrong order for the full
   * comparator still pass `generatedPositionAfter`.
   */
  lemma AfterIgnoresTieBreaks()
    ensures var a := Mapping(1, 0, Some("b"), Some(1), Some(0), None);
            var b := Mapping(1, 0, Some("a"), Some(1), Some(0), None);
            GeneratedPositionAfter(a, b) && Cmp(ByGenerated, a, b) > 0
  {
    var a := Mapping(1, 0, Some("b"), Some(1), Some(0), None);
    var b := Mapping(1, 0, Some("a"), Some(1), Some(0), None);
    assert StrLess("a", "b");
    assert StrCmp(a.source, b.source) == 1;
  }

  ghost predicate PositionSorted(s: seq<Mapping>) {
    forall i, j :: 0 <= i < j < |s| ==> PositionAtMost(s[i], s[j])
  }

  /** A table sorted by the full generated comparator is in particular sorted by generated position. */
  lemma SortedIsPositionSorted(s: seq<Mapping>)
    requires Sorted(ByGenerated, s)
    ensures PositionSorted(s)
  {
    forall i, j | 0 <= i < j < |s|
      ensures PositionAtMost(s[i], s[j])
    {
      FullOrderRefinesPosition(s[i], s[j]);
    }
  }

  class MappingList {
    var items: seq<Mapping>
    var sorted: bool
    var last: Mapping

    /**
     * `_last` is at or after every mapping held, by generated position, and
     * while `_sorted` holds the mappings are in generated-position order.
     */
    ghost predicate Valid()
      reads this
    {
      && (forall i :: 0 <= i < |items| ==> PositionAtMost(items[i], last))
      && (sorted ==> PositionSorted(items))
    }

    /** `new MappingList()`: empty, sorted, with the infimum as the last mapping. */
    constructor ()
      ensures Valid() && items == [] && sorted && last == Infimum
    {
      items := [];
      sorted := true;
      last := Infimum;
    }

    /**
     * `add`: always appends; a mapping that is after `_last` becomes the new
     * `_last`, any other clears the sorted flag.
     */
    method Add(m: Mapping)
      requires Valid()
      modifies this
      ensures Valid()
      ensures items == old(items) + [m]
      ensures GeneratedPositionAfter(old(last), m) ==> last == m && sorted == old(sorted)
      ensures !GeneratedPositionAfter(old(last), m) ==> last == old(last) && !sorted
    {
      GeneratedPositionAfterIsPositionOrder(last, m);
      if GeneratedPositionAfter(last, m) {
        last := m;
        items := items + [m];
      } else {
        sorted := false;
        items := items + [m];
      }
    }

    /**
     * Assigning to the fields of the mapping at index i, as `applySourceMap`
     * does while walking the list with `unsortedForEach`. The generated
     * position stays, so the order facts the list keeps still hold.
     */
    method Rewrite(i: nat, m: Mapping)
      requires Valid() && i < |items|
      requires m.generatedLine == items[i].generatedLine && m.generatedColumn == items[i].generatedColumn
      modifies this
      ensures Valid()
      ensures items == old(items)[i := m] && sorted == old(sorted) && last == old(last)
    {
      ghost var before := items;
      items := items[i := m];
      forall j | 0 <= j < |items|
        ensures PositionAtMost(items[j], last)
      {
        assert PositionAtMost(before[j], last);
      }
      if sorted {
        forall j, k | 0 <= j < k < |items|
          ensures PositionAtMost(items[j], items[k])
        {
          assert PositionAtMost(before[j], before[k]);
        }
      }
    }

    /**
     * `toArray`: sorts by the full generated comparator when the flag is
     * clear, then sets it; the result is the list itself, in generated
     * position order, holding the same mappings as before.
     */
    method ToArray() returns (r: seq<Mapping>)
      requires Valid()
      modifies this
      ensures Valid() && sorted && last == old(last)
      ensures r == items
      ensures old(sorted) ==> items == old(items)
      ensures !old(sorted) ==> items == Sort(ByGenerated, old(items)) && Sorted(ByGenerated, items)
      ensures multiset(items) == multiset(old(items))
      ensures PositionSorted(r)
    {
      if !sorted {
        SortSorted(ByGenerated, items);
        ghost var before := items;
        items := Sort(ByGenerated, items);
        SortedIsPositionSorted(items);
        forall i | 0 <= i < |items|
          ensures PositionAtMost(items[i], last)
        {
          assert items[i] in multiset(before);
        }
        sorted := true;
      }
      r := items;
    }
  }

  /** Once `toArray` has run, adding nothing and calling it again changes nothing. */
  method ToArrayTwice(list: MappingList) returns (first: seq<Mapping>, second: seq<Mapping>)
    requires list.Valid()
    modifies list
    ensures first == second
    ensures multiset(second) == multiset(old(list.items))
  {
    first := list.ToArray();
    second := list.ToArray();
  }
}

=== FILE: mappings_codec.dfy ===
/**
 * The "mappings" string of a version 3 source map, as the generator writes it
 * (`_serializeMappings`) and the basic consumer reads it (`_parseMappings`).
 *
 * Generated lines are separated by ';', segments on one line by ','. A segment
 * holds 1, 4 or 5 base 64 VLQ fields: the generated column, then optionally the
 * source index, the 0-based original line and the original column, then
 * optionally the name index. Every field is stored relative to the same field of
 * the previous segment; the generated column restarts at 0 on each line.
 */
module MappingsCodec {
  import opened Wrappers
  import opened Util
  import Base64
  import Base64Vlq
  import ArraySets

  /** The running values both directions keep while walking the string. */
  datatype Cursor = Cursor(
    generatedLine: int,
    generatedColumn: int,
    originalLine: int,    // 0-based, as stored
    originalColumn: int,
    source: int,
    name: int)

  /** Line 1, every other field 0: where both directions start. */
  const Start: Cursor := Cursor(1, 0, 0, 0, 0, 0)

  predicate IsSeparator(c: char) {
    c == ';' || c == ','
  }

  /** `_nextCharIsMappingSeparator`: `charAt(0)` of "" is "", which is no separator. */
  predicate NextCharIsMappingSeparator(s: string) {
    |s| > 0 && IsSeparator(s[0])
  }

  function Semicolons(k: nat): (s: string)
    ensures |s| == k
    ensures forall i :: 0 <= i < k ==> s[i] == ';'
  {
    if k == 0 then "" else ";" + Semicolons(k - 1)
  }

  // ---------------------------------------------------------------------------
  // Writing
  // ---------------------------------------------------------------------------

  /**
   * The fields of one segment, each relative to the cursor, and the cursor
   * after it: the generated column, then the source index, the 0-based
   * original line and the original column when the record has a source, then
   * the name index when it also has a name. Source and name are looked up with
   * `indexOf`, which fails when they were never registered; a missing original
   * line or column counts as 0.
   */
  function SegmentFields(m: Mapping, c: Cursor, sources: seq<string>, names: seq<string>): (r: Result<(seq<int>, Cursor)>)
    ensures r.Ok? ==> r.value.1.generatedLine == c.generatedLine && r.value.1.generatedColumn == m.generatedColumn
    ensures r.Ok? ==> |r.value.0| == (if m.source.None? then 1 else if m.name.None? then 4 else 5)
  {
    var column := m.generatedColumn - c.generatedColumn;
    var c1 := c.(generatedColumn := m.generatedColumn);
    if m.source.None? then Ok(([column], c1))
    else
      var source :- ArraySets.FirstIndex(sources, m.source.value);
      var line0 := Num(m.originalLine) - 1;
      var originalColumn := Num(m.originalColumn);
      var c2 := c1.(source := source, originalLine := line0, originalColumn := originalColumn);
      var fields := [column, source - c.source, line0 - c.originalLine, originalColumn - c.originalColumn];
      if m.name.None? then Ok((fields, c2))
      else
        var name :- ArraySets.FirstIndex(names, m.name.value);
        Ok((fields + [name - c.name], c2.(name := name)))
  }

  /** The fields one after the other, each as a base 64 VLQ. */
  function EncodeFields(fields: seq<int>): (s: string)
    ensures fields != [] ==> |s| >= 1 && Base64.IsDigit(s[0])
  {
    if fields == [] then ""
    else
      var head := Base64Vlq.EncodeSpec(fields[0]);
      assert (head + EncodeFields(fields[1..]))[0] == head[0];
      head + EncodeFields(fields[1..])
  }

  /** One segment as `_serializeMappings` appends it, and the cursor after it. */
  function EncodeSegment(m: Mapping, c: Cursor, sources: seq<string>, names: seq<string>): (r: Result<(string, Cursor)>)
    ensures r.Ok? ==> r.value.1.generatedLine == c.generatedLine && r.value.1.generatedColumn == m.generatedColumn
    ensures r.Ok? ==> |r.value.0| >= 1 && Base64.IsDigit(r.value.0[0])
  {
    var fields :- SegmentFields(m, c, sources, names);
    Ok((EncodeFields(fields.0), fields.1))
  }

  /**
   * The generated lines never go down and never below `line`. The source's
   * line loop counts up to the next mapping's line, so it only ends under
   * this condition.
   */
  ghost predicate LinesFrom(ms: seq<Mapping>, line: int)
    decreases |ms|
  {
    ms == [] || (line <= ms[0].generatedLine && LinesFrom(ms[1..], ms[0].generatedLine))
  }

  /**
   * The text `_serializeMappings` appends for the mappings ms, coming after
   * `prev` (None at the first mapping) with cursor c. A mapping equal to the one
   * before it under the full generated comparator is skipped.
   */
  function SerializeFrom(ms: seq<Mapping>, prev: Option<Mapping>, c: Cursor, sources: seq<string>, names: seq<string>): (r: Result<string>)
    requires LinesFrom(ms, c.generatedLine)
    decreases |ms|
  {
    if ms == [] then Ok("")
    else
      var m := ms[0];
      if m.generatedLine != c.generatedLine then
        var seg :- EncodeSegment(m, c.(generatedLine := m.generatedLine, generatedColumn := 0), sources, names);
        var rest :- SerializeFrom(ms[1..], Some(m), seg.1, sources, names);
        Ok(Semicolons(m.generatedLine - c.generatedLine) + seg.0 + rest)
      else if prev.Some? && CompareByGeneratedPositions(m, prev.value, false) == 0 then
        SerializeFrom(ms[1..], Some(m), c, sources, names)
      else
        var seg :- EncodeSegment(m, c, sources, names);
        var rest :- SerializeFrom(ms[1..], Some(m), seg.1, sources, names);
        Ok((if prev.Some? then "," else "") + seg.0 + rest)
  }

  /** The whole "mappings" string for a list whose lines start at 1 or later and never go down. */
  function Serialize(ms: seq<Mapping>, sources: seq<string>, names: seq<string>): Result<string>
    requires LinesFrom(ms, 1)
  {
    SerializeFrom(ms, None, Start, sources, names)
  }

  // ---------------------------------------------------------------------------
  // Reading
  // ---------------------------------------------------------------------------

  /**
   * Field k of a segment applied to the record being built and to the cursor:
   * 0 the generated column, 1 the source index, 2 the 0-based original line,
   * 3 the original column, 4 the name index. Source and name indices go
   * through `at`, which fails outside the array.
   */
  function SetField(k: nat, delta: int, m: Mapping, c: Cursor, sources: seq<string>, names: seq<string>): (r: Result<(Mapping, Cursor)>)
    requires k < 5
  {
    if k == 0 then
      var column := c.generatedColumn + delta;
      Ok((m.(generatedColumn := column), c.(generatedColumn := column)))
    else if k == 1 then
      var source :- ArraySets.ElementAt(sources, c.source + delta);
      Ok((m.(source := Some(source)), c.(source := c.source + delta)))
    else if k == 2 then
      var line0 := c.originalLine + delta;
      Ok((m.(originalLine := Some(line0 + 1)), c.(originalLine := line0)))
    else if k == 3 then
      var column := c.originalColumn + delta;
      Ok((m.(originalColumn := Some(column)), c.(originalColumn := column)))
    else
      var name :- ArraySets.ElementAt(names, c.name + delta);
      Ok((m.(name := Some(name)), c.(name := c.name + delta)))
  }

  /**
   * The fields of a segment from field k on. The generated column is always
   * read; before each later field the reader stops at the end of the string or
   * at a separator, which is an error when the source came without a line, or
   * the line without a column. After the name it stops whatever follows.
   */
  function ReadFields(s: string, k: nat, m: Mapping, c: Cursor, sources: seq<string>, names: seq<string>): (r: Result<(Mapping, Cursor, string)>)
    requires k <= 5
    ensures r.Ok? ==> |r.value.2| <= |s| && (k == 0 ==> |r.value.2| < |s|)
    decreases 5 - k
  {
    if k == 5 then Ok((m, c, s))
    else if k > 0 && (|s| == 0 || NextCharIsMappingSeparator(s)) then
      if k == 2 then Err(SourceWithoutLineAndColumn)
      else if k == 3 then Err(SourceAndLineWithoutColumn)
      else Ok((m, c, s))
    else
      var field :- Base64Vlq.DecodeSpec(s);
      var next :- SetField(k, field.0, m, c, sources, names);
      ReadFields(field.1, k + 1, next.0, next.1, sources, names)
  }

  /** One segment read at the front of s: the mapping, the new cursor and the rest of the string. */
  function DecodeSegment(s: string, c: Cursor, sources: seq<string>, names: seq<string>): (r: Result<(Mapping, Cursor, string)>)
    ensures r.Ok? ==> |r.value.2| < |s|
  {
    ReadFields(s, 0, Mapping(c.generatedLine, 0, None, None, None, None), c, sources, names)
  }

  /** A record the reader produces: a source comes with an original line and column, a name only with a source. */
  predicate Complete(m: Mapping) {
    && m.originalLine.Some? == m.source.Some? == m.originalColumn.Some?
    && (m.source.None? ==> m.name.None?)
  }

  /** The optional fields a record holds once the reader is about to read field k. */
  predicate Filled(m: Mapping, k: nat) {
    && (m.source.Some? <==> k >= 2)
    && (m.originalLine.Some? <==> k >= 3)
    && (m.originalColumn.Some? <==> k >= 4)
    && (m.name.Some? ==> k >= 5)
  }

  /** The reader keeps the generated line and stops only where the record is complete. */
  lemma {:induction false} ReadFieldsShape(s: string, k: nat, m: Mapping, c: Cursor, sources: seq<string>, names: seq<string>)
    requires k <= 5 && Filled(m, k)
    requires ReadFields(s, k, m, c, sources, names).Ok?
    ensures var r := ReadFields(s, k, m, c, sources, names).value;
            r.0.generatedLine == m.generatedLine && r.1.generatedLine == c.generatedLine && Complete(r.0)
    decreases 5 - k
  {
    if k < 5 && !(k > 0 && (|s| == 0 || NextCharIsMappingSeparator(s))) {
      var field := Base64Vlq.DecodeSpec(s).value;
      var next := SetField(k, field.0, m, c, sources, names).value;
      ReadFieldsShape(field.1, k + 1, next.0, next.1, sources, names);
    }
  }

  /**
   * The mappings of s in the order they appear, starting from cursor c: ';'
   * moves to the next line and restarts the column, ',' is skipped, anything
   * else starts a segment.
   */
  function ParseFrom(s: string, c: Cursor, sources: seq<string>, names: seq<string>): (r: Result<seq<Mapping>>)
    decreases |s|, 1
  {
    if |s| == 0 then Ok([])
    else if s[0] == ';' then
      ParseFrom(s[1..], c.(generatedLine := c.generatedLine + 1, generatedColumn := 0), sources, names)
    else if s[0] == ',' then
      ParseFrom(s[1..], c, sources, names)
    else
      ParseSegmentFrom(s, c, sources, names)
  }

  /** A segment at the front of s, then the mappings after it. */
  function ParseSegmentFrom(s: string, c: Cursor, sources: seq<string>, names: seq<string>): (r: Result<seq<Mapping>>)
    decreases |s|, 0
  {
    var seg :- DecodeSegment(s, c, sources, names);
    var rest :- ParseFrom(seg.2, seg.1, sources, names);
    Ok([seg.0] + rest)
  }

  /** Every mapping of a "mappings" string, in the order written. */
  function Parse(s: string, sources: seq<string>, names: seq<string>): Result<seq<Mapping>> {
    ParseFrom(s, Start, sources, names)
  }

  /** The first record of a segment, and what follows it. */
  lemma ParseFromSegment(s: string, c: Cursor, sources: seq<string>, names: seq<string>)
    requires |s| > 0 && s[0] != ';' && s[0] != ','
    requires ParseFrom(s, c, sources, names).Ok?
    ensures DecodeSegment(s, c, sources, names).Ok?
    ensures var seg := DecodeSegment(s, c, sources, names).value;
            && ParseFrom(seg.2, seg.1, sources, names).Ok?
            && ParseFrom(s, c, sources, names).value == [seg.0] + ParseFrom(seg.2, seg.1, sources, names).value
            && seg.0.generatedLine == c.generatedLine == seg.1.generatedLine && Complete(seg.0)
  {
    ReadFieldsShape(s, 0, Mapping(c.generatedLine, 0, None, None, None, None), c, sources, names);
  }

  /** Reading keeps the generated lines at or above the cursor's, never going down. */
  lemma {:induction false} ParsedLines(s: string, c: Cursor, sources: seq<string>, names: seq<string>)
    requires ParseFrom(s, c, sources, names).Ok?
    ensures LinesFrom(ParseFrom(s, c, sources, names).value, c.generatedLine)
    decreases |s|
  {
    if |s| > 0 {
      if s[0] == ';' {
        ParsedLines(s[1..], c.(generatedLine := c.generatedLine + 1, generatedColumn := 0), sources, names);
      } else if s[0] == ',' {
        ParsedLines(s[1..], c, sources, names);
      } else {
        ParseFromSegment(s, c, sources, names);
        var seg := DecodeSegment(s, c, sources, names).value;
        ParsedLines(seg.2, seg.1, sources, names);
      }
    }
  }

  /** Every record reading produces is complete. */
  lemma {:induction false} ParsedComplete(s: string, c: Cursor, sources: seq<string>, names: seq<string>)
    requires ParseFrom(s, c, sources, names).Ok?
    ensures forall i :: 0 <= i < |ParseFrom(s, c, sources, names).value| ==> Complete(ParseFrom(s, c, sources, names).value[i])
    decreases |s|
  {
    if |s| > 0 {
      if s[0] == ';' {
        ParsedComplete(s[1..], c.(generatedLine := c.generatedLine + 1, generatedColumn := 0), sources, names);
      } else if s[0] == ',' {
        ParsedComplete(s[1..], c, sources, names);
      } else {
        ParseFromSegment(s, c, sources, names);
        var seg := DecodeSegment(s, c, sources, names).value;
        ParsedComplete(seg.2, seg.1, sources, names);
        var rest := ParseFrom(seg.2, seg.1, sources, names).value;
        var r := [seg.0] + rest;
        forall i | 0 <= i < |r|
          ensures Complete(r[i])
        {
          if i > 0 {
            assert r[i] == rest[i - 1];
          }
        }
      }
    }
  }

  // ---------------------------------------------------------------------------
  // The round trip
  // ---------------------------------------------------------------------------

  /** The mappings the writer keeps: all but those equal to the one before them. */
  function DedupFrom(ms: seq<Mapping>, prev: Option<Mapping>): (r: seq<Mapping>)
    ensures |r| <= |ms|
    ensures forall x :: x in r ==> x in ms
    decreases |ms|
  {
    if ms == [] then []
    else if prev.Some? && CompareByGeneratedPositions(ms[0], prev.value, false) == 0 then
      DedupFrom(ms[1..], Some(ms[0]))
    else
      [ms[0]] + DedupFrom(ms[1..], Some(ms[0]))
  }

  function Dedup(ms: seq<Mapping>): seq<Mapping> {
    DedupFrom(ms, None)
  }

  /**
   * A record the string format can carry back unchanged: either only a
   * generated position, or a registered source with an original line and
   * column, and then optionally a registered name.
   */
  predicate Encodable(m: Mapping, sources: seq<string>, names: seq<string>) {
    if m.source.None? then
      m.originalLine.None? && m.originalColumn.None? && m.name.None?
    else
      && m.source.value in sources && m.originalLine.Some? && m.originalColumn.Some?
      && (m.name.Some? ==> m.name.value in names)
  }

  /** A ';' moves the reader to the next generated line and restarts the column. */
  lemma ParseSemicolon(s: string, c: Cursor, sources: seq<string>, names: seq<string>)
    ensures ParseFrom(";" + s, c, sources, names)
         == ParseFrom(s, c.(generatedLine := c.generatedLine + 1, generatedColumn := 0), sources, names)
  {
    assert (";" + s)[1..] == s;
  }

  /** The first of k semicolons before a text. */
  lemma SemicolonsFront(k: nat, s: string)
    requires k >= 1
    ensures Semicolons(k) + s == ";" + (Semicolons(k - 1) + s)
    ensures k == 1 ==> Semicolons(k - 1) + s == s
  {
    assert Semicolons(0) + s == s;
  }

  /** The line breaks the writer puts before a mapping k lines further down. */
  lemma {:induction false} ParseLineBreaks(k: nat, s: string, c: Cursor, sources: seq<string>, names: seq<string>)
    requires k >= 1
    ensures ParseFrom(Semicolons(k) + s, c, sources, names)
         == ParseFrom(s, c.(generatedLine := c.generatedLine + k, generatedColumn := 0), sources, names)
    decreases k
  {
    var c1 := c.(generatedLine := c.generatedLine + 1, generatedColumn := 0);
    SemicolonsFront(k, s);
    ParseSemicolon(Semicolons(k - 1) + s, c, sources, names);
    if k > 1 {
      ParseLineBreaks(k - 1, s, c1, sources, names);
      assert c1.(generatedLine := c1.generatedLine + (k - 1), generatedColumn := 0)
          == c.(generatedLine := c.generatedLine + k, generatedColumn := 0);
    }
  }

  /** After at least one mapping has been written, what follows is empty or starts with a separator. */
  lemma {:induction false} SerializeContinues(ms: seq<Mapping>, p: Mapping, c: Cursor, sources: seq<string>, names: seq<string>)
    requires LinesFrom(ms, c.generatedLine)
    requires SerializeFrom(ms, Some(p), c, sources, names).Ok?
    ensures var r := SerializeFrom(ms, Some(p), c, sources, names).value;
            r == "" || IsSeparator(r[0])
    decreases |ms|
  {
    if ms != [] {
      var m := ms[0];
      if m.generatedLine == c.generatedLine && CompareByGeneratedPositions(m, p, false) == 0 {
        SerializeContinues(ms[1..], m, c, sources, names);
      }
    }
  }

  /** A field written relative to the cursor is read back as the same value, and the reader moves on to the next field. */
  lemma FieldStep(k: nat, delta: int, t: string, m: Mapping, c: Cursor, next: (Mapping, Cursor), sources: seq<string>, names: seq<string>)
    requires k < 5
    requires SetField(k, delta, m, c, sources, names) == Ok(next)
    ensures ReadFields(Base64Vlq.EncodeSpec(delta) + t, k, m, c, sources, names)
         == ReadFields(t, k + 1, next.0, next.1, sources, names)
  {
    var e := Base64Vlq.EncodeSpec(delta);
    Base64Vlq.DecodeEncode(delta, t);
    Base64.DigitIsNotSeparator(e[0]);
    assert (e + t)[0] == e[0];
  }

  /** An error reading a segment at the front of the text is the error of the parse from there. */
  lemma SegmentErrorRaises(d: int, t: string, c: Cursor, sources: seq<string>, names: seq<string>, e: Error)
    requires DecodeSegment(Base64Vlq.EncodeSpec(d) + t, c, sources, names) == Err(e)
    ensures ParseFrom(Base64Vlq.EncodeSpec(d) + t, c, sources, names) == Err(e)
  {
    var v := Base64Vlq.EncodeSpec(d);
    Base64.DigitIsNotSeparator(v[0]);
    assert (v + t)[0] == v[0];
  }

  /** The reading steps behind `SourceWithoutLineRaises`. */
  lemma ReadSourceWithoutLine(column: int, source: int, rest: string, c: Cursor, sources: seq<string>, names: seq<string>)
    requires rest == "" || IsSeparator(rest[0])
    requires 0 <= c.source + source < |sources|
    ensures DecodeSegment(Base64Vlq.EncodeSpec(column) + (Base64Vlq.EncodeSpec(source) + rest), c, sources, names)
         == Err(SourceWithoutLineAndColumn)
  {
    var m0 := Mapping(c.generatedLine, 0, None, None, None, None);
    var n1 := SetField(0, column, m0, c, sources, names).value;
    FieldStep(0, column, Base64Vlq.EncodeSpec(source) + rest, m0, c, n1, sources, names);
    var n2 := SetField(1, source, n1.0, n1.1, sources, names).value;
    FieldStep(1, source, rest, n1.0, n1.1, n2, sources, names);
    assert ReadFields(rest, 2, n2.0, n2.1, sources, names) == Err(SourceWithoutLineAndColumn);
  }

  /** The reading steps behind `SourceAndLineWithoutColumnRaises`. */
  lemma ReadSourceAndLineWithoutColumn(column: int, source: int, line: int, rest: string, c: Cursor, sources: seq<string>, names: seq<string>)
    requires rest == "" || IsSeparator(rest[0])
    requires 0 <= c.source + source < |sources|
    ensures DecodeSegment(Base64Vlq.EncodeSpec(column) + (Base64Vlq.EncodeSpec(source) + (Base64Vlq.EncodeSpec(line) + rest)), c, sources, names)
         == Err(SourceAndLineWithoutColumn)
  {
    var m0 := Mapping(c.generatedLine, 0, None, None, None, None);
    var t2 := Base64Vlq.EncodeSpec(line) + rest;
    var t1 := Base64Vlq.EncodeSpec(source) + t2;
    var n1 := SetField(0, column, m0, c, sources, names).value;
    assert ReadFields(t1, 1, n1.0, n1.1, sources, names) == Err(SourceAndLineWithoutColumn) by {
      var n2 := SetField(1, source, n1.0, n1.1, sources, names).value;
      FieldStep(1, source, t2, n1.0, n1.1, n2, sources, names);
      ReadLineWithoutColumn(line, rest, n2.0, n2.1, sources, names);
    }
    FieldStep(0, column, t1, m0, c, n1, sources, names);
  }

  /** The original line read, the reader finds no column and raises. */
  lemma ReadLineWithoutColumn(line: int, rest: string, m: Mapping, c: Cursor, sources: seq<string>, names: seq<string>)
    requires rest == "" || IsSeparator(rest[0])
    ensures ReadFields(Base64Vlq.EncodeSpec(line) + rest, 2, m, c, sources, names) == Err(SourceAndLineWithoutColumn)
  {
    var next := SetField(2, line, m, c, sources, names).value;
    FieldStep(2, line, rest, m, c, next, sources, names);
    assert ReadFields(rest, 3, next.0, next.1, sources, names) == Err(SourceAndLineWithoutColumn);
  }

  /**
   * A segment that ends after the generated column and a valid source index
   * raises "Found a source, but no line and column", in `DecodeSegment` and
   * so in the whole parse from that point.
   */
  lemma SourceWithoutLineRaises(column: int, source: int, rest: string, c: Cursor, sources: seq<string>, names: seq<string>)
    requires rest == "" || IsSeparator(rest[0])
    requires 0 <= c.source + source < |sources|
    ensures var s := Base64Vlq.EncodeSpec(column) + Base64Vlq.EncodeSpec(source) + rest;
            && DecodeSegment(s, c, sources, names) == Err(SourceWithoutLineAndColumn)
            && ParseFrom(s, c, sources, names) == Err(SourceWithoutLineAndColumn)
  {
    var tail := Base64Vlq.EncodeSpec(source) + rest;
    assert Base64Vlq.EncodeSpec(column) + Base64Vlq.EncodeSpec(source) + rest == Base64Vlq.EncodeSpec(column) + tail;
    ReadSourceWithoutLine(column, source, rest, c, sources, names);
    SegmentErrorRaises(column, tail, c, sources, names, SourceWithoutLineAndColumn);
  }

  /**
   * A segment that ends after the generated column, a valid source index and
   * the original line raises "Found a source and line, but no column", in
   * `DecodeSegment` and so in the whole parse from that point.
   */
  lemma SourceAndLineWithoutColumnRaises(column: int, source: int, line: int, rest: string, c: Cursor, sources: seq<string>, names: seq<string>)
    requires rest == "" || IsSeparator(rest[0])
    requires 0 <= c.source + source < |sources|
    ensures var s := Base64Vlq.EncodeSpec(column) + Base64Vlq.EncodeSpec(source) + Base64Vlq.EncodeSpec(line) + rest;
            && DecodeSegment(s, c, sources, names) == Err(SourceAndLineWithoutColumn)
            && ParseFrom(s, c, sources, names) == Err(SourceAndLineWithoutColumn)
  {
    var a, b, d := Base64Vlq.EncodeSpec(column), Base64Vlq.EncodeSpec(source), Base64Vlq.EncodeSpec(line);
    assert a + b + d + rest == a + (b + (d + rest));
    ReadSourceAndLineWithoutColumn(column, source, line, rest, c, sources, names);
    SegmentErrorRaises(column, b + (d + rest), c, sources, names, SourceAndLineWithoutColumn);
  }

  /** The record and cursor after the reader has applied the given fields from field k on. */
  function ApplyFields(fields: seq<int>, k: nat, m: Mapping, c: Cursor, sources: seq<string>, names: seq<string>): Result<(Mapping, Cursor)>
    requires k + |fields| <= 5
  {
    if fields == [] then Ok((m, c))
    else
      var next :- SetField(k, fields[0], m, c, sources, names);
      ApplyFields(fields[1..], k + 1, next.0, next.1, sources, names)
  }

  /** The first of a run of written fields, read back. */
  lemma ReadFirstField(fields: seq<int>, k: nat, rest: string, m: Mapping, c: Cursor, next: (Mapping, Cursor), sources: seq<string>, names: seq<string>)
    requires fields != [] && k + |fields| <= 5
    requires SetField(k, fields[0], m, c, sources, names) == Ok(next)
    ensures ApplyFields(fields, k, m, c, sources, names) == ApplyFields(fields[1..], k + 1, next.0, next.1, sources, names)
    ensures ReadFields(EncodeFields(fields) + rest, k, m, c, sources, names)
         == ReadFields(EncodeFields(fields[1..]) + rest, k + 1, next.0, next.1, sources, names)
  {
    var tail := EncodeFields(fields[1..]) + rest;
    assert EncodeFields(fields) == Base64Vlq.EncodeSpec(fields[0]) + EncodeFields(fields[1..]);
    Regroup(Base64Vlq.EncodeSpec(fields[0]), EncodeFields(fields[1..]), rest);
    FieldStep(k, fields[0], tail, m, c, next, sources, names);
  }

  /** The reader reads back any run of written fields, whatever follows them. */
  lemma {:induction false} ReadEncodedFields(fields: seq<int>, k: nat, n: nat, rest: string, m: Mapping, c: Cursor, sources: seq<string>, names: seq<string>)
    requires n == k + |fields| <= 5
    requires ApplyFields(fields, k, m, c, sources, names).Ok?
    ensures var after := ApplyFields(fields, k, m, c, sources, names).value;
            ReadFields(EncodeFields(fields) + rest, k, m, c, sources, names)
              == ReadFields(rest, n, after.0, after.1, sources, names)
    decreases |fields|
  {
    if fields == [] {
      assert EncodeFields(fields) + rest == rest;
    } else {
      var next := SetField(k, fields[0], m, c, sources, names).value;
      ReadFirstField(fields, k, rest, m, c, next, sources, names);
      ReadEncodedFields(fields[1..], k + 1, n, rest, next.0, next.1, sources, names);
    }
  }

  /** Applying the original fields the writer computed for a record with a source rebuilds the record. */
  lemma ApplyOriginalFields(m: Mapping, c: Cursor, sources: seq<string>, names: seq<string>)
    requires m.source.Some? && Encodable(m, sources, names)
    requires m.generatedLine == c.generatedLine
    ensures SegmentFields(m, c, sources, names).Ok?
    ensures var f := SegmentFields(m, c, sources, names).value;
            ApplyFields(f.0[1..], 1, Mapping(c.generatedLine, m.generatedColumn, None, None, None, None),
                        c.(generatedColumn := m.generatedColumn), sources, names) == Ok((m, f.1))
  {
    var f := SegmentFields(m, c, sources, names).value;
    var fs := f.0;
    var source := ArraySets.FirstIndex(sources, m.source.value).value;
    var line0 := m.originalLine.value - 1;
    var column := m.originalColumn.value;
    var c1 := c.(generatedColumn := m.generatedColumn);
    var c2 := c1.(source := source);
    var c3 := c2.(originalLine := line0);
    var c4 := c3.(originalColumn := column);
    var b0 := Mapping(c.generatedLine, m.generatedColumn, None, None, None, None);
    var b1 := b0.(source := m.source);
    var b2 := b1.(originalLine := m.originalLine);
    var b3 := b2.(originalColumn := m.originalColumn);
    var f1, f2, f3 := fs[1..], fs[2..], fs[3..];
    assert f1[0] == fs[1] && f1[1..] == f2 && f2[0] == fs[2] && f2[1..] == f3 && f3[0] == fs[3];
    assert SetField(1, fs[1], b0, c1, sources, names) == Ok((b1, c2));
    assert ApplyFields(f1, 1, b0, c1, sources, names) == ApplyFields(f2, 2, b1, c2, sources, names);
    assert SetField(2, fs[2], b1, c2, sources, names) == Ok((b2, c3));
    assert ApplyFields(f2, 2, b1, c2, sources, names) == ApplyFields(f3, 3, b2, c3, sources, names);
    assert SetField(3, fs[3], b2, c3, sources, names) == Ok((b3, c4));
    assert ApplyFields(f3, 3, b2, c3, sources, names) == ApplyFields(fs[4..], 4, b3, c4, sources, names) by {
      assert f3[1..] == fs[4..];
    }
    if m.name.Some? {
      var name := ArraySets.FirstIndex(names, m.name.value).value;
      var f4 := fs[4..];
      assert f4[0] == fs[4] && f4[1..] == [];
      assert SetField(4, fs[4], b3, c4, sources, names) == Ok((m, c4.(name := name)));
      assert ApplyFields(f4, 4, b3, c4, sources, names) == ApplyFields([], 5, m, c4.(name := name), sources, names);
    } else {
      assert b3 == m;
      assert fs[4..] == [];
    }
  }

  /** Applying the fields the writer computed for an encodable record, to a record with only its generated line, rebuilds the record. */
  lemma ApplySegmentFields(m: Mapping, c: Cursor, sources: seq<string>, names: seq<string>)
    requires Encodable(m, sources, names)
    requires m.generatedLine == c.generatedLine
    ensures SegmentFields(m, c, sources, names).Ok?
    ensures var f := SegmentFields(m, c, sources, names).value;
            ApplyFields(f.0, 0, Mapping(c.generatedLine, 0, None, None, None, None), c, sources, names) == Ok((m, f.1))
  {
    var f := SegmentFields(m, c, sources, names).value;
    var fs := f.0;
    var base := Mapping(c.generatedLine, 0, None, None, None, None);
    var c1 := c.(generatedColumn := m.generatedColumn);
    var b0 := base.(generatedColumn := m.generatedColumn);
    assert SetField(0, fs[0], base, c, sources, names) == Ok((b0, c1));
    assert ApplyFields(fs, 0, base, c, sources, names) == ApplyFields(fs[1..], 1, b0, c1, sources, names);
    if m.source.Some? {
      ApplyOriginalFields(m, c, sources, names);
    } else {
      assert b0 == m;
      assert fs[1..] == [];
    }
  }

  /** Reading one written segment followed by a separator (or nothing) gives back the record and the writer's cursor. */
  lemma SegmentRoundTrip(m: Mapping, c: Cursor, rest: string, sources: seq<string>, names: seq<string>)
    requires Encodable(m, sources, names)
    requires m.generatedLine == c.generatedLine
    requires rest == "" || IsSeparator(rest[0])
    ensures EncodeSegment(m, c, sources, names).Ok?
    ensures var e := EncodeSegment(m, c, sources, names).value;
            DecodeSegment(e.0 + rest, c, sources, names) == Ok((m, e.1, rest))
  {
    ApplySegmentFields(m, c, sources, names);
    var f := SegmentFields(m, c, sources, names).value;
    ReadEncodedFields(f.0, 0, |f.0|, rest, Mapping(c.generatedLine, 0, None, None, None, None), c, sources, names);
  }

  /** A segment the reader accepts at the front of the string becomes the first record of the result. */
  lemma ParseSegment(s: string, rest: string, c: Cursor, m: Mapping, c1: Cursor, sources: seq<string>, names: seq<string>)
    requires |s| >= 1 && Base64.IsDigit(s[0])
    requires DecodeSegment(s + rest, c, sources, names) == Ok((m, c1, rest))
    ensures ParseFrom(s + rest, c, sources, names)
         == (var tail :- ParseFrom(rest, c1, sources, names); Ok([m] + tail))
  {
    Base64.DigitIsNotSeparator(s[0]);
    assert (s + rest)[0] == s[0];
  }

  /** What the writer produces when the first record starts a new generated line. */
  lemma SerializeNewLine(ms: seq<Mapping>, prev: Option<Mapping>, c: Cursor, seg: (string, Cursor), rest: string,
                         sources: seq<string>, names: seq<string>)
    requires ms != [] && LinesFrom(ms, c.generatedLine) && ms[0].generatedLine != c.generatedLine
    requires LinesFrom(ms[1..], ms[0].generatedLine)
    requires EncodeSegment(ms[0], c.(generatedLine := ms[0].generatedLine, generatedColumn := 0), sources, names) == Ok(seg)
    requires SerializeFrom(ms[1..], Some(ms[0]), seg.1, sources, names) == Ok(rest)
    ensures SerializeFrom(ms, prev, c, sources, names) == Ok(Semicolons(ms[0].generatedLine - c.generatedLine) + (seg.0 + rest))
  {
    var k := ms[0].generatedLine - c.generatedLine;
    assert SerializeFrom(ms, prev, c, sources, names) == Ok(Semicolons(k) + seg.0 + rest);
    Regroup(Semicolons(k), seg.0, rest);
  }

  /** What the writer produces when the first record stays on the current generated line and is not a repeat. */
  lemma SerializeSameLine(ms: seq<Mapping>, prev: Option<Mapping>, c: Cursor, seg: (string, Cursor), rest: string,
                          sources: seq<string>, names: seq<string>)
    requires ms != [] && LinesFrom(ms, c.generatedLine) && ms[0].generatedLine == c.generatedLine
    requires !(prev.Some? && CompareByGeneratedPositions(ms[0], prev.value, false) == 0)
    requires LinesFrom(ms[1..], ms[0].generatedLine)
    requires EncodeSegment(ms[0], c, sources, names) == Ok(seg)
    requires SerializeFrom(ms[1..], Some(ms[0]), seg.1, sources, names) == Ok(rest)
    ensures SerializeFrom(ms, prev, c, sources, names) == Ok(if prev.Some? then "," + (seg.0 + rest) else seg.0 + rest)
  {
    var sep := if prev.Some? then "," else "";
    assert SerializeFrom(ms, prev, c, sources, names) == Ok(sep + seg.0 + rest);
    Regroup(sep, seg.0, rest);
  }

  /** Line breaks, then a segment the reader accepts: the segment's record comes first, on the new line. */
  lemma ParseNewLine(k: nat, s: string, rest: string, c: Cursor, m: Mapping, c1: Cursor, sources: seq<string>, names: seq<string>)
    requires k >= 1 && |s| >= 1 && Base64.IsDigit(s[0])
    requires DecodeSegment(s + rest, c.(generatedLine := c.generatedLine + k, generatedColumn := 0), sources, names) == Ok((m, c1, rest))
    ensures ParseFrom(Semicolons(k) + (s + rest), c, sources, names)
         == (var tail :- ParseFrom(rest, c1, sources, names); Ok([m] + tail))
  {
    var c0 := c.(generatedLine := c.generatedLine + k, generatedColumn := 0);
    ParseLineBreaks(k, s + rest, c, sources, names);
    ParseSegment(s, rest, c0, m, c1, sources, names);
  }

  /** The writer's de-duplication keeps a record that starts a new line. */
  lemma DedupNewLine(ms: seq<Mapping>, prev: Option<Mapping>)
    requires ms != [] && (prev.Some? ==> prev.value.generatedLine != ms[0].generatedLine)
    ensures DedupFrom(ms, prev) == [ms[0]] + DedupFrom(ms[1..], Some(ms[0]))
  {
    if prev.Some? {
      GeneratedOnlyPrimary(ms[0], prev.value);
    }
  }

  /** The round trip for the first record when it starts a new generated line. */
  lemma RoundTripNewLine(ms: seq<Mapping>, prev: Option<Mapping>, c: Cursor, seg: (string, Cursor), rest: string,
                         sources: seq<string>, names: seq<string>)
    requires ms != [] && LinesFrom(ms, c.generatedLine) && ms[0].generatedLine != c.generatedLine
    requires Encodable(ms[0], sources, names)
    requires prev.Some? ==> prev.value.generatedLine == c.generatedLine
    requires EncodeSegment(ms[0], c.(generatedLine := ms[0].generatedLine, generatedColumn := 0), sources, names) == Ok(seg)
    requires SerializeFrom(ms[1..], Some(ms[0]), seg.1, sources, names) == Ok(rest)
    requires ParseFrom(rest, seg.1, sources, names) == Ok(DedupFrom(ms[1..], Some(ms[0])))
    ensures SerializeFrom(ms, prev, c, sources, names) == Ok(Semicolons(ms[0].generatedLine - c.generatedLine) + (seg.0 + rest))
    ensures ParseFrom(Semicolons(ms[0].generatedLine - c.generatedLine) + (seg.0 + rest), c, sources, names) == Ok(DedupFrom(ms, prev))
  {
    var m := ms[0];
    var c0 := c.(generatedLine := m.generatedLine, generatedColumn := 0);
    var k := m.generatedLine - c.generatedLine;
    assert c.(generatedLine := c.generatedLine + k, generatedColumn := 0) == c0;
    SerializeContinues(ms[1..], m, seg.1, sources, names);
    SegmentRoundTrip(m, c0, rest, sources, names);
    SerializeNewLine(ms, prev, c, seg, rest, sources, names);
    ParseNewLine(k, seg.0, rest, c, m, seg.1, sources, names);
    DedupNewLine(ms, prev);
  }

  /** The round trip for the first record when it stays on the current generated line and is not a repeat. */
  lemma RoundTripSameLine(ms: seq<Mapping>, prev: Option<Mapping>, c: Cursor, seg: (string, Cursor), rest: string,
                          sources: seq<string>, names: seq<string>)
    requires ms != [] && LinesFrom(ms, c.generatedLine) && ms[0].generatedLine == c.generatedLine
    requires !(prev.Some? && CompareByGeneratedPositions(ms[0], prev.value, false) == 0)
    requires Encodable(ms[0], sources, names)
    requires EncodeSegment(ms[0], c, sources, names) == Ok(seg)
    requires SerializeFrom(ms[1..], Some(ms[0]), seg.1, sources, names) == Ok(rest)
    requires ParseFrom(rest, seg.1, sources, names) == Ok(DedupFrom(ms[1..], Some(ms[0])))
    ensures SerializeFrom(ms, prev, c, sources, names) == Ok(if prev.Some? then "," + (seg.0 + rest) else seg.0 + rest)
    ensures ParseFrom(if prev.Some? then "," + (seg.0 + rest) else seg.0 + rest, c, sources, names) == Ok(DedupFrom(ms, prev))
  {
    var m := ms[0];
    SerializeContinues(ms[1..], m, seg.1, sources, names);
    SegmentRoundTrip(m, c, rest, sources, names);
    ParseSegment(seg.0, rest, c, m, seg.1, sources, names);
    SerializeSameLine(ms, prev, c, seg, rest, sources, names);
    if prev.Some? {
      var t := "," + (seg.0 + rest);
      assert t[0] == ',' && t[1..] == seg.0 + rest;
    }
  }

  /**
   * Reading back what the writer wrote for ms gives the records of ms without
   * the repeated ones, provided every record is encodable.
   */
  lemma {:induction false} RoundTripFrom(ms: seq<Mapping>, prev: Option<Mapping>, c: Cursor, sources: seq<string>, names: seq<string>)
    requires LinesFrom(ms, c.generatedLine)
    requires forall i :: 0 <= i < |ms| ==> Encodable(ms[i], sources, names)
    requires prev.Some? ==> prev.value.generatedLine == c.generatedLine
    ensures SerializeFrom(ms, prev, c, sources, names).Ok?
    ensures ParseFrom(SerializeFrom(ms, prev, c, sources, names).value, c, sources, names) == Ok(DedupFrom(ms, prev))
    decreases |ms|
  {
    if ms != [] {
      var m := ms[0];
        assert Encodable(m, sources, names);
      if m.generatedLine != c.generatedLine {
        var c0 := c.(generatedLine := m.generatedLine, generatedColumn := 0);
        SegmentRoundTrip(m, c0, "", sources, names);
        var seg := EncodeSegment(m, c0, sources, names).value;
        RoundTripFrom(ms[1..], Some(m), seg.1, sources, names);
        var rest := SerializeFrom(ms[1..], Some(m), seg.1, sources, names).value;
        RoundTripNewLine(ms, prev, c, seg, rest, sources, names);
      } else if prev.Some? && CompareByGeneratedPositions(m, prev.value, false) == 0 {
        RoundTripFrom(ms[1..], Some(m), c, sources, names);
      } else {
        SegmentRoundTrip(m, c, "", sources, names);
        var seg := EncodeSegment(m, c, sources, names).value;
        RoundTripFrom(ms[1..], Some(m), seg.1, sources, names);
        var rest := SerializeFrom(ms[1..], Some(m), seg.1, sources, names).value;
        RoundTripSameLine(ms, prev, c, seg, rest, sources, names);
      }
    }
  }

  /**
   * The codec round trip: for encodable records whose generated lines start at
   * 1 or later and never go down, parsing the serialised string gives back the
   * records in order, without the repeated ones.
   */
  lemma RoundTrip(ms: seq<Mapping>, sources: seq<string>, names: seq<string>)
    requires LinesFrom(ms, 1)
    requires forall i :: 0 <= i < |ms| ==> Encodable(ms[i], sources, names)
    ensures Serialize(ms, sources, names).Ok?
    ensures Parse(Serialize(ms, sources, names).value, sources, names) == Ok(Dedup(ms))
  {
    RoundTripFrom(ms, None, Start, sources, names);
  }
}

=== FILE: mappings_writer.dfy ===
/**
 * The loop of `SourceMapGenerator.prototype._serializeMappings`: the running
 * `previous*` counters, the ';' written per generated line skipped, the ','
 * between segments of one line and the fields of each segment, each encoded
 * with `base64VLQ.encode` and looked up with `ArraySet.indexOf`.
 */
module MappingsWriter {
  import opened Wrappers
  import opened Util
  import opened MappingsCodec
  import opened ArraySets
  import Base64Vlq

  /** The encoded fields, one list element at a time. */
  lemma EncodeFieldsCons(x: int, xs: seq<int>)
    ensures EncodeFields([x] + xs) == Base64Vlq.EncodeSpec(x) + EncodeFields(xs)
  {
    assert ([x] + xs)[1..] == xs;
  }

  /** The cursor after a record with a source, given the source's index. */
  function SourcedCursor(m: Mapping, c: Cursor, source: nat): (r: Cursor)
    ensures r.generatedLine == c.generatedLine && r.generatedColumn == m.generatedColumn && r.source == source
    ensures r.name == c.name
  {
    c.(generatedColumn := m.generatedColumn, source := source,
       originalLine := Num(m.originalLine) - 1, originalColumn := Num(m.originalColumn))
  }

  /** The four fields of a record with a source, relative to the cursor. */
  function SourcedFields(m: Mapping, c: Cursor, source: nat): seq<int>
  {
    [m.generatedColumn - c.generatedColumn, source - c.source,
     Num(m.originalLine) - 1 - c.originalLine, Num(m.originalColumn) - c.originalColumn]
  }

  /** The segment of a record with a source whose index is known. */
  lemma SegmentWithSource(m: Mapping, c: Cursor, sources: seq<string>, names: seq<string>, source: nat)
    requires m.source.Some? && ArraySets.FirstIndex(sources, m.source.value) == Ok(source)
    ensures m.name.None? ==> SegmentFields(m, c, sources, names) == Ok((SourcedFields(m, c, source), SourcedCursor(m, c, source)))
    ensures m.name.Some? && ArraySets.FirstIndex(names, m.name.value).Err? ==>
              EncodeSegment(m, c, sources, names) == Err(ArraySets.FirstIndex(names, m.name.value).error)
    ensures m.name.Some? && ArraySets.FirstIndex(names, m.name.value).Ok? ==>
              var name := ArraySets.FirstIndex(names, m.name.value).value;
              SegmentFields(m, c, sources, names) == Ok((SourcedFields(m, c, source) + [name - c.name], SourcedCursor(m, c, source).(name := name)))
  {
  }

  /** The segment of a record without a source: its generated column alone. */
  lemma SegmentWithoutSource(m: Mapping, c: Cursor, sources: seq<string>, names: seq<string>)
    requires m.source.None?
    ensures EncodeSegment(m, c, sources, names)
            == Ok((Base64Vlq.EncodeSpec(m.generatedColumn - c.generatedColumn), c.(generatedColumn := m.generatedColumn)))
  {
    var column := Base64Vlq.EncodeSpec(m.generatedColumn - c.generatedColumn);
    EncodeFieldsCons(m.generatedColumn - c.generatedColumn, []);
    assert [m.generatedColumn - c.generatedColumn] + [] == [m.generatedColumn - c.generatedColumn];
    assert column + "" == column;
  }

  /** A source that was never registered fails the segment. */
  lemma SegmentSourceMissing(m: Mapping, c: Cursor, sources: seq<string>, names: seq<string>)
    requires m.source.Some? && ArraySets.FirstIndex(sources, m.source.value).Err?
    ensures EncodeSegment(m, c, sources, names) == Err(ArraySets.FirstIndex(sources, m.source.value).error)
  {
  }

  /** A name that was never registered fails the segment. */
  lemma SegmentNameMissing(m: Mapping, c: Cursor, sources: seq<string>, names: seq<string>, source: nat)
    requires m.source.Some? && ArraySets.FirstIndex(sources, m.source.value) == Ok(source)
    requires m.name.Some? && ArraySets.FirstIndex(names, m.name.value).Err?
    ensures EncodeSegment(m, c, sources, names) == Err(ArraySets.FirstIndex(names, m.name.value).error)
  {
    SegmentWithSource(m, c, sources, names, source);
  }

  /** A segment is its fields encoded one after the other. */
  lemma SegmentOfFields(m: Mapping, c: Cursor, sources: seq<string>, names: seq<string>, fields: seq<int>, next: Cursor)
    requires SegmentFields(m, c, sources, names) == Ok((fields, next))
    ensures EncodeSegment(m, c, sources, names) == Ok((EncodeFields(fields), next))
  {
  }

  /** The segment of a record with a source and no name: four fields. */
  lemma SegmentOfFour(m: Mapping, c: Cursor, sources: seq<string>, names: seq<string>, source: nat,
                      column: string, sourceField: string, lineField: string, columnField: string)
    requires m.source.Some? && ArraySets.FirstIndex(sources, m.source.value) == Ok(source) && m.name.None?
    requires column == Base64Vlq.EncodeSpec(m.generatedColumn - c.generatedColumn)
    requires sourceField == Base64Vlq.EncodeSpec(source - c.source)
    requires lineField == Base64Vlq.EncodeSpec(Num(m.originalLine) - 1 - c.originalLine)
    requires columnField == Base64Vlq.EncodeSpec(Num(m.originalColumn) - c.originalColumn)
    ensures EncodeSegment(m, c, sources, names)
            == Ok((column + (sourceField + (lineField + columnField)), SourcedCursor(m, c, source)))
  {
    var fs := SourcedFields(m, c, source);
    var next := SourcedCursor(m, c, source);
    assert EncodeSegment(m, c, sources, names) == Ok((EncodeFields(fs), next)) by {
      SegmentWithSource(m, c, sources, names, source);
      SegmentOfFields(m, c, sources, names, fs, next);
    }
    assert EncodeFields(fs) == column + (sourceField + (lineField + columnField)) by {
      EncodeFour(fs, column, sourceField, lineField, columnField);
    }
  }

  /** The segment of a record with a source and a name: five fields. */
  lemma SegmentOfFive(m: Mapping, c: Cursor, sources: seq<string>, names: seq<string>, source: nat, name: nat,
                      column: string, sourceField: string, lineField: string, columnField: string, nameField: string)
    requires m.source.Some? && ArraySets.FirstIndex(sources, m.source.value) == Ok(source)
    requires m.name.Some? && ArraySets.FirstIndex(names, m.name.value) == Ok(name)
    requires column == Base64Vlq.EncodeSpec(m.generatedColumn - c.generatedColumn)
    requires sourceField == Base64Vlq.EncodeSpec(source - c.source)
    requires lineField == Base64Vlq.EncodeSpec(Num(m.originalLine) - 1 - c.originalLine)
    requires columnField == Base64Vlq.EncodeSpec(Num(m.originalColumn) - c.originalColumn)
    requires nameField == Base64Vlq.EncodeSpec(name - c.name)
    ensures EncodeSegment(m, c, sources, names)
            == Ok((column + (sourceField + (lineField + (columnField + nameField))), SourcedCursor(m, c, source).(name := name)))
  {
    var fs := [m.generatedColumn - c.generatedColumn, source - c.source, Num(m.originalLine) - 1 - c.originalLine,
               Num(m.originalColumn) - c.originalColumn, name - c.name];
    var next := SourcedCursor(m, c, source).(name := name);
    assert EncodeSegment(m, c, sources, names) == Ok((EncodeFields(fs), next)) by {
      NamedFields(m, c, sources, names, source, name);
      SegmentOfFields(m, c, sources, names, fs, next);
    }
    assert EncodeFields(fs) == column + (sourceField + (lineField + (columnField + nameField))) by {
      EncodeFive(fs, column, sourceField, lineField, columnField, nameField);
    }
  }

  /** The five fields of a record with a source and a name. */
  lemma NamedFields(m: Mapping, c: Cursor, sources: seq<string>, names: seq<string>, source: nat, name: nat)
    requires m.source.Some? && ArraySets.FirstIndex(sources, m.source.value) == Ok(source)
    requires m.name.Some? && ArraySets.FirstIndex(names, m.name.value) == Ok(name)
    ensures SegmentFields(m, c, sources, names)
            == Ok(([m.generatedColumn - c.generatedColumn, source - c.source, Num(m.originalLine) - 1 - c.originalLine,
                    Num(m.originalColumn) - c.originalColumn, name - c.name],
                   SourcedCursor(m, c, source).(name := name)))
  {
    SegmentWithSource(m, c, sources, names, source);
    assert SourcedFields(m, c, source) + [name - c.name]
        == [m.generatedColumn - c.generatedColumn, source - c.source, Num(m.originalLine) - 1 - c.originalLine,
            Num(m.originalColumn) - c.originalColumn, name - c.name];
  }

  /**
   * One segment: the generated column, then, for a record with a source, the
   * source index, the 0-based original line and the original column, then the
   * name index when it has a name; each field relative to the counters. The
   * segment is the one the codec writes.
   */
  method WriteSegment(m: Mapping, c: Cursor, sources: ArraySet, names: ArraySet) returns (r: Result<(string, Cursor)>)
    requires sources.Valid() && names.Valid()
    ensures r == EncodeSegment(m, c, sources.items, names.items)
  {
    var column := Base64Vlq.Encode(m.generatedColumn - c.generatedColumn);
    if m.source.None? {
      SegmentWithoutSource(m, c, sources.items, names.items);
      return Ok((column, c.(generatedColumn := m.generatedColumn)));
    }
    var sourceIndex := sources.IndexOf(m.source.value);
    if sourceIndex.Err? {
      SegmentSourceMissing(m, c, sources.items, names.items);
      return Err(sourceIndex.error);
    }
    r := WriteSourced(m, c, column, sourceIndex.value, sources, names);
  }

  /** The rest of a segment of a record with a source, once its source index is known. */
  method WriteSourced(m: Mapping, c: Cursor, column: string, source: nat, sources: ArraySet, names: ArraySet) returns (r: Result<(string, Cursor)>)
    requires sources.Valid() && names.Valid()
    requires m.source.Some? && ArraySets.FirstIndex(sources.items, m.source.value) == Ok(source)
    requires column == Base64Vlq.EncodeSpec(m.generatedColumn - c.generatedColumn)
    ensures r == EncodeSegment(m, c, sources.items, names.items)
  {
    var sourceField := Base64Vlq.Encode(source - c.source);
    var lineField := Base64Vlq.Encode(Num(m.originalLine) - 1 - c.originalLine);
    var columnField := Base64Vlq.Encode(Num(m.originalColumn) - c.originalColumn);
    if m.name.None? {
      SegmentOfFour(m, c, sources.items, names.items, source, column, sourceField, lineField, columnField);
      return Ok((column + (sourceField + (lineField + columnField)), SourcedCursor(m, c, source)));
    }
    var nameIndex := names.IndexOf(m.name.value);
    if nameIndex.Err? {
      SegmentNameMissing(m, c, sources.items, names.items, source);
      return Err(nameIndex.error);
    }
    var name := nameIndex.value;
    var nameField := Base64Vlq.Encode(name - c.name);
    SegmentOfFive(m, c, sources.items, names.items, source, name, column, sourceField, lineField, columnField, nameField);
    return Ok((column + (sourceField + (lineField + (columnField + nameField))), SourcedCursor(m, c, source).(name := name)));
  }

  /** The four fields of a segment without a name, one after the other. */
  lemma EncodeFour(fs: seq<int>, s0: string, s1: string, s2: string, s3: string)
    requires |fs| == 4
    requires s0 == Base64Vlq.EncodeSpec(fs[0]) && s1 == Base64Vlq.EncodeSpec(fs[1])
    requires s2 == Base64Vlq.EncodeSpec(fs[2]) && s3 == Base64Vlq.EncodeSpec(fs[3])
    ensures EncodeFields(fs) == s0 + (s1 + (s2 + s3))
  {
    EncodeFieldsCons(fs[3], []);
    assert [fs[3]] + [] == fs[3..];
    EncodeFieldsCons(fs[2], fs[3..]);
    assert [fs[2]] + fs[3..] == fs[2..];
    EncodeFieldsCons(fs[1], fs[2..]);
    assert [fs[1]] + fs[2..] == fs[1..];
    EncodeFieldsCons(fs[0], fs[1..]);
    assert [fs[0]] + fs[1..] == fs;
  }

  /** The five fields of a segment with a name, one after the other. */
  lemma EncodeFive(fs: seq<int>, s0: string, s1: string, s2: string, s3: string, s4: string)
    requires |fs| == 5
    requires s0 == Base64Vlq.EncodeSpec(fs[0]) && s1 == Base64Vlq.EncodeSpec(fs[1])
    requires s2 == Base64Vlq.EncodeSpec(fs[2]) && s3 == Base64Vlq.EncodeSpec(fs[3])
    requires s4 == Base64Vlq.EncodeSpec(fs[4])
    ensures EncodeFields(fs) == s0 + (s1 + (s2 + (s3 + s4)))
  {
    EncodeFieldsCons(fs[4], []);
    assert [fs[4]] + [] == fs[4..];
    EncodeFieldsCons(fs[3], fs[4..]);
    assert [fs[3]] + fs[4..] == fs[3..];
    EncodeFieldsCons(fs[2], fs[3..]);
    assert [fs[2]] + fs[3..] == fs[2..];
    EncodeFieldsCons(fs[1], fs[2..]);
    assert [fs[1]] + fs[2..] == fs[1..];
    EncodeFieldsCons(fs[0], fs[1..]);
    assert [fs[0]] + fs[1..] == fs;
  }

  /** One more ';' after k of them. */
  lemma SemicolonsSnoc(k: nat)
    ensures Semicolons(k) + ";" == Semicolons(k + 1)
  {
    assert (Semicolons(k) + ";")[0..] == Semicolons(k) + ";";
  }

  /** The record before index i, if any: the writer's `previous` mapping. */
  function PrevOf(ms: seq<Mapping>, i: nat): (r: Option<Mapping>)
    requires i <= |ms|
    ensures r.None? <==> i == 0
    ensures i > 0 ==> r == Some(ms[i - 1])
  {
    if i == 0 then None else Some(ms[i - 1])
  }

  /**
   * The writer's state after the first i records: `result` followed by what
   * the codec writes for the rest, from the cursor c, is the whole string.
   */
  ghost predicate Written(ms: seq<Mapping>, i: nat, result: string, c: Cursor, sources: seq<string>, names: seq<string>)
  {
    && LinesFrom(ms, 1)
    && i <= |ms|
    && LinesFrom(ms[i..], c.generatedLine)
    && Serialize(ms, sources, names) == Prefixed(result, SerializeFrom(ms[i..], PrevOf(ms, i), c, sources, names))
  }

  /** Nothing written yet, from the start cursor. */
  lemma WrittenStart(ms: seq<Mapping>, sources: seq<string>, names: seq<string>)
    requires LinesFrom(ms, 1)
    ensures Written(ms, 0, "", Start, sources, names)
  {
    assert ms[0..] == ms;
    var whole := Serialize(ms, sources, names);
    if whole.Ok? {
      assert "" + whole.value == whole.value;
    }
  }

  /** All records written: the result is the whole string. */
  lemma WrittenEnd(ms: seq<Mapping>, result: string, c: Cursor, sources: seq<string>, names: seq<string>)
    requires Written(ms, |ms|, result, c, sources, names)
    ensures Serialize(ms, sources, names) == Ok(result)
  {
    assert ms[|ms|..] == [];
    assert result + "" == result;
  }

  /** A record equal to the one before it on the same line is skipped. */
  lemma WrittenRepeated(ms: seq<Mapping>, i: nat, result: string, c: Cursor, sources: seq<string>, names: seq<string>)
    requires Written(ms, i, result, c, sources, names) && 0 < i < |ms|
    requires ms[i].generatedLine == c.generatedLine && CompareByGeneratedPositions(ms[i], ms[i - 1], false) == 0
    ensures Written(ms, i + 1, result, c, sources, names)
  {
    assert ms[i..][1..] == ms[i + 1..];
    assert ms[i..][1..] == ms[i + 1..];
  }

  /** A record on a later line: the ';'s up to its line, then its segment, the column counted from 0. */
  lemma WrittenNewLine(ms: seq<Mapping>, i: nat, result: string, c: Cursor, sources: seq<string>, names: seq<string>,
                       seg: Result<(string, Cursor)>)
    requires Written(ms, i, result, c, sources, names) && i < |ms| && ms[i].generatedLine != c.generatedLine
    requires seg == EncodeSegment(ms[i], c.(generatedLine := ms[i].generatedLine, generatedColumn := 0), sources, names)
    ensures seg.Err? ==> Serialize(ms, sources, names) == Err(seg.error)
    ensures seg.Ok? ==>
              Written(ms, i + 1, result + (Semicolons(ms[i].generatedLine - c.generatedLine) + seg.value.0), seg.value.1, sources, names)
  {
    assert ms[i..][1..] == ms[i + 1..];
    assert ms[i..][1..] == ms[i + 1..];
    if seg.Ok? {
      PrefixedTwice(result, Semicolons(ms[i].generatedLine - c.generatedLine) + seg.value.0,
                 SerializeFrom(ms[i + 1..], Some(ms[i]), seg.value.1, sources, names));
    }
  }

  /** Another record on the same line: a ',' after an earlier record, then its segment. */
  lemma WrittenSameLine(ms: seq<Mapping>, i: nat, result: string, c: Cursor, sources: seq<string>, names: seq<string>,
                        seg: Result<(string, Cursor)>)
    requires Written(ms, i, result, c, sources, names) && i < |ms| && ms[i].generatedLine == c.generatedLine
    requires !(i > 0 && CompareByGeneratedPositions(ms[i], ms[i - 1], false) == 0)
    requires seg == EncodeSegment(ms[i], c, sources, names)
    ensures seg.Err? ==> Serialize(ms, sources, names) == Err(seg.error)
    ensures seg.Ok? ==> Written(ms, i + 1, result + ((if i > 0 then "," else "") + seg.value.0), seg.value.1, sources, names)
  {
    assert ms[i..][1..] == ms[i + 1..];
    assert ms[i..][1..] == ms[i + 1..];
    if seg.Ok? {
      PrefixedTwice(result, (if i > 0 then "," else "") + seg.value.0,
                 SerializeFrom(ms[i + 1..], Some(ms[i]), seg.value.1, sources, names));
    }
  }

  /** The run of ';' that moves the writer from one generated line down to another. */
  method LineBreaks(from: int, to: int) returns (separator: string)
    requires from <= to
    ensures separator == Semicolons(to - from)
  {
    separator := "";
    var line := from;
    while line < to
      invariant from <= line <= to
      invariant separator == Semicolons(line - from)
    {
      SemicolonsSnoc(line - from);
      separator := separator + ";";
      line := line + 1;
    }
  }

  /** One turn of `_serializeMappings`: the record at i written after the text so far, skipped, or the error it raises. */
  method WriteNext(ms: seq<Mapping>, i: nat, result: string, c: Cursor, sources: ArraySet, names: ArraySet)
    returns (next: string, d: Cursor, err: Option<Error>)
    requires sources.Valid() && names.Valid()
    requires Written(ms, i, result, c, sources.items, names.items) && i < |ms|
    ensures err.Some? ==> Serialize(ms, sources.items, names.items) == Err(err.value)
    ensures err.None? ==> Written(ms, i + 1, next, d, sources.items, names.items)
  {
    var m := ms[i];
    next, d, err := result, c, None;
    if m.generatedLine != c.generatedLine {
      var separator := LineBreaks(c.generatedLine, m.generatedLine);
      var segment := WriteSegment(m, c.(generatedLine := m.generatedLine, generatedColumn := 0), sources, names);
      WrittenNewLine(ms, i, result, c, sources.items, names.items, segment);
      if segment.Err? {
        err := Some(segment.error);
      } else {
        next, d := result + (separator + segment.value.0), segment.value.1;
      }
    } else if i > 0 && CompareByGeneratedPositions(m, ms[i - 1], false) == 0 {
      WrittenRepeated(ms, i, result, c, sources.items, names.items);
    } else {
      var separator := if i > 0 then "," else "";
      var segment := WriteSegment(m, c, sources, names);
      WrittenSameLine(ms, i, result, c, sources.items, names.items, segment);
      if segment.Err? {
        err := Some(segment.error);
      } else {
        next, d := result + (separator + segment.value.0), segment.value.1;
      }
    }
  }

  /**
   * `_serializeMappings` over the array `toArray` returned: the string the
   * codec writes for it, or the error of the first source or name that
   * `indexOf` does not find.
   */
  method WriteMappings(ms: seq<Mapping>, sources: ArraySet, names: ArraySet) returns (r: Result<string>)
    requires sources.Valid() && names.Valid()
    requires LinesFrom(ms, 1)
    ensures r == Serialize(ms, sources.items, names.items)
  {
    var result := "";
    var c := Start;
    var i := 0;
    WrittenStart(ms, sources.items, names.items);
    while i < |ms|
      invariant i <= |ms|
      invariant Written(ms, i, result, c, sources.items, names.items)
      decreases |ms| - i
    {
      var err;
      result, c, err := WriteNext(ms, i, result, c, sources, names);
      if err.Some? {
        return Err(err.value);
      }
      i := i + 1;
    }
    WrittenEnd(ms, result, c, sources.items, names.items);
    r := Ok(result);
  }
}

=== FILE: original_walks.dfy ===
/**
 * The answers of the original-to-generated queries and the backwards walk of
 * `allGeneratedPositionsFor` over the original table, with the filter it is
 * meant to compute.
 */
module OriginalWalks {
  import opened Wrappers
  import opened Util

  /** What `generatedPositionFor` answers; the all-null answer is `NoGenerated`. */
  datatype GeneratedPosition = GeneratedPosition(line: Option<int>, column: Option<int>)

  const NoGenerated: GeneratedPosition := GeneratedPosition(None, None)

  /** The generated position of a record. */
  function PositionOf(m: Mapping): GeneratedPosition {
    GeneratedPosition(Some(m.generatedLine), Some(m.generatedColumn))
  }

  /** Which records the backwards walk of `allGeneratedPositionsFor` keeps. */
  datatype Keep =
    | OnLine(line: int)                      // as written: the original line only
    | OnSourceLine(source: string, line: int) // the source and the original line

  predicate Keeps(k: Keep, m: Mapping) {
    match k
    case OnLine(line) => m.originalLine == Some(line)
    case OnSourceLine(source, line) => m.source == Some(source) && m.originalLine == Some(line)
  }

  /**
   * The records the walk collects, in table order: from index `i` down to the
   * first record it does not keep (or the start of the table).
   */
  function Run(t: seq<Mapping>, i: int, k: Keep): (r: seq<Mapping>)
    requires -1 <= i < |t|
    ensures |r| <= i + 1
    decreases i + 1
  {
    if i < 0 || !Keeps(k, t[i]) then [] else Run(t, i - 1, k) + [t[i]]
  }

  /** The reference definition: every record of the table that is kept, in table order. */
  function Filter(t: seq<Mapping>, k: Keep): (r: seq<Mapping>)
    ensures forall m :: m in r <==> m in t && Keeps(k, m)
    ensures |r| <= |t|
  {
    if t == [] then []
    else
      var last := t[|t| - 1];
      Filter(t[..|t| - 1], k) + (if Keeps(k, last) then [last] else [])
  }

  /** Records appended to a table that are not kept leave the filter alone. */
  lemma {:induction false} FilterAppendNone(a: seq<Mapping>, b: seq<Mapping>, k: Keep)
    requires forall j :: 0 <= j < |b| ==> !Keeps(k, b[j])
    ensures Filter(a + b, k) == Filter(a, k)
    decreases |b|
  {
    if b == [] {
      assert a + b == a;
    } else {
      var b' := b[..|b| - 1];
      assert (a + b)[..|a + b| - 1] == a + b';
      FilterAppendNone(a, b', k);
    }
  }

  /**
   * When the kept records of `t[..i + 1]` form its tail (a kept record is
   * followed only by kept ones up to `i`), the walk down from `i` collects
   * exactly the filter of that prefix.
   */
  lemma {:induction false} RunIsFilter(t: seq<Mapping>, i: int, k: Keep)
    requires -1 <= i < |t|
    requires forall a, b :: 0 <= a < b <= i && Keeps(k, t[a]) ==> Keeps(k, t[b])
    ensures Run(t, i, k) == Filter(t[..i + 1], k)
    decreases i + 1
  {
    if i >= 0 {
      assert t[..i + 1][..i] == t[..i];
      if Keeps(k, t[i]) {
        RunIsFilter(t, i - 1, k);
      } else {
        FilterAppendNone([], t[..i], k);
        assert [] + t[..i] == t[..i];
      }
    }
  }

  /** The answer's form: each record's generated position. */
  function Positions(ms: seq<Mapping>): (r: seq<GeneratedPosition>)
    ensures |r| == |ms| && forall j :: 0 <= j < |ms| ==> r[j] == PositionOf(ms[j])
  {
    seq(|ms|, j requires 0 <= j < |ms| => PositionOf(ms[j]))
  }

  /** `Array.prototype.reverse`. */
  function Reverse<T>(s: seq<T>): (r: seq<T>)
    ensures |r| == |s| && forall j :: 0 <= j < |s| ==> r[j] == s[|s| - 1 - j]
  {
    seq(|s|, j requires 0 <= j < |s| => s[|s| - 1 - j])
  }

  /** Reversing twice gives the sequence back, and reversing a concatenation swaps its parts. */
  lemma ReverseInvolution<T>(a: seq<T>, b: seq<T>)
    ensures Reverse(Reverse(a)) == a
    ensures Reverse(a + b) == Reverse(b) + Reverse(a)
  {
  }

  /** Positions pushed in reverse table order come out in table order once reversed. */
  lemma ReversedPositions(pushed: seq<GeneratedPosition>, ms: seq<Mapping>)
    requires |pushed| == |ms|
    requires forall m :: 0 <= m < |pushed| ==> pushed[m] == PositionOf(ms[|ms| - 1 - m])
    ensures Reverse(pushed) == Positions(ms)
  {
  }

  /**
   * The loop of `allGeneratedPositionsFor`: pushes the position of each record
   * from `index` down while it is kept, then reverses what it pushed; the
   * answer lists the positions of the walk's records in table order.
   */
  method CollectPositions(t: seq<Mapping>, index: int, k: Keep) returns (r: seq<GeneratedPosition>)
    requires -1 <= index < |t|
    ensures r == Positions(Run(t, index, k))
  {
    var mappings: seq<GeneratedPosition> := [];
    var i := index;
    while i >= 0 && Keeps(k, t[i])
      invariant -1 <= i <= index
      invariant Run(t, index, k) == Run(t, i, k) + t[i + 1..index + 1]
      invariant |mappings| == index - i
      invariant forall m :: 0 <= m < |mappings| ==> mappings[m] == PositionOf(t[index - m])
      decreases i
    {
      assert Run(t, i, k) == Run(t, i - 1, k) + [t[i]];
      assert t[i..index + 1] == [t[i]] + t[i + 1..index + 1];
      mappings := mappings + [PositionOf(t[i])];
      i := i - 1;
    }
    assert Run(t, i, k) == [];
    var walked := t[i + 1..index + 1];
    assert Run(t, index, k) == walked;
    forall m | 0 <= m < |mappings|
      ensures mappings[m] == PositionOf(walked[|walked| - 1 - m])
    {
      assert walked[|walked| - 1 - m] == t[index - m];
    }
    ReversedPositions(mappings, walked);
    r := Reverse(mappings);
  }


  /**
   * When the kept records of the table all lie at or before `i` and form the
   * tail of `t[..i + 1]`, the walk down from `i` collects every kept record.
   */
  lemma WalkIsFilter(t: seq<Mapping>, i: int, k: Keep)
    requires -1 <= i < |t|
    requires forall a, b :: 0 <= a < b <= i && Keeps(k, t[a]) ==> Keeps(k, t[b])
    requires forall j :: 0 <= j < |t| && Keeps(k, t[j]) ==> j <= i
    ensures Run(t, i, k) == Filter(t, k)
  {
    RunIsFilter(t, i, k);
    var rest := t[i + 1..];
    forall j | 0 <= j < |rest|
      ensures !Keeps(k, rest[j])
    {
      assert rest[j] == t[i + 1 + j];
    }
    FilterAppendNone(t[..i + 1], rest, k);
    assert t[..i + 1] + rest == t;
  }

  /** A position is among those of the filter exactly when some kept record has it. */
  lemma PositionsOfFilter(t: seq<Mapping>, k: Keep)
    ensures forall p :: p in Positions(Filter(t, k)) <==> exists m :: m in t && Keeps(k, m) && PositionOf(m) == p
  {
    var kept := Filter(t, k);
    forall p
      ensures p in Positions(kept) <==> exists m :: m in t && Keeps(k, m) && PositionOf(m) == p
    {
      if p in Positions(kept) {
        var j :| 0 <= j < |kept| && Positions(kept)[j] == p;
        assert kept[j] in kept;
      }
      if exists m :: m in t && Keeps(k, m) && PositionOf(m) == p {
        var m :| m in t && Keeps(k, m) && PositionOf(m) == p;
        assert m in kept;
        var j :| 0 <= j < |kept| && kept[j] == m;
        assert Positions(kept)[j] == p;
      }
    }
  }
}

=== FILE: paths.dfy ===
/**
 * The URL and path helpers of module `source-map/util` (`urlParse`, `normalize`,
 * `join`, `relative`) work with regular expressions. The model takes them as
 * given functions; the operations that call them receive them in a `PathOps`.
 */
module Paths {
  import opened Wrappers

  /** The parts of a parsed URL the library looks at; an empty path stands for a missing one. */
  datatype UrlParts = UrlParts(scheme: string, path: string)

  datatype PathOps = PathOps(
    normalize: string -> string,
    join: (string, string) -> string,
    relative: (string, string) -> string,
    urlParse: string -> Option<UrlParts>)

  /** `aSource.replace(/^file:\/\//, "")`: drops a leading "file://" and nothing else. */
  function StripFileScheme(s: string): (r: string)
    ensures |s| >= 7 && s[..7] == "file://" ==> r == s[7..]
    ensures !(|s| >= 7 && s[..7] == "file://") ==> r == s
  {
    if |s| >= 7 && s[..7] == "file://" then s[7..] else s
  }

  /** Stripping undoes putting the scheme in front, and whatever it changes had the scheme in front. */
  lemma StripFileSchemeInverse(t: string)
    ensures StripFileScheme("file://" + t) == t
    ensures StripFileScheme(t) != t ==> "file://" + StripFileScheme(t) == t
  {
    assert ("file://" + t)[..7] == "file://";
    if |t| >= 7 && t[..7] == "file://" {
      assert t == t[..7] + t[7..];
    }
  }
}

=== FILE: sorting.dfy ===
/**
 * The two orders the library sorts mapping tables by, and the sort itself.
 * The source calls `Array.prototype.sort` with a comparator; here that is a
 * stable insertion sort, one of the sorted permutations the source may produce.
 */
module Sorting {
  import opened Util

  datatype Order = ByGenerated | ByOriginal

  /** The full comparator of an order. */
  function Cmp(o: Order, a: Mapping, b: Mapping): int {
    match o
    case ByGenerated => CompareByGeneratedPositions(a, b, false)
    case ByOriginal => CompareByOriginalPositions(a, b, false)
  }

  lemma CmpTotal(o: Order, a: Mapping, b: Mapping)
    ensures Cmp(o, a, b) > 0 <==> Cmp(o, b, a) < 0
  {
    if o.ByGenerated? { GeneratedAntisymmetric(a, b, false); } else { OriginalAntisymmetric(a, b, false); }
  }

  lemma CmpTransitive(o: Order, a: Mapping, b: Mapping, c: Mapping)
    requires Cmp(o, a, b) <= 0 && Cmp(o, b, c) <= 0
    ensures Cmp(o, a, c) <= 0
  {
    if o.ByGenerated? { GeneratedTransitive(a, b, c); } else { OriginalTransitive(a, b, c); }
  }

  ghost predicate Sorted(o: Order, s: seq<Mapping>) {
    forall i, j :: 0 <= i < j < |s| ==> Cmp(o, s[i], s[j]) <= 0
  }

  /** Insert x after every element that is at most x: the stable insertion step. */
  function Insert(o: Order, x: Mapping, s: seq<Mapping>): (r: seq<Mapping>)
    ensures |r| == |s| + 1
    ensures multiset(r) == multiset(s) + multiset{x}
  {
    if s == [] then [x]
    else if Cmp(o, x, s[0]) < 0 then [x] + s
    else
      assert s == [s[0]] + s[1..];
      [s[0]] + Insert(o, x, s[1..])
  }

  /** Sort s by o, inserting its elements from left to right. */
  function Sort(o: Order, s: seq<Mapping>): (r: seq<Mapping>)
    ensures multiset(r) == multiset(s)
  {
    if s == [] then []
    else
      assert s == s[..|s| - 1] + [s[|s| - 1]];
      Insert(o, s[|s| - 1], Sort(o, s[..|s| - 1]))
  }

  /** A sorted sequence stays sorted under a new head that is at most each of its elements. */
  lemma SortedCons(o: Order, a: Mapping, t: seq<Mapping>)
    requires Sorted(o, t)
    requires forall j :: 0 <= j < |t| ==> Cmp(o, a, t[j]) <= 0
    ensures Sorted(o, [a] + t)
  {
    var r := [a] + t;
    forall i, j | 0 <= i < j < |r|
      ensures Cmp(o, r[i], r[j]) <= 0
    {
      assert r[j] == t[j - 1];
      if i > 0 {
        assert r[i] == t[i - 1];
      }
    }
  }

  /** A lower bound of x and of every element of s bounds every element of Insert(o, x, s). */
  lemma {:induction false} InsertBounded(o: Order, y: Mapping, x: Mapping, s: seq<Mapping>)
    requires Cmp(o, y, x) <= 0
    requires forall i :: 0 <= i < |s| ==> Cmp(o, y, s[i]) <= 0
    ensures forall j :: 0 <= j < |Insert(o, x, s)| ==> Cmp(o, y, Insert(o, x, s)[j]) <= 0
  {
    if s != [] && Cmp(o, x, s[0]) >= 0 {
      InsertBounded(o, y, x, s[1..]);
      var r := Insert(o, x, s);
      var t := Insert(o, x, s[1..]);
      assert r == [s[0]] + t;
      forall j | 0 < j < |r|
        ensures Cmp(o, y, r[j]) <= 0
      {
        assert r[j] == t[j - 1];
      }
    }
  }

  /** The tail of a sorted sequence is sorted and its head is at most each of its elements. */
  lemma SortedTail(o: Order, s: seq<Mapping>)
    requires Sorted(o, s) && s != []
    ensures Sorted(o, s[1..])
    ensures forall j :: 0 <= j < |s[1..]| ==> Cmp(o, s[0], s[1..][j]) <= 0
  {
    forall j | 0 <= j < |s[1..]|
      ensures Cmp(o, s[0], s[1..][j]) <= 0
    {
      assert s[1..][j] == s[j + 1];
    }
  }

  /** An element below the head of a sorted sequence goes in front of it. */
  lemma InsertFront(o: Order, x: Mapping, s: seq<Mapping>)
    requires Sorted(o, s) && s != [] && Cmp(o, x, s[0]) < 0
    ensures Sorted(o, [x] + s)
  {
    forall j | 0 <= j < |s|
      ensures Cmp(o, x, s[j]) <= 0
    {
      if j > 0 {
        CmpTransitive(o, x, s[0], s[j]);
      }
    }
    SortedCons(o, x, s);
  }

  /** An element not below the head goes into the sorted tail, and the head stays in front. */
  lemma InsertAfterHead(o: Order, x: Mapping, s: seq<Mapping>)
    requires s != [] && Cmp(o, x, s[0]) >= 0
    requires forall j :: 0 <= j < |s[1..]| ==> Cmp(o, s[0], s[1..][j]) <= 0
    requires Sorted(o, Insert(o, x, s[1..]))
    ensures Sorted(o, Insert(o, x, s))
  {
    assert Insert(o, x, s) == [s[0]] + Insert(o, x, s[1..]);
    CmpTotal(o, s[0], x);
    assert Cmp(o, s[0], x) <= 0;
    InsertBounded(o, s[0], x, s[1..]);
    SortedCons(o, s[0], Insert(o, x, s[1..]));
  }

  lemma {:induction false} InsertSorted(o: Order, x: Mapping, s: seq<Mapping>)
    requires Sorted(o, s)
    ensures Sorted(o, Insert(o, x, s))
  {
    if s == [] {
    } else if Cmp(o, x, s[0]) < 0 {
      InsertFront(o, x, s);
    } else {
      SortedTail(o, s);
      InsertSorted(o, x, s[1..]);
      InsertAfterHead(o, x, s);
    }
  }

  /** The result of Sort is sorted by o and is a permutation of its input. */
  lemma {:induction false} SortSorted(o: Order, s: seq<Mapping>)
    ensures Sorted(o, Sort(o, s)) && multiset(Sort(o, s)) == multiset(s) && |Sort(o, s)| == |s|
  {
    if s != [] {
      SortSorted(o, s[..|s| - 1]);
      InsertSorted(o, s[|s| - 1], Sort(o, s[..|s| - 1]));
    }
    assert |multiset(Sort(o, s))| == |multiset(s)|;
  }

  /** Inserting an element that is at least every element of a sorted sequence appends it. */
  lemma {:induction false} InsertLast(o: Order, x: Mapping, s: seq<Mapping>)
    requires forall i :: 0 <= i < |s| ==> Cmp(o, s[i], x) <= 0
    ensures Insert(o, x, s) == s + [x]
  {
    if s != [] {
      CmpTotal(o, s[0], x);
      InsertLast(o, x, s[1..]);
      assert s == [s[0]] + s[1..];
    }
  }

  /** Sorting a sorted sequence leaves it as it is, so a second sort changes nothing. */
  lemma {:induction false} SortSortedIsIdentity(o: Order, s: seq<Mapping>)
    requires Sorted(o, s)
    ensures Sort(o, s) == s
  {
    if s != [] {
      var p := s[..|s| - 1];
      assert Sorted(o, p);
      SortSortedIsIdentity(o, p);
      InsertLast(o, s[|s| - 1], p);
      assert p + [s[|s| - 1]] == s;
    }
  }
}

=== FILE: source_node.dfy ===
/**
 * `SourceNode`: a tree of fragments of generated code, each node tagged with
 * the original source, line, column and name its text comes from, and
 * carrying the contents of the original sources it was given.
 */
module SourceNodes {
  import opened Wrappers

  /** A node's tag: the original position its text comes from; any part may be null. */
  datatype Original = Original(source: Option<string>, line: Option<int>, column: Option<int>, name: Option<string>)

  /** A child of a node: a string of generated code, or another node. */
  datatype Chunk = Text(s: string) | Node(node: Tree)

  /**
   * What a node holds: its tag, its children and the source contents set on
   * it, in the order their keys were first set.
   */
  datatype Tree = Tree(original: Original, children: seq<Chunk>, contents: seq<(string, Option<string>)>)

  /** What `add` and `prepend` are given: a string, a node, an array of those, or any other value. */
  datatype Input = Str(s: string) | NodeIn(node: Tree) | Items(items: seq<Input>) | Other

  /** A result of `add`/`prepend` with more chunks in front: the chunks placed so far, then the rest. */
  function Then(done: seq<Chunk>, rest: (seq<Chunk>, Option<Error>)): (r: (seq<Chunk>, Option<Error>))
    ensures r.0 == done + rest.0 && r.1 == rest.1
  {
    (done + rest.0, rest.1)
  }

  // ---------------------------------------------------------------------------
  // add and prepend
  // ---------------------------------------------------------------------------

  /**
   * The chunks `add(x)` appends and the error it raises: a non-empty string or
   * a node is appended (an empty string is dropped), an array is added element
   * by element from the left, and any other value raises a TypeError. An
   * error inside an array leaves the elements before it added.
   */
  function Added(x: Input): (r: (seq<Chunk>, Option<Error>))
    ensures r.1.Some? ==> r.1 == Some(NotAChunk)
    decreases x, 1
  {
    match x
    case Str(s) => (if s == "" then [] else [Text(s)], None)
    case NodeIn(n) => ([Node(n)], None)
    case Items(_) => AddedFrom(x, 0)
    case Other => ([], Some(NotAChunk))
  }

  /** The elements of an array from index i, added from the left. */
  function AddedFrom(x: Input, i: nat): (r: (seq<Chunk>, Option<Error>))
    requires x.Items? && i <= |x.items|
    ensures r.1.Some? ==> r.1 == Some(NotAChunk)
    decreases x, 0, |x.items| - i
  {
    if i == |x.items| then ([], None)
    else
      assert x.items[i] in x.items;
      var first := Added(x.items[i]);
      if first.1.Some? then first else Then(first.0, AddedFrom(x, i + 1))
  }

  /**
   * The chunks `prepend(x)` puts in front and the error it raises: a string
   * (empty or not) or a node goes in front, an array is prepended element by
   * element from the right, so that it ends up in its own order, and any
   * other value raises a TypeError. An error inside an array leaves the
   * elements after it prepended.
   */
  function Prepended(x: Input): (r: (seq<Chunk>, Option<Error>))
    ensures r.1.Some? ==> r.1 == Some(NotAChunk)
    decreases x, 1
  {
    match x
    case Str(s) => ([Text(s)], None)
    case NodeIn(n) => ([Node(n)], None)
    case Items(_) => PrependedFrom(x, 0)
    case Other => ([], Some(NotAChunk))
  }

  /** The elements of an array from index i, prepended from the right. */
  function PrependedFrom(x: Input, i: nat): (r: (seq<Chunk>, Option<Error>))
    requires x.Items? && i <= |x.items|
    ensures r.1.Some? ==> r.1 == Some(NotAChunk)
    decreases x, 0, |x.items| - i
  {
    if i == |x.items| then ([], None)
    else
      var after := PrependedFrom(x, i + 1);
      if after.1.Some? then after
      else
        assert x.items[i] in x.items;
        var first := Prepended(x.items[i]);
        (first.0 + after.0, first.1)
  }

  /** Once an element fails, prepending the array as a whole fails the same way. */
  lemma {:induction false} PrependedStops(x: Input, i: nat)
    requires x.Items? && i <= |x.items| && PrependedFrom(x, i).1.Some?
    ensures PrependedFrom(x, 0) == PrependedFrom(x, i)
    decreases i
  {
    if i > 0 {
      PrependedStops(x, i - 1);
    }
  }

  /** An input made only of strings, nodes and arrays of those. */
  predicate AllChunks(x: Input)
    decreases x, 1
  {
    match x
    case Other => false
    case Items(_) => AllChunksFrom(x, 0)
    case _ => true
  }

  predicate AllChunksFrom(x: Input, i: nat)
    requires x.Items? && i <= |x.items|
    decreases x, 0, |x.items| - i
  {
    i == |x.items| || (assert x.items[i] in x.items; AllChunks(x.items[i]) && AllChunksFrom(x, i + 1))
  }

  /** The strings and nodes of an input, arrays flattened, in order. */
  function Flatten(x: Input): (r: seq<Chunk>)
    decreases x, 1
  {
    match x
    case Str(s) => [Text(s)]
    case NodeIn(n) => [Node(n)]
    case Items(_) => FlattenFrom(x, 0)
    case Other => []
  }

  function FlattenFrom(x: Input, i: nat): (r: seq<Chunk>)
    requires x.Items? && i <= |x.items|
    decreases x, 0, |x.items| - i
  {
    if i == |x.items| then []
    else
      assert x.items[i] in x.items;
      Flatten(x.items[i]) + FlattenFrom(x, i + 1)
  }

  /** The chunks without the empty strings. */
  function NonEmpty(cs: seq<Chunk>): (r: seq<Chunk>)
    ensures |r| <= |cs|
    ensures forall c :: c in r ==> c in cs && c != Text("")
  {
    if cs == [] then []
    else (if cs[0] == Text("") then [] else [cs[0]]) + NonEmpty(cs[1..])
  }

  lemma {:induction false} NonEmptyAppend(a: seq<Chunk>, b: seq<Chunk>)
    ensures NonEmpty(a + b) == NonEmpty(a) + NonEmpty(b)
    decreases |a|
  {
    if a != [] {
      assert (a + b)[1..] == a[1..] + b;
      NonEmptyAppend(a[1..], b);
    } else {
      assert a + b == b;
    }
  }

  /**
   * `add` and `prepend` agree: on an input of strings, nodes and arrays of
   * those, both succeed and place its flattening, `add` without the empty
   * strings; on any other input both raise a TypeError.
   */
  lemma {:induction false} AddPrependAgree(x: Input)
    ensures AllChunks(x) ==> Added(x) == (NonEmpty(Flatten(x)), None) && Prepended(x) == (Flatten(x), None)
    ensures !AllChunks(x) ==> Added(x).1 == Some(NotAChunk) && Prepended(x).1 == Some(NotAChunk)
    decreases x, 1
  {
    match x
    case Str(s) =>
      assert [Text(s)][1..] == [];
      assert NonEmpty([Text(s)]) == (if s == "" then [] else [Text(s)]) + NonEmpty([]) == (if s == "" then [] else [Text(s)]);
    case NodeIn(n) =>
      assert [Node(n)][1..] == [];
      assert NonEmpty([Node(n)]) == [Node(n)] + NonEmpty([]) == [Node(n)];
    case Items(_) => AddPrependAgreeFrom(x, 0);
    case Other =>
  }

  lemma {:induction false} AddPrependAgreeFrom(x: Input, i: nat)
    requires x.Items? && i <= |x.items|
    ensures AllChunksFrom(x, i) ==>
              AddedFrom(x, i) == (NonEmpty(FlattenFrom(x, i)), None) && PrependedFrom(x, i) == (FlattenFrom(x, i), None)
    ensures !AllChunksFrom(x, i) ==> AddedFrom(x, i).1 == Some(NotAChunk) && PrependedFrom(x, i).1 == Some(NotAChunk)
    decreases x, 0, |x.items| - i
  {
    if i < |x.items| {
      assert x.items[i] in x.items;
      AddPrependAgree(x.items[i]);
      AddPrependAgreeFrom(x, i + 1);
      if AllChunksFrom(x, i) {
        NonEmptyAppend(Flatten(x.items[i]), FlattenFrom(x, i + 1));
      }
    }
  }

  // ---------------------------------------------------------------------------
  // join
  // ---------------------------------------------------------------------------

  /** The children with the separator between each two of them. */
  function Interleave(cs: seq<Chunk>, sep: Chunk): (r: seq<Chunk>)
    ensures |r| == if cs == [] then 0 else 2 * |cs| - 1
    ensures forall k :: 0 <= k < |r| ==> r[k] == if k % 2 == 0 then cs[k / 2] else sep
    decreases |cs|
  {
    if |cs| <= 1 then cs else Interleave(cs[..|cs| - 1], sep) + [sep, cs[|cs| - 1]]
  }

  /** One more child: the separator, then the child, after the children before it. */
  lemma InterleaveSnoc(cs: seq<Chunk>, i: nat, sep: Chunk)
    requires i < |cs|
    ensures Interleave(cs[..i + 1], sep) == if i == 0 then [cs[0]] else Interleave(cs[..i], sep) + [sep, cs[i]]
  {
    assert cs[..i + 1][..i] == cs[..i];
  }

  // ---------------------------------------------------------------------------
  // Source contents
  // ---------------------------------------------------------------------------

  /**
   * The position of a key among the entries, -1 when it has none. The source
   * keys its contents with `toSetString`, which is one-to-one, so the model
   * keys them with the file name itself.
   */
  function KeyIndex(es: seq<(string, Option<string>)>, file: string): (r: int)
    ensures -1 <= r < |es|
    ensures r == -1 <==> forall k :: 0 <= k < |es| ==> es[k].0 != file
    ensures r >= 0 ==> es[r].0 == file && forall k :: 0 <= k < r ==> es[k].0 != file
    decreases |es|
  {
    if es == [] then -1
    else if es[|es| - 1].0 == file && KeyIndex(es[..|es| - 1], file) == -1 then |es| - 1
    else KeyIndex(es[..|es| - 1], file)
  }

  /** The content set for a file, if one was. */
  function Lookup(es: seq<(string, Option<string>)>, file: string): (r: Option<Option<string>>)
    ensures r.Some? <==> exists k :: 0 <= k < |es| && es[k].0 == file
  {
    var k := KeyIndex(es, file);
    if k < 0 then None else Some(es[k].1)
  }

  /** No file is set twice. */
  predicate UniqueKeys(es: seq<(string, Option<string>)>) {
    forall i, j :: 0 <= i < j < |es| ==> es[i].0 != es[j].0
  }

  /**
   * `setSourceContent(file, content)` on a node: the object property for the
   * file is set, keeping its place when it exists and coming last otherwise;
   * a null content is stored like any other.
   */
  function SetEntry(es: seq<(string, Option<string>)>, file: string, content: Option<string>): (r: seq<(string, Option<string>)>)
  {
    var k := KeyIndex(es, file);
    if k < 0 then es + [(file, content)] else es[k := (file, content)]
  }

  /**
   * After `setSourceContent` the file has the content given and every other
   * file keeps its own; the files keep their order, a new one coming last,
   * and no file is listed twice.
   */
  lemma SetEntryLookup(es: seq<(string, Option<string>)>, file: string, content: Option<string>)
    ensures var r := SetEntry(es, file, content);
            && Lookup(r, file) == Some(content)
            && (forall other :: other != file ==> Lookup(r, other) == Lookup(es, other))
            && (KeyIndex(es, file) >= 0 ==> |r| == |es| && forall k :: 0 <= k < |es| ==> r[k].0 == es[k].0)
            && (KeyIndex(es, file) < 0 ==> r == es + [(file, content)])
            && (UniqueKeys(es) ==> UniqueKeys(r))
  {
    var k := KeyIndex(es, file);
    var r := SetEntry(es, file, content);
    assert forall i :: 0 <= i < |es| ==> r[i].0 == es[i].0;
    forall other | other != file
      ensures Lookup(r, other) == Lookup(es, other)
    {
      var b := KeyIndex(es, other);
      if b >= 0 {
        assert r[b].0 == other;
        assert KeyIndex(r, other) == b;
      } else {
        assert KeyIndex(r, other) == -1;
      }
    }
    assert KeyIndex(r, file) == (if k < 0 then |es| else k);
  }

  // ---------------------------------------------------------------------------
  // walk, toString, walkSourceContents
  // ---------------------------------------------------------------------------

  /** What `walk` hands its function: a string of code and the tag of the node it sits in. */
  datatype Piece = Piece(chunk: string, original: Original)

  /**
   * `walk(fn)`: the calls of the function, in order. The tree is walked depth
   * first, left to right; each non-empty string is reported with the tag of
   * the node that holds it.
   */
  function Walk(t: Tree): (r: seq<Piece>)
    ensures forall k :: 0 <= k < |r| ==> r[k].chunk != ""
    decreases t, 1
  {
    WalkFrom(t, 0)
  }

  function WalkFrom(t: Tree, i: nat): (r: seq<Piece>)
    requires i <= |t.children|
    ensures forall k :: 0 <= k < |r| ==> r[k].chunk != ""
    decreases t, 0, |t.children| - i
  {
    if i == |t.children| then []
    else
      assert t.children[i] in t.children;
      var here := match t.children[i]
                  case Text(s) => if s == "" then [] else [Piece(s, t.original)]
                  case Node(n) => Walk(n);
      here + WalkFrom(t, i + 1)
  }

  /** The code of a sequence of pieces, one after the other. */
  function Code(ps: seq<Piece>): (r: string)
    decreases |ps|
  {
    if ps == [] then "" else Code(ps[..|ps| - 1]) + ps[|ps| - 1].chunk
  }

  lemma {:induction false} CodeAppend(a: seq<Piece>, b: seq<Piece>)
    ensures Code(a + b) == Code(a) + Code(b)
    decreases |b|
  {
    if b == [] {
      assert a + b == a;
    } else {
      assert (a + b)[..|a + b| - 1] == a + b[..|b| - 1];
      CodeAppend(a, b[..|b| - 1]);
    }
  }

  /** `toString()`: the strings of the walk, concatenated. */
  function ToString(t: Tree): (r: string) {
    Code(Walk(t))
  }

  /** The code a child stands for: the string itself, or the child node's `toString`. */
  function ChunkText(c: Chunk): string {
    match c
    case Text(s) => s
    case Node(n) => ToString(n)
  }

  /** The code of children, one after the other. */
  function ChunksText(cs: seq<Chunk>): string
    decreases |cs|
  {
    if cs == [] then "" else ChunkText(cs[0]) + ChunksText(cs[1..])
  }

  /** A node's code is its children's code in order: the walk drops only empty strings. */
  lemma ToStringOfChildren(t: Tree)
    ensures ToString(t) == ChunksText(t.children)
  {
    ToStringFrom(t, 0);
  }

  lemma {:induction false} ToStringFrom(t: Tree, i: nat)
    requires i <= |t.children|
    ensures Code(WalkFrom(t, i)) == ChunksText(t.children[i..])
    decreases |t.children| - i
  {
    if i < |t.children| {
      ToStringFrom(t, i + 1);
      assert t.children[i..][1..] == t.children[i + 1..];
      var c := t.children[i];
      var here := match c
                  case Text(s) => if s == "" then [] else [Piece(s, t.original)]
                  case Node(n) => Walk(n);
      CodeAppend(here, WalkFrom(t, i + 1));
      if c.Text? && c.s != "" {
        assert Code([Piece(c.s, t.original)]) == Code([]) + c.s;
      }
    }
  }

  /** Joining children interleaves their code with the separator's. */
  lemma {:induction false} InterleaveText(cs: seq<Chunk>, sep: Chunk)
    requires |cs| >= 2
    ensures ChunksText(Interleave(cs, sep)) == ChunksText(Interleave(cs[..|cs| - 1], sep)) + ChunkText(sep) + ChunkText(cs[|cs| - 1])
  {
    var init := Interleave(cs[..|cs| - 1], sep);
    ChunksTextAppend(init, [sep, cs[|cs| - 1]]);
    assert ChunksText([sep, cs[|cs| - 1]]) == ChunkText(sep) + ChunksText([cs[|cs| - 1]]);
    assert [sep, cs[|cs| - 1]][1..] == [cs[|cs| - 1]];
  }

  lemma {:induction false} ChunksTextAppend(a: seq<Chunk>, b: seq<Chunk>)
    ensures ChunksText(a + b) == ChunksText(a) + ChunksText(b)
    decreases |a|
  {
    if a == [] {
      assert a + b == b;
    } else {
      assert (a + b)[1..] == a[1..] + b;
      ChunksTextAppend(a[1..], b);
    }
  }

  /**
   * `walkSourceContents(fn)`: the calls of the function, in order: those of
   * the child nodes, left to right, then the node's own files and contents
   * in the order their keys were first set.
   */
  function WalkSourceContents(t: Tree): (r: seq<(string, Option<string>)>)
    ensures |r| >= |t.contents| && r[|r| - |t.contents|..] == t.contents
    decreases t, 1
  {
    WalkContentsFrom(t, 0) + t.contents
  }

  function WalkContentsFrom(t: Tree, i: nat): (r: seq<(string, Option<string>)>)
    requires i <= |t.children|
    decreases t, 0, |t.children| - i
  {
    if i == |t.children| then []
    else
      assert t.children[i] in t.children;
      (match t.children[i]
       case Text(_) => []
       case Node(n) => WalkSourceContents(n)) + WalkContentsFrom(t, i + 1)
  }

  /** What child i adds to `walkSourceContents`: a child node's own walk, nothing for a string. */
  function ChildWalk(t: Tree, i: nat): seq<(string, Option<string>)>
    requires i < |t.children|
  {
    match t.children[i]
    case Text(_) => []
    case Node(n) => WalkSourceContents(n)
  }

  /** Where the calls made for child i start among the node's calls. */
  function ChildStart(t: Tree, i: nat): int
    requires i <= |t.children|
  {
    |WalkContentsFrom(t, 0)| - |WalkContentsFrom(t, i)|
  }

  /** The calls made for children i and later are the tail of the calls made for all children, from child i's start on. */
  lemma {:induction false} WalkContentsSuffix(t: Tree, i: nat)
    requires i <= |t.children|
    ensures 0 <= ChildStart(t, i) <= |WalkContentsFrom(t, 0)|
    ensures WalkContentsFrom(t, 0)[ChildStart(t, i)..] == WalkContentsFrom(t, i)
    decreases i
  {
    if i > 0 {
      WalkContentsSuffix(t, i - 1);
      var from := WalkContentsFrom(t, i - 1);
      assert from == ChildWalk(t, i - 1) + WalkContentsFrom(t, i);
      assert from[|ChildWalk(t, i - 1)|..] == WalkContentsFrom(t, i);
    }
  }

  /**
   * The calls of `walkSourceContents` in blocks: child by child from the left,
   * each child node's own walk (nothing for a string), and after the last
   * child the node's own entries.
   */
  lemma WalkSourceContentsBlocks(t: Tree, i: nat)
    requires i < |t.children|
    ensures ChildStart(t, 0) == 0
    ensures 0 <= ChildStart(t, i) <= ChildStart(t, i + 1) <= ChildStart(t, |t.children|)
    ensures WalkSourceContents(t)[ChildStart(t, i)..ChildStart(t, i + 1)] == ChildWalk(t, i)
    ensures WalkSourceContents(t)[ChildStart(t, |t.children|)..] == t.contents
  {
    var w := WalkSourceContents(t);
    var pre := WalkContentsFrom(t, 0);
    WalkContentsSuffix(t, i);
    WalkContentsSuffix(t, i + 1);
    WalkContentsSuffix(t, |t.children|);
    assert WalkContentsFrom(t, i) == ChildWalk(t, i) + WalkContentsFrom(t, i + 1);
    assert w[..|pre|] == pre;
    assert w[ChildStart(t, i)..ChildStart(t, i + 1)] == pre[ChildStart(t, i)..][..|ChildWalk(t, i)|];
  }

  // ---------------------------------------------------------------------------
  // The node
  // ---------------------------------------------------------------------------

  /**
   * A `SourceNode`. Its tag is set once, by the constructor; `add`,
   * `prepend`, `join` and `setSourceContent` change its children and
   * contents in place.
   */
  class SourceNode {
    const original: Original
    var children: seq<Chunk>
    var contents: seq<(string, Option<string>)>

    /** `new SourceNode(line, column, source, null, name)`: no children and no contents yet. */
    constructor (line: Option<int>, column: Option<int>, source: Option<string>, name: Option<string>)
      ensures original == Original(source, line, column, name)
      ensures children == [] && contents == []
    {
      original := Original(source, line, column, name);
      children := [];
      contents := [];
    }

    /** The node as a value. */
    function Value(): Tree
      reads this
    {
      Tree(original, children, contents)
    }

    /** `add(chunk)`: appends what `Added` says, or raises part way through. */
    method Add(x: Input) returns (err: Option<Error>)
      modifies this
      ensures contents == old(contents)
      ensures children == old(children) + Added(x).0 && err == Added(x).1
      decreases x
    {
      match x
      case Str(s) =>
        if s != "" {
          children := children + [Text(s)];
        }
        err := None;
      case NodeIn(n) =>
        children := children + [Node(n)];
        err := None;
      case Other =>
        err := Some(NotAChunk);
      case Items(xs) =>
        ghost var done: seq<Chunk> := [];
        var i := 0;
        assert AddedFrom(x, 0).0 == done + AddedFrom(x, 0).0;
        while i < |xs|
          invariant i <= |xs| && contents == old(contents)
          invariant children == old(children) + done
          invariant Added(x) == Then(done, AddedFrom(x, i))
        {
          assert xs[i] in xs;
          ghost var before := children;
          err := Add(xs[i]);
          assert children == old(children) + (done + Added(xs[i]).0);
          if err.Some? {
            return;
          }
          assert AddedFrom(x, i) == Then(Added(xs[i]).0, AddedFrom(x, i + 1));
          assert done + (Added(xs[i]).0 + AddedFrom(x, i + 1).0) == (done + Added(xs[i]).0) + AddedFrom(x, i + 1).0;
          done := done + Added(xs[i]).0;
          i := i + 1;
        }
        err := None;
    }

    /** `prepend(chunk)`: puts in front what `Prepended` says, or raises part way through. */
    method Prepend(x: Input) returns (err: Option<Error>)
      modifies this
      ensures contents == old(contents)
      ensures children == Prepended(x).0 + old(children) && err == Prepended(x).1
      decreases x
    {
      match x
      case Str(s) =>
        children := [Text(s)] + children;
        err := None;
      case NodeIn(n) =>
        children := [Node(n)] + children;
        err := None;
      case Other =>
        err := Some(NotAChunk);
      case Items(xs) =>
        var i: nat := |xs|;
        while i > 0
          invariant i <= |xs| && contents == old(contents)
          invariant PrependedFrom(x, i).1.None?
          invariant children == PrependedFrom(x, i).0 + old(children)
        {
          i := i - 1;
          assert xs[i] in xs;
          err := Prepend(xs[i]);
          if err.Some? {
            PrependedStops(x, i);
            return;
          }
        }
        err := None;
    }

    /** `join(sep)`: the separator is put between each two children. */
    method Join(sep: Chunk)
      modifies this
      ensures contents == old(contents)
      ensures children == Interleave(old(children), sep)
    {
      var len := |children|;
      if len > 0 {
        var newChildren: seq<Chunk> := [];
        var i := 0;
        while i < len - 1
          invariant i <= len - 1 && children == old(children) && contents == old(contents)
          invariant i == 0 ==> newChildren == []
          invariant i > 0 ==> newChildren == Interleave(children[..i], sep) + [sep]
        {
          InterleaveSnoc(children, i, sep);
          newChildren := newChildren + [children[i], sep];
          i := i + 1;
        }
        ghost var cs := children;
        InterleaveSnoc(cs, len - 1, sep);
        assert cs[..len] == cs;
        children := newChildren + [children[i]];
        assert children == Interleave(cs[..len], sep);
      }
    }

    /** `setSourceContent(file, content)`. */
    method SetSourceContent(file: string, content: Option<string>)
      modifies this
      ensures children == old(children)
      ensures contents == SetEntry(old(contents), file, content)
    {
      var k := KeyIndex(contents, file);
      if k < 0 {
        contents := contents + [(file, content)];
      } else {
        contents := contents[k := (file, content)];
      }
    }
  }
}

=== FILE: source_node_map.dfy ===
/**
 * `SourceNode.prototype.toStringWithSourceMap`: the code of a node tree and
 * a generator filled with a mapping wherever the tag of the code changes and
 * at the start of every further line a tagged string spans.
 */
module SourceNodeMaps {
  import opened Wrappers
  import opened Util
  import opened Paths
  import opened SourceNodes
  import Consumers
  import Generators
  import GeneratorApply
  import opened GeneratorRuns

  // ---------------------------------------------------------------------------
  // The walk as a state machine
  // ---------------------------------------------------------------------------

  /**
   * What `toStringWithSourceMap` carries from one character to the next: the
   * generated line and column and the tag of the mapping still open. The
   * source keeps a `sourceMappingActive` flag and the four `lastOriginal*`
   * variables; the flag is true exactly when `lastOriginalSource` is not null,
   * and the other three are only compared while it is not, so an open tag or
   * none says the same.
   */
  datatype Cursor = Cursor(line: int, column: int, last: Option<Original>)

  const Start: Cursor := Cursor(1, 0, None)

  /** A tag with a source, a line and a column: its code is mapped. */
  predicate Tagged(o: Original) {
    o.source.Some? && o.line.Some? && o.column.Some?
  }

  /** The mapping from the cursor's position to the tag's original position. */
  function MappedArgs(c: Cursor, o: Original): Generators.MappingArgs {
    Generators.MappingArgs(Some(Generators.Position(Some(c.line), Some(c.column))),
                           Some(Generators.Position(o.line, o.column)), o.source, o.name)
  }

  /** The mapping that ends the open one: a generated position alone. */
  function ClosingArgs(c: Cursor): Generators.MappingArgs {
    Generators.MappingArgs(Some(Generators.Position(Some(c.line), Some(c.column))), None, None, None)
  }

  /**
   * A piece arrives: tagged code whose tag differs from the open one opens a
   * mapping; untagged code closes the open mapping, if there is one.
   */
  function Enter(c: Cursor, o: Original): (r: (Cursor, seq<Generators.MappingArgs>))
    ensures r.0.line == c.line && r.0.column == c.column
    ensures Tagged(o) ==> r.0.last == Some(o) && r.1 == (if c.last == Some(o) then [] else [MappedArgs(c, o)])
    ensures !Tagged(o) ==> r.0.last.None? && r.1 == (if c.last.Some? then [ClosingArgs(c)] else [])
  {
    if Tagged(o) then (c.(last := Some(o)), if c.last != Some(o) then [MappedArgs(c, o)] else [])
    else if c.last.Some? then (c.(last := None), [ClosingArgs(c)])
    else (c, [])
  }

  /**
   * One character of a piece. A newline moves to the start of the next line;
   * the mapping ends there when the newline is the piece's last character,
   * and otherwise, while a mapping is open, the tag is mapped again at the
   * new line's start. Any other character moves the column on by its UTF-16
   * code units: the source steps through `chunk.length` code units, and only
   * a newline unit does anything else.
   */
  function Step(c: Cursor, o: Original, chunk: string, idx: nat): (r: (Cursor, seq<Generators.MappingArgs>))
    requires idx < |chunk|
  {
    if chunk[idx] == '\n' then
      var next := c.(line := c.line + 1, column := 0);
      if idx + 1 == |chunk| then (next.(last := None), [])
      else if c.last.Some? then (next, [MappedArgs(next, o)])
      else (next, [])
    else (c.(column := c.column + |CodeUnits(chunk[idx])|), [])
  }

  /** The first n characters of a piece. */
  function Chars(c: Cursor, o: Original, chunk: string, n: nat): (r: (Cursor, seq<Generators.MappingArgs>))
    requires n <= |chunk|
    decreases n
  {
    if n == 0 then (c, [])
    else
      var before := Chars(c, o, chunk, n - 1);
      var step := Step(before.0, o, chunk, n - 1);
      (step.0, before.1 + step.1)
  }

  /** A whole piece: its arrival, then its characters. */
  function PieceRun(c: Cursor, p: Piece): (r: (Cursor, seq<Generators.MappingArgs>)) {
    var entered := Enter(c, p.original);
    var chars := Chars(entered.0, p.original, p.chunk, |p.chunk|);
    (chars.0, entered.1 + chars.1)
  }

  /** The first n pieces of the walk, from line 1, column 0, with no mapping open. */
  function Run(ps: seq<Piece>, n: nat): (r: (Cursor, seq<Generators.MappingArgs>))
    requires n <= |ps|
    decreases n
  {
    if n == 0 then (Start, [])
    else
      var before := Run(ps, n - 1);
      var piece := PieceRun(before.0, ps[n - 1]);
      (piece.0, before.1 + piece.1)
  }

  /** The `addMapping` calls `toStringWithSourceMap` makes on a tree, in order. */
  function Emitted(t: Tree): seq<Generators.MappingArgs> {
    Run(Walk(t), |Walk(t)|).1
  }

  // ---------------------------------------------------------------------------
  // The generator's side
  // ---------------------------------------------------------------------------

  /** The runs over a prefix of the characters emit a prefix of the mappings. */
  lemma {:induction false} CharsPrefix(c: Cursor, o: Original, chunk: string, n: nat, m: nat)
    requires n <= m <= |chunk|
    ensures |Chars(c, o, chunk, n).1| <= |Chars(c, o, chunk, m).1|
    ensures Chars(c, o, chunk, m).1[..|Chars(c, o, chunk, n).1|] == Chars(c, o, chunk, n).1
    decreases m - n
  {
    if n < m {
      CharsPrefix(c, o, chunk, n, m - 1);
      var before := Chars(c, o, chunk, m - 1).1;
      var step := Step(Chars(c, o, chunk, m - 1).0, o, chunk, m - 1).1;
      assert Chars(c, o, chunk, m).1 == before + step;
      assert (before + step)[..|Chars(c, o, chunk, n).1|] == before[..|Chars(c, o, chunk, n).1|];
    }
  }

  /** The runs over a prefix of the pieces emit a prefix of the mappings. */
  lemma {:induction false} RunPrefix(ps: seq<Piece>, n: nat, m: nat)
    requires n <= m <= |ps|
    ensures |Run(ps, n).1| <= |Run(ps, m).1|
    ensures Run(ps, m).1[..|Run(ps, n).1|] == Run(ps, n).1
    decreases m - n
  {
    if n < m {
      RunPrefix(ps, n, m - 1);
      var before := Run(ps, m - 1).1;
      var piece := PieceRun(Run(ps, m - 1).0, ps[m - 1]).1;
      assert Run(ps, m).1 == before + piece;
      assert (before + piece)[..|Run(ps, n).1|] == before[..|Run(ps, n).1|];
    }
  }

  /** A run of calls that raised part way stops the longer run at the same error. */
  lemma StopsWithin(xs: seq<Generators.MappingArgs>, whole: seq<Generators.MappingArgs>)
    requires |xs| <= |whole| && whole[..|xs|] == xs && Recorded(xs).1.Some?
    ensures Recorded(whole) == Recorded(xs)
  {
    assert whole == xs + whole[|xs|..];
    RecordedStops(xs, whole[|xs|..]);
  }

  /** The first idx characters of a piece done: the cursor reached and the calls made so far. */
  ghost predicate CharsDone(start: Cursor, o: Original, chunk: string, idx: nat, next: Cursor,
                            e: seq<Generators.MappingArgs>, emitted: seq<Generators.MappingArgs>)
  {
    idx <= |chunk| && next == Chars(start, o, chunk, idx).0 && e == emitted + Chars(start, o, chunk, idx).1
  }

  /** One more character done. */
  lemma CharsDoneStep(start: Cursor, o: Original, chunk: string, idx: nat, next: Cursor,
                      e: seq<Generators.MappingArgs>, emitted: seq<Generators.MappingArgs>)
    requires CharsDone(start, o, chunk, idx, next, e, emitted) && idx < |chunk|
    ensures var step := Step(next, o, chunk, idx);
            CharsDone(start, o, chunk, idx + 1, step.0, e + step.1, emitted)
  {
    var step := Step(next, o, chunk, idx);
    assert e + step.1 == emitted + (Chars(start, o, chunk, idx).1 + step.1);
  }

  /** A call that raises during a piece's characters stops the whole run over them there. */
  lemma CharsStop(start: Cursor, o: Original, chunk: string, idx: nat, next: Cursor,
                  e: seq<Generators.MappingArgs>, emitted: seq<Generators.MappingArgs>)
    requires CharsDone(start, o, chunk, idx, next, e, emitted) && idx < |chunk|
    requires Recorded(e + Step(next, o, chunk, idx).1).1.Some?
    ensures Recorded(emitted + Chars(start, o, chunk, |chunk|).1) == Recorded(e + Step(next, o, chunk, idx).1)
  {
    CharsDoneStep(start, o, chunk, idx, next, e, emitted);
    CharsPrefix(start, o, chunk, idx + 1, |chunk|);
    var xs := e + Step(next, o, chunk, idx).1;
    var whole := emitted + Chars(start, o, chunk, |chunk|).1;
    assert whole[..|xs|] == xs;
    StopsWithin(xs, whole);
  }

  /** One character: the cursor moves, and a newline inside an open mapping maps the new line's start. */
  method WriteChar(gen: Generators.SourceMapGenerator, cur: Cursor, o: Original, chunk: string, idx: nat,
                   ghost e: seq<Generators.MappingArgs>)
    returns (next: Cursor, err: Option<Error>)
    requires idx < |chunk|
    requires gen.Valid() && Recorded(e) == (gen.mappings.items, None) && Collected(gen)
    modifies gen.sources, gen.names, gen.mappings
    ensures gen.Valid() && next == Step(cur, o, chunk, idx).0
    ensures err == Recorded(e + Step(cur, o, chunk, idx).1).1
    ensures err.None? ==> Recorded(e + Step(cur, o, chunk, idx).1) == (gen.mappings.items, None) && Collected(gen)
  {
    err := None;
    if chunk[idx] == '\n' {
      next := cur.(line := cur.line + 1, column := 0);
      if idx + 1 == |chunk| {
        next := next.(last := None);
        assert e + [] == e;
      } else if next.last.Some? {
        err := Emit(gen, MappedArgs(next, o), e);
      } else {
        assert e + [] == e;
      }
    } else {
      next := cur.(column := cur.column + |CodeUnits(chunk[idx])|);
      assert e + [] == e;
    }
  }

  /** The mappings of a piece's characters, every `addMapping` in turn. */
  method WriteChars(gen: Generators.SourceMapGenerator, start: Cursor, o: Original, chunk: string,
                    ghost emitted: seq<Generators.MappingArgs>)
    returns (next: Cursor, err: Option<Error>)
    requires gen.Valid() && Recorded(emitted) == (gen.mappings.items, None) && Collected(gen)
    modifies gen.sources, gen.names, gen.mappings
    ensures gen.Valid()
    ensures err == Recorded(emitted + Chars(start, o, chunk, |chunk|).1).1
    ensures err.None? ==>
              && next == Chars(start, o, chunk, |chunk|).0
              && Recorded(emitted + Chars(start, o, chunk, |chunk|).1) == (gen.mappings.items, None) && Collected(gen)
  {
    ghost var e := emitted;
    next := start;
    var idx := 0;
    assert e == emitted + [];
    while idx < |chunk|
      invariant gen.Valid() && Recorded(e) == (gen.mappings.items, None) && Collected(gen)
      invariant CharsDone(start, o, chunk, idx, next, e, emitted)
    {
      CharsDoneStep(start, o, chunk, idx, next, e, emitted);
      ghost var prev := next;
      next, err := WriteChar(gen, next, o, chunk, idx, e);
      if err.Some? {
        CharsStop(start, o, chunk, idx, prev, e, emitted);
        return;
      }
      e := e + Step(prev, o, chunk, idx).1;
      idx := idx + 1;
    }
    err := None;
  }

  /** The mapping made on arriving at a piece, if its tag differs from the open one. */
  method EnterPiece(gen: Generators.SourceMapGenerator, cur: Cursor, o: Original, ghost emitted: seq<Generators.MappingArgs>)
    returns (err: Option<Error>)
    requires gen.Valid() && Recorded(emitted) == (gen.mappings.items, None) && Collected(gen)
    modifies gen.sources, gen.names, gen.mappings
    ensures gen.Valid()
    ensures err == Recorded(emitted + Enter(cur, o).1).1
    ensures err.None? ==> Recorded(emitted + Enter(cur, o).1) == (gen.mappings.items, None) && Collected(gen)
  {
    if (Tagged(o) && cur.last != Some(o)) || (!Tagged(o) && cur.last.Some?) {
      var a := if Tagged(o) then MappedArgs(cur, o) else ClosingArgs(cur);
      assert Enter(cur, o).1 == [a];
      err := Emit(gen, a, emitted);
    } else {
      assert emitted + Enter(cur, o).1 == emitted;
      err := None;
    }
  }

  /** A piece's run is its arrival followed by its characters, from the cursor the arrival leaves. */
  lemma PieceRunParts(cur: Cursor, p: Piece, emitted: seq<Generators.MappingArgs>)
    ensures PieceRun(cur, p).0 == Chars(Enter(cur, p.original).0, p.original, p.chunk, |p.chunk|).0
    ensures emitted + PieceRun(cur, p).1
         == (emitted + Enter(cur, p.original).1) + Chars(Enter(cur, p.original).0, p.original, p.chunk, |p.chunk|).1
  {
  }

  /** The mappings of one piece: its arrival, then its characters. */
  method WritePiece(gen: Generators.SourceMapGenerator, cur: Cursor, p: Piece, ghost emitted: seq<Generators.MappingArgs>)
    returns (next: Cursor, err: Option<Error>)
    requires gen.Valid() && Recorded(emitted) == (gen.mappings.items, None) && Collected(gen)
    modifies gen.sources, gen.names, gen.mappings
    ensures gen.Valid()
    ensures err == Recorded(emitted + PieceRun(cur, p).1).1
    ensures err.None? ==>
              && next == PieceRun(cur, p).0
              && Recorded(emitted + PieceRun(cur, p).1) == (gen.mappings.items, None) && Collected(gen)
  {
    var o := p.original;
    PieceRunParts(cur, p, emitted);
    err := EnterPiece(gen, cur, o, emitted);
    if err.Some? {
      RecordedStops(emitted + Enter(cur, o).1, Chars(Enter(cur, o).0, o, p.chunk, |p.chunk|).1);
      return cur, err;
    }
    var start := Enter(cur, o).0;
    next, err := WriteChars(gen, start, o, p.chunk, emitted + Enter(cur, o).1);
  }

  // ---------------------------------------------------------------------------
  // toStringWithSourceMap
  // ---------------------------------------------------------------------------

  /** The generator's contents after `setSourceContent` for each file and content, in order. */
  function ContentsOf(entries: seq<(string, Option<string>)>, sourceRoot: Option<string>, paths: PathOps): (r: map<string, string>)
    decreases |entries|
  {
    if entries == [] then map[]
    else
      var last := entries[|entries| - 1];
      Generators.WithContent(ContentsOf(entries[..|entries| - 1], sourceRoot, paths),
                             Generators.Relative(sourceRoot, last.0, paths), last.1)
  }

  /** The first i pieces done: the cursor reached, the calls made and the code produced so far. */
  ghost predicate PiecesDone(ps: seq<Piece>, i: nat, cur: Cursor, emitted: seq<Generators.MappingArgs>, code: string) {
    i <= |ps| && (cur, emitted) == Run(ps, i) && code == Code(ps[..i])
  }

  /** One more piece done. */
  lemma PiecesDoneStep(ps: seq<Piece>, i: nat, cur: Cursor, emitted: seq<Generators.MappingArgs>, code: string)
    requires PiecesDone(ps, i, cur, emitted, code) && i < |ps|
    ensures PiecesDone(ps, i + 1, PieceRun(cur, ps[i]).0, emitted + PieceRun(cur, ps[i]).1, code + ps[i].chunk)
  {
    assert ps[..i + 1] == ps[..i] + [ps[i]];
    assert ps[..i + 1][..i] == ps[..i];
  }

  /** A call that raises during a piece stops the whole walk there. */
  lemma PiecesStop(ps: seq<Piece>, i: nat, cur: Cursor, emitted: seq<Generators.MappingArgs>)
    requires i < |ps| && (cur, emitted) == Run(ps, i)
    requires Recorded(emitted + PieceRun(cur, ps[i]).1).1.Some?
    ensures Recorded(Run(ps, |ps|).1) == Recorded(emitted + PieceRun(cur, ps[i]).1)
  {
    RunPrefix(ps, i + 1, |ps|);
    StopsWithin(Run(ps, i + 1).1, Run(ps, |ps|).1);
  }

  /** The walk: each piece's code appended and its mappings added. */
  method WritePieces(gen: Generators.SourceMapGenerator, pieces: seq<Piece>) returns (code: string, err: Option<Error>)
    requires gen.Valid() && gen.mappings.items == [] && Collected(gen)
    modifies gen.sources, gen.names, gen.mappings
    ensures gen.Valid()
    ensures err == Recorded(Run(pieces, |pieces|).1).1
    ensures err.None? ==>
              && code == Code(pieces)
              && gen.mappings.items == Recorded(Run(pieces, |pieces|).1).0 && Collected(gen)
  {
    code := "";
    var cur := Start;
    ghost var emitted: seq<Generators.MappingArgs> := [];
    var i := 0;
    while i < |pieces|
      invariant gen.Valid() && Recorded(emitted) == (gen.mappings.items, None) && Collected(gen)
      invariant PiecesDone(pieces, i, cur, emitted, code)
    {
      PiecesDoneStep(pieces, i, cur, emitted, code);
      ghost var prev := cur;
      code := code + pieces[i].chunk;
      cur, err := WritePiece(gen, cur, pieces[i], emitted);
      if err.Some? {
        PiecesStop(pieces, i, prev, emitted);
        return;
      }
      emitted := emitted + PieceRun(prev, pieces[i]).1;
      i := i + 1;
    }
    assert pieces[..i] == pieces;
    err := None;
  }

  /** `walkSourceContents` feeding `setSourceContent`: each file's content, in order. */
  method CopySourceContents(gen: Generators.SourceMapGenerator, entries: seq<(string, Option<string>)>, paths: PathOps)
    requires gen.Valid() && gen.sourcesContents == map[]
    modifies gen
    ensures gen.Valid()
    ensures gen.file == old(gen.file) && gen.sourceRoot == old(gen.sourceRoot)
    ensures gen.sources == old(gen.sources) && gen.names == old(gen.names) && gen.mappings == old(gen.mappings)
    ensures gen.sourcesContents == ContentsOf(entries, gen.sourceRoot, paths)
  {
    var k := 0;
    while k < |entries|
      invariant k <= |entries| && gen.Valid()
      invariant gen.file == old(gen.file) && gen.sourceRoot == old(gen.sourceRoot)
      invariant gen.sources == old(gen.sources) && gen.names == old(gen.names) && gen.mappings == old(gen.mappings)
      invariant gen.sourcesContents == ContentsOf(entries[..k], gen.sourceRoot, paths)
    {
      assert entries[..k + 1][..k] == entries[..k];
      gen.SetSourceContent(entries[k].0, entries[k].1, paths);
      k := k + 1;
    }
    assert entries[..k] == entries;
  }

  /**
   * `toStringWithSourceMap({file, sourceRoot})`: the code of the tree and a
   * new generator holding the mappings the walk emits and the contents the
   * tree carries. A mapping `addMapping` refuses raises, and nothing is
   * returned then.
   */
  method ToStringWithSourceMap(node: SourceNode, file: Option<string>, sourceRoot: Option<string>, paths: PathOps)
    returns (code: string, gen: Generators.SourceMapGenerator, err: Option<Error>)
    ensures err == Recorded(Emitted(node.Value())).1
    ensures err.None? ==>
              && code == ToString(node.Value())
              && gen.Valid() && gen.file == file && gen.sourceRoot == sourceRoot
              && gen.mappings.items == Recorded(Emitted(node.Value())).0
              && Collected(gen)
              && gen.sourcesContents == ContentsOf(WalkSourceContents(node.Value()), sourceRoot, paths)
  {
    gen := new Generators.SourceMapGenerator(file, sourceRoot);
    code, err := WritePieces(gen, Walk(node.Value()));
    if err.Some? {
      return;
    }
    CopySourceContents(gen, WalkSourceContents(node.Value()), paths);
  }

  // ---------------------------------------------------------------------------
  // What the map says about the code
  // ---------------------------------------------------------------------------

  /** The line and column reached after a text, from a given line and column, columns counted in UTF-16 code units. */
  function PositionFrom(line: int, column: int, text: string): (r: (int, int))
    ensures r.0 >= line
    ensures column >= 0 ==> r.1 >= 0
    decreases |text|
  {
    if text == "" then (line, column)
    else
      var p := PositionFrom(line, column, text[..|text| - 1]);
      if text[|text| - 1] == '\n' then (p.0 + 1, 0) else (p.0, p.1 + |CodeUnits(text[|text| - 1])|)
  }

  /** Text without a newline stays on its line and moves the column by its `length` in code units. */
  lemma {:induction false} PositionWithinLine(line: int, column: int, text: string)
    requires '\n' !in text
    ensures PositionFrom(line, column, text) == (line, column + |Utf16(text)|)
    decreases |text|
  {
    if text != "" {
      var init := text[..|text| - 1];
      assert text == init + [text[|text| - 1]];
      assert '\n' !in init by {
        forall k | 0 <= k < |init| ensures init[k] != '\n' {
          assert init[k] == text[k];
        }
      }
      PositionWithinLine(line, column, init);
      Utf16Append(init, [text[|text| - 1]]);
      assert Utf16([text[|text| - 1]]) == CodeUnits(text[|text| - 1]) + Utf16([]);
    }
  }

  /** The line and column in a code at the end of a prefix of it: lines from 1, columns from 0. */
  function PositionAfter(text: string): (r: (int, int))
    ensures r.0 >= 1 && r.1 >= 0
  {
    PositionFrom(1, 0, text)
  }

  lemma {:induction false} PositionFromAppend(line: int, column: int, a: string, b: string)
    ensures PositionFrom(line, column, a + b) == PositionFrom(PositionFrom(line, column, a).0, PositionFrom(line, column, a).1, b)
    decreases |b|
  {
    if b == [] {
      assert a + b == a;
    } else {
      assert (a + b)[..|a + b| - 1] == a + b[..|b| - 1];
      PositionFromAppend(line, column, a, b[..|b| - 1]);
    }
  }

  /** A mapping whose generated position is the given line and column. */
  predicate At(a: Generators.MappingArgs, p: (int, int)) {
    a.generated == Some(Generators.Position(Some(p.0), Some(p.1)))
  }

  /** A mapping at the end of a line of a text, read from the given line and column. */
  ghost predicate AtLineStart(a: Generators.MappingArgs, line: int, column: int, text: string) {
    exists j :: 0 < j <= |text| && At(a, PositionFrom(line, column, text[..j]))
  }

  /** A mapping at a position a code reaches: the end of some prefix of it. */
  ghost predicate InCode(a: Generators.MappingArgs, code: string) {
    exists k :: 0 <= k <= |code| && At(a, PositionAfter(code[..k]))
  }

  lemma AtLineStartExtend(a: Generators.MappingArgs, line: int, column: int, text: string, more: string)
    requires AtLineStart(a, line, column, text)
    ensures AtLineStart(a, line, column, text + more)
  {
    var j :| 0 < j <= |text| && At(a, PositionFrom(line, column, text[..j]));
    assert (text + more)[..j] == text[..j];
  }

  lemma InCodeExtend(a: Generators.MappingArgs, code: string, more: string)
    requires InCode(a, code)
    ensures InCode(a, code + more)
  {
    var k :| 0 <= k <= |code| && At(a, PositionAfter(code[..k]));
    assert (code + more)[..k] == code[..k];
  }

  /** A mapping at a line start of a piece's text, the text following a code, is in the code and the text together. */
  lemma InCodeShift(a: Generators.MappingArgs, code: string, text: string)
    requires AtLineStart(a, PositionAfter(code).0, PositionAfter(code).1, text)
    ensures InCode(a, code + text)
  {
    var j :| 0 < j <= |text| && At(a, PositionFrom(PositionAfter(code).0, PositionAfter(code).1, text[..j]));
    PositionFromAppend(1, 0, code, text[..j]);
    assert (code + text)[..|code| + j] == code + text[..j];
  }

  /** Over a piece's characters the cursor follows the text. */
  lemma {:induction false} CharsPosition(c: Cursor, o: Original, chunk: string, n: nat)
    requires n <= |chunk|
    ensures (Chars(c, o, chunk, n).0.line, Chars(c, o, chunk, n).0.column) == PositionFrom(c.line, c.column, chunk[..n])
    decreases n
  {
    if n > 0 {
      CharsPosition(c, o, chunk, n - 1);
      assert chunk[..n][..n - 1] == chunk[..n - 1];
    }
  }

  /** Each mapping of a piece's characters is at the start of a line of the piece. */
  lemma {:induction false} CharsAtLineStarts(c: Cursor, o: Original, chunk: string, n: nat)
    requires n <= |chunk|
    ensures forall a :: a in Chars(c, o, chunk, n).1 ==> AtLineStart(a, c.line, c.column, chunk[..n])
    decreases n
  {
    if n > 0 {
      CharsAtLineStarts(c, o, chunk, n - 1);
      var before := Chars(c, o, chunk, n - 1);
      var step := Step(before.0, o, chunk, n - 1);
      assert chunk[..n] == chunk[..n - 1] + [chunk[n - 1]];
      forall a | a in before.1
        ensures AtLineStart(a, c.line, c.column, chunk[..n])
      {
        AtLineStartExtend(a, c.line, c.column, chunk[..n - 1], [chunk[n - 1]]);
      }
      if step.1 != [] {
        CharsPosition(c, o, chunk, n);
        assert At(step.1[0], PositionFrom(c.line, c.column, chunk[..n]));
        assert chunk[..n][..n] == chunk[..n];
      }
    }
  }

  /** Over the pieces the cursor follows the code produced. */
  lemma {:induction false} RunPosition(ps: seq<Piece>, n: nat)
    requires n <= |ps|
    ensures (Run(ps, n).0.line, Run(ps, n).0.column) == PositionAfter(Code(ps[..n]))
    decreases n
  {
    if n > 0 {
      RunPosition(ps, n - 1);
      var p := ps[n - 1];
      assert ps[..n][..n - 1] == ps[..n - 1];
      var entered := Enter(Run(ps, n - 1).0, p.original);
      CharsPosition(entered.0, p.original, p.chunk, |p.chunk|);
      assert p.chunk[..|p.chunk|] == p.chunk;
      PositionFromAppend(1, 0, Code(ps[..n - 1]), p.chunk);
    }
  }

  /** Every mapping of the walk is at a position the code reaches. */
  lemma {:induction false} RunInCode(ps: seq<Piece>, n: nat)
    requires n <= |ps|
    ensures forall a :: a in Run(ps, n).1 ==> InCode(a, Code(ps[..n]))
    decreases n
  {
    if n > 0 {
      RunInCode(ps, n - 1);
      RunPosition(ps, n - 1);
      var C := Code(ps[..n - 1]);
      var p := ps[n - 1];
      assert ps[..n][..n - 1] == ps[..n - 1];
      assert Code(ps[..n]) == C + p.chunk;
      PieceInCode(Run(ps, n - 1).0, p, C);
      forall a | a in Run(ps, n - 1).1
        ensures InCode(a, C + p.chunk)
      {
        InCodeExtend(a, C, p.chunk);
      }
      assert Run(ps, n).1 == Run(ps, n - 1).1 + PieceRun(Run(ps, n - 1).0, p).1;
    }
  }

  /** The mappings of one piece, walked from where the code so far ends, are at positions of the longer code. */
  lemma PieceInCode(c: Cursor, p: Piece, C: string)
    requires (c.line, c.column) == PositionAfter(C)
    ensures forall a :: a in PieceRun(c, p).1 ==> InCode(a, C + p.chunk)
  {
    var entered := Enter(c, p.original);
    var chars := Chars(entered.0, p.original, p.chunk, |p.chunk|).1;
    CharsAtLineStarts(entered.0, p.original, p.chunk, |p.chunk|);
    assert p.chunk[..|p.chunk|] == p.chunk;
    forall a | a in entered.1
      ensures InCode(a, C + p.chunk)
    {
      assert (C + p.chunk)[..|C|] == C;
      assert At(a, PositionAfter((C + p.chunk)[..|C|]));
    }
    forall a | a in chars
      ensures InCode(a, C + p.chunk)
    {
      InCodeShift(a, C, p.chunk);
    }
  }

  /**
   * Every mapping `toStringWithSourceMap` adds is at a line and column of the
   * code it returns: the position reached after some prefix of that code.
   */
  lemma MappingsAtCodePositions(t: Tree)
    ensures forall a :: a in Emitted(t) ==>
              exists k :: 0 <= k <= |ToString(t)| && At(a, PositionAfter(ToString(t)[..k]))
  {
    var ps := Walk(t);
    RunInCode(ps, |ps|);
    assert ps[..|ps|] == ps;
    forall a | a in Emitted(t)
      ensures exists k :: 0 <= k <= |ToString(t)| && At(a, PositionAfter(ToString(t)[..k]))
    {
      assert InCode(a, ToString(t));
    }
  }

  /**
   * A tagged piece whose tag is not already open is mapped where its chunk
   * lands: the mapping the walk adds on its arrival sits at the end of the
   * code generated by the pieces before it and points at the tag's original
   * position, source and name. For a tree t, `Emitted(t)` is this walk over
   * `Walk(t)`.
   */
  lemma ChunkMappedWhereItLands(ps: seq<Piece>, n: nat)
    requires n < |ps| && Tagged(ps[n].original)
    requires Run(ps, n).0.last != Some(ps[n].original)
    ensures var i := |Run(ps, n).1|;
            && i < |Run(ps, |ps|).1|
            && At(Run(ps, |ps|).1[i], PositionAfter(Code(ps[..n])))
            && Maps(Run(ps, |ps|).1[i], ps[n].original)
  {
    var before := Run(ps, n);
    var i := |before.1|;
    RunPosition(ps, n);
    RunPrefix(ps, n + 1, |ps|);
    var piece := PieceRun(before.0, ps[n]);
    assert Run(ps, n + 1).1 == before.1 + piece.1;
    assert piece.1[0] == MappedArgs(before.0, ps[n].original);
    assert Run(ps, n + 1).1[i] == piece.1[0];
  }

  // ---------------------------------------------------------------------------
  // When toStringWithSourceMap raises
  // ---------------------------------------------------------------------------

  /** A tag `addMapping` refuses: its line is below 1, its column below 0 or its source empty. */
  predicate Refused(o: Original) {
    Tagged(o) && !(o.line.value > 0 && o.column.value >= 0 && o.source.value != "")
  }

  /** A mapping that maps to the tag's original position. */
  predicate Maps(a: Generators.MappingArgs, o: Original) {
    a.original == Some(Generators.Position(o.line, o.column)) && a.source == o.source && a.name == o.name
  }

  /** A mapping with a generated position alone. */
  predicate Closes(a: Generators.MappingArgs) {
    a.original.None? && a.source.None? && a.name.None?
  }

  /** At a valid generated position, a closing mapping is accepted and a tag's mapping is refused exactly when the tag is. */
  lemma CheckOf(a: Generators.MappingArgs, o: Original, p: (int, int))
    requires At(a, p) && p.0 >= 1 && p.1 >= 0
    ensures Closes(a) ==> Check(a).None?
    ensures Maps(a, o) && Tagged(o) ==> (Check(a).Some? <==> Refused(o))
  {
  }

  /** A piece's characters keep the open tag or close it, and map only the piece's own tag while one is open. */
  lemma {:induction false} CharsShape(c: Cursor, o: Original, chunk: string, n: nat)
    requires n <= |chunk|
    ensures Chars(c, o, chunk, n).0.last == c.last || Chars(c, o, chunk, n).0.last.None?
    ensures forall a :: a in Chars(c, o, chunk, n).1 ==> c.last.Some? && Maps(a, o)
    decreases n
  {
    if n > 0 {
      CharsShape(c, o, chunk, n - 1);
    }
  }

  /** The tag left open after some pieces is the last piece's. */
  lemma {:induction false} RunLast(ps: seq<Piece>, n: nat)
    requires n <= |ps|
    ensures Run(ps, n).0.last.Some? ==> n > 0 && Run(ps, n).0.last == Some(ps[n - 1].original) && Tagged(ps[n - 1].original)
    decreases n
  {
    if n > 0 {
      var p := ps[n - 1];
      var entered := Enter(Run(ps, n - 1).0, p.original);
      CharsShape(entered.0, p.original, p.chunk, |p.chunk|);
    }
  }

  /** A mapping that closes the open one, or maps the tag of one of the first n pieces. */
  ghost predicate FromPieces(a: Generators.MappingArgs, ps: seq<Piece>, n: nat)
    requires n <= |ps|
  {
    Closes(a) || exists k :: 0 <= k < n && Tagged(ps[k].original) && Maps(a, ps[k].original)
  }

  /** Every mapping of the walk closes a mapping or maps the tag of a tagged piece. */
  lemma {:induction false} RunShape(ps: seq<Piece>, n: nat)
    requires n <= |ps|
    ensures forall a :: a in Run(ps, n).1 ==> FromPieces(a, ps, n)
    decreases n
  {
    if n > 0 {
      RunShape(ps, n - 1);
      var p := ps[n - 1];
      var cur := Run(ps, n - 1).0;
      var entered := Enter(cur, p.original);
      var chars := Chars(entered.0, p.original, p.chunk, |p.chunk|).1;
      CharsShape(entered.0, p.original, p.chunk, |p.chunk|);
      forall a | a in Run(ps, n).1
        ensures FromPieces(a, ps, n)
      {
        if a in Run(ps, n - 1).1 {
          assert FromPieces(a, ps, n - 1);
        } else if a in chars {
          assert Maps(a, ps[n - 1].original) && Tagged(ps[n - 1].original);
        } else {
          assert a in entered.1;
        }
      }
    }
  }

  /** A refused tag among the first n pieces makes the walk call `addMapping` with a refused mapping. */
  lemma {:induction false} RefusedIsCalled(ps: seq<Piece>, n: nat, k: nat)
    requires k < n <= |ps| && Refused(ps[k].original)
    ensures exists i :: 0 <= i < |Run(ps, n).1| && Check(Run(ps, n).1[i]).Some?
    decreases n
  {
    if k < n - 1 {
      RefusedIsCalled(ps, n - 1, k);
      var i :| 0 <= i < |Run(ps, n - 1).1| && Check(Run(ps, n - 1).1[i]).Some?;
      RunPrefix(ps, n - 1, n);
      assert Run(ps, n).1[i] == Run(ps, n - 1).1[i];
    } else {
      RefusedFirst(ps, n);
    }
  }

  /** The first refused tag opens a mapping with it: the tag open before it is a different one. */
  lemma RefusedFirst(ps: seq<Piece>, n: nat)
    requires 0 < n <= |ps| && Refused(ps[n - 1].original)
    ensures exists i :: 0 <= i < |Run(ps, n).1| && Check(Run(ps, n).1[i]).Some?
  {
    var o := ps[n - 1].original;
    var cur := Run(ps, n - 1).0;
    RunLast(ps, n - 1);
    RunPosition(ps, n - 1);
    if cur.last == Some(o) {
      // the piece before has the same refused tag: it opened the mapping
      assert n - 1 > 0 && Refused(ps[n - 2].original);
      RefusedFirst(ps, n - 1);
      var i :| 0 <= i < |Run(ps, n - 1).1| && Check(Run(ps, n - 1).1[i]).Some?;
      RunPrefix(ps, n - 1, n);
      assert Run(ps, n).1[i] == Run(ps, n - 1).1[i];
    } else {
      var a := MappedArgs(cur, o);
      CheckOf(a, o, (cur.line, cur.column));
      assert Run(ps, n).1[|Run(ps, n - 1).1|] == a;
    }
  }

  /**
   * `toStringWithSourceMap` raises exactly when some non-empty string of the
   * tree sits in a node whose tag has a source, a line and a column that
   * `addMapping` refuses.
   */
  lemma RaisesExactlyOnRefusedTags(t: Tree)
    ensures Recorded(Emitted(t)).1.Some? <==> exists k :: 0 <= k < |Walk(t)| && Refused(Walk(t)[k].original)
  {
    var ps := Walk(t);
    var args := Emitted(t);
    RecordedFails(args);
    if k :| 0 <= k < |ps| && Refused(ps[k].original) {
      RefusedIsCalled(ps, |ps|, k);
      var i :| 0 <= i < |Run(ps, |ps|).1| && Check(Run(ps, |ps|).1[i]).Some?;
      assert Check(args[i]).Some?;
    } else {
      RunShape(ps, |ps|);
      RunInCode(ps, |ps|);
      forall i | 0 <= i < |args|
        ensures Check(args[i]).None?
      {
        NotRefusedAccepted(ps, args[i]);
      }
    }
  }

  /** With no refused tag among the pieces, a mapping of the walk is accepted. */
  lemma NotRefusedAccepted(ps: seq<Piece>, a: Generators.MappingArgs)
    requires forall k :: 0 <= k < |ps| ==> !Refused(ps[k].original)
    requires FromPieces(a, ps, |ps|) && InCode(a, Code(ps[..|ps|]))
    ensures Check(a).None?
  {
    var code := Code(ps[..|ps|]);
    var k :| 0 <= k <= |code| && At(a, PositionAfter(code[..k]));
    var pos := PositionAfter(code[..k]);
    if Closes(a) {
      CheckOf(a, Original(None, None, None, None), pos);
    } else {
      var j :| 0 <= j < |ps| && Tagged(ps[j].original) && Maps(a, ps[j].original);
      CheckOf(a, ps[j].original, pos);
    }
  }
}

=== FILE: util.dfy ===
/**
 * The mapping record and the helpers of module `source-map/util` that the core
 * uses: the `$` set-string encoding, `strcmp` and the two mapping comparators.
 */
module Util {
  import opened Wrappers

  /**
   * One mapping record, as both the generator and the consumers keep it. Every
   * field but the generated position may be absent (null in the source).
   */
  datatype Mapping = Mapping(
    generatedLine: int,
    generatedColumn: int,
    source: Option<string>,
    originalLine: Option<int>,
    originalColumn: Option<int>,
    name: Option<string>)

  /** `toSetString`: the key under which a string is stored in an object used as a set. */
  function ToSetString(s: string): (r: string)
    ensures |r| == |s| + 1 && r[0] == '$'
  {
    "$" + s
  }

  /** `fromSetString`: `substr(1)`, which gives "" for "". */
  function FromSetString(s: string): string {
    if |s| == 0 then "" else s[1..]
  }

  /** The `$` prefix loses nothing, so two strings share a key only when they are equal. */
  lemma SetStringRoundTrip(s: string)
    ensures FromSetString(ToSetString(s)) == s
  {
    assert ToSetString(s)[1..] == s;
  }

  lemma SetStringInjective(a: string, b: string)
    ensures ToSetString(a) == ToSetString(b) <==> a == b
  {
    if ToSetString(a) == ToSetString(b) {
      SetStringRoundTrip(a);
      SetStringRoundTrip(b);
    }
  }

  /** Concatenation regrouped, proved apart from any larger context. */
  lemma Regroup<T>(a: seq<T>, b: seq<T>, c: seq<T>)
    ensures a + b + c == a + (b + c)
    ensures a == [] ==> a + b + c == b + c
  {
  }

  // A JavaScript string is a sequence of UTF-16 code units, while a `char`
  // here is a Unicode scalar value: a character above U+FFFF is two code
  // units, a surrogate pair.

  /** The UTF-16 code units of one character. */
  function CodeUnits(c: char): (r: seq<int>)
    ensures |r| == 1 <==> c as int <= 0xFFFF
    ensures |r| == 1 || |r| == 2
  {
    if c as int <= 0xFFFF then [c as int]
    else [0xD800 + (c as int - 0x1_0000) / 0x400, 0xDC00 + (c as int - 0x1_0000) % 0x400]
  }

  /** The code units of a string; `length` and `charCodeAt` count and read these. */
  function Utf16(s: string): seq<int>
    decreases |s|
  {
    if s == [] then [] else CodeUnits(s[0]) + Utf16(s[1..])
  }

  lemma {:induction false} Utf16Append(a: string, b: string)
    ensures Utf16(a + b) == Utf16(a) + Utf16(b)
    decreases |a|
  {
    if a == [] {
      assert a + b == b;
    } else {
      assert (a + b)[0] == a[0] && (a + b)[1..] == a[1..] + b;
      Utf16Append(a[1..], b);
    }
  }

  /** Lexicographic order on code units, the order of JavaScript's `<` on strings. */
  predicate UnitsLess(x: seq<int>, y: seq<int>)
    decreases |x|
  {
    if |x| == 0 then |y| > 0
    else |y| > 0 && (x[0] < y[0] || (x[0] == y[0] && UnitsLess(x[1..], y[1..])))
  }

  /**
   * Where a character's first code unit places it: below U+D800 and from
   * U+E000 to U+FFFF a character is its own unit, and a character above
   * U+FFFF starts with a high surrogate, which lies between the two.
   */
  function UnitRank(c: char): int {
    var v := c as int;
    if v < 0xD800 then v
    else if v > 0xFFFF then v - 0x1_0000 + 0xD800
    else v + 0x10_0000
  }

  /** JavaScript's `<` on strings, one character at a time. */
  predicate StrLess(a: string, b: string)
    decreases |a|
  {
    if |a| == 0 then |b| > 0
    else |b| > 0 && (UnitRank(a[0]) < UnitRank(b[0]) || (a[0] == b[0] && StrLess(a[1..], b[1..])))
  }

  lemma {:induction false} UnitsLessShared(u: seq<int>, x: seq<int>, y: seq<int>)
    ensures UnitsLess(u + x, u + y) == UnitsLess(x, y)
    decreases |u|
  {
    if u == [] {
      assert u + x == x && u + y == y;
    } else {
      assert (u + x)[0] == (u + y)[0];
      assert (u + x)[1..] == u[1..] + x && (u + y)[1..] == u[1..] + y;
      UnitsLessShared(u[1..], x, y);
    }
  }

  /** Two different characters are ordered by their code units as by their ranks, whatever follows them. */
  lemma UnitsLessFirst(c: char, d: char, x: seq<int>, y: seq<int>)
    requires c != d
    ensures UnitsLess(CodeUnits(c) + x, CodeUnits(d) + y) <==> UnitRank(c) < UnitRank(d)
  {
    var u, w := CodeUnits(c) + x, CodeUnits(d) + y;
    assert u[0] == CodeUnits(c)[0] && w[0] == CodeUnits(d)[0];
    if c as int > 0xFFFF && d as int > 0xFFFF && u[0] == w[0] {
      assert u[1..][0] == CodeUnits(c)[1] && w[1..][0] == CodeUnits(d)[1];
    }
  }

  /** The character order is exactly the order of the code units. */
  lemma {:induction false} StrLessIsUnitOrder(a: string, b: string)
    ensures StrLess(a, b) <==> UnitsLess(Utf16(a), Utf16(b))
    decreases |a|
  {
    if a != [] && b != [] {
      if a[0] == b[0] {
        StrLessIsUnitOrder(a[1..], b[1..]);
        UnitsLessShared(CodeUnits(a[0]), Utf16(a[1..]), Utf16(b[1..]));
      } else {
        UnitsLessFirst(a[0], b[0], Utf16(a[1..]), Utf16(b[1..]));
      }
    }
  }

  lemma {:induction false} StrLessIrreflexive(a: string)
    ensures !StrLess(a, a)
    decreases |a|
  {
    if |a| > 0 {
      StrLessIrreflexive(a[1..]);
    }
  }

  /** Of two different strings exactly one is below the other. */
  lemma {:induction false} StrLessTrichotomy(a: string, b: string)
    ensures a == b || StrLess(a, b) || StrLess(b, a)
    ensures !(StrLess(a, b) && StrLess(b, a))
    decreases |a|
  {
    if |a| > 0 && |b| > 0 {
      StrLessTrichotomy(a[1..], b[1..]);
      if a[0] == b[0] && a[1..] == b[1..] {
        assert a == [a[0]] + a[1..] && b == [b[0]] + b[1..];
      }
    }
  }

  lemma {:induction false} StrLessTransitive(a: string, b: string, c: string)
    requires StrLess(a, b) && StrLess(b, c)
    ensures StrLess(a, c)
    decreases |a|
  {
    if |a| > 0 && a[0] == b[0] && b[0] == c[0] {
      StrLessTransitive(a[1..], b[1..], c[1..]);
    }
  }

  /** `aStr || ""`: null and "" both read as "". */
  function OrEmpty(s: Option<string>): string {
    if s.Some? then s.value else ""
  }

  /** `strcmp`: 1, 0 or -1 as the first string is above, equal to or below the second. */
  function StrCmp(a: Option<string>, b: Option<string>): (r: int)
    ensures -1 <= r <= 1
    ensures r == 0 <==> OrEmpty(a) == OrEmpty(b)
    ensures r < 0 <==> StrLess(OrEmpty(a), OrEmpty(b))
  {
    StrLessTrichotomy(OrEmpty(a), OrEmpty(b));
    StrLessIrreflexive(OrEmpty(a));
    var s1 := OrEmpty(a);
    var s2 := OrEmpty(b);
    (if StrLess(s2, s1) then 1 else 0) - (if StrLess(s1, s2) then 1 else 0)
  }

  /** `strcmp` is antisymmetric and its "at most" is transitive. */
  lemma StrCmpAntisymmetric(a: Option<string>, b: Option<string>)
    ensures StrCmp(a, b) == -StrCmp(b, a)
  {
    StrLessTrichotomy(OrEmpty(a), OrEmpty(b));
  }

  lemma StrCmpTransitive(a: Option<string>, b: Option<string>, c: Option<string>)
    requires StrCmp(a, b) <= 0 && StrCmp(b, c) <= 0
    ensures StrCmp(a, c) <= 0
    ensures StrCmp(a, b) < 0 || StrCmp(b, c) < 0 ==> StrCmp(a, c) < 0
  {
    var x, y, z := OrEmpty(a), OrEmpty(b), OrEmpty(c);
    if StrLess(x, y) && StrLess(y, z) {
      StrLessTransitive(x, y, z);
    }
  }

  /**
   * A missing original line or column takes part in the arithmetic of the
   * comparators as 0: the generator stores `false` there, which subtracts as 0.
   */
  function Num(o: Option<int>): int {
    if o.Some? then o.value else 0
  }

  /**
   * `compareByOriginalPositions`: source, original line, original column, then
   * (unless `onlyCompareOriginal`) name, generated line, generated column. The
   * result is a difference of the first unequal key, as in the source.
   */
  function CompareByOriginalPositions(a: Mapping, b: Mapping, onlyCompareOriginal: bool): int {
    var cmp := StrCmp(a.source, b.source);
    if cmp != 0 then cmp
    else
      var cmp := Num(a.originalLine) - Num(b.originalLine);
      if cmp != 0 then cmp
      else
        var cmp := Num(a.originalColumn) - Num(b.originalColumn);
        if cmp != 0 || onlyCompareOriginal then cmp
        else
          var cmp := StrCmp(a.name, b.name);
          if cmp != 0 then cmp
          else
            var cmp := a.generatedLine - b.generatedLine;
            if cmp != 0 then cmp
            else a.generatedColumn - b.generatedColumn
  }

  /**
   * `compareByGeneratedPositions`: generated line, generated column, then
   * (unless `onlyCompareGenerated`) source, original line, original column, name.
   */
  function CompareByGeneratedPositions(a: Mapping, b: Mapping, onlyCompareGenerated: bool): int {
    var cmp := a.generatedLine - b.generatedLine;
    if cmp != 0 then cmp
    else
      var cmp := a.generatedColumn - b.generatedColumn;
      if cmp != 0 || onlyCompareGenerated then cmp
      else
        var cmp := StrCmp(a.source, b.source);
        if cmp != 0 then cmp
        else
          var cmp := Num(a.originalLine) - Num(b.originalLine);
          if cmp != 0 then cmp
          else
            var cmp := Num(a.originalColumn) - Num(b.originalColumn);
            if cmp != 0 then cmp
            else StrCmp(a.name, b.name)
  }

  /** Two records the generated-position comparator cannot tell apart. */
  predicate SameGenerated(a: Mapping, b: Mapping) {
    && a.generatedLine == b.generatedLine && a.generatedColumn == b.generatedColumn
    && OrEmpty(a.source) == OrEmpty(b.source)
    && Num(a.originalLine) == Num(b.originalLine) && Num(a.originalColumn) == Num(b.originalColumn)
    && OrEmpty(a.name) == OrEmpty(b.name)
  }

  /** Two records the original-position comparator cannot tell apart. */
  predicate SameOriginal(a: Mapping, b: Mapping) {
    && OrEmpty(a.source) == OrEmpty(b.source)
    && Num(a.originalLine) == Num(b.originalLine) && Num(a.originalColumn) == Num(b.originalColumn)
    && OrEmpty(a.name) == OrEmpty(b.name)
    && a.generatedLine == b.generatedLine && a.generatedColumn == b.generatedColumn
  }

  /**
   * The generated-position comparator is a total preorder: it is 0 exactly on
   * records that agree on every key, antisymmetric in sign, and its "at most"
   * is transitive.
   */
  lemma GeneratedZeroIffSame(a: Mapping, b: Mapping)
    ensures CompareByGeneratedPositions(a, b, false) == 0 <==> SameGenerated(a, b)
  {
  }

  lemma GeneratedAntisymmetric(a: Mapping, b: Mapping, only: bool)
    ensures CompareByGeneratedPositions(a, b, only) > 0 <==> CompareByGeneratedPositions(b, a, only) < 0
  {
    StrCmpAntisymmetric(a.source, b.source);
    StrCmpAntisymmetric(a.name, b.name);
  }

  lemma GeneratedTransitive(a: Mapping, b: Mapping, c: Mapping)
    requires CompareByGeneratedPositions(a, b, false) <= 0
    requires CompareByGeneratedPositions(b, c, false) <= 0
    ensures CompareByGeneratedPositions(a, c, false) <= 0
  {
    if a.generatedLine == b.generatedLine == c.generatedLine
      && a.generatedColumn == b.generatedColumn == c.generatedColumn {
      if StrCmp(a.source, b.source) <= 0 && StrCmp(b.source, c.source) <= 0 {
        StrCmpTransitive(a.source, b.source, c.source);
      }
      if StrCmp(a.name, b.name) <= 0 && StrCmp(b.name, c.name) <= 0 {
        StrCmpTransitive(a.name, b.name, c.name);
      }
    }
  }

  lemma OriginalAntisymmetric(a: Mapping, b: Mapping, only: bool)
    ensures CompareByOriginalPositions(a, b, only) > 0 <==> CompareByOriginalPositions(b, a, only) < 0
  {
    StrCmpAntisymmetric(a.source, b.source);
    StrCmpAntisymmetric(a.name, b.name);
  }

  lemma OriginalZeroIffSame(a: Mapping, b: Mapping)
    ensures CompareByOriginalPositions(a, b, false) == 0 <==> SameOriginal(a, b)
  {
  }

  lemma OriginalTransitive(a: Mapping, b: Mapping, c: Mapping)
    requires CompareByOriginalPositions(a, b, false) <= 0
    requires CompareByOriginalPositions(b, c, false) <= 0
    ensures CompareByOriginalPositions(a, c, false) <= 0
  {
    StrCmpTransitive(a.source, b.source, c.source);
    if StrCmp(a.source, b.source) == 0 && StrCmp(b.source, c.source) == 0
      && Num(a.originalLine) == Num(b.originalLine) == Num(c.originalLine)
      && Num(a.originalColumn) == Num(b.originalColumn) == Num(c.originalColumn)
      && StrCmp(a.name, b.name) <= 0 && StrCmp(b.name, c.name) <= 0 {
      StrCmpTransitive(a.name, b.name, c.name);
    }
  }

  /**
   * The "only the primary key" flag truncates the comparison: it is 0 exactly
   * when the generated (respectively original) positions agree, and otherwise it
   * agrees with the full comparison.
   */
  lemma GeneratedOnlyPrimary(a: Mapping, b: Mapping)
    ensures CompareByGeneratedPositions(a, b, true) == 0 <==>
      a.generatedLine == b.generatedLine && a.generatedColumn == b.generatedColumn
    ensures CompareByGeneratedPositions(a, b, true) != 0 ==>
      CompareByGeneratedPositions(a, b, true) == CompareByGeneratedPositions(a, b, false)
  {
  }

  lemma OriginalOnlyPrimary(a: Mapping, b: Mapping)
    ensures CompareByOriginalPositions(a, b, true) == 0 <==>
      OrEmpty(a.source) == OrEmpty(b.source) && Num(a.originalLine) == Num(b.originalLine)
      && Num(a.originalColumn) == Num(b.originalColumn)
    ensures CompareByOriginalPositions(a, b, true) != 0 ==>
      CompareByOriginalPositions(a, b, true) == CompareByOriginalPositions(a, b, false)
  {
  }
}

=== FILE: vlq.dfy ===
/**
 * The base 64 variable-length quantity codec (module `source-map/base64-vlq`).
 * A signed value is first moved to sign-in-low-bit form, then written as
 * 5-bit groups, least significant group first, each group one base 64 digit
 * whose bit 5 (value 32) says that more digits follow.
 *
 * Integers here are unbounded. The source works with 32-bit `<<`, `>>` and
 * `>>>`, which agree with this arithmetic for -2^30 < v < 2^30.
 */
module Base64Vlq {
  import opened Wrappers
  import Base64

  const VLQ_BASE_SHIFT: nat := 5
  const VLQ_BASE: nat := 32            // 1 << VLQ_BASE_SHIFT
  const VLQ_BASE_MASK: nat := 31       // VLQ_BASE - 1
  const VLQ_CONTINUATION_BIT: nat := 32

  /** `toVLQSigned`: the magnitude shifted left by one, the sign in the low bit. */
  function ToVLQSigned(v: int): (r: nat)
    ensures r % 2 == 1 <==> v < 0
  {
    if v < 0 then (-v) * 2 + 1 else v * 2
  }

  /** `fromVLQSigned`: the low bit is the sign, the rest the magnitude. */
  function FromVLQSigned(n: nat): (r: int)
    ensures r < 0 ==> n % 2 == 1
  {
    var shifted := n / 2;
    if n % 2 == 1 then -shifted else shifted
  }

  /** The sign-in-low-bit form loses nothing. */
  lemma FromToVLQSigned(v: int)
    ensures FromVLQSigned(ToVLQSigned(v)) == v
  {
  }

  /**
   * In the other direction every form but 1 comes back; 1 is "minus zero",
   * which decodes to 0 and is written back as 0.
   */
  lemma ToFromVLQSigned(n: nat)
    ensures n != 1 ==> ToVLQSigned(FromVLQSigned(n)) == n
    ensures FromVLQSigned(1) == 0 && ToVLQSigned(0) == 0
  {
  }

  /** The base 64 digit standing for a 6-bit value. */
  function Digit(d: nat): (c: char)
    requires d < 64
    ensures Base64.IsDigit(c)
  {
    Base64.Encode(d).value
  }

  /** A digit carries the continuation bit when its value is 32 or more. */
  predicate IsContinuationDigit(c: char) {
    Base64.Decode(c).Ok? && Base64.Decode(c).value >= VLQ_CONTINUATION_BIT
  }

  /** The digits of an unsigned value: low 5-bit group first, continuation bit on all but the last. */
  function EncodeDigits(n: nat): (s: string)
    ensures 1 <= |s| && Base64.IsDigit(s[0])
    decreases n
  {
    var rest := n / VLQ_BASE;
    if rest > 0 then [Digit(n % VLQ_BASE + VLQ_CONTINUATION_BIT)] + EncodeDigits(rest)
    else [Digit(n % VLQ_BASE)]
  }

  /** What `encode` returns for v. */
  function EncodeSpec(v: int): (s: string)
    ensures 1 <= |s| && Base64.IsDigit(s[0])
  {
    EncodeDigits(ToVLQSigned(v))
  }

  /** Every character of an encoding is a base 64 digit. */
  lemma {:induction false} EncodeDigitsAlphabet(n: nat)
    ensures forall i :: 0 <= i < |EncodeDigits(n)| ==> Base64.IsDigit(EncodeDigits(n)[i])
    decreases n
  {
    if n / VLQ_BASE > 0 {
      EncodeDigitsAlphabet(n / VLQ_BASE);
    }
  }

  lemma EncodeAlphabet(v: int)
    ensures forall i :: 0 <= i < |EncodeSpec(v)| ==> Base64.IsDigit(EncodeSpec(v)[i])
  {
    EncodeDigitsAlphabet(ToVLQSigned(v));
  }

  /**
   * The unsigned value of the digits at the front of s and how many digits it
   * took; fails when s ends while a continuation bit is set, or on a character
   * outside the alphabet.
   */
  function DecodeDigits(s: string): (r: Result<(nat, nat)>)
    ensures r.Ok? ==> 1 <= r.value.1 <= |s|
    decreases |s|
  {
    if |s| == 0 then Err(TruncatedVlq)
    else
      var d :- Base64.Decode(s[0]);
      if d >= VLQ_CONTINUATION_BIT then
        var tail :- DecodeDigits(s[1..]);
        Ok((d - VLQ_CONTINUATION_BIT + VLQ_BASE * tail.0, tail.1 + 1))
      else
        Ok((d, 1))
  }

  /** What `decode` stores in its out parameter: the value and the rest of the string. */
  function DecodeSpec(s: string): (r: Result<(int, string)>)
    ensures r.Ok? ==> |r.value.1| < |s|
  {
    var p :- DecodeDigits(s);
    Ok((FromVLQSigned(p.0), s[p.1..]))
  }

  /** `encode`: the do-while loop over the mutable `vlq` accumulator. */
  method Encode(v: int) returns (encoded: string)
    ensures encoded == EncodeSpec(v)
  {
    encoded := "";
    var vlq: nat := ToVLQSigned(v);
    var more := true;
    while more
      invariant more ==> EncodeSpec(v) == encoded + EncodeDigits(vlq)
      invariant !more ==> encoded == EncodeSpec(v)
      decreases vlq, more
    {
      var digit := vlq % VLQ_BASE;
      vlq := vlq / VLQ_BASE;
      if vlq > 0 {
        digit := digit + VLQ_CONTINUATION_BIT;
      }
      encoded := encoded + [Digit(digit)];
      more := vlq > 0;
    }
  }

  /** The digits still to be read, seen from the values accumulated so far. */
  function Resume(result: nat, scale: nat, i: nat, tail: Result<(nat, nat)>): Result<(nat, nat)> {
    match tail
    case Err(e) => Err(e)
    case Ok(p) => Ok((result + scale * p.0, i + p.1))
  }

  /** One digit read: resuming after it is resuming before it, with that digit folded in. */
  lemma ResumeStep(result: nat, scale: nat, i: nat, low: nat, tail: Result<(nat, nat)>)
    ensures Resume(result, scale, i, Resume(low, VLQ_BASE, 1, tail))
         == Resume(result + low * scale, scale * VLQ_BASE, i + 1, tail)
  {
    if tail.Ok? {
      var v := tail.value.0;
      calc {
        result + scale * (low + VLQ_BASE * v);
        result + scale * low + scale * (VLQ_BASE * v);
        { assert scale * (VLQ_BASE * v) == (scale * VLQ_BASE) * v; }
        (result + low * scale) + (scale * VLQ_BASE) * v;
      }
    }
  }

  /** The first digit of a non-empty string, read on its own. */
  lemma DecodeDigitsFirst(t: string, digit: nat)
    requires |t| > 0 && Base64.Decode(t[0]) == Ok(digit)
    ensures digit >= VLQ_CONTINUATION_BIT ==>
      DecodeDigits(t) == Resume(digit - VLQ_CONTINUATION_BIT, VLQ_BASE, 1, DecodeDigits(t[1..]))
    ensures digit < VLQ_CONTINUATION_BIT ==> DecodeDigits(t) == Ok((digit, 1))
  {
  }

  /** One turn of the loop of `decode`: the invariant moves one digit to the right. */
  lemma DecodeStep(s: string, i: nat, result: nat, scale: nat, digit: nat)
    requires i < |s| && Base64.Decode(s[i]) == Ok(digit)
    requires DecodeDigits(s) == Resume(result, scale, i, DecodeDigits(s[i..]))
    ensures digit >= VLQ_CONTINUATION_BIT ==>
      DecodeDigits(s) == Resume(result + (digit - VLQ_CONTINUATION_BIT) * scale, scale * VLQ_BASE, i + 1, DecodeDigits(s[i + 1..]))
    ensures digit < VLQ_CONTINUATION_BIT ==> DecodeDigits(s) == Ok((result + digit * scale, i + 1))
  {
    var t := s[i..];
    assert t[0] == s[i] && t[1..] == s[i + 1..];
    DecodeDigitsFirst(t, digit);
    if digit >= VLQ_CONTINUATION_BIT {
      ResumeStep(result, scale, i, digit - VLQ_CONTINUATION_BIT, DecodeDigits(s[i + 1..]));
    } else {
      assert scale * digit == digit * scale;
    }
  }

  /** Where `decode` throws: the digits run out, or a character is not a base64 digit. */
  lemma DecodeStops(s: string, i: nat, result: nat, scale: nat)
    requires i <= |s|
    requires DecodeDigits(s) == Resume(result, scale, i, DecodeDigits(s[i..]))
    ensures i == |s| ==> DecodeSpec(s) == Err(TruncatedVlq)
    ensures i < |s| && Base64.Decode(s[i]).Err? ==> DecodeSpec(s) == Err(Base64.Decode(s[i]).error)
  {
    if i == |s| {
      assert DecodeDigits(s[i..]) == Err(TruncatedVlq);
    } else if Base64.Decode(s[i]).Err? {
      assert s[i..][0] == s[i];
    }
  }

  /** `decode`: the do-while loop over `result` and `shift` (kept here as the factor 32^k). */
  method Decode(s: string) returns (r: Result<(int, string)>)
    ensures r == DecodeSpec(s)
  {
    var i: nat := 0;
    var result: nat := 0;
    var scale: nat := 1;
    var continuation := true;
    while continuation
      invariant i <= |s|
      invariant continuation ==> DecodeDigits(s) == Resume(result, scale, i, DecodeDigits(s[i..]))
      invariant !continuation ==> 1 <= i && DecodeDigits(s) == Ok((result, i))
      decreases |s| - i, continuation
    {
      if i >= |s| {
        DecodeStops(s, i, result, scale);
        return Err(TruncatedVlq);
      }
      var decoded := Base64.Decode(s[i]);
      if decoded.Err? {
        DecodeStops(s, i, result, scale);
        return Err(decoded.error);
      }
      var digit: nat := decoded.value;
      DecodeStep(s, i, result, scale, digit);
      continuation := digit >= VLQ_CONTINUATION_BIT;
      // digit & VLQ_BASE_MASK, for a digit below 64
      var low: nat := if continuation then digit - VLQ_CONTINUATION_BIT else digit;
      result, scale := result + low * scale, scale * VLQ_BASE;
      i := i + 1;
    }
    r := Ok((FromVLQSigned(result), s[i..]));
  }

  /** Decoding the digits of n, followed by anything, reads back n and exactly those digits. */
  lemma {:induction false} DecodeEncodeDigits(n: nat, rest: string)
    ensures DecodeDigits(EncodeDigits(n) + rest) == Ok((n, |EncodeDigits(n)|))
    decreases n
  {
    var s := EncodeDigits(n) + rest;
    var q := n / VLQ_BASE;
    if q > 0 {
      var d := n % VLQ_BASE + VLQ_CONTINUATION_BIT;
      Base64.DecodeEncode(d);
      assert s[1..] == EncodeDigits(q) + rest;
      DecodeEncodeDigits(q, rest);
    } else {
      Base64.DecodeEncode(n % VLQ_BASE);
    }
  }

  /** The codec round trip: `decode(encode(v) + rest)` yields v and leaves exactly rest. */
  lemma DecodeEncode(v: int, rest: string)
    ensures DecodeSpec(EncodeSpec(v) + rest) == Ok((v, rest))
  {
    var s := EncodeSpec(v) + rest;
    DecodeEncodeDigits(ToVLQSigned(v), rest);
    assert s[|EncodeSpec(v)|..] == rest;
    FromToVLQSigned(v);
  }

  /** A string that ends while every digit read so far carries the continuation bit is rejected. */
  lemma {:induction false} DecodeTruncated(s: string)
    requires forall i :: 0 <= i < |s| ==> IsContinuationDigit(s[i])
    ensures DecodeDigits(s) == Err(TruncatedVlq)
    ensures DecodeSpec(s) == Err(TruncatedVlq)
    decreases |s|
  {
    if |s| > 0 {
      DecodeTruncated(s[1..]);
    }
  }

  /** A character outside the alphabet where a digit is expected is rejected. */
  lemma DecodeRejectsNonDigit(s: string)
    requires |s| > 0 && !Base64.IsDigit(s[0])
    ensures DecodeSpec(s) == Err(NotABase64Digit(s[0]))
  {
  }
}

=== FILE: wrappers.dfy ===
/** Option and Result types used across the model, and the library's error kinds. */
module Wrappers {

  datatype Option<+T> = None | Some(value: T)

  /** The exceptions the library throws, one constructor per distinct message. */
  datatype Error =
    | NotABase64Number(n: int)          // base64.encode outside 0..63
    | NotABase64Digit(c: char)          // base64.decode on a character outside the alphabet
    | TruncatedVlq                      // "Expected more digits in base 64 VLQ value."
    | NotInSet(s: string)               // ArraySet.indexOf on a non-member
    | NoElementAt(i: int)               // ArraySet.at out of range
    | InvalidMapping                    // SourceMapGenerator._validateMapping
    | SourceWithoutLineAndColumn        // "Found a source, but no line and column"
    | SourceAndLineWithoutColumn        // "Found a source and line, but no column"
    | UnsupportedVersion(v: int)
    | MissingArgument(name: string)     // util.getArg without a default
    | BadLine(line: int)                // _findMapping: line < 1
    | BadColumn(column: int)            // _findMapping: column < 0
    | SourceNotInMap(s: string)         // sourceContentFor without nullOnMissing
    | UnorderedSections                 // section offsets out of order
    | SectionUrlUnsupported             // a section with a url field
    | UnknownOrder(order: int)          // eachMapping with an order other than 1 or 2
    | UndefinedMapping                  // reading a field of `undefined` (a TypeError)
    | MissingSourceFile                 // applySourceMap without a file name
    | NotAChunk                         // SourceNode add/prepend given neither a string nor a node

  datatype Result<+T> = Ok(value: T) | Err(error: Error) {
    predicate IsFailure() { Err? }
    function PropagateFailure<U>(): Result<U>
      requires Err?
    {
      Err(error)
    }
    function Extract(): T
      requires Ok?
    {
      value
    }
  }

  /** A result with more elements in front: an error is passed on, a value gets the elements prepended. */
  function Prefixed<T>(front: seq<T>, rest: Result<seq<T>>): (r: Result<seq<T>>)
    ensures rest.Ok? <==> r.Ok?
    ensures rest.Ok? ==> r.value == front + rest.value
    ensures rest.Err? ==> r == rest
  {
    if rest.Ok? then Ok(front + rest.value) else rest
  }

  /** Prefixing in two steps is prefixing once with both parts. */
  lemma PrefixedTwice<T>(front: seq<T>, more: seq<T>, rest: Result<seq<T>>)
    ensures Prefixed(front, Prefixed(more, rest)) == Prefixed(front + more, rest)
  {
    if rest.Ok? {
      assert front + (more + rest.value) == (front + more) + rest.value;
    }
  }
}
